=== FILE: README.md ===
# Algorithm library and warehouse rules of `algorithm`, in Dafny

This project models the computational core of the `algorithm` repository: the
self-contained algorithm library under `backend/src/algorithm` and
`pkgs/backend/src/algorithm`, the order-inquiry transitions and mention
counters of the old backend, and the in-memory rules of the warehouse
entities in `pkgs/backend/src/entities/wms/mod.rs`. The warehouse module is,
as written, database access through sea-orm. The model covers the parts that
compute something: the status code tables, the validation and counting in the
import and sale operations, the shard a tenant's queries run on, and the
status of an item read by barcode.

One Dafny module models one source file:

| module | file | source |
|---|---|---|
| `Wrappers` | wrappers.dfy | `Option`, `Result` and `Outcome` (a Rust panic as a value) |
| `BinarySearch` | binary_search.dfy | `pkgs/backend/src/algorithm/binarysearch.rs` |
| `BinaryHeap` | heap.dfy | `backend/src/algorithm/heap.rs` |
| `LruArena` | lru_arena.dfy | the node arena both LRU caches share, and its map view |
| `LruReference` | lru_reference.dfy | the least-recently-used policy both caches document |
| `LegacyLru` | legacy_lru.dfy | `backend/src/algorithm/lru.rs` |
| `SharedLru` | shared_lru.dfy | `pkgs/backend/src/algorithm/lru.rs` |
| `AhoCorasick` | aho_corasick.dfy | `backend/src/algorithm/ahocorasick.rs` |
| `AhoCorasickScenarios`, `AhoCorasickTests` | aho_corasick_scenarios.dfy, aho_corasick_tests.dfy | the unit tests of `ahocorasick.rs` |
| `FuzzyVariables` | variables.dfy | `pkgs/backend/src/algorithm/fuzzy/variables.rs` (and the older copy in `backend/`) |
| `FuzzyRule` | rule.dfy | `backend/src/algorithm/fuzzy/rule.rs` |
| `SimulatorData` | data.dfy | `pkgs/backend/src/algorithm/simulator/data.rs` |
| `Mcts` | mcts.dfy | `backend/src/algorithm/markov/mcts.rs` |
| `Snowflake` | snowflake.dfy | `pkgs/backend/src/algorithm/snowflakeid.rs` |
| `Genetic` | genetic.dfy | `backend/src/algorithm/genetic.rs` |
| `PricePatterns` | price.dfy | `backend/src/algorithm/math/price.rs` |
| `OrderInquiry` | order.dfy | `backend/src/api/order.rs` |
| `Mention` | mention.dfy | `backend/src/analytic/mention.rs` |
| `WmsStatus`, `WmsInventory` | wms_status.dfy, wms_inventory.dfy | `pkgs/backend/src/entities/wms/mod.rs` |

Conventions used throughout:

- **State.** Mutable Rust objects become immutable datatypes. An operation
  returns the new state.
- **Panics.** A Rust panic the caller can reach becomes a value: `Panic` of
  `Outcome`, or an `Err`. Examples are an index out of bounds, a `usize`
  underflow, and `HashMap` indexing on a missing key. It is never a
  precondition.
- **Nondeterminism.** Every nondeterministic input is a parameter:
  - `HashMap` iteration order, as a sequence of the keys;
  - random draws;
  - clock readings;
  - rows returned by a query;
  - callbacks such as comparators, handlers and players.
- **Numbers.** `f64` is `real`. Integer widths are written out where the
  source's arithmetic can reach them.
- **Loops with no obvious measure.** The Aho-Corasick construction and
  matching loops take a `fuel` bound and report `OutOfFuel` when it runs out.

Both caches are named `LruCache`, and the comments of the legacy cache's
unit test expect least-recently-used eviction (backend/src/algorithm/lru.rs:135,
:155). Neither cache evicts that way, as the Findings below show. The model
follows the code, and the intended policy is modelled separately, as
`LruReference`.

## Model

| member | source | states |
|---|---|---|
| BinarySearch.Search | pkgs/backend/src/algorithm/binarysearch.rs:3-21 | A returned index is in range and compares Equal to the target. An empty slice gives None. On a slice partitioned by the comparator, None means no element compares Equal. |
| BinarySearch.AscendingPartitioned | pkgs/backend/src/algorithm/binarysearch.rs:10-20 | An ascending slice is partitioned for `target.cmp(x)`, so the completeness half of `Search` applies to it. |
| BinarySearch.DescendingPartitioned | pkgs/backend/src/algorithm/binarysearch.rs:37-46 | A descending slice is partitioned for the reversed comparator. |
| BinarySearch.AscendingScenario | pkgs/backend/src/algorithm/binarysearch.rs:27-49 | The unit test's ascending half: 7 in [2, 5, 7, 8, 11, 12] is found at index 2, 1 gives None, and an empty slice gives None. |
| BinarySearch.DescendingScenario | pkgs/backend/src/algorithm/binarysearch.rs:37-46 | The unit test's descending half: with `b.cmp(a)`, 7 in [12, 11, 8, 7, 5, 2] is found at index 3, and 1 gives None. |
| BinaryHeap.New | backend/src/algorithm/heap.rs:12-19 | A new heap holds no elements. |
| BinaryHeap.Size | backend/src/algorithm/heap.rs:10 | The size is the number of elements held. |
| BinaryHeap.Get | backend/src/algorithm/heap.rs:21-27 | An empty heap gives None. Otherwise it gives the root, which `RootIsMaximal` shows is a largest element. |
| BinaryHeap.Swap | backend/src/algorithm/heap.rs:127-129 | Exchanges two slots and nothing else. |
| BinaryHeap.SwapPermutes | backend/src/algorithm/heap.rs:127-129 | A swap keeps the multiset of elements. |
| BinaryHeap.SiftDown | backend/src/algorithm/heap.rs:54-125 | The refresh pass keeps the multiset and leaves the heap ordered under the comparator from its start slot down. |
| BinaryHeap.Descend | backend/src/algorithm/heap.rs:76-96 | The leaf path follows, at every level, the child the comparator ranks higher. |
| BinaryHeap.Climb | backend/src/algorithm/heap.rs:98-110 | Climbs back up the path to the slot where the displaced element belongs. |
| BinaryHeap.Rotate | backend/src/algorithm/heap.rs:112-117 | Rotates the path above that slot, keeping the multiset and the heap order. |
| BinaryHeap.Push | backend/src/algorithm/heap.rs:41-52 | Push returns true, grows the size by one, adds exactly the pushed value to the multiset and leaves a valid heap. |
| BinaryHeap.Pop | backend/src/algorithm/heap.rs:37-39 | On an empty heap it panics (the `usize` underflow at line 63). Otherwise it removes exactly the root from the multiset and leaves a valid heap. |
| BinaryHeap.RootIsMaximal | backend/src/algorithm/heap.rs:54-125 | In a valid heap no element ranks above the root under the comparator. |
| BinaryHeap.RootAboveIndex | backend/src/algorithm/heap.rs:54-125 | In a valid heap the root ranks at least as high as every slot. |
| BinaryHeap.DiffIsPreorder | backend/src/algorithm/heap.rs:138 | The test's comparator `l - r` is a total preorder, so the heap laws hold for it. |
| BinaryHeap.PushRange | backend/src/algorithm/heap.rs:140-142 | Pushing 0..n into an empty heap holds exactly those values. |
| BinaryHeap.CountdownTop | backend/src/algorithm/heap.rs:144-147 | After pushing 0..n, the root is n - 1. |
| BinaryHeap.CountdownScenario | backend/src/algorithm/heap.rs:136-148 | The unit test: pushing 0..99, then reading and popping 100 times, reads 99 down to 0. |
| LruArena.New | backend/src/algorithm/lru.rs:22-30 | A new cache has no nodes and no mapping, and its index is consistent. |
| LruArena.ContentsKeys | pkgs/backend/src/algorithm/lru.rs:41-158 | Under a consistent index, the keys of the cache's map view are the mapping's keys, and there is one node per key. |
| LruArena.ContentsAre | pkgs/backend/src/algorithm/lru.rs:152-158 | Any map with the mapping's keys, whose value for each key is the value of the node the mapping names, is the cache's map view. |
| LruArena.Fits | pkgs/backend/src/algorithm/lru.rs:62 | Under a consistent index, if writing a new key keeps the map view within capacity, the arena has room for another node. |
| LruReference.Put | pkgs/backend/src/algorithm/lru.rs:41-150 | The intended policy: the key goes to the front with its value and the put returns true. A new key on a full cache keeps the size at capacity; `PutEvictsLeastRecent` says which entry goes. Capacity 0 stores nothing and returns false. |
| LruReference.Get | pkgs/backend/src/algorithm/lru.rs:152-158 | A hit returns the stored value and moves the key to the front. A miss changes nothing. |
| LruReference.Lookup | backend/src/algorithm/lru.rs:98-105 | Some exactly when the key is cached, with the value stored for it. |
| LruReference.PutTracks | backend/src/algorithm/lru.rs:32-96 | After any put, the cache holds exactly the `capacity` most recently used keys of the history (`Recent`), an independent definition. |
| LruReference.GetTracks | backend/src/algorithm/lru.rs:98-118 | After any get, the same holds: a read counts as a use. |
| LruReference.PutEvictsLeastRecent | backend/src/algorithm/lru.rs:131-134 | A new key on a full cache goes to the front and removes exactly the key at the back. |
| LruReference.GetAfterPut | backend/src/algorithm/lru.rs:98-105 | A get right after a put of the same key returns the value put. |
| LruReference.ReadProtectsScenario | backend/src/algorithm/lru.rs:131-134 | Capacity 2: put 1, put 2, get 1, put 3 keeps 1 (value 10) and drops 2, as the test comment "Access 1, making it most recent" intends. |
| LruReference.OldestEvictedScenario | pkgs/backend/src/algorithm/lru.rs:62-120 | Capacity 2: put 1, 2, 3, 1 drops 2 and keeps 3 (value 30). |
| LruReference.LatestGrows | backend/src/algorithm/lru.rs:32-96 | The latest-value map only gains keys along a run. |
| LruReference.IndexCard | pkgs/backend/src/algorithm/lru.rs:62 | A mapping that sends each key to a node carrying that key, and covers every node, has exactly as many keys as there are nodes. |
| LegacyLru.MoveToFront | backend/src/algorithm/lru.rs:107-118 | Panics exactly when one of the indices it follows is out of range. Otherwise it keeps the entries and `first`/`last`, and links the node after `last`. |
| LegacyLru.Relink | backend/src/algorithm/lru.rs:47-66 | The eviction pass's relinking, as a panic or a cache with the same entries. |
| LegacyLru.MoveDown | backend/src/algorithm/lru.rs:49-64 | Shifting the node links down by one after a removal keeps the entries. |
| LegacyLru.Evict | backend/src/algorithm/lru.rs:42-71 | Removes exactly the key stored at `first`, from the mapping and from the map view. |
| LegacyLru.Append | backend/src/algorithm/lru.rs:73-92 | Panics exactly when `last` is out of range on a non-empty arena. Otherwise the new node lands at the end and becomes `last`. |
| LegacyLru.Put | backend/src/algorithm/lru.rs:32-96 | Capacity 0 stores nothing and returns false. A rewrite keeps the mapping and stores the value. A new key lands at the last index with its value. |
| LegacyLru.Get | backend/src/algorithm/lru.rs:98-105 | A miss returns None and changes nothing. A hit returns the node's value and keeps the mapping and the entries. |
| LegacyLru.PutKeepsIndex | backend/src/algorithm/lru.rs:42-92 | A put keeps the mapping and the nodes in bijection and the cache within capacity. |
| LegacyLru.GetKeepsIndex | backend/src/algorithm/lru.rs:98-118 | A get keeps the index consistent. |
| LegacyLru.PutContents | backend/src/algorithm/lru.rs:32-96 | The map view after a put is the old view with the key written. When a new key meets a full cache, the key at `first` is removed first. |
| LegacyLru.RewriteContents | backend/src/algorithm/lru.rs:33-36 | Rewriting a cached key only changes that key's value. |
| LegacyLru.GetContents | backend/src/algorithm/lru.rs:98-105 | A get leaves the map view alone and returns the view's value for the key. |
| LegacyLru.GetAfterPut | backend/src/algorithm/lru.rs:98-105 | A get right after a put of the same key returns the value put. |
| LegacyLru.RunWithin | backend/src/algorithm/lru.rs:32-118 | Along any run of puts and gets the cache stays consistent, within capacity, and agrees with the latest-value map on every key it holds. |
| LegacyLru.ReadsLatest | backend/src/algorithm/lru.rs:98-105 | Any read that hits returns the value last written to that key. |
| LegacyLru.RunExact | backend/src/algorithm/lru.rs:32-118 | While the keys written fit the capacity, the map view equals the latest-value map. |
| LegacyLru.ReadsLatestWhileRoom | backend/src/algorithm/lru.rs:98-105 | While the keys written fit the capacity, every read returns the last value written, or None for a key never written. |
| LegacyLru.ReadThenFillScenario | backend/src/algorithm/lru.rs:125-134 | The opening of the unit test (put 1, put 2, get 1, put 3) reaches the cache holding 2 and 3. |
| LegacyLru.RecencyIgnoredScenario | backend/src/algorithm/lru.rs:107-118 | After put 1, put 2, get 1, put 3 (capacity 2), key 1 is gone and key 2 reads 20: the read did not protect 1. |
| LegacyLru.StalePanics | backend/src/algorithm/lru.rs:42-92 | From the stale state, the next new key panics. |
| LegacyLru.PanicScenario | backend/src/algorithm/lru.rs:42-92 | Capacity 2: put 1, 2, 1, 1, 3, 1 panics. |
| SharedLru.MoveToFront | pkgs/backend/src/algorithm/lru.rs:182-211 | A no-op for the front node or a cache of at most one node. Panics exactly when a followed index is out of range. Otherwise the node becomes `first` with a self-loop `prev`. |
| SharedLru.Evict | pkgs/backend/src/algorithm/lru.rs:62-120 | Panics exactly when an index it follows is out of range, or when the eviction empties the arena (the second write lock on `first` at line 117). Otherwise it drops exactly the key at `last`. |
| SharedLru.Remove | pkgs/backend/src/algorithm/lru.rs:88-113 | Removing the node at `last` renumbers the mapping past it and keeps every other entry. |
| SharedLru.Append | pkgs/backend/src/algorithm/lru.rs:122-146 | The new node becomes `first` and the mapping sends the key to it. |
| SharedLru.Put | pkgs/backend/src/algorithm/lru.rs:41-150 | Capacity 0 stores nothing and returns false. A rewrite stores the value in place. A new key becomes `first`, after a full cache has dropped the key at `last`. |
| SharedLru.Get | pkgs/backend/src/algorithm/lru.rs:152-158 | A miss returns None and changes nothing. A hit returns the node's value, moves it to the front and keeps the entries. |
| SharedLru.PutKeepsIndex | pkgs/backend/src/algorithm/lru.rs:41-150 | A put keeps the mapping and the nodes in bijection and the cache within capacity. |
| SharedLru.GetKeepsIndex | pkgs/backend/src/algorithm/lru.rs:152-211 | A get keeps the index consistent. |
| SharedLru.PutContents | pkgs/backend/src/algorithm/lru.rs:41-150 | The map view after a put is the old view with the key written. When a new key meets a full cache, the key at `last` is removed first. |
| SharedLru.RewriteContents | pkgs/backend/src/algorithm/lru.rs:44-53 | Rewriting a cached key only changes that key's value. |
| SharedLru.EvictContents | pkgs/backend/src/algorithm/lru.rs:62-120 | An eviction removes exactly the key at `last` from the map view. |
| SharedLru.GetContents | pkgs/backend/src/algorithm/lru.rs:152-158 | A get leaves the map view alone and returns the view's value for the key. |
| SharedLru.GetAfterPut | pkgs/backend/src/algorithm/lru.rs:152-158 | A get right after a put of the same key returns the value put. |
| SharedLru.RunWithin | pkgs/backend/src/algorithm/lru.rs:41-211 | Along any run the cache stays consistent, within capacity, and agrees with the latest-value map on every key it holds. |
| SharedLru.ReadsLatest | pkgs/backend/src/algorithm/lru.rs:152-158 | Any read that hits returns the value last written to that key. |
| SharedLru.RunExact | pkgs/backend/src/algorithm/lru.rs:41-211 | While the keys written fit the capacity, the map view equals the latest-value map. |
| SharedLru.ReadsLatestWhileRoom | pkgs/backend/src/algorithm/lru.rs:152-158 | While the keys written fit the capacity, every read returns the last value written, or None for a key never written. |
| SharedLru.UnitTestScenario | pkgs/backend/src/algorithm/lru.rs:220-252 | `test_lru_cache`: every one of the 22 reads returns what the test asserts. |
| SharedLru.RemoveLastScenario | pkgs/backend/src/algorithm/lru.rs:270-279 | Capacity 2: put 1, 2, 3, then reads give None, 20, 30. |
| SharedLru.EmptyCacheScenario | pkgs/backend/src/algorithm/lru.rs:254-259 | Capacity 0 refuses the put and reads None. |
| SharedLru.UpdateScenario | pkgs/backend/src/algorithm/lru.rs:261-268 | Putting 1 twice leaves one entry holding 20. |
| SharedLru.NewestEvictedScenario | pkgs/backend/src/algorithm/lru.rs:62-120 | Capacity 2: put 1, 2, 3, 1 keeps 2 (value 20) and drops 3, the newest key. |
| SharedLru.CorneredPanics | pkgs/backend/src/algorithm/lru.rs:122-146 | When `first` and `last` both sit on one key, the next new key panics. |
| SharedLru.PanicScenario | pkgs/backend/src/algorithm/lru.rs:122-146 | Capacity 3: puts 1, 2, 1, 3, 4, 1, 2 panic. |
| SharedLru.CapacityOneHangs | pkgs/backend/src/algorithm/lru.rs:94-120 | On a capacity-1 cache holding a key, putting another key never completes. |
| SharedLru.CapacityOneScenario | pkgs/backend/src/algorithm/lru.rs:94-120 | `new(1)`, `put(a)` stores a, and a following `put(b)` never completes. |
| SharedLru.CapacityOneFixed | pkgs/backend/src/algorithm/lru.rs:94-120 | The corrected eviction drops a first and then releases the lock, so the put leaves b alone in the cache, with map view {b: value}. |
| SharedLru.CapacityOneFixedScenario | pkgs/backend/src/algorithm/lru.rs:94-120 | `put(a)`, `put(b)` on capacity 1 leaves exactly b. |
| AhoCorasick.New | backend/src/algorithm/ahocorasick.rs:33-60 | A new matcher has no patterns, is not optimised, and has never been optimised, so the first build starts from an empty goto table. |
| AhoCorasick.Add | backend/src/algorithm/ahocorasick.rs:62-76 | An empty or already-added pattern changes nothing. Otherwise the pattern is appended and the optimised flag is cleared. |
| AhoCorasick.Optimize | backend/src/algorithm/ahocorasick.rs:78-194 | A finished build is optimised and keeps the patterns. |
| AhoCorasick.TrieOfFresh | backend/src/algorithm/ahocorasick.rs:91-146 | On a matcher never optimised, the trie pass realises the trie of the patterns. |
| AhoCorasick.BfsSafe | backend/src/algorithm/ahocorasick.rs:150-191 | On that trie, the breadth-first failure pass never indexes out of range. |
| AhoCorasick.OptimizeFresh | backend/src/algorithm/ahocorasick.rs:78-194 | On a matcher never optimised and with enough fuel, the build finishes and realises the trie. |
| AhoCorasick.OptimizeRecognisesPatterns | backend/src/algorithm/ahocorasick.rs:91-146 | After the build, every added pattern's final state is recorded as an output. |
| AhoCorasick.Similar | backend/src/algorithm/ahocorasick.rs:196-274 | False before optimisation and for an input that splits into no blocks. |
| AhoCorasick.NoPatternsNeverMatch | backend/src/algorithm/ahocorasick.rs:440-456 | With no patterns, `similar` is false for every input. |
| AhoCorasick.ReoptimizeCrashes | backend/src/algorithm/ahocorasick.rs:104-114 | Optimising "a" finishes. Optimising the result again indexes a state that does not exist. |
| AhoCorasick.OptimizeFixed | backend/src/algorithm/ahocorasick.rs:78-194 | The corrected build resets the goto table first. It never crashes, agrees with `optimize` on a matcher never optimised, and keeps the patterns. |
| AhoCorasick.OptimizeFixedIdempotent | backend/src/algorithm/ahocorasick.rs:78-194 | Rebuilding an optimised matcher with the corrected build gives the same matcher. |
| AhoCorasick.OptimizeFixedRecognises | backend/src/algorithm/ahocorasick.rs:91-146 | After the corrected build, every pattern's final state is an output. |
| AhoCorasick.ReoptimizeFixedFinishes | backend/src/algorithm/ahocorasick.rs:104-114 | Optimising "a" twice with the corrected build finishes both times. |
| AhoCorasick.SimilarFixed | backend/src/algorithm/ahocorasick.rs:196-274 | The intended query: true exactly when the matcher is optimised and some pattern's blocks occur contiguously in the input's blocks. |
| AhoCorasickScenarios.BasicScenario | backend/src/algorithm/ahocorasick.rs:283-307 | Patterns abc, aab, bcd: "abc", "aabc" and "daabce" match, and "aa" and "abd" do not. |
| AhoCorasickScenarios.PartialScenario | backend/src/algorithm/ahocorasick.rs:460-480 | Patterns abc and def: the strict prefixes "ab" and "de" do not match. |
| AhoCorasickScenarios.SuffixScenario | backend/src/algorithm/ahocorasick.rs:196-274 | Patterns abcd and bc: "abc" does not match, although it contains bc. |
| AhoCorasickTests.AddIdempotent | backend/src/algorithm/ahocorasick.rs:62-76 | Adding a pattern twice is the same as adding it once. |
| AhoCorasickTests.DuplicatePattern | backend/src/algorithm/ahocorasick.rs:394-413 | A duplicate add leaves one copy of the pattern. |
| AhoCorasickTests.EmptyPattern | backend/src/algorithm/ahocorasick.rs:371-390 | An empty pattern is ignored. |
| AhoCorasickTests.SuffixMisses | backend/src/algorithm/ahocorasick.rs:196-274 | For patterns abcd and bc, `similar("abc")` is false while the intended query is true. |
| AhoCorasickTests.BasicFixedAgrees | backend/src/algorithm/ahocorasick.rs:303-307 | The intended query gives the test's five expected answers. |
| FuzzyVariables.Capacity | pkgs/backend/src/algorithm/fuzzy/variables.rs:435-446 | A series keeps at least one value and at least `variables_size` values. |
| FuzzyVariables.New | pkgs/backend/src/algorithm/fuzzy/variables.rs:42-53 | A new store has no variables. |
| FuzzyVariables.Create | pkgs/backend/src/algorithm/fuzzy/variables.rs:205-227 | Fails exactly when the name exists, and then changes nothing. Otherwise it adds an empty series. |
| FuzzyVariables.Update | pkgs/backend/src/algorithm/fuzzy/variables.rs:435-446 | Fails exactly when the name is unknown, and then changes nothing. Otherwise it pushes the value to the front, keeps the series within capacity and returns its length. |
| FuzzyVariables.GetByIndex | pkgs/backend/src/algorithm/fuzzy/variables.rs:327-335 | Index 0 is the newest value. An unknown name or an index past the series is an error. |
| FuzzyVariables.Last | pkgs/backend/src/algorithm/fuzzy/variables.rs:337-349 | The back of the series, the oldest value still kept. An empty series or an unknown name is an error. |
| FuzzyVariables.Len | pkgs/backend/src/algorithm/fuzzy/variables.rs:369-374 | The length of the named series. An unknown name is an error. |
| FuzzyVariables.Clear | pkgs/backend/src/algorithm/fuzzy/variables.rs:355-362 | Empties one series, keeps its name and leaves every other series alone. |
| FuzzyVariables.ClearAll | pkgs/backend/src/algorithm/fuzzy/variables.rs:364-367 | Forgets every variable. |
| FuzzyVariables.Flush | pkgs/backend/src/algorithm/fuzzy/variables.rs:417-424 | Without an object store it succeeds and changes nothing. |
| FuzzyVariables.ParseUsize | pkgs/backend/src/algorithm/fuzzy/variables.rs:313-316 | A parsed index fits in `usize`, and the empty string and a lone `+` are rejected. `ParseShow` is its partner: the numeral of any index up to `usize::MAX` parses back to that index. |
| FuzzyVariables.GetByExpr | pkgs/backend/src/algorithm/fuzzy/variables.rs:303-325 | No `[` or more than one `[` is a format error. `SplitOnce` and `ExprMatchesIndex` give the other cases. |
| FuzzyVariables.SplitOnce | pkgs/backend/src/algorithm/fuzzy/variables.rs:305-325 | An expression with exactly one `[` splits there. An index that does not parse after trimming `]` is an index error. Otherwise it reads as `GetByIndex` on the name. |
| FuzzyVariables.ParseShow | pkgs/backend/src/algorithm/fuzzy/variables.rs:313-316 | The decimal numeral of any index up to `usize::MAX` parses back to that index. |
| FuzzyVariables.ExprMatchesIndex | pkgs/backend/src/algorithm/fuzzy/variables.rs:303-335 | `get_by_expr("name[i]")` reads the same value as `get_by_index(name, i)`, for every name without `[` and every index. |
| FuzzyVariables.UpdatesKeepNewest | pkgs/backend/src/algorithm/fuzzy/variables.rs:435-446 | After any run of updates, the series is the capacity's worth of newest values, newest first, an independent definition. |
| FuzzyVariables.UpdateAllPushes | pkgs/backend/src/algorithm/fuzzy/variables.rs:245-301 | Running `update` on a created variable performs exactly those pushes on its series. |
| FuzzyVariables.HistoryReads | pkgs/backend/src/algorithm/fuzzy/variables.rs:327-335 | After creating a variable and updating it with a history, index i reads the i-th newest value while i is within capacity and history. |
| FuzzyVariables.CappedScenario | backend/src/algorithm/fuzzy/variables_tests.rs:79-98 | Capacity 2, updates 1, 2, 3: the series is [3, 2]. |
| FuzzyVariables.HappyPathScenario | backend/src/algorithm/fuzzy/variables.rs:143-147 | The documented example: one update gives length 1, and `last` is that value. |
| FuzzyRule.Build | backend/src/algorithm/fuzzy/rule.rs:249-306 | Succeeds exactly when the expression is buildable (an independent definition). An unknown operator is NotImplemented. Every node is well formed, with one slot per pin. |
| FuzzyRule.BuildLabels | backend/src/algorithm/fuzzy/rule.rs:104-129 | The labels of a built tree are the expression's leaf names in order, computed independently from the expression. |
| FuzzyRule.BuildEvaluates | backend/src/algorithm/fuzzy/rule.rs:74-102 | A built tree evaluates to the independent evaluation of the expression. |
| FuzzyRule.Default | backend/src/algorithm/fuzzy/rule.rs:171-185 | The default rule is one `Noop` node with no pins. |
| FuzzyRule.DefaultIsZero | backend/src/algorithm/fuzzy/rule.rs:171-185 | The default rule evaluates to 0 and has no inputs. |
| FuzzyRule.Update | backend/src/algorithm/fuzzy/rule.rs:131-168 | Returns true exactly when some pin accepts the name. It writes the value slot whose index is the count of leaf slots before the pin, even when that pin is nested. |
| FuzzyRule.Reload | backend/src/algorithm/fuzzy/rule.rs:227-239 | Reloading keeps the tree well formed and its shape, and counts at most one update per input. |
| FuzzyRule.ReloadCounts | backend/src/algorithm/fuzzy/rule.rs:227-239 | The count returned is the number of names some pin accepts. |
| FuzzyRule.NestedNameOverwritesSibling | backend/src/algorithm/fuzzy/rule.rs:136-141 | For f(a: g(x=1), b=2), `update("a", 5)` returns true and overwrites b's value. |
| FuzzyRule.UpdateOverwritesOtherLeaf | backend/src/algorithm/fuzzy/rule.rs:136-141 | For every well-formed tree whose nested pin has a leaf after it, updating the nested pin's name writes that leaf. |
| FuzzyRule.UpdateLeaf | backend/src/algorithm/fuzzy/rule.rs:131-168 | The corrected update: it writes only a leaf pin carrying the name. |
| FuzzyRule.UpdateLeafKeepsOthers | backend/src/algorithm/fuzzy/rule.rs:131-168 | The corrected update leaves every leaf with another name unchanged, in every well-formed tree. |
| SimulatorData.New | pkgs/backend/src/algorithm/simulator/data.rs:23-31 | A new slicer holds the candles and the range, with all bounds at 0. |
| SimulatorData.Shuttle | pkgs/backend/src/algorithm/simulator/data.rs:33-56 | Fails exactly when there are fewer than 2·range candles: Overflow if 2·range exceeds `usize`, TooFewCandles otherwise. Otherwise begin + range ≤ split ≤ end - range and end ≤ len. |
| SimulatorData.Size | pkgs/backend/src/algorithm/simulator/data.rs:63-76 | At least 1. On shuttled bounds it is the number of windows of the phase. |
| SimulatorData.Sample | pkgs/backend/src/algorithm/simulator/data.rs:78-103 | An index ≥ size is OutOfRange. An Ok result is a window of exactly `range` candles. A Test window past the end falls back to the last `range` candles, or underflows. |
| SimulatorData.LastCandle | pkgs/backend/src/algorithm/simulator/data.rs:105-132 | Ok exactly when the index is below size and the candle after the window exists, and then it is that candle. |
| SimulatorData.ShuttledWindowsFit | pkgs/backend/src/algorithm/simulator/data.rs:33-103 | After a shuttle, every in-range sample is a slice inside its phase. |
| SimulatorData.PhasesDoNotOverlap | pkgs/backend/src/algorithm/simulator/data.rs:43-76 | After a shuttle, every training window ends at or before the start of the test phase. |
| Mcts.New | backend/src/algorithm/markov/mcts.rs:41-54 | A new search is a valid tree of one unvisited node, rooted at 0. |
| Mcts.Shift | backend/src/algorithm/markov/mcts.rs:56-91 | Errors exactly when the node is not a child of the root. Otherwise the tree is valid, rooted at 0, has the subtree's size and copies the node's statistics into the root. |
| Mcts.ShiftToLeaf | backend/src/algorithm/markov/mcts.rs:56-91 | Shifting to a leaf child leaves a one-node tree. |
| Mcts.ShiftCollapsesChildren | backend/src/algorithm/markov/mcts.rs:80-83 | After a shift, every child index of the new root is 1. |
| Mcts.ShiftDuplicatesChild | backend/src/algorithm/markov/mcts.rs:80-83 | A shifted root with two leaf children lists child 1 twice. |
| Mcts.ShiftFixed | backend/src/algorithm/markov/mcts.rs:56-91 | The corrected shift gives each child its own index: the root's children are distinct and increasing, as many as the old node had, in a valid tree of the subtree's size. |
| Mcts.BestChild | backend/src/algorithm/markov/mcts.rs:126-137 | The child with the greatest score, the last of them on ties, as `max_by` returns. |
| Mcts.Select | backend/src/algorithm/markov/mcts.rs:121-142 | A path from the start node that takes the best child at each step and ends at a leaf. |
| Mcts.SelectIncreasing | backend/src/algorithm/markov/mcts.rs:121-142 | In a tree whose children follow their parents, the selected path is strictly increasing. |
| Mcts.Expand | backend/src/algorithm/markov/mcts.rs:144-154 | Appends the k new nodes and adds exactly their k indices to the leaf's children. Every other node is unchanged. |
| Mcts.ExpandScenario | backend/src/algorithm/markov/mcts.rs:335-340 | Expanding the root by two nodes gives it children [1, 2]. |
| Mcts.PropagateCredits | backend/src/algorithm/markov/mcts.rs:179-189 | A path node at depth d > 0 gains one visit and reward·discount^d, with the sign flipped d times in combat mode. |
| Mcts.Backpropagate | backend/src/algorithm/markov/mcts.rs:174-190 | The leaf is unchanged. Every ancestor gains one visit and the discounted, sign-alternated reward. |
| Mcts.CombatScenario | backend/src/algorithm/markov/mcts.rs:356-412 | A path of three in combat mode gives the middle node -r·γ and the root r·γ². |
| Snowflake.New | pkgs/backend/src/algorithm/snowflakeid.rs:11-21 | Succeeds exactly for a machine id below 1024. |
| Snowflake.Generate | pkgs/backend/src/algorithm/snowflakeid.rs:23-66 | Retries exactly when the clock has not advanced and the sequence is exhausted. An issued id carries the machine id, the sequence and the timestamp in disjoint fields. |
| Snowflake.GenerateIssues | pkgs/backend/src/algorithm/snowflakeid.rs:36-50 | A later clock resets the sequence to 0. Otherwise the stored timestamp is kept and the sequence grows by one. |
| Snowflake.PackUnpack | pkgs/backend/src/algorithm/snowflakeid.rs:33-52 | Unpacking a packed state word gives back its timestamp and sequence. |
| Snowflake.IdFields | pkgs/backend/src/algorithm/snowflakeid.rs:59-61 | The id's low 10 bits are the machine id, the next 12 the sequence, and the rest the timestamp mod 2^40. |
| Snowflake.TimestampNeverDecreases | pkgs/backend/src/algorithm/snowflakeid.rs:36-52 | The stored timestamp never decreases. |
| Snowflake.IdIsScaledState | pkgs/backend/src/algorithm/snowflakeid.rs:52-61 | Within 40-bit timestamps, an id is the new state times 1024 plus the machine id, and the state grows. |
| Snowflake.RunIdsIncrease | pkgs/backend/src/algorithm/snowflakeid.rs:94-106 | Over any sequence of clock readings, the ids issued strictly increase, so they are unique. |
| Snowflake.SameMillisecond | pkgs/backend/src/algorithm/snowflakeid.rs:109-136 | Two ids in one millisecond have sequence fields one apart. |
| Snowflake.BurstScenario | pkgs/backend/src/algorithm/snowflakeid.rs:94-106 | Two ids generated in the same millisecond by machine 42 differ. |
| Genetic.NewIndividual | backend/src/algorithm/genetic.rs:38-44 | A new individual wraps the player and estimates 0 in every session. |
| Genetic.Estimate | backend/src/algorithm/genetic.rs:50-56 | The cached fitness in the cached session, and 0 in any other. |
| Genetic.EstimateMut | backend/src/algorithm/genetic.rs:58-64 | Recomputes the score only when the cached session is older. Otherwise it returns the cached fitness and changes nothing. |
| Genetic.EstimateMutAgrees | backend/src/algorithm/genetic.rs:50-64 | After `estimate_mut`, `estimate` in that session returns the same number, and a second `estimate_mut` changes nothing. |
| Genetic.New | backend/src/algorithm/genetic.rs:77-90 | A new population is empty and has the given limit. |
| Genetic.Initialize | backend/src/algorithm/genetic.rs:92-102 | The population is exactly one initialised individual per given player, in order, each estimating 0. |
| Genetic.InitializeReplaces | backend/src/algorithm/genetic.rs:92-102 | The result does not depend on the previous population. |
| Genetic.Get | backend/src/algorithm/genetic.rs:104-106 | Panics exactly when the index is past the end. Otherwise it gives the individual at that index. |
| Genetic.EstimateAll | backend/src/algorithm/genetic.rs:148-160 | Keeps the limit, the size and each individual's player and place. Each individual then estimates its player's score in the session. |
| Genetic.InitializedThenEstimated | backend/src/algorithm/genetic.rs:92-160 | After `initialize` and `estimate`, `size` is the number of players. `get(i)` holds the i-th initialised player scored in the session, and panics past the last. |
| Genetic.EstimateAllIdempotent | backend/src/algorithm/genetic.rs:148-160 | Estimating twice in one session is estimating once. |
| Genetic.AverageFitness | backend/src/algorithm/genetic.rs:112-120 | NaN exactly for an empty population (0.0 / 0.0). Otherwise the average times the size is the sum of the estimates. |
| Genetic.BestFitness | backend/src/algorithm/genetic.rs:122-131 | At least 0 and at least every estimate. It is 0 or some individual's estimate. |
| Genetic.BestUpTo | backend/src/algorithm/genetic.rs:133-143 | The scan keeps the running maximum, starting at 0, and the first index reaching it. The index stays 0 while nothing is positive. |
| Genetic.BestPlayer | backend/src/algorithm/genetic.rs:133-146 | Panics exactly on an empty population. Otherwise it gives the first player with the best positive fitness, or the first player when no estimate is positive. |
| Genetic.AverageBelowBest | backend/src/algorithm/genetic.rs:112-131 | On a non-empty population the average never exceeds the best fitness. |
| Genetic.Refresh | backend/src/algorithm/genetic.rs:179-196 | Every individual is re-scored for the session and keeps its player. |
| Genetic.Extinction | backend/src/algorithm/genetic.rs:197-214 | Unmarked individuals survive. Nobody or everybody marked leaves the population unchanged, and a non-empty population stays non-empty. |
| Genetic.ExtinctionSkipped | backend/src/algorithm/genetic.rs:205-214 | When every individual or none is marked, extinction leaves the population as it was. |
| Genetic.Rank | backend/src/algorithm/genetic.rs:216-223 | A permutation of the population in non-increasing fitness. |
| Genetic.Cull | backend/src/algorithm/genetic.rs:216-228 | Keeps min(n, keep) individuals drawn from the population, each at least as fit as every one dropped. |
| Genetic.RouletteEndsAtOne | backend/src/algorithm/genetic.rs:230-253 | The last cumulative weight is exactly 1. |
| Genetic.RouletteNondecreasing | backend/src/algorithm/genetic.rs:230-253 | With non-negative fitness, the cumulative weights never decrease. |
| Genetic.SearchBy | backend/src/algorithm/genetic.rs:306-313 | A hit is an index holding the target. On sorted input a miss's insertion point splits smaller from larger values. |
| Genetic.Select | backend/src/algorithm/genetic.rs:306-313 | Panics exactly on an empty population with no hit (`0 - 1` on `usize`). Otherwise the index is below the population size. |
| Genetic.SelectLandsInSlot | backend/src/algorithm/genetic.rs:306-313 | On a non-empty, non-decreasing wheel, selection lands in the slot whose interval holds the target. |
| Genetic.SelectionScenario | backend/src/algorithm/genetic.rs:506-537 | The unit test's three targets select slots 0, 1 and 2. |
| Genetic.Breed | backend/src/algorithm/genetic.rs:255-273 | Panics exactly when couples are requested from an empty population. Otherwise it appends one unestimated child per couple and keeps the parents. |
| Genetic.Evolute | backend/src/algorithm/genetic.rs:162-276 | An invalid or NaN rate, then too many couples, are the errors, in that order. A panic happens exactly for couples on an empty population. On success the size is min(survivors, limit - couples) + couples ≤ limit. |
| Genetic.EvoluteKeepsBest | backend/src/algorithm/genetic.rs:216-273 | The kept prefix comes from the survivors, each at least as fit as every survivor dropped. The rest are new children. |
| Genetic.EvoluteIsBreed | backend/src/algorithm/genetic.rs:216-273 | `evolute` is the cull of the survivors followed by breeding on their wheel. |
| Genetic.EvoluteUnmarked | backend/src/algorithm/genetic.rs:198-273 | With no extinction, the final size is min(n, limit - couples) + couples. |
| Genetic.EvoluteNormalScenario | backend/src/algorithm/genetic.rs:378-409 | Four players, limit 5, two couples: five individuals. |
| Genetic.EvoluteZeroFitnessScenario | backend/src/algorithm/genetic.rs:412-441 | Three zero-fitness players, limit 5, two couples: five individuals. |
| Genetic.EvoluteExtinctionScenario | backend/src/algorithm/genetic.rs:444-471 | Everyone marked: extinction is skipped, and three players plus one couple give four. |
| Genetic.EvoluteTruncationScenario | backend/src/algorithm/genetic.rs:474-503 | Four players, limit 3, one couple: three individuals. |
| Genetic.FluctuateOne | backend/src/algorithm/genetic.rs:278-304 | An individual from an older session is re-scored. One already scored in this session keeps its fitness. |
| Genetic.Fluctuate | backend/src/algorithm/genetic.rs:278-304 | Fails exactly for an invalid or NaN rate. Otherwise it keeps the size and re-scores exactly the individuals from older sessions. |
| PricePatterns.FindReversePoints | backend/src/algorithm/math/price.rs:3-12 | Panics exactly on no candles (`len - 1` underflow). Otherwise it lists (time, open) for exactly the interior candles whose open is a strict local maximum or minimum, in order. |
| PricePatterns.FindGapCandles | backend/src/algorithm/math/price.rs:14-27 | Gap-ups are exactly the candles opening above the previous high. Gap-downs are exactly those opening below the previous low. The two lists are disjoint. |
| PricePatterns.FindSwingPoints | backend/src/algorithm/math/price.rs:29-59 | Empty when there are fewer than 2·lookback + 1 candles. An index is listed exactly when its high (low) is strictly above (below) every other within lookback. Both lists ascend. |
| OrderInquiry.Decode | backend/src/api/order.rs:35-46 | Succeeds exactly for codes 0, 1 and 2, giving the state with that code. Any other code is "Invalid status value". |
| OrderInquiry.DecodeCode | backend/src/api/order.rs:35-46 | Decoding a state's code gives the state back. |
| OrderInquiry.Step | backend/src/api/order.rs:74-167 | Fails exactly on an invalid state code, and otherwise keeps the order's terms and leaves a valid state code that stays or advances by one step. |
| OrderInquiry.Inquiry | backend/src/api/order.rs:54-171 | Succeeds exactly when every order steps, giving one result per order. Otherwise it returns the first failure. |
| OrderInquiry.ClosedOrdersAreStable | backend/src/api/order.rs:151-158 | A batch of closed orders comes back unchanged. |
| Mention.CountMentionBySymbol | backend/src/analytic/mention.rs:61-86 | Each symbol's mention count grows by the number of its tag occurrences. Votes and promotions are unchanged. The keys gain exactly the tagged symbols. |
| Mention.CountSentimentVoteBySymbol | backend/src/analytic/mention.rs:88-133 | Each occurrence adds one to positive, negative or neutral by the sign of the sentiment. The keys gain exactly the tagged symbols. |
| Mention.CountYoutubeLinkBySymbol | backend/src/analytic/mention.rs:24-59 | Each occurrence on a post with a non-empty link adds one promotion. Other counters are unchanged. |
| Mention.UntaggedUnchanged | backend/src/analytic/mention.rs:80-84 | A symbol no post tags gets no increments. |
| Mention.VotesPartitionMentions | backend/src/analytic/mention.rs:61-133 | Over any posts, positive + negative + neutral votes equal the mentions. |
| Mention.OnlyPassCounters | backend/src/analytic/mention.rs:24-133 | Each pass touches only its own counters. |
| WmsStatus.LotFromCode | pkgs/backend/src/entities/wms/mod.rs:86-98 | As written: code i decodes to the status whose discriminant is i + 1. |
| WmsStatus.LotCodeMismatch | pkgs/backend/src/entities/wms/mod.rs:76-98 | Storing Available (`as i32`) and reading it back gives Outdated. |
| WmsStatus.LotFromCodeFixed | pkgs/backend/src/entities/wms/mod.rs:76-98 | The corrected table inverts the discriminants: every status survives store-then-read. |
| WmsStatus.LotFromText | pkgs/backend/src/entities/wms/mod.rs:100-145 | Parsing the displayed text gives the status back. |
| WmsStatus.ItemFromCode | pkgs/backend/src/entities/wms/mod.rs:221-234 | As written: code i decodes to the status whose discriminant is i + 1. |
| WmsStatus.ItemCodeMismatch | pkgs/backend/src/entities/wms/mod.rs:210-234 | Storing Saled and reading it back gives Returned. |
| WmsStatus.ItemFromCodeFixed | pkgs/backend/src/entities/wms/mod.rs:210-234 | The corrected table: every item status survives store-then-read. |
| WmsStatus.ItemFromText | pkgs/backend/src/entities/wms/mod.rs:236-283 | Parsing the displayed text gives the status back. |
| WmsStatus.SaleFromCode | pkgs/backend/src/entities/wms/mod.rs:367-379 | As written: 0 is Failed, 1 is Done, 2 to 5 as listed, anything else Unknown. |
| WmsStatus.SaleCodeMismatch | pkgs/backend/src/entities/wms/mod.rs:357-379 | Done (discriminant 6) reads back as Unknown, and Failed (1) as Done. |
| WmsStatus.SaleFromCodeFixed | pkgs/backend/src/entities/wms/mod.rs:357-379 | The corrected table: every sale status survives store-then-read. |
| WmsStatus.SaleFromText | pkgs/backend/src/entities/wms/mod.rs:381-426 | Parsing the displayed text gives the status back. |
| WmsStatus.OrderFromText | pkgs/backend/src/entities/wms/mod.rs:439-450 | As written: parses "shiping" and "returing". |
| WmsStatus.OrderTextMismatch | pkgs/backend/src/entities/wms/mod.rs:439-473 | Shiping and Returning display as "shipping" and "returning" and parse back as Unknown. Every other status round-trips. |
| WmsStatus.OrderFromTextFixed | pkgs/backend/src/entities/wms/mod.rs:439-473 | The corrected parser: every order status survives display-then-parse. |
| WmsStatus.NodeFromCode | pkgs/backend/src/entities/wms/mod.rs:524-534 | As written: 1 Available, 2 Block, 3 DamageLeft, 4 DamageRight, else Unknown. |
| WmsStatus.NodeCodeMismatch | pkgs/backend/src/entities/wms/mod.rs:516-534 | Storing Available (4) reads back as DamageRight. |
| WmsStatus.NodeFromCodeFixed | pkgs/backend/src/entities/wms/mod.rs:516-534 | The corrected table: every node status survives store-then-read. |
| WmsStatus.NodeFromText | pkgs/backend/src/entities/wms/mod.rs:536-568 | Parsing the displayed text gives the status back. |
| WmsStatus.StoredStatusRoundTrips | pkgs/backend/src/entities/wms/mod.rs:2146 | With the corrected tables, every lot, item, sale and node status survives store-then-read, as the tests expect. |
| WmsStatus.OrderOfSale | pkgs/backend/src/entities/wms/mod.rs:1623-1627 | The intended mapping: a Done sale is an order Done, anything else Unknown. |
| WmsStatus.OrderDetail | pkgs/backend/src/entities/wms/mod.rs:1613-1656 | As written it always fails: RecordNotFound exactly when there is no row, otherwise the missing-column decode error (one column selected, two decoded). |
| WmsStatus.OrderDetailFixed | pkgs/backend/src/entities/wms/mod.rs:1613-1656 | The corrected query selects both columns and maps the status with `OrderOfSale`. |
| WmsStatus.CompletedSaleReported | pkgs/backend/src/entities/wms/mod.rs:1613-1627 | A completed sale fails as written. With both columns but the written code table it is Unknown. With the corrected table it is Done. |
| WmsInventory.PlanImport | pkgs/backend/src/entities/wms/mod.rs:732-868 | An invalid stock rejects the batch first, then an invalid lot. On success the plan's keys are exactly the (lot, stock) pairs carried, each counted as often as items carry it. |
| WmsInventory.PlannedItemsCounted | pkgs/backend/src/entities/wms/mod.rs:780-808 | Every planned item's pair appears in the plan with a positive count. |
| WmsInventory.ImportRealItems | pkgs/backend/src/entities/wms/mod.rs:870-991 | Faults in order: missing id, missing shelf, unknown shelf (a panic at the map index). An accepted item without a stock is MissingStock. On success the accepted items are returned and each (shelf, stock) count is the number carrying it. |
| WmsInventory.CountedHasAccepted | pkgs/backend/src/entities/wms/mod.rs:904-973 | Every counted (shelf, stock) pair has an accepted item carrying it. |
| WmsInventory.AcceptedIsCounted | pkgs/backend/src/entities/wms/mod.rs:904-973 | Every accepted item's pair is counted. |
| WmsInventory.GetItemByBarcode | pkgs/backend/src/entities/wms/mod.rs:1434-1503 | The first row with the barcode, Available when it has no order and Saled otherwise. A missing barcode is "Not found barcode". |
| WmsInventory.SaleAtStorefront | pkgs/backend/src/entities/wms/mod.rs:1505-1541 | No barcodes is an error. Succeeds exactly when at least as many Available rows match as barcodes were given. Then those rows become Saled with the order id, and the sale records its cost sum. |
| WmsInventory.SaleAllOrNothing | pkgs/backend/src/entities/wms/mod.rs:1525-1533 | When neither the stored rows nor the request repeat a barcode (`DistinctBarcodes`, `DistinctRequest`), the sale as written commits exactly when every requested barcode hits an Available row of any tenant (`AllAvailable` with no tenant scope). |
| WmsInventory.SaleMaskedByDuplicates | pkgs/backend/src/entities/wms/mod.rs:1520-1528 | Two Available rows with barcode A let a sale of A and B succeed although B is not available. |
| WmsInventory.Shard | pkgs/backend/src/entities/wms/mod.rs:600-602 | The shard index is below the number of connections. No connection panics, and a non-negative id below the count is its own shard. |
| WmsInventory.TenantsOneAndTwoShare | pkgs/backend/src/entities/wms/mod.rs:600-602 | Tenants 1 and 2 share a shard exactly when there is one connection. |
| WmsInventory.SaleSellsForeignRow | pkgs/backend/src/entities/wms/mod.rs:1520-1525 | With one connection, tenants 1 and 2 share shard 0, and a sale for tenant 1 sells tenant 2's Available row with the same barcode. |
| WmsInventory.SaleAtStorefrontChecked | pkgs/backend/src/entities/wms/mod.rs:1505-1541 | The corrected sale filters rows by tenant as well. It succeeds only when every requested barcode has an Available row of that tenant. It then sells exactly those rows and records the sale. |
| WmsInventory.CheckedKeepsOtherTenants | pkgs/backend/src/entities/wms/mod.rs:1520-1525 | The corrected sale never touches another tenant's row. |
| WmsInventory.CheckedAgrees | pkgs/backend/src/entities/wms/mod.rs:1505-1541 | On rows of the selling tenant only, and when neither the rows nor the request repeat a barcode (`DistinctBarcodes`, `DistinctRequest`), the corrected sale equals the written one. |
| WmsInventory.SoldReadsSaled | pkgs/backend/src/entities/wms/mod.rs:1491-1495 | After a sale, reading a sold barcode reports Saled. |

## Left out

- I/O of every kind is left out: the database queries and transactions, HTTP handlers, S3 and parquet buffers, and clocks. Their results are parameters.
- Concurrency is left out. The `RwLock`s around the shared cache, the snowflake compare-and-swap and the async runtime are modelled single-threaded. The one exception is the capacity-1 self-deadlock, which is a panic.
- Floating point is left out: `f64` is `real`, with no rounding, no infinities and no NaN, except the NaN check on the mutation rate.
- `HashMap` iteration order is a parameter of the legacy cache's eviction loop and of the counting passes. No particular order is assumed.
- Integer widths are left out where no reachable input meets them:
  - the `u32` visit counts in `mcts.rs`;
  - the `i64` difference in the heap test's comparator;
  - the `i64` session numbers in `genetic.rs`.
- Genetic.Cull: `sort_by(... partial_cmp ... .unwrap())` (genetic.rs:219-223) panics when a fitness is NaN. With `real` fitness, that panic cannot be expressed.
- Genetic.Roulette: the last cumulative weight is exactly 1 in `real`. In `f64` it may round below 1.
- Genetic.AverageFitness: `average_fitness` (genetic.rs:112-120) divides in `f64`. The model gives the exact `real` quotient, and NaN only for an empty population.
- SimulatorData.Shuttle: `range * 2` (data.rs:36) panics in a debug build but wraps in a release build. The model reports the debug-build overflow as an `Overflow` error.
- Mcts: `actions` and `simulate` (mcts.rs:93-119, 156-172) draw from a weighted random distribution through the handler, and are left out. The UCB score is a parameter of `Select`, since it is float arithmetic.
- FuzzyRule: `from_json` and `from_pydict` (rule.rs:442-467) parse JSON and Python objects. The model starts from the parsed expression.
- FuzzyVariables: scopes, `flush` with an object store and the parquet buffers are left out. `update` is its in-memory `update_variable` step.
- AhoCorasick: the construction and matching loops carry a `fuel` bound. `OutOfFuel` only means the bound was too small; the lemmas give bounds under which runs finish.
- AhoCorasick.Similar: its contract covers the not-optimised and empty-input cases and the unit tests. No all-inputs lemma relates a `true` answer to `SimilarFixed`.
- BinaryHeap: `get_mut` (heap.rs:29-35) returns the same element as `get` and is not modelled separately.
- Snowflake: the id's cast from `u64` to `i64` is not modelled. The timestamp field holds 40 bits, so the id stays below 2^62.

## Findings

| source | as written | input that shows it | evidently intended | confidence | as-written member | corrected member |
|---|---|---|---|---|---|---|
| backend/src/algorithm/markov/mcts.rs:80-83 | `tree.len()` is read before any child is pushed, so every child of a node gets the same new index | a root whose chosen child has two leaf children: the new root lists child 1 twice | each child gets its own index in the new arena | high (not executed) | Mcts.ShiftCollapsesChildren | Mcts.ShiftFixed |
| backend/src/algorithm/ahocorasick.rs:196-274 | `similar` only reads the output of the current state, not of its failure chain | patterns "abcd" and "bc", input "abc": false | true whenever some pattern occurs in the input | high (not executed) | AhoCorasickTests.SuffixMisses | AhoCorasick.SimilarFixed |
| backend/src/algorithm/ahocorasick.rs:104-114 | `optimize` does not reset the goto table, so a second call follows edges into states it no longer has | add "a", optimize, optimize again: index out of bounds | optimising twice equals optimising once | high (not executed) | AhoCorasick.ReoptimizeCrashes | AhoCorasick.OptimizeFixed |
| backend/src/algorithm/lru.rs:107-118 | `move_to_front` never updates `first`, and eviction always removes `first`, so reads do not protect a key | capacity 2: put 1, put 2, get 1, put 3 drops key 1 | the key just read survives (test comment at line 131) | high (not executed) | LegacyLru.RecencyIgnoredScenario | LruReference.ReadProtectsScenario |
| backend/src/algorithm/lru.rs:42-92 | after rewrites, `first` and `last` can name one slot, and eviction then leaves `last` past the end | capacity 2: put 1, 2, 1, 1, 3, 1 panics | a put on a non-empty cache always succeeds | high (not executed) | LegacyLru.PanicScenario | LruReference.PutEvictsLeastRecent |
| pkgs/backend/src/algorithm/lru.rs:62-120 | after `Vec::remove`, the surviving links are not shifted down, so `last` ends on the newest node | capacity 2: put 1, 2, 3, 1 drops 3 and keeps 2 | the least recently used key (2) is dropped | high (not executed) | SharedLru.NewestEvictedScenario | LruReference.OldestEvictedScenario |
| pkgs/backend/src/algorithm/lru.rs:122-146 | after the same eviction, `first` can equal the arena length, and `caching[first]` is indexed | capacity 3: puts 1, 2, 1, 3, 4, 1, 2 panic | a put on a non-empty cache always succeeds | high (not executed) | SharedLru.PanicScenario | LruReference.PutEvictsLeastRecent |
| pkgs/backend/src/algorithm/lru.rs:94-120 | the write guard on `first` taken at line 94 is still held when line 117 locks `first` again | `new(1)`, `put(a)`, `put(b)` never returns | b replaces a | high (not executed) | SharedLru.CapacityOneHangs | SharedLru.CapacityOneFixed |
| backend/src/algorithm/fuzzy/rule.rs:136-141 | a pin whose name matches writes `values[ivalue]` even when the pin is nested | f(a: g(x=1), b=2), `update("a", 5)` writes b | only a leaf pin named a is written | high (not executed) | FuzzyRule.NestedNameOverwritesSibling | FuzzyRule.UpdateLeafKeepsOthers |
| pkgs/backend/src/entities/wms/mod.rs:86-98 | `From<i32>` maps i to discriminant i + 1 | store Available (4), read Outdated | store-then-read is the identity | high (not executed) | WmsStatus.LotCodeMismatch | WmsStatus.LotFromCodeFixed |
| pkgs/backend/src/entities/wms/mod.rs:221-234 | `From<i32>` maps i to discriminant i + 1 | store Saled (6), read Returned | store-then-read is the identity | high (not executed) | WmsStatus.ItemCodeMismatch | WmsStatus.ItemFromCodeFixed |
| pkgs/backend/src/entities/wms/mod.rs:367-379 | `From<i32>` puts Failed at 0 and Done at 1 | store Done (6), read Unknown | store-then-read is the identity | high (not executed) | WmsStatus.SaleCodeMismatch | WmsStatus.SaleFromCodeFixed |
| pkgs/backend/src/entities/wms/mod.rs:524-534 | `From<i32>` reverses the node table | store Available (4), read DamageRight | store-then-read is the identity | high (not executed) | WmsStatus.NodeCodeMismatch | WmsStatus.NodeFromCodeFixed |
| pkgs/backend/src/entities/wms/mod.rs:439-450 | the parser expects "shiping" and "returing" | display Shiping as "shipping", parse Unknown | display-then-parse is the identity | high (not executed) | WmsStatus.OrderTextMismatch | WmsStatus.OrderFromTextFixed |
| pkgs/backend/src/entities/wms/mod.rs:1616-1619 | one column is selected but a pair is decoded | any existing sale row: a decode error | the order's status and date are returned | medium (not executed) | WmsStatus.CompletedSaleReported | WmsStatus.OrderDetailFixed |
| pkgs/backend/src/entities/wms/mod.rs:1520-1528 | success compares the number of rows updated with the number of barcodes | two Available rows with barcode A, sale of A and B: succeeds | every requested barcode is available | medium (not executed) | WmsInventory.SaleMaskedByDuplicates | WmsInventory.SaleAtStorefrontChecked |
| pkgs/backend/src/entities/wms/mod.rs:1520-1525 | the update filters on barcode and status but not on tenant | with one database connection, so that `dbt` (mod.rs:600-602) puts tenants 1 and 2 on the same shard: tenant 1 sells tenant 2's Available row with the same barcode | only the selling tenant's rows are sold | medium (not executed) | WmsInventory.SaleSellsForeignRow | WmsInventory.CheckedKeepsOtherTenants |

=== FILE: aho_corasick.dfy ===
/** The block-level Aho-Corasick matcher (`backend/src/algorithm/ahocorasick.rs`).

    Patterns are cut into blocks by the `split` callback (characters or
    words in the repository's own uses). `optimize` builds a trie of the
    blocks, records the automaton in `goto`/`inputs`/`blocks`/`outputs` and
    computes failure links by a breadth-first walk; `similar` runs a sample
    through the automaton and says whether it reached an output state.

    A `BTreeMap<String, usize>` is an association list kept in ascending key
    order (`Assoc`), so that iterating it, as the source does, visits keys in
    the same order. The callbacks are fields of `Callbacks`; `collect_fn`
    only has a side effect and is left out. An index out of bounds (a Rust
    panic) is `Crashed`. The two loops whose termination depends on the
    failure links being acyclic, and the breadth-first walk, are bounded by
    a `fuel` argument; running out of it is `OutOfFuel`, never a verdict.
 */
module AhoCorasick {
  import opened Wrappers

  /** Strict lexicographic order on strings by code point, which is the order
      of Rust's `String` (UTF-8 byte order agrees with code point order). */
  predicate Below(a: string, b: string)
    decreases |a|
  {
    if |a| == 0 then |b| > 0
    else if |b| == 0 then false
    else if a[0] != b[0] then a[0] < b[0]
    else Below(a[1..], b[1..])
  }

  lemma {:induction false} BelowTotal(a: string, b: string)
    ensures a == b || Below(a, b) || Below(b, a)
    ensures !(Below(a, b) && Below(b, a))
    ensures !Below(a, a)
    decreases |a|
  {
    if |a| > 0 && |b| > 0 && a[0] == b[0] {
      BelowTotal(a[1..], b[1..]);
      if a[1..] == b[1..] {
        assert a == [a[0]] + a[1..] && b == [b[0]] + b[1..];
      }
    }
    if |a| > 0 {
      BelowTotal(a[1..], a[1..]);
    }
  }

  lemma {:induction false} BelowTrans(a: string, b: string, c: string)
    requires Below(a, b) && Below(b, c)
    ensures Below(a, c)
    decreases |a|
  {
    if |a| > 0 && a[0] == b[0] && b[0] == c[0] {
      BelowTrans(a[1..], b[1..], c[1..]);
    }
  }

  type Assoc = seq<(string, nat)>

  /** The keys ascend strictly, as in a `BTreeMap`. */
  predicate Ascending(a: Assoc)
  {
    forall i, j :: 0 <= i < j < |a| ==> Below(a[i].0, a[j].0)
  }

  /** `BTreeMap::get`. */
  function Get(a: Assoc, k: string): Option<nat>
  {
    if |a| == 0 then None
    else if a[0].0 == k then Some(a[0].1)
    else Get(a[1..], k)
  }

  function OrZero(o: Option<nat>): nat
  {
    if o.Some? then o.value else 0
  }

  /** `BTreeMap::insert`: replaces the value of an existing key, otherwise
      puts the pair before the first greater key. */
  function Insert(a: Assoc, k: string, v: nat): (r: Assoc)
    ensures Get(r, k) == Some(v)
    ensures forall k' :: k' != k ==> Get(r, k') == Get(a, k')
    ensures forall j :: 0 <= j < |r| ==> r[j] == (k, v) || r[j] in a
    ensures Ascending(a) ==> Ascending(r)
    ensures Get(a, k).None? ==> |r| == |a| + 1
  {
    if |a| == 0 then [(k, v)]
    else if a[0].0 == k then
      var r := [(k, v)] + a[1..];
      assert forall k' :: k' != k ==> Get(r, k') == Get(a[1..], k');
      r
    else if Below(k, a[0].0) then
      var r := [(k, v)] + a;
      assert Ascending(a) ==> Ascending(r) by {
        if Ascending(a) {
          forall j | 0 < j < |r|
            ensures Below(r[0].0, r[j].0)
          {
            if j > 1 {
              BelowTrans(k, a[0].0, a[j - 1].0);
            }
          }
        }
      }
      r
    else
      var tail := Insert(a[1..], k, v);
      var r := [a[0]] + tail;
      assert Ascending(a) ==> Ascending(r) by {
        if Ascending(a) {
          BelowTotal(k, a[0].0);
          forall j | 0 < j < |r|
            ensures Below(r[0].0, r[j].0)
          {
            if r[j] == (k, v) {
            } else {
              assert r[j] in a[1..];
            }
          }
        }
      }
      assert Get(a, k) == Get(a[1..], k);
      r
  }

  /** `BTreeMap::values`, in key order. */
  function Values(a: Assoc): (r: seq<nat>)
    ensures |r| == |a|
    ensures forall j :: 0 <= j < |a| ==> r[j] == a[j].1
  {
    seq(|a|, j requires 0 <= j < |a| => a[j].1)
  }

  /** A node of the trie `optimize` builds and discards: its children by
      block, the node it hangs from, its slot in `goto` and its block. */
  datatype Node = Node(next: Assoc, back: nat, index: nat, block: string)

  datatype Matcher = Matcher(
    patternIndex: map<string, nat>,
    patterns: seq<string>,
    failure: seq<nat>,
    goto: seq<Assoc>,
    outputs: map<nat, nat>,
    inputs: seq<nat>,
    blocks: seq<string>,
    optimized: bool)

  datatype Callbacks = Callbacks(
    mapping: (string, Assoc) -> Option<nat>,
    compare: (string, string) -> bool,
    split: string -> seq<string>)

  datatype Run<+T> = Finished(value: T) | Crashed | OutOfFuel

  /** The callbacks every use in the repository passes: `mapping` is a map
      lookup and `compare` is string equality. */
  ghost predicate Lawful(cb: Callbacks)
  {
    && (forall b, a :: cb.mapping(b, a) == Get(a, b))
    && (forall x, y :: cb.compare(x, y) <==> x == y)
  }

  /** The automaton part of a matcher `new` returns, before any `optimize`. */
  predicate Fresh(m: Matcher)
  {
    m.failure == [0] && m.goto == [[]] && m.outputs == map[] && m.inputs == [] && m.blocks == []
  }

  /** `pattern_mapping` sends each pattern to its position in `patterns`,
      and every pattern is non-empty. */
  predicate Indexed(m: Matcher)
  {
    && |m.patternIndex| == |m.patterns|
    && (forall i :: 0 <= i < |m.patterns| ==> m.patterns[i] in m.patternIndex && m.patternIndex[m.patterns[i]] == i)
    && (forall p :: p in m.patternIndex ==> p in m.patterns)
    && (forall i :: 0 <= i < |m.patterns| ==> |m.patterns[i]| > 0)
  }

  function New(): (m: Matcher)
    ensures Fresh(m) && Indexed(m)
    ensures |m.patterns| == 0 && !m.optimized
  {
    Matcher(map[], [], [0], [[]], map[], [], [], false)
  }

  /** `add`: a non-empty pattern not seen before is appended and takes the
      next number; it also marks the automaton as out of date. */
  function Add(m: Matcher, pattern: string): (r: Matcher)
    ensures Indexed(m) ==> Indexed(r)
    ensures Indexed(m) ==> (r == m <==> |pattern| == 0 || pattern in m.patterns)
    ensures r == m || (r.patterns == m.patterns + [pattern] && !r.optimized)
    ensures r.failure == m.failure && r.goto == m.goto && r.outputs == m.outputs
    ensures r.inputs == m.inputs && r.blocks == m.blocks
  {
    if |pattern| > 0 && pattern !in m.patternIndex then
      var r := m.(patternIndex := m.patternIndex[pattern := |m.patternIndex|],
                  patterns := m.patterns + [pattern],
                  optimized := false);
      assert Indexed(m) ==> Indexed(r) by {
        if Indexed(m) {
          assert m.patternIndex.Keys + {pattern} == r.patternIndex.Keys;
          assert |r.patternIndex| == |m.patternIndex| + 1;
        }
      }
      r
    else m
  }

  // ---------------------------------------------------------------------
  // optimize: the trie

  /** The state of the build loop: the local `nodes` and the `state`
      counter, together with the matcher fields it appends to. */
  datatype Build = Build(
    nodes: seq<Node>,
    goto: seq<Assoc>,
    blocks: seq<string>,
    inputs: seq<nat>,
    outputs: map<nat, nat>,
    state: nat)

  /** A new node for `block` under `current`: its index is the length of
      `goto`, and only a non-root parent records it in `goto`. */
  function Grow(b: Build, current: nat, block: string): Build
    requires current < |b.nodes|
    requires current > 0 ==> b.nodes[current].index < |b.goto|
  {
    var index := |b.goto|;
    var goto := if current > 0 then b.goto[b.nodes[current].index := Insert(b.goto[b.nodes[current].index], block, index)] else b.goto;
    var nodes := b.nodes + [Node([], current, index, block)];
    Build(nodes[current := nodes[current].(next := Insert(nodes[current].next, block, index))],
          goto + [[]],
          b.blocks + [block],
          if current == 0 then b.inputs + [index] else b.inputs,
          b.outputs,
          b.state + 1)
  }

  /** The inner loop over the blocks of one pattern, from node `current`:
      an existing child is followed by the index it stores, a new one by the
      `state` counter. Gives the grown build and the last node. */
  function Follow(b: Build, current: nat, bs: seq<string>): Run<(Build, nat)>
    decreases |bs|
  {
    if |bs| == 0 then Finished((b, current))
    else if current >= |b.nodes| then Crashed
    else match Get(b.nodes[current].next, bs[0])
      case Some(v) => Follow(b, v, bs[1..])
      case None =>
        if current > 0 && b.nodes[current].index >= |b.goto| then Crashed
        else Follow(Grow(b, current, bs[0]), b.state, bs[1..])
  }

  /** The outer loop: patterns `i..` in order, each recording its last node
      as an output. */
  function BuildFrom(b: Build, patterns: seq<string>, split: string -> seq<string>, i: nat): Run<Build>
    decreases |patterns| - i
  {
    if i >= |patterns| then Finished(b)
    else match Follow(b, 0, split(patterns[i]))
      case Finished(res) => BuildFrom(res.0.(outputs := res.0.outputs[res.1 := i]), patterns, split, i + 1)
      case Crashed => Crashed
      case OutOfFuel => OutOfFuel
  }

  function Root(): Node
  {
    Node([], 0, 0, "")
  }

  /** The build loop of `optimize`, starting over the matcher's own
      `goto`, `blocks`, `inputs` and `outputs`: `optimize` does not clear
      them. */
  function Trie(m: Matcher, cb: Callbacks): Run<Build>
  {
    BuildFrom(Build([Root()], m.goto, m.blocks, m.inputs, m.outputs, 1), m.patterns, cb.split, 0)
  }

  // ---------------------------------------------------------------------
  // optimize: the failure links

  /** The inner `loop` for node `i` with block `block`: look for the block
      under `fp`, else step to `fp`'s failure link, stopping one round after
      a node whose link is itself. */
  function FailureOf(nodes: seq<Node>, failure: seq<nat>, i: nat, block: string, fp: nat, atLast: bool, fuel: nat): (r: Run<seq<nat>>)
    ensures r.Finished? ==> |r.value| == |failure|
    decreases fuel
  {
    if fuel == 0 then OutOfFuel
    else if fp >= |nodes| then Crashed
    else match Get(nodes[fp].next, block)
      case Some(f) => if i >= |failure| then Crashed else Finished(failure[i := f])
      case None =>
        if atLast then Finished(failure)
        else if fp >= |failure| then Crashed
        else FailureOf(nodes, failure, i, block, failure[fp], failure[fp] == fp, fuel - 1)
  }

  /** The breadth-first walk over the trie from the root, queue in front. */
  function Bfs(nodes: seq<Node>, failure: seq<nat>, queue: seq<nat>, fuel: nat): (r: Run<seq<nat>>)
    ensures r.Finished? ==> |r.value| == |failure|
    decreases fuel
  {
    if |queue| == 0 then Finished(failure)
    else if fuel == 0 then OutOfFuel
    else
      var i := queue[0];
      if i >= |nodes| || nodes[i].back >= |failure| then Crashed
      else
        var updated := if nodes[i].back != 0 then FailureOf(nodes, failure, i, nodes[i].block, failure[nodes[i].back], false, fuel) else Finished(failure);
        match updated
        case Finished(f) => Bfs(nodes, f, queue[1..] + Values(nodes[i].next), fuel - 1)
        case Crashed => Crashed
        case OutOfFuel => OutOfFuel
  }

  /** One round of the walk at a node hanging from the root: only its
      children are queued. */
  lemma BfsRootStep(nodes: seq<Node>, failure: seq<nat>, queue: seq<nat>, fuel: nat)
    requires |queue| > 0 && fuel > 0 && queue[0] < |nodes| && nodes[queue[0]].back == 0 && |failure| > 0
    ensures Bfs(nodes, failure, queue, fuel) == Bfs(nodes, failure, queue[1..] + Values(nodes[queue[0]].next), fuel - 1)
  {
  }

  /** The failure table the walk starts from: all zeroes once `goto` has
      outgrown it, the old one otherwise. */
  function BaseFailure(failure: seq<nat>, size: nat): (r: seq<nat>)
    ensures |r| >= size && |r| >= |failure|
  {
    if |failure| < size then seq(size, _ => 0) else failure
  }

  /** `optimize`: on success the matcher is marked optimised and its failure
      table covers every `goto` entry; the patterns are untouched. */
  function Optimize(m: Matcher, cb: Callbacks, fuel: nat): (r: Run<Matcher>)
    ensures r.Finished? ==> r.value.optimized && |r.value.failure| >= |r.value.goto|
    ensures r.Finished? ==> r.value.patterns == m.patterns && r.value.patternIndex == m.patternIndex
  {
    match Trie(m, cb)
    case Finished(b) =>
      (match Bfs(b.nodes, BaseFailure(m.failure, |b.goto|), [0], fuel)
       case Finished(f) =>
         Finished(m.(failure := f, goto := b.goto, outputs := b.outputs, inputs := b.inputs, blocks := b.blocks, optimized := true))
       case Crashed => Crashed
       case OutOfFuel => OutOfFuel)
    case Crashed => Crashed
    case OutOfFuel => OutOfFuel
  }

  // ---------------------------------------------------------------------
  // similar

  /** The scan of `inputs` at the root: the first entry whose block compares
      equal, or 0. */
  function Enter(inputs: seq<nat>, blocks: seq<string>, compare: (string, string) -> bool, block: string): Run<nat>
  {
    if |inputs| == 0 then Finished(0)
    else if inputs[0] == 0 || inputs[0] - 1 >= |blocks| then Crashed
    else if compare(block, blocks[inputs[0] - 1]) then Finished(inputs[0])
    else Enter(inputs[1..], blocks, compare, block)
  }

  /** The fallback when `mapping` gives nothing: the first key in order that
      compares equal, or 0. */
  function Scan(a: Assoc, compare: (string, string) -> bool, block: string): nat
  {
    if |a| == 0 then 0
    else if compare(block, a[0].0) then a[0].1
    else Scan(a[1..], compare, block)
  }

  /** The loop of `similar` at block `i` in `state`. A missing transition
      moves to the failure link and retries the same block, which spends
      fuel. */
  function Feed(m: Matcher, cb: Callbacks, bs: seq<string>, i: nat, state: nat, fuel: nat): Run<bool>
    decreases |bs| - i, fuel
  {
    if i >= |bs| then Finished(false)
    else if state == 0 then
      match Enter(m.inputs, m.blocks, cb.compare, bs[i])
      case Finished(s) => if s in m.outputs then Finished(true) else Feed(m, cb, bs, i + 1, s, fuel)
      case Crashed => Crashed
      case OutOfFuel => OutOfFuel
    else if state >= |m.goto| then Crashed
    else
      var next := match cb.mapping(bs[i], m.goto[state]) case Some(n) => n case None => Scan(m.goto[state], cb.compare, bs[i]);
      if next == 0 then
        if state >= |m.failure| then Crashed
        else if fuel == 0 then OutOfFuel
        else Feed(m, cb, bs, i, m.failure[state], fuel - 1)
      else if next in m.outputs then Finished(true)
      else Feed(m, cb, bs, i + 1, next, fuel)
  }

  /** `similar`: false until the automaton is optimised. */
  function Similar(m: Matcher, cb: Callbacks, sample: string, fuel: nat): (r: Run<bool>)
    ensures !m.optimized ==> r == Finished(false)
    ensures m.optimized && |cb.split(sample)| == 0 ==> r == Finished(false)
  {
    if !m.optimized then Finished(false)
    else Feed(m, cb, cb.split(sample), 0, 0, fuel)
  }

  // ---------------------------------------------------------------------
  // The first optimisation of a fresh matcher

  /** Children are numbered from 1 and stay below `n`. */
  predicate ChildrenIn(a: Assoc, n: nat)
  {
    forall j :: 0 <= j < |a| ==> 1 <= a[j].1 < n
  }

  lemma {:induction false} GetChild(a: Assoc, k: string, n: nat)
    requires ChildrenIn(a, n) && Get(a, k).Some?
    ensures 1 <= Get(a, k).value < n
  {
    if a[0].0 != k {
      GetChild(a[1..], k, n);
    }
  }

  /** The root step of `similar` with string equality: the first input whose
      block is `block`, or 0. */
  function Entry(inputs: seq<nat>, blocks: seq<string>, block: string): (r: nat)
    ensures r == 0 || r in inputs
  {
    if |inputs| == 0 then 0
    else if 1 <= inputs[0] <= |blocks| && blocks[inputs[0] - 1] == block then inputs[0]
    else Entry(inputs[1..], blocks, block)
  }

  /** What the build loop keeps when it starts from a fresh matcher: a node's
      position is its `goto` index, `goto` copies every non-root node's
      children, and the root's children are exactly what the `inputs` scan
      finds. */
  ghost predicate Synced(b: Build)
  {
    && |b.nodes| == |b.goto| == b.state
    && |b.blocks| + 1 == |b.nodes|
    && b.nodes[0].back == 0
    && (forall p :: 0 <= p < |b.nodes| ==> b.nodes[p].index == p && ChildrenIn(b.nodes[p].next, |b.nodes|))
    && (forall p :: 1 <= p < |b.nodes| ==> b.goto[p] == b.nodes[p].next && b.nodes[p].back < p)
    && (forall v :: v in b.inputs ==> 1 <= v < |b.nodes|)
    && (forall k :: Entry(b.inputs, b.blocks, k) == OrZero(Get(b.nodes[0].next, k)))
    && (forall s :: s in b.outputs ==> s < |b.nodes|)
  }

  /** `n'` keeps every node of `n` and every child link it had. */
  ghost predicate Extends(n: seq<Node>, n': seq<Node>)
  {
    && |n| <= |n'|
    && forall p, k :: 0 <= p < |n| && Get(n[p].next, k).Some? ==> Get(n'[p].next, k) == Get(n[p].next, k)
  }

  lemma ExtendsTrans(n: seq<Node>, n': seq<Node>, n'': seq<Node>)
    requires Extends(n, n') && Extends(n', n'')
    ensures Extends(n, n'')
  {
  }

  /** The node reached from `s` by following the child links for `bs`. */
  function Walk(nodes: seq<Node>, s: nat, bs: seq<string>): Option<nat>
    decreases |bs|
  {
    if |bs| == 0 then Some(s)
    else if s >= |nodes| then None
    else match Get(nodes[s].next, bs[0])
      case None => None
      case Some(v) => Walk(nodes, v, bs[1..])
  }

  lemma {:induction false} WalkExtends(n: seq<Node>, n': seq<Node>, s: nat, bs: seq<string>)
    requires Extends(n, n') && Walk(n, s, bs).Some?
    ensures Walk(n', s, bs) == Walk(n, s, bs)
    decreases |bs|
  {
    if |bs| > 0 {
      WalkExtends(n, n', Get(n[s].next, bs[0]).value, bs[1..]);
    }
  }

  lemma {:induction false} EntryExtend(inputs: seq<nat>, blocks: seq<string>, x: string, k: string)
    requires forall v :: v in inputs ==> 1 <= v <= |blocks|
    ensures Entry(inputs, blocks + [x], k) == Entry(inputs, blocks, k)
    decreases |inputs|
  {
    if |inputs| > 0 {
      assert forall v :: v in inputs[1..] ==> v in inputs;
      EntryExtend(inputs[1..], blocks, x, k);
    }
  }

  lemma {:induction false} EntrySnoc(inputs: seq<nat>, blocks: seq<string>, id: nat, k: string)
    requires forall v :: v in inputs ==> v >= 1
    ensures Entry(inputs + [id], blocks, k)
         == if Entry(inputs, blocks, k) != 0 then Entry(inputs, blocks, k)
            else if 1 <= id <= |blocks| && blocks[id - 1] == k then id else 0
    decreases |inputs|
  {
    if |inputs| == 0 {
      assert Entry([id][1..], blocks, k) == 0;
    } else {
      assert (inputs + [id])[1..] == inputs[1..] + [id];
      assert forall v :: v in inputs[1..] ==> v in inputs;
      EntrySnoc(inputs[1..], blocks, id, k);
    }
  }

  /** One new node keeps the build synced and links it under `current`. */
  lemma GrowSynced(b: Build, current: nat, block: string)
    requires Synced(b) && current < |b.nodes|
    requires Get(b.nodes[current].next, block).None?
    ensures current > 0 ==> b.nodes[current].index < |b.goto|
    ensures var b' := Grow(b, current, block);
      && Synced(b') && Extends(b.nodes, b'.nodes) && b'.outputs == b.outputs
      && Get(b'.nodes[current].next, block) == Some(|b.nodes|)
  {
    GrowNodes(b, current, block);
    GrowLinks(b, current, block);
    GrowEntries(b, current, block);
    GrowExtends(b, current, block);
  }

  /** `GrowSynced`, for the node indices and child links. */
  lemma GrowNodes(b: Build, current: nat, block: string)
    requires Synced(b) && current < |b.nodes|
    requires Get(b.nodes[current].next, block).None?
    ensures current > 0 ==> b.nodes[current].index < |b.goto|
    ensures var b' := Grow(b, current, block);
      && |b'.nodes| == |b'.goto| == b'.state == |b.nodes| + 1 && |b'.blocks| + 1 == |b'.nodes|
      && b'.nodes[0].back == 0 && b'.outputs == b.outputs
      && (forall p :: 0 <= p < |b'.nodes| ==> b'.nodes[p].index == p && ChildrenIn(b'.nodes[p].next, |b'.nodes|))
      && Get(b'.nodes[current].next, block) == Some(|b.nodes|)
  {
    var b' := Grow(b, current, block);
    var n := |b.nodes|;
    assert |b'.nodes| == n + 1;
    forall p | 0 <= p < n + 1
      ensures b'.nodes[p].index == p && ChildrenIn(b'.nodes[p].next, n + 1)
    {
      if p == current {
        var a := b.nodes[current].next;
        var r := Insert(a, block, n);
        assert b'.nodes[p].next == r;
        forall j | 0 <= j < |r|
          ensures 1 <= r[j].1 < n + 1
        {
          if r[j] != (block, n) {
            assert r[j] in a;
          }
        }
      }
    }
  }

  /** `GrowSynced`, for the goto table, the back links and the inputs. */
  lemma GrowLinks(b: Build, current: nat, block: string)
    requires Synced(b) && current < |b.nodes|
    requires Get(b.nodes[current].next, block).None?
    ensures current > 0 ==> b.nodes[current].index < |b.goto|
    ensures var b' := Grow(b, current, block);
      && (forall p :: 1 <= p < |b'.nodes| ==> b'.goto[p] == b'.nodes[p].next && b'.nodes[p].back < p)
      && (forall v :: v in b'.inputs ==> 1 <= v < |b'.nodes|)
      && (forall s :: s in b'.outputs ==> s < |b'.nodes|)
  {
    var b' := Grow(b, current, block);
    var n := |b.nodes|;
    forall p | 1 <= p < n + 1
      ensures b'.goto[p] == b'.nodes[p].next && b'.nodes[p].back < p
    {
    }
    forall v | v in b'.inputs
      ensures 1 <= v < n + 1
    {
    }
  }

  /** `GrowSynced`, for the root's entries. */
  lemma GrowEntries(b: Build, current: nat, block: string)
    requires Synced(b) && current < |b.nodes|
    requires Get(b.nodes[current].next, block).None?
    ensures current > 0 ==> b.nodes[current].index < |b.goto|
    ensures var b' := Grow(b, current, block);
      forall k :: Entry(b'.inputs, b'.blocks, k) == OrZero(Get(b'.nodes[0].next, k))
  {
    var b' := Grow(b, current, block);
    var n := |b.nodes|;
    forall v | v in b.inputs
      ensures 1 <= v <= |b.blocks|
    {
    }
    forall k
      ensures Entry(b'.inputs, b'.blocks, k) == OrZero(Get(b'.nodes[0].next, k))
    {
      EntryExtend(b.inputs, b.blocks, block, k);
      if current == 0 {
        EntrySnoc(b.inputs, b.blocks + [block], n, k);
        assert Get(b.nodes[0].next, block).None?;
      } else {
        assert b'.nodes[0] == b.nodes[0];
      }
    }
  }

  /** `GrowSynced`, for the links kept. */
  lemma GrowExtends(b: Build, current: nat, block: string)
    requires Synced(b) && current < |b.nodes|
    requires Get(b.nodes[current].next, block).None?
    ensures current > 0 ==> b.nodes[current].index < |b.goto|
    ensures Extends(b.nodes, Grow(b, current, block).nodes)
  {
  }

  /** The inner build loop never crashes on a synced build and ends at the
      node that walking the blocks from `current` reaches. */
  lemma {:induction false} FollowSynced(b: Build, current: nat, bs: seq<string>)
    requires Synced(b) && current < |b.nodes|
    ensures Follow(b, current, bs).Finished?
    ensures var (b', last) := Follow(b, current, bs).value;
      && Synced(b') && Extends(b.nodes, b'.nodes) && b'.outputs == b.outputs
      && last < |b'.nodes| && Walk(b'.nodes, current, bs) == Some(last)
    decreases |bs|
  {
    if |bs| > 0 {
      match Get(b.nodes[current].next, bs[0])
      case Some(v) =>
        GetChild(b.nodes[current].next, bs[0], |b.nodes|);
        FollowSynced(b, v, bs[1..]);
        var (b', last) := Follow(b, v, bs[1..]).value;
      case None =>
        GrowSynced(b, current, bs[0]);
        var b1 := Grow(b, current, bs[0]);
        FollowSynced(b1, b.state, bs[1..]);
        var (b', last) := Follow(b1, b.state, bs[1..]).value;
        ExtendsTrans(b.nodes, b1.nodes, b'.nodes);
    }
  }

  /** The pattern's blocks lead from the root to an output node. */
  predicate Reaches(nodes: seq<Node>, outputs: map<nat, nat>, bs: seq<string>)
  {
    Walk(nodes, 0, bs).Some? && Walk(nodes, 0, bs).value in outputs
  }

  lemma {:induction false} BuildFromSynced(b: Build, patterns: seq<string>, split: string -> seq<string>, i: nat)
    requires Synced(b) && i <= |patterns|
    requires forall j :: 0 <= j < i ==> Reaches(b.nodes, b.outputs, split(patterns[j]))
    ensures BuildFrom(b, patterns, split, i).Finished?
    ensures var b' := BuildFrom(b, patterns, split, i).value;
      Synced(b') && forall j :: 0 <= j < |patterns| ==> Reaches(b'.nodes, b'.outputs, split(patterns[j]))
    decreases |patterns| - i
  {
    if i < |patterns| {
      FollowSynced(b, 0, split(patterns[i]));
      var (b1, last) := Follow(b, 0, split(patterns[i])).value;
      var b2 := b1.(outputs := b1.outputs[last := i]);
      forall j | 0 <= j < i + 1
        ensures Reaches(b2.nodes, b2.outputs, split(patterns[j]))
      {
        if j < i {
          WalkExtends(b.nodes, b1.nodes, 0, split(patterns[j]));
        }
      }
      BuildFromSynced(b2, patterns, split, i + 1);
    }
  }

  /** The trie of a fresh matcher: every pattern's blocks lead from the root
      to a node recorded in `outputs` (`outputs.insert(next_state, i)`). */
  lemma TrieOfFresh(m: Matcher, cb: Callbacks)
    requires Fresh(m)
    ensures Trie(m, cb).Finished? && Synced(Trie(m, cb).value)
    ensures forall j :: 0 <= j < |m.patterns| ==> Reaches(Trie(m, cb).value.nodes, Trie(m, cb).value.outputs, cb.split(m.patterns[j]))
  {
    var b0 := Build([Root()], m.goto, m.blocks, m.inputs, m.outputs, 1);
    assert Synced(b0);
    BuildFromSynced(b0, m.patterns, cb.split, 0);
  }

  /** Every node, child and failure link is a position of `nodes`. */
  ghost predicate Bounded(nodes: seq<Node>, failure: seq<nat>)
  {
    && |failure| == |nodes|
    && (forall p :: 0 <= p < |nodes| ==> nodes[p].back < |nodes| && ChildrenIn(nodes[p].next, |nodes|))
    && (forall p :: 0 <= p < |failure| ==> failure[p] < |nodes|)
  }

  lemma {:induction false} FailureOfSafe(nodes: seq<Node>, failure: seq<nat>, i: nat, block: string, fp: nat, atLast: bool, fuel: nat)
    requires Bounded(nodes, failure) && i < |nodes| && fp < |nodes|
    ensures !FailureOf(nodes, failure, i, block, fp, atLast, fuel).Crashed?
    ensures FailureOf(nodes, failure, i, block, fp, atLast, fuel).Finished? ==>
      Bounded(nodes, FailureOf(nodes, failure, i, block, fp, atLast, fuel).value)
    decreases fuel
  {
    if fuel > 0 {
      match Get(nodes[fp].next, block)
      case Some(f) =>
        GetChild(nodes[fp].next, block, |nodes|);
      case None =>
        if !atLast {
          FailureOfSafe(nodes, failure, i, block, failure[fp], failure[fp] == fp, fuel - 1);
        }
    }
  }

  lemma {:induction false} BfsSafe(nodes: seq<Node>, failure: seq<nat>, queue: seq<nat>, fuel: nat)
    requires Bounded(nodes, failure)
    requires forall q :: q in queue ==> q < |nodes|
    ensures !Bfs(nodes, failure, queue, fuel).Crashed?
    ensures Bfs(nodes, failure, queue, fuel).Finished? ==> Bounded(nodes, Bfs(nodes, failure, queue, fuel).value)
    decreases fuel
  {
    if |queue| > 0 && fuel > 0 {
      var i := queue[0];
      assert i in queue;
      var back := nodes[i].back;
      if back != 0 {
        FailureOfSafe(nodes, failure, i, nodes[i].block, failure[back], false, fuel);
      }
      var updated := if back != 0 then FailureOf(nodes, failure, i, nodes[i].block, failure[back], false, fuel) else Finished(failure);
      if updated.Finished? {
        var q' := queue[1..] + Values(nodes[i].next);
        forall q | q in q'
          ensures q < |nodes|
        {
          if q in queue[1..] {
            assert q in queue;
          } else {
            var j :| 0 <= j < |nodes[i].next| && Values(nodes[i].next)[j] == q;
          }
        }
        BfsSafe(nodes, updated.value, q', fuel - 1);
      }
    }
  }

  /** The matcher `r` runs the automaton of the trie `nodes`. */
  ghost predicate Realises(r: Matcher, nodes: seq<Node>)
  {
    && |r.goto| == |nodes| >= 1
    && (forall p :: 0 <= p < |nodes| ==> ChildrenIn(nodes[p].next, |nodes|))
    && (forall p :: 1 <= p < |nodes| ==> r.goto[p] == nodes[p].next)
    && (forall v :: v in r.inputs ==> 1 <= v <= |r.blocks|)
    && (forall k :: Entry(r.inputs, r.blocks, k) == OrZero(Get(nodes[0].next, k)))
  }

  /** The first optimisation of a fresh matcher never indexes out of bounds,
      and the matcher it gives runs the automaton of its trie. */
  lemma OptimizeFresh(m: Matcher, cb: Callbacks, fuel: nat)
    requires Fresh(m)
    ensures !Optimize(m, cb, fuel).Crashed?
    ensures Optimize(m, cb, fuel).Finished? ==> Realises(Optimize(m, cb, fuel).value, Trie(m, cb).value.nodes)
  {
    TrieOfFresh(m, cb);
    var b := Trie(m, cb).value;
    var base := BaseFailure(m.failure, |b.goto|);
    assert Bounded(b.nodes, base) by {
      forall p | 0 <= p < |b.nodes|
        ensures b.nodes[p].back < |b.nodes|
      {
        if p > 0 {
          assert b.nodes[p].back < p;
        }
      }
    }
    BfsSafe(b.nodes, base, [0], fuel);
    if Optimize(m, cb, fuel).Finished? {
      var r := Optimize(m, cb, fuel).value;
      assert r.goto == b.goto && r.inputs == b.inputs && r.blocks == b.blocks;
    }
  }

  lemma {:induction false} EnterIsEntry(inputs: seq<nat>, blocks: seq<string>, compare: (string, string) -> bool, k: string)
    requires forall x, y :: compare(x, y) <==> x == y
    requires forall v :: v in inputs ==> 1 <= v <= |blocks|
    ensures Enter(inputs, blocks, compare, k) == Finished(Entry(inputs, blocks, k))
    decreases |inputs|
  {
    if |inputs| > 0 {
      assert inputs[0] in inputs;
      assert compare(k, blocks[inputs[0] - 1]) <==> blocks[inputs[0] - 1] == k;
      assert forall v :: v in inputs[1..] ==> v in inputs;
      EnterIsEntry(inputs[1..], blocks, compare, k);
    }
  }

  /** Fed blocks that lead from `s` to an output node, `similar`'s loop
      answers true without ever taking a failure link. */
  lemma {:induction false} FeedAlong(r: Matcher, cb: Callbacks, nodes: seq<Node>, bs: seq<string>, i: nat, s: nat, t: nat, fuel: nat)
    requires Lawful(cb) && Realises(r, nodes)
    requires i < |bs| && s < |nodes|
    requires Walk(nodes, s, bs[i..]) == Some(t) && t in r.outputs
    ensures Feed(r, cb, bs, i, s, fuel) == Finished(true)
    decreases |bs| - i
  {
    assert bs[i..][0] == bs[i] && bs[i..][1..] == bs[i + 1..];
    var v := Get(nodes[s].next, bs[i]).value;
    GetChild(nodes[s].next, bs[i], |nodes|);
    if s == 0 {
      EnterIsEntry(r.inputs, r.blocks, cb.compare, bs[i]);
    } else {
      assert cb.mapping(bs[i], r.goto[s]) == Some(v);
    }
    assert i + 1 == |bs| ==> Walk(nodes, v, bs[i + 1..]) == Some(v);
    if v !in r.outputs {
      FeedAlong(r, cb, nodes, bs, i + 1, v, t, fuel);
    }
  }

  /** Once a fresh matcher is optimised, every added pattern that splits into
      at least one block is recognised in a sample that is the pattern
      itself, whatever fuel the scan is given. */
  lemma OptimizeRecognisesPatterns(m: Matcher, cb: Callbacks, fuel: nat, j: nat, fuel': nat)
    requires Fresh(m) && Lawful(cb) && Optimize(m, cb, fuel).Finished?
    requires j < |m.patterns| && |cb.split(m.patterns[j])| > 0
    ensures Similar(Optimize(m, cb, fuel).value, cb, m.patterns[j], fuel') == Finished(true)
  {
    OptimizeFresh(m, cb, fuel);
    TrieOfFresh(m, cb);
    var b := Trie(m, cb).value;
    var r := Optimize(m, cb, fuel).value;
    var bs := cb.split(m.patterns[j]);
    assert Reaches(b.nodes, b.outputs, bs);
    assert r.outputs == b.outputs;
    assert bs[0..] == bs;
    FeedAlong(r, cb, b.nodes, bs, 0, 0, Walk(b.nodes, 0, bs).value, fuel');
  }

  lemma {:induction false} FeedNowhere(r: Matcher, cb: Callbacks, bs: seq<string>, i: nat, fuel: nat)
    requires r.inputs == [] && r.outputs == map[]
    ensures Feed(r, cb, bs, i, 0, fuel) == Finished(false)
    decreases |bs| - i
  {
    if i < |bs| {
      FeedNowhere(r, cb, bs, i + 1, fuel);
    }
  }

  /** With no pattern added, `optimize` finishes and `similar` is false for
      every sample. */
  lemma NoPatternsNeverMatch(m: Matcher, cb: Callbacks, fuel: nat, sample: string, fuel': nat)
    requires Fresh(m) && |m.patterns| == 0 && fuel >= 1
    ensures Optimize(m, cb, fuel).Finished?
    ensures Similar(Optimize(m, cb, fuel).value, cb, sample, fuel') == Finished(false)
  {
    var b := Build([Root()], m.goto, m.blocks, m.inputs, m.outputs, 1);
    assert Trie(m, cb) == Finished(b);
    assert Bfs(b.nodes, [0], [0], fuel) == Bfs(b.nodes, [0], [], fuel - 1);
    var r := Optimize(m, cb, fuel).value;
    FeedNowhere(r, cb, cb.split(sample), 0, fuel');
  }

  // ---------------------------------------------------------------------
  // Re-optimising

  /** The automaton cleared back to what `new` gives, patterns kept. */
  function Reset(m: Matcher): (r: Matcher)
    ensures Fresh(r) && !r.optimized
    ensures r.patterns == m.patterns && r.patternIndex == m.patternIndex
  {
    m.(failure := [0], goto := [[]], outputs := map[], inputs := [], blocks := [], optimized := false)
  }

  /** `optimize` rebuilding the automaton from scratch: it never indexes out
      of bounds, and on a matcher that was never optimised it is `optimize`
      itself. */
  function OptimizeFixed(m: Matcher, cb: Callbacks, fuel: nat): (r: Run<Matcher>)
    ensures !r.Crashed?
    ensures Fresh(m) ==> r == Optimize(m, cb, fuel)
    ensures r.Finished? ==> r.value.optimized && r.value.patterns == m.patterns && r.value.patternIndex == m.patternIndex
  {
    OptimizeFresh(Reset(m), cb, fuel);
    assert Fresh(m) ==> Optimize(Reset(m), cb, fuel) == Optimize(m, cb, fuel) by {
      if Fresh(m) {
        assert Trie(Reset(m), cb) == Trie(m, cb);
      }
    }
    Optimize(Reset(m), cb, fuel)
  }

  /** Re-optimising gives the same automaton as optimising once. */
  lemma OptimizeFixedIdempotent(m: Matcher, cb: Callbacks, fuel: nat)
    requires OptimizeFixed(m, cb, fuel).Finished?
    ensures OptimizeFixed(OptimizeFixed(m, cb, fuel).value, cb, fuel) == OptimizeFixed(m, cb, fuel)
  {
    var r := OptimizeFixed(m, cb, fuel).value;
    assert Reset(r) == Reset(m);
  }

  /** After the rebuilding `optimize`, however often it has run, every
      pattern is recognised in itself. */
  lemma OptimizeFixedRecognises(m: Matcher, cb: Callbacks, fuel: nat, j: nat, fuel': nat)
    requires Lawful(cb) && OptimizeFixed(m, cb, fuel).Finished?
    requires j < |m.patterns| && |cb.split(m.patterns[j])| > 0
    ensures Similar(OptimizeFixed(m, cb, fuel).value, cb, m.patterns[j], fuel') == Finished(true)
  {
    OptimizeRecognisesPatterns(Reset(m), cb, fuel, j, fuel');
  }

  // ---------------------------------------------------------------------
  // The callbacks of the repository's tests

  /** `split("")` without the empty pieces: one block per character. */
  function Chars(s: string): (r: seq<string>)
    ensures |r| == |s| && forall i :: 0 <= i < |s| ==> r[i] == [s[i]]
  {
    seq(|s|, i requires 0 <= i < |s| => [s[i]])
  }

  function Standard(): (cb: Callbacks)
    ensures Lawful(cb)
    ensures forall s :: cb.split(s) == Chars(s)
  {
    Callbacks((b, a) => Get(a, b), (x, y) => x == y, Chars)
  }

  /** The matcher holding the single pattern "a", before and after its
      first `optimize`. */
  function OneA(): Matcher
  {
    Matcher(map["a" := 0], ["a"], [0], [[]], map[], [], [], false)
  }

  function OneAOptimized(): Matcher
  {
    Matcher(map["a" := 0], ["a"], [0, 0], [[], []], map[1 := 0], [1], ["a"], true)
  }

  lemma OneAOptimizes(fuel: nat)
    requires fuel >= 2
    ensures Add(New(), "a") == OneA()
    ensures Optimize(OneA(), Standard(), fuel) == Finished(OneAOptimized())
  {
    var cb := Standard();
    var m := OneA();
    var t := OneATrie(1);
    OneABuilds(m, 1);
    assert BaseFailure(m.failure, 2) == [0, 0];
    BfsRootStep(t.nodes, [0, 0], [0], fuel);
    assert Values(t.nodes[0].next) == [1];
    assert [0][1..] + [1] == [1];
    BfsRootStep(t.nodes, [0, 0], [1], fuel - 1);
    assert Values(t.nodes[1].next) == [];
    assert [1][1..] + [] == [];
    assert Bfs(t.nodes, [0, 0], [], fuel - 2) == Finished([0, 0]);
    assert Bfs(t.nodes, BaseFailure(m.failure, |t.goto|), [0], fuel) == Finished([0, 0]);
    assert m.(failure := [0, 0], goto := t.goto, outputs := t.outputs, inputs := t.inputs, blocks := t.blocks, optimized := true) == OneAOptimized();
    assert New().patternIndex["a" := 0] == OneA().patternIndex by {
      assert New().patternIndex == map[];
    }
  }

  /** The trie the build loop makes for "a" when `goto` already has
      `index` entries. */
  function OneATrie(index: nat): Build
  {
    Build([Node([("a", index)], 0, 0, ""), Node([], 0, index, "a")],
          (if index == 1 then [[]] else [[], []]) + [[]],
          (if index == 1 then [] else ["a"]) + ["a"],
          (if index == 1 then [] else [1]) + [index],
          map[1 := 0], 2)
  }

  lemma OneABuilds(m: Matcher, index: nat)
    requires m == OneA() || m == OneAOptimized()
    requires index == |m.goto|
    ensures Trie(m, Standard()) == Finished(OneATrie(index))
  {
    var cb := Standard();
    assert cb.split("a") == ["a"];
    var b0 := Build([Root()], m.goto, m.blocks, m.inputs, m.outputs, 1);
    var g := Grow(b0, 0, "a");
    assert ["a"][1..] == [];
    assert Follow(b0, 0, ["a"]) == Follow(g, 1, []) == Finished((g, 1));
    assert Insert([], "a", index) == [("a", index)];
    assert g.(outputs := map[1 := 0]) == OneATrie(index);
    assert m.patterns == ["a"] && m.patterns[0] == "a";
    assert g.outputs[1 := 0] == map[1 := 0];
    assert BuildFrom(b0, m.patterns, cb.split, 0) == BuildFrom(OneATrie(index), m.patterns, cb.split, 1);
  }

  /** `optimize` run a second time on the pattern "a" indexes past the end
      of the new trie: the second build numbers its node after the old
      `goto` entries (2) but stores it at position 1. */
  lemma ReoptimizeCrashes(fuel: nat)
    requires fuel >= 2
    ensures Optimize(Add(New(), "a"), Standard(), fuel) == Finished(OneAOptimized())
    ensures Optimize(OneAOptimized(), Standard(), fuel) == Crashed
  {
    OneAOptimizes(fuel);
    var cb := Standard();
    var r := OneAOptimized();
    var u := OneATrie(2);
    OneABuilds(r, 2);
    assert BaseFailure(r.failure, 3) == [0, 0, 0];
    BfsRootStep(u.nodes, [0, 0, 0], [0], fuel);
    assert Values(u.nodes[0].next) == [2];
    assert [0][1..] + [2] == [2];
  }

  /** The rebuilding `optimize` repeated on the same matcher finishes. */
  lemma ReoptimizeFixedFinishes(fuel: nat)
    requires fuel >= 2
    ensures OptimizeFixed(Add(New(), "a"), Standard(), fuel).Finished?
    ensures OptimizeFixed(OptimizeFixed(Add(New(), "a"), Standard(), fuel).value, Standard(), fuel).Finished?
  {
    ReoptimizeCrashes(fuel);
    OptimizeFixedIdempotent(Add(New(), "a"), Standard(), fuel);
  }

  // ---------------------------------------------------------------------
  // Stepping the build loop on concrete patterns

  lemma FollowNew(b: Build, current: nat, bs: seq<string>)
    requires |bs| > 0 && current < |b.nodes| && Get(b.nodes[current].next, bs[0]).None?
    requires current > 0 ==> b.nodes[current].index < |b.goto|
    ensures Follow(b, current, bs) == Follow(Grow(b, current, bs[0]), b.state, bs[1..])
  {
  }

  /** `Grow` described part by part, so that a concrete step can be checked
      one field at a time. */
  lemma GrowInto(b: Build, current: nat, block: string, next: Assoc, b': Build)
    requires current < |b.nodes| && (current > 0 ==> b.nodes[current].index < |b.goto|)
    requires next == Insert(b.nodes[current].next, block, |b.goto|)
    requires b'.nodes == b.nodes[current := b.nodes[current].(next := next)] + [Node([], current, |b.goto|, block)]
    requires current > 0 ==> b'.goto == b.goto[b.nodes[current].index := Insert(b.goto[b.nodes[current].index], block, |b.goto|)] + [[]]
    requires current == 0 ==> b'.goto == b.goto + [[]] && b'.inputs == b.inputs + [|b.goto|]
    requires current > 0 ==> b'.inputs == b.inputs
    requires b'.blocks == b.blocks + [block] && b'.outputs == b.outputs && b'.state == b.state + 1
    ensures Grow(b, current, block) == b'
  {
    var nodes := b.nodes + [Node([], current, |b.goto|, block)];
    assert nodes[current := nodes[current].(next := next)] == b'.nodes;
  }

  lemma FollowOld(b: Build, current: nat, bs: seq<string>, v: nat)
    requires |bs| > 0 && current < |b.nodes| && Get(b.nodes[current].next, bs[0]) == Some(v)
    ensures Follow(b, current, bs) == Follow(b, v, bs[1..])
  {
  }

  lemma BuildNext(b: Build, patterns: seq<string>, split: string -> seq<string>, i: nat, b': Build, last: nat)
    requires i < |patterns| && Follow(b, 0, split(patterns[i])) == Finished((b', last))
    ensures BuildFrom(b, patterns, split, i) == BuildFrom(b'.(outputs := b'.outputs[last := i]), patterns, split, i + 1)
  {
  }

  lemma BfsStep(nodes: seq<Node>, failure: seq<nat>, queue: seq<nat>, fuel: nat, f: seq<nat>)
    requires |queue| > 0 && fuel > 0 && queue[0] < |nodes|
    requires 0 < nodes[queue[0]].back < |failure|
    requires FailureOf(nodes, failure, queue[0], nodes[queue[0]].block, failure[nodes[queue[0]].back], false, fuel) == Finished(f)
    ensures Bfs(nodes, failure, queue, fuel) == Bfs(nodes, f, queue[1..] + Values(nodes[queue[0]].next), fuel - 1)
  {
  }

  /** With string equality, the fallback scan finds what the lookup finds. */
  lemma {:induction false} ScanIsGet(a: Assoc, compare: (string, string) -> bool, block: string)
    requires forall x, y :: compare(x, y) <==> x == y
    ensures Scan(a, compare, block) == OrZero(Get(a, block))
  {
    if |a| > 0 {
      assert compare(block, a[0].0) <==> a[0].0 == block;
      ScanIsGet(a[1..], compare, block);
    }
  }

  lemma FeedRoot(r: Matcher, cb: Callbacks, bs: seq<string>, i: nat, fuel: nat, s: nat)
    requires Lawful(cb) && i < |bs| && (forall v :: v in r.inputs ==> 1 <= v <= |r.blocks|)
    requires Entry(r.inputs, r.blocks, bs[i]) == s
    ensures Feed(r, cb, bs, i, 0, fuel) == if s in r.outputs then Finished(true) else Feed(r, cb, bs, i + 1, s, fuel)
  {
    EnterIsEntry(r.inputs, r.blocks, cb.compare, bs[i]);
  }

  lemma FeedMove(r: Matcher, cb: Callbacks, bs: seq<string>, i: nat, state: nat, fuel: nat, n: nat)
    requires Lawful(cb) && i < |bs| && 0 < state < |r.goto|
    requires Get(r.goto[state], bs[i]) == Some(n) && n != 0
    ensures Feed(r, cb, bs, i, state, fuel) == if n in r.outputs then Finished(true) else Feed(r, cb, bs, i + 1, n, fuel)
  {
  }

  lemma FeedFail(r: Matcher, cb: Callbacks, bs: seq<string>, i: nat, state: nat, fuel: nat)
    requires Lawful(cb) && i < |bs| && 0 < state < |r.goto| && state < |r.failure| && fuel > 0
    requires Get(r.goto[state], bs[i]).None?
    ensures Feed(r, cb, bs, i, state, fuel) == Feed(r, cb, bs, i, r.failure[state], fuel - 1)
  {
    ScanIsGet(r.goto[state], cb.compare, bs[i]);
  }

  // ---------------------------------------------------------------------
  // The scan misses a pattern that ends inside a longer partial match

  /** The blocks of `pat` appear contiguously in `bs`, starting at one of
      its blocks. */
  ghost predicate Occurs(bs: seq<string>, pat: seq<string>)
  {
    exists q :: 0 <= q < |bs| && At(bs, pat, q)
  }

  predicate At(bs: seq<string>, pat: seq<string>, q: nat)
  {
    q + |pat| <= |bs| && bs[q..q + |pat|] == pat
  }

  function OccursFrom(bs: seq<string>, pat: seq<string>, q: nat): (r: bool)
    ensures r <==> exists q' :: q <= q' < |bs| && At(bs, pat, q')
    decreases |bs| - q
  {
    if q >= |bs| then false
    else At(bs, pat, q) || OccursFrom(bs, pat, q + 1)
  }

  function AnyOccurs(pats: seq<seq<string>>, bs: seq<string>, j: nat): (r: bool)
    ensures r <==> exists j' :: j <= j' < |pats| && Occurs(bs, pats[j'])
    decreases |pats| - j
  {
    if j >= |pats| then false
    else OccursFrom(bs, pats[j], 0) || AnyOccurs(pats, bs, j + 1)
  }

  /** What `similar` is meant to answer: whether the sample's blocks contain
      some pattern's blocks, once the matcher is optimised. */
  function SimilarFixed(m: Matcher, cb: Callbacks, sample: string): (r: bool)
    ensures r <==> m.optimized && exists j :: 0 <= j < |m.patterns| && Occurs(cb.split(sample), cb.split(m.patterns[j]))
  {
    var pats := seq(|m.patterns|, j requires 0 <= j < |m.patterns| => cb.split(m.patterns[j]));
    assert forall j :: 0 <= j < |pats| ==> pats[j] == cb.split(m.patterns[j]);
    m.optimized && AnyOccurs(pats, cb.split(sample), 0)
  }
}

=== FILE: aho_corasick_scenarios.dfy ===
/** The repository's own Aho-Corasick examples, traced through the model
    with the callbacks its tests pass (`Standard`: one block per character,
    map lookup, string equality). Each scenario spells out the matcher after
    the `add` calls, the trie of the build loop, every round of the
    breadth-first failure walk and every step of `similar`.
 */
module AhoCorasickScenarios {
  import opened Wrappers
  import opened AhoCorasick

  /** The patterns "abc", "aab", "bcd" added in this order to a new matcher. */
  function Basic(): Matcher
  {
    Matcher(map["abc" := 0, "aab" := 1, "bcd" := 2], ["abc", "aab", "bcd"], [0], [[]], map[], [], [], false)
  }

  lemma BasicAdd0()
    ensures Add(New(), "abc") == Matcher(map["abc" := 0], ["abc"], [0], [[]], map[], [], [], false)
  {
    assert "abc" !in New().patternIndex;
    assert New().patternIndex["abc" := 0] == map["abc" := 0];
  }

  lemma BasicAdd1()
    ensures Add(Matcher(map["abc" := 0], ["abc"], [0], [[]], map[], [], [], false), "aab") == Matcher(map["abc" := 0, "aab" := 1], ["abc", "aab"], [0], [[]], map[], [], [], false)
  {
    assert "aab" !in map["abc" := 0];
    assert map["abc" := 0]["aab" := 1] == map["abc" := 0, "aab" := 1];
  }

  lemma BasicAdd2()
    ensures Add(Matcher(map["abc" := 0, "aab" := 1], ["abc", "aab"], [0], [[]], map[], [], [], false), "bcd") == Matcher(map["abc" := 0, "aab" := 1, "bcd" := 2], ["abc", "aab", "bcd"], [0], [[]], map[], [], [], false)
  {
    assert "bcd" !in map["abc" := 0, "aab" := 1];
    assert map["abc" := 0, "aab" := 1]["bcd" := 2] == map["abc" := 0, "aab" := 1, "bcd" := 2];
  }

  lemma BasicAdded()
    ensures Add(Add(Add(New(), "abc"), "aab"), "bcd") == Basic()
  {
    BasicAdd0();
    BasicAdd1();
    BasicAdd2();
  }

  function BasicB0(): Build
  {
    Build([Node([], 0, 0, "")], [[]], [], [], map[], 1)
  }

  function BasicB1(): Build
  {
    Build([Node([("a", 1)], 0, 0, ""), Node([], 0, 1, "a")], [[], []], ["a"], [1], map[], 2)
  }

  function BasicB2(): Build
  {
    Build([Node([("a", 1)], 0, 0, ""), Node([("b", 2)], 0, 1, "a"), Node([], 1, 2, "b")], [[], [("b", 2)], []], ["a", "b"], [1], map[], 3)
  }

  function BasicB3(): Build
  {
    Build([Node([("a", 1)], 0, 0, ""), Node([("b", 2)], 0, 1, "a"), Node([("c", 3)], 1, 2, "b"), Node([], 2, 3, "c")], [[], [("b", 2)], [("c", 3)], []], ["a", "b", "c"], [1], map[], 4)
  }

  function BasicB4(): Build
  {
    Build([Node([("a", 1)], 0, 0, ""), Node([("b", 2)], 0, 1, "a"), Node([("c", 3)], 1, 2, "b"), Node([], 2, 3, "c")], [[], [("b", 2)], [("c", 3)], []], ["a", "b", "c"], [1], map[3 := 0], 4)
  }

  function BasicB5(): Build
  {
    Build([Node([("a", 1)], 0, 0, ""), Node([("a", 4), ("b", 2)], 0, 1, "a"), Node([("c", 3)], 1, 2, "b"), Node([], 2, 3, "c"), Node([], 1, 4, "a")], [[], [("a", 4), ("b", 2)], [("c", 3)], [], []], ["a", "b", "c", "a"], [1], map[3 := 0], 5)
  }

  function BasicB6(): Build
  {
    Build([Node([("a", 1)], 0, 0, ""), Node([("a", 4), ("b", 2)], 0, 1, "a"), Node([("c", 3)], 1, 2, "b"), Node([], 2, 3, "c"), Node([("b", 5)], 1, 4, "a"), Node([], 4, 5, "b")], [[], [("a", 4), ("b", 2)], [("c", 3)], [], [("b", 5)], []], ["a", "b", "c", "a", "b"], [1], map[3 := 0], 6)
  }

  function BasicB7(): Build
  {
    Build([Node([("a", 1)], 0, 0, ""), Node([("a", 4), ("b", 2)], 0, 1, "a"), Node([("c", 3)], 1, 2, "b"), Node([], 2, 3, "c"), Node([("b", 5)], 1, 4, "a"), Node([], 4, 5, "b")], [[], [("a", 4), ("b", 2)], [("c", 3)], [], [("b", 5)], []], ["a", "b", "c", "a", "b"], [1], map[3 := 0, 5 := 1], 6)
  }

  function BasicB8(): Build
  {
    Build([Node([("a", 1), ("b", 6)], 0, 0, ""), Node([("a", 4), ("b", 2)], 0, 1, "a"), Node([("c", 3)], 1, 2, "b"), Node([], 2, 3, "c"), Node([("b", 5)], 1, 4, "a"), Node([], 4, 5, "b"), Node([], 0, 6, "b")], [[], [("a", 4), ("b", 2)], [("c", 3)], [], [("b", 5)], [], []], ["a", "b", "c", "a", "b", "b"], [1, 6], map[3 := 0, 5 := 1], 7)
  }

  function BasicB9(): Build
  {
    Build([Node([("a", 1), ("b", 6)], 0, 0, ""), Node([("a", 4), ("b", 2)], 0, 1, "a"), Node([("c", 3)], 1, 2, "b"), Node([], 2, 3, "c"), Node([("b", 5)], 1, 4, "a"), Node([], 4, 5, "b"), Node([("c", 7)], 0, 6, "b"), Node([], 6, 7, "c")], [[], [("a", 4), ("b", 2)], [("c", 3)], [], [("b", 5)], [], [("c", 7)], []], ["a", "b", "c", "a", "b", "b", "c"], [1, 6], map[3 := 0, 5 := 1], 8)
  }

  function BasicB10(): Build
  {
    Build([Node([("a", 1), ("b", 6)], 0, 0, ""), Node([("a", 4), ("b", 2)], 0, 1, "a"), Node([("c", 3)], 1, 2, "b"), Node([], 2, 3, "c"), Node([("b", 5)], 1, 4, "a"), Node([], 4, 5, "b"), Node([("c", 7)], 0, 6, "b"), Node([("d", 8)], 6, 7, "c"), Node([], 7, 8, "d")], [[], [("a", 4), ("b", 2)], [("c", 3)], [], [("b", 5)], [], [("c", 7)], [("d", 8)], []], ["a", "b", "c", "a", "b", "b", "c", "d"], [1, 6], map[3 := 0, 5 := 1], 9)
  }

  function BasicB11(): Build
  {
    Build([Node([("a", 1), ("b", 6)], 0, 0, ""), Node([("a", 4), ("b", 2)], 0, 1, "a"), Node([("c", 3)], 1, 2, "b"), Node([], 2, 3, "c"), Node([("b", 5)], 1, 4, "a"), Node([], 4, 5, "b"), Node([("c", 7)], 0, 6, "b"), Node([("d", 8)], 6, 7, "c"), Node([], 7, 8, "d")], [[], [("a", 4), ("b", 2)], [("c", 3)], [], [("b", 5)], [], [("c", 7)], [("d", 8)], []], ["a", "b", "c", "a", "b", "b", "c", "d"], [1, 6], map[3 := 0, 5 := 1, 8 := 2], 9)
  }

  lemma BasicFollow0Step0Parts()
    ensures BasicB0().nodes[0 := BasicB0().nodes[0].(next := [("a", 1)])] + [Node([], 0, 1, "a")] == BasicB1().nodes
    ensures BasicB0().goto + [[]] == BasicB1().goto && BasicB0().inputs + [1] == BasicB1().inputs
    ensures BasicB0().blocks + ["a"] == BasicB1().blocks
  {
    assert BasicB0().nodes[0] == Node([], 0, 0, "");
    assert BasicB0().nodes[0 := Node([("a", 1)], 0, 0, "")] == [Node([("a", 1)], 0, 0, "")];
  }

  lemma BasicFollow0Step0()
    ensures Follow(BasicB0(), 0, ["a", "b", "c"]) == Follow(BasicB1(), 1, ["b", "c"])
  {
    assert Insert([], "a", 1) == [("a", 1)];
    FollowNew(BasicB0(), 0, ["a", "b", "c"]);
    BasicFollow0Step0Parts();
    GrowInto(BasicB0(), 0, "a", [("a", 1)], BasicB1());
    assert ["a", "b", "c"][1..] == ["b", "c"];
  }

  lemma BasicFollow0Step1Parts()
    ensures BasicB1().nodes[1 := BasicB1().nodes[1].(next := [("b", 2)])] + [Node([], 1, 2, "b")] == BasicB2().nodes
    ensures BasicB1().nodes[1].index == 1
    ensures BasicB1().goto[1 := Insert(BasicB1().goto[1], "b", 2)] + [[]] == BasicB2().goto
    ensures BasicB1().inputs == BasicB2().inputs
    ensures BasicB1().blocks + ["b"] == BasicB2().blocks
  {
    assert BasicB1().nodes[1] == Node([], 0, 1, "a");
    assert BasicB1().nodes[1 := Node([("b", 2)], 0, 1, "a")] == [Node([("a", 1)], 0, 0, ""), Node([("b", 2)], 0, 1, "a")];
    assert Insert([], "b", 2) == [("b", 2)];
  }

  lemma BasicFollow0Step1()
    ensures Follow(BasicB1(), 1, ["b", "c"]) == Follow(BasicB2(), 2, ["c"])
  {
    assert Insert([], "b", 2) == [("b", 2)];
    FollowNew(BasicB1(), 1, ["b", "c"]);
    BasicFollow0Step1Parts();
    GrowInto(BasicB1(), 1, "b", [("b", 2)], BasicB2());
    assert ["b", "c"][1..] == ["c"];
  }

  lemma BasicFollow0Step2Parts()
    ensures BasicB2().nodes[2 := BasicB2().nodes[2].(next := [("c", 3)])] + [Node([], 2, 3, "c")] == BasicB3().nodes
    ensures BasicB2().nodes[2].index == 2
    ensures BasicB2().goto[2 := Insert(BasicB2().goto[2], "c", 3)] + [[]] == BasicB3().goto
    ensures BasicB2().inputs == BasicB3().inputs
    ensures BasicB2().blocks + ["c"] == BasicB3().blocks
  {
    assert BasicB2().nodes[2] == Node([], 1, 2, "b");
    assert BasicB2().nodes[2 := Node([("c", 3)], 1, 2, "b")] == [Node([("a", 1)], 0, 0, ""), Node([("b", 2)], 0, 1, "a"), Node([("c", 3)], 1, 2, "b")];
    assert Insert([], "c", 3) == [("c", 3)];
  }

  lemma BasicFollow0Step2()
    ensures Follow(BasicB2(), 2, ["c"]) == Follow(BasicB3(), 3, [])
  {
    assert Insert([], "c", 3) == [("c", 3)];
    FollowNew(BasicB2(), 2, ["c"]);
    BasicFollow0Step2Parts();
    GrowInto(BasicB2(), 2, "c", [("c", 3)], BasicB3());
    assert ["c"][1..] == [];
  }

  lemma BasicFollow0()
    ensures Follow(BasicB0(), 0, ["a", "b", "c"]) == Finished((BasicB3(), 3))
  {
    BasicFollow0Step0();
    BasicFollow0Step1();
    BasicFollow0Step2();
    assert Follow(BasicB3(), 3, []) == Finished((BasicB3(), 3));
  }

  lemma BasicPattern0()
    ensures BuildFrom(BasicB0(), Basic().patterns, Standard().split, 0) == BuildFrom(BasicB4(), Basic().patterns, Standard().split, 1)
  {
    var cb := Standard();
    assert Basic().patterns[0] == "abc";
    assert cb.split("abc") == ["a", "b", "c"];
    BasicFollow0();
    BuildNext(BasicB0(), Basic().patterns, cb.split, 0, BasicB3(), 3);
    assert BasicB3().(outputs := BasicB3().outputs[3 := 0]) == BasicB4();
  }

  lemma BasicFollow1Step0()
    ensures Follow(BasicB4(), 0, ["a", "a", "b"]) == Follow(BasicB4(), 1, ["a", "b"])
  {
    FollowOld(BasicB4(), 0, ["a", "a", "b"], 1);
    assert ["a", "a", "b"][1..] == ["a", "b"];
  }

  lemma BasicFollow1Step1Parts()
    ensures BasicB4().nodes[1 := BasicB4().nodes[1].(next := [("a", 4), ("b", 2)])] + [Node([], 1, 4, "a")] == BasicB5().nodes
    ensures BasicB4().nodes[1].index == 1
    ensures BasicB4().goto[1 := Insert(BasicB4().goto[1], "a", 4)] + [[]] == BasicB5().goto
    ensures BasicB4().inputs == BasicB5().inputs
    ensures BasicB4().blocks + ["a"] == BasicB5().blocks
  {
    assert BasicB4().nodes[1] == Node([("b", 2)], 0, 1, "a");
    assert BasicB4().nodes[1 := Node([("a", 4), ("b", 2)], 0, 1, "a")] == [Node([("a", 1)], 0, 0, ""), Node([("a", 4), ("b", 2)], 0, 1, "a"), Node([("c", 3)], 1, 2, "b"), Node([], 2, 3, "c")];
    assert Insert([("b", 2)], "a", 4) == [("a", 4), ("b", 2)];
  }

  lemma BasicFollow1Step1()
    ensures Follow(BasicB4(), 1, ["a", "b"]) == Follow(BasicB5(), 4, ["b"])
  {
    assert Insert([("b", 2)], "a", 4) == [("a", 4), ("b", 2)];
    FollowNew(BasicB4(), 1, ["a", "b"]);
    BasicFollow1Step1Parts();
    GrowInto(BasicB4(), 1, "a", [("a", 4), ("b", 2)], BasicB5());
    assert ["a", "b"][1..] == ["b"];
  }

  lemma BasicFollow1Step2Parts()
    ensures BasicB5().nodes[4 := BasicB5().nodes[4].(next := [("b", 5)])] + [Node([], 4, 5, "b")] == BasicB6().nodes
    ensures BasicB5().nodes[4].index == 4
    ensures BasicB5().goto[4 := Insert(BasicB5().goto[4], "b", 5)] + [[]] == BasicB6().goto
    ensures BasicB5().inputs == BasicB6().inputs
    ensures BasicB5().blocks + ["b"] == BasicB6().blocks
  {
    assert BasicB5().nodes[4] == Node([], 1, 4, "a");
    assert BasicB5().nodes[4 := Node([("b", 5)], 1, 4, "a")] == [Node([("a", 1)], 0, 0, ""), Node([("a", 4), ("b", 2)], 0, 1, "a"), Node([("c", 3)], 1, 2, "b"), Node([], 2, 3, "c"), Node([("b", 5)], 1, 4, "a")];
    assert Insert([], "b", 5) == [("b", 5)];
  }

  lemma BasicFollow1Step2()
    ensures Follow(BasicB5(), 4, ["b"]) == Follow(BasicB6(), 5, [])
  {
    assert Insert([], "b", 5) == [("b", 5)];
    FollowNew(BasicB5(), 4, ["b"]);
    BasicFollow1Step2Parts();
    GrowInto(BasicB5(), 4, "b", [("b", 5)], BasicB6());
    assert ["b"][1..] == [];
  }

  lemma BasicFollow1()
    ensures Follow(BasicB4(), 0, ["a", "a", "b"]) == Finished((BasicB6(), 5))
  {
    BasicFollow1Step0();
    BasicFollow1Step1();
    BasicFollow1Step2();
    assert Follow(BasicB6(), 5, []) == Finished((BasicB6(), 5));
  }

  lemma BasicPattern1()
    ensures BuildFrom(BasicB4(), Basic().patterns, Standard().split, 1) == BuildFrom(BasicB7(), Basic().patterns, Standard().split, 2)
  {
    var cb := Standard();
    assert Basic().patterns[1] == "aab";
    assert cb.split("aab") == ["a", "a", "b"];
    BasicFollow1();
    BuildNext(BasicB4(), Basic().patterns, cb.split, 1, BasicB6(), 5);
    assert BasicB6().(outputs := BasicB6().outputs[5 := 1]) == BasicB7();
  }

  lemma BasicFollow2Step0Parts()
    ensures BasicB7().nodes[0 := BasicB7().nodes[0].(next := [("a", 1), ("b", 6)])] + [Node([], 0, 6, "b")] == BasicB8().nodes
    ensures BasicB7().goto + [[]] == BasicB8().goto && BasicB7().inputs + [6] == BasicB8().inputs
    ensures BasicB7().blocks + ["b"] == BasicB8().blocks
  {
    assert BasicB7().nodes[0] == Node([("a", 1)], 0, 0, "");
    assert BasicB7().nodes[0 := Node([("a", 1), ("b", 6)], 0, 0, "")] == [Node([("a", 1), ("b", 6)], 0, 0, ""), Node([("a", 4), ("b", 2)], 0, 1, "a"), Node([("c", 3)], 1, 2, "b"), Node([], 2, 3, "c"), Node([("b", 5)], 1, 4, "a"), Node([], 4, 5, "b")];
  }

  lemma BasicFollow2Step0()
    ensures Follow(BasicB7(), 0, ["b", "c", "d"]) == Follow(BasicB8(), 6, ["c", "d"])
  {
    assert Insert([("a", 1)], "b", 6) == [("a", 1), ("b", 6)];
    FollowNew(BasicB7(), 0, ["b", "c", "d"]);
    BasicFollow2Step0Parts();
    GrowInto(BasicB7(), 0, "b", [("a", 1), ("b", 6)], BasicB8());
    assert ["b", "c", "d"][1..] == ["c", "d"];
  }

  lemma BasicFollow2Step1Parts()
    ensures BasicB8().nodes[6 := BasicB8().nodes[6].(next := [("c", 7)])] + [Node([], 6, 7, "c")] == BasicB9().nodes
    ensures BasicB8().nodes[6].index == 6
    ensures BasicB8().goto[6 := Insert(BasicB8().goto[6], "c", 7)] + [[]] == BasicB9().goto
    ensures BasicB8().inputs == BasicB9().inputs
    ensures BasicB8().blocks + ["c"] == BasicB9().blocks
  {
    assert BasicB8().nodes[6] == Node([], 0, 6, "b");
    assert BasicB8().nodes[6 := Node([("c", 7)], 0, 6, "b")] == [Node([("a", 1), ("b", 6)], 0, 0, ""), Node([("a", 4), ("b", 2)], 0, 1, "a"), Node([("c", 3)], 1, 2, "b"), Node([], 2, 3, "c"), Node([("b", 5)], 1, 4, "a"), Node([], 4, 5, "b"), Node([("c", 7)], 0, 6, "b")];
    assert Insert([], "c", 7) == [("c", 7)];
  }

  lemma BasicFollow2Step1()
    ensures Follow(BasicB8(), 6, ["c", "d"]) == Follow(BasicB9(), 7, ["d"])
  {
    assert Insert([], "c", 7) == [("c", 7)];
    FollowNew(BasicB8(), 6, ["c", "d"]);
    BasicFollow2Step1Parts();
    GrowInto(BasicB8(), 6, "c", [("c", 7)], BasicB9());
    assert ["c", "d"][1..] == ["d"];
  }

  lemma BasicFollow2Step2Parts()
    ensures BasicB9().nodes[7 := BasicB9().nodes[7].(next := [("d", 8)])] + [Node([], 7, 8, "d")] == BasicB10().nodes
    ensures BasicB9().nodes[7].index == 7
    ensures BasicB9().goto[7 := Insert(BasicB9().goto[7], "d", 8)] + [[]] == BasicB10().goto
    ensures BasicB9().inputs == BasicB10().inputs
    ensures BasicB9().blocks + ["d"] == BasicB10().blocks
  {
    assert BasicB9().nodes[7] == Node([], 6, 7, "c");
    assert BasicB9().nodes[7 := Node([("d", 8)], 6, 7, "c")] == [Node([("a", 1), ("b", 6)], 0, 0, ""), Node([("a", 4), ("b", 2)], 0, 1, "a"), Node([("c", 3)], 1, 2, "b"), Node([], 2, 3, "c"), Node([("b", 5)], 1, 4, "a"), Node([], 4, 5, "b"), Node([("c", 7)], 0, 6, "b"), Node([("d", 8)], 6, 7, "c")];
    assert Insert([], "d", 8) == [("d", 8)];
  }

  lemma BasicFollow2Step2()
    ensures Follow(BasicB9(), 7, ["d"]) == Follow(BasicB10(), 8, [])
  {
    assert Insert([], "d", 8) == [("d", 8)];
    FollowNew(BasicB9(), 7, ["d"]);
    BasicFollow2Step2Parts();
    GrowInto(BasicB9(), 7, "d", [("d", 8)], BasicB10());
    assert ["d"][1..] == [];
  }

  lemma BasicFollow2()
    ensures Follow(BasicB7(), 0, ["b", "c", "d"]) == Finished((BasicB10(), 8))
  {
    BasicFollow2Step0();
    BasicFollow2Step1();
    BasicFollow2Step2();
    assert Follow(BasicB10(), 8, []) == Finished((BasicB10(), 8));
  }

  lemma BasicPattern2()
    ensures BuildFrom(BasicB7(), Basic().patterns, Standard().split, 2) == BuildFrom(BasicB11(), Basic().patterns, Standard().split, 3)
  {
    var cb := Standard();
    assert Basic().patterns[2] == "bcd";
    assert cb.split("bcd") == ["b", "c", "d"];
    BasicFollow2();
    BuildNext(BasicB7(), Basic().patterns, cb.split, 2, BasicB10(), 8);
    assert BasicB10().(outputs := BasicB10().outputs[8 := 2]) == BasicB11();
  }

  lemma BasicTrie()
    ensures Trie(Basic(), Standard()) == Finished(BasicB11())
  {
    assert Trie(Basic(), Standard()) == BuildFrom(BasicB0(), Basic().patterns, Standard().split, 0);
    BasicPattern0();
    BasicPattern1();
    BasicPattern2();
    assert |Basic().patterns| == 3;
  }

  lemma BasicPop0(fuel: nat)
    requires fuel >= 1
    ensures Bfs(BasicB11().nodes, [0, 0, 0, 0, 0, 0, 0, 0, 0], [0], fuel) == Bfs(BasicB11().nodes, [0, 0, 0, 0, 0, 0, 0, 0, 0], [1, 6], fuel - 1)
  {
    var nodes := BasicB11().nodes;
    BfsRootStep(nodes, [0, 0, 0, 0, 0, 0, 0, 0, 0], [0], fuel);
    assert Values(nodes[0].next) == [1, 6];
    assert [0][1..] + [1, 6] == [1, 6];
  }

  lemma BasicPop1(fuel: nat)
    requires fuel >= 1
    ensures Bfs(BasicB11().nodes, [0, 0, 0, 0, 0, 0, 0, 0, 0], [1, 6], fuel) == Bfs(BasicB11().nodes, [0, 0, 0, 0, 0, 0, 0, 0, 0], [6, 4, 2], fuel - 1)
  {
    var nodes := BasicB11().nodes;
    BfsRootStep(nodes, [0, 0, 0, 0, 0, 0, 0, 0, 0], [1, 6], fuel);
    assert Values(nodes[1].next) == [4, 2];
    assert [1, 6][1..] + [4, 2] == [6, 4, 2];
  }

  lemma BasicPop2(fuel: nat)
    requires fuel >= 1
    ensures Bfs(BasicB11().nodes, [0, 0, 0, 0, 0, 0, 0, 0, 0], [6, 4, 2], fuel) == Bfs(BasicB11().nodes, [0, 0, 0, 0, 0, 0, 0, 0, 0], [4, 2, 7], fuel - 1)
  {
    var nodes := BasicB11().nodes;
    BfsRootStep(nodes, [0, 0, 0, 0, 0, 0, 0, 0, 0], [6, 4, 2], fuel);
    assert Values(nodes[6].next) == [7];
    assert [6, 4, 2][1..] + [7] == [4, 2, 7];
  }

  lemma BasicPop3(fuel: nat)
    requires fuel >= 1
    ensures Bfs(BasicB11().nodes, [0, 0, 0, 0, 0, 0, 0, 0, 0], [4, 2, 7], fuel) == Bfs(BasicB11().nodes, [0, 0, 0, 0, 1, 0, 0, 0, 0], [2, 7, 5], fuel - 1)
  {
    var nodes := BasicB11().nodes;
    assert Get(nodes[0].next, "a") == Some(1);
    assert [0, 0, 0, 0, 0, 0, 0, 0, 0][4 := 1] == [0, 0, 0, 0, 1, 0, 0, 0, 0];
    assert FailureOf(nodes, [0, 0, 0, 0, 0, 0, 0, 0, 0], 4, "a", 0, false, fuel - 0) == Finished([0, 0, 0, 0, 1, 0, 0, 0, 0]);
    BfsStep(nodes, [0, 0, 0, 0, 0, 0, 0, 0, 0], [4, 2, 7], fuel, [0, 0, 0, 0, 1, 0, 0, 0, 0]);
    assert Values(nodes[4].next) == [5];
    assert [4, 2, 7][1..] + [5] == [2, 7, 5];
  }

  lemma BasicPop4(fuel: nat)
    requires fuel >= 1
    ensures Bfs(BasicB11().nodes, [0, 0, 0, 0, 1, 0, 0, 0, 0], [2, 7, 5], fuel) == Bfs(BasicB11().nodes, [0, 0, 6, 0, 1, 0, 0, 0, 0], [7, 5, 3], fuel - 1)
  {
    var nodes := BasicB11().nodes;
    assert Get(nodes[0].next, "b") == Some(6);
    assert [0, 0, 0, 0, 1, 0, 0, 0, 0][2 := 6] == [0, 0, 6, 0, 1, 0, 0, 0, 0];
    assert FailureOf(nodes, [0, 0, 0, 0, 1, 0, 0, 0, 0], 2, "b", 0, false, fuel - 0) == Finished([0, 0, 6, 0, 1, 0, 0, 0, 0]);
    BfsStep(nodes, [0, 0, 0, 0, 1, 0, 0, 0, 0], [2, 7, 5], fuel, [0, 0, 6, 0, 1, 0, 0, 0, 0]);
    assert Values(nodes[2].next) == [3];
    assert [2, 7, 5][1..] + [3] == [7, 5, 3];
  }

  lemma BasicPop5(fuel: nat)
    requires fuel >= 2
    ensures Bfs(BasicB11().nodes, [0, 0, 6, 0, 1, 0, 0, 0, 0], [7, 5, 3], fuel) == Bfs(BasicB11().nodes, [0, 0, 6, 0, 1, 0, 0, 0, 0], [5, 3, 8], fuel - 1)
  {
    var nodes := BasicB11().nodes;
    assert Get(nodes[0].next, "c") == None;
    assert FailureOf(nodes, [0, 0, 6, 0, 1, 0, 0, 0, 0], 7, "c", 0, false, fuel - 0) == FailureOf(nodes, [0, 0, 6, 0, 1, 0, 0, 0, 0], 7, "c", 0, true, fuel - 1);
    assert Get(nodes[0].next, "c") == None;
    assert FailureOf(nodes, [0, 0, 6, 0, 1, 0, 0, 0, 0], 7, "c", 0, true, fuel - 1) == Finished([0, 0, 6, 0, 1, 0, 0, 0, 0]);
    BfsStep(nodes, [0, 0, 6, 0, 1, 0, 0, 0, 0], [7, 5, 3], fuel, [0, 0, 6, 0, 1, 0, 0, 0, 0]);
    assert Values(nodes[7].next) == [8];
    assert [7, 5, 3][1..] + [8] == [5, 3, 8];
  }

  lemma BasicPop6(fuel: nat)
    requires fuel >= 1
    ensures Bfs(BasicB11().nodes, [0, 0, 6, 0, 1, 0, 0, 0, 0], [5, 3, 8], fuel) == Bfs(BasicB11().nodes, [0, 0, 6, 0, 1, 2, 0, 0, 0], [3, 8], fuel - 1)
  {
    var nodes := BasicB11().nodes;
    assert Get(nodes[1].next, "b") == Some(2);
    assert [0, 0, 6, 0, 1, 0, 0, 0, 0][5 := 2] == [0, 0, 6, 0, 1, 2, 0, 0, 0];
    assert FailureOf(nodes, [0, 0, 6, 0, 1, 0, 0, 0, 0], 5, "b", 1, false, fuel - 0) == Finished([0, 0, 6, 0, 1, 2, 0, 0, 0]);
    BfsStep(nodes, [0, 0, 6, 0, 1, 0, 0, 0, 0], [5, 3, 8], fuel, [0, 0, 6, 0, 1, 2, 0, 0, 0]);
    assert Values(nodes[5].next) == [];
    assert [5, 3, 8][1..] + [] == [3, 8];
  }

  lemma BasicPop7(fuel: nat)
    requires fuel >= 1
    ensures Bfs(BasicB11().nodes, [0, 0, 6, 0, 1, 2, 0, 0, 0], [3, 8], fuel) == Bfs(BasicB11().nodes, [0, 0, 6, 7, 1, 2, 0, 0, 0], [8], fuel - 1)
  {
    var nodes := BasicB11().nodes;
    assert Get(nodes[6].next, "c") == Some(7);
    assert [0, 0, 6, 0, 1, 2, 0, 0, 0][3 := 7] == [0, 0, 6, 7, 1, 2, 0, 0, 0];
    assert FailureOf(nodes, [0, 0, 6, 0, 1, 2, 0, 0, 0], 3, "c", 6, false, fuel - 0) == Finished([0, 0, 6, 7, 1, 2, 0, 0, 0]);
    BfsStep(nodes, [0, 0, 6, 0, 1, 2, 0, 0, 0], [3, 8], fuel, [0, 0, 6, 7, 1, 2, 0, 0, 0]);
    assert Values(nodes[3].next) == [];
    assert [3, 8][1..] + [] == [8];
  }

  lemma BasicPop8(fuel: nat)
    requires fuel >= 2
    ensures Bfs(BasicB11().nodes, [0, 0, 6, 7, 1, 2, 0, 0, 0], [8], fuel) == Bfs(BasicB11().nodes, [0, 0, 6, 7, 1, 2, 0, 0, 0], [], fuel - 1)
  {
    var nodes := BasicB11().nodes;
    assert Get(nodes[0].next, "d") == None;
    assert FailureOf(nodes, [0, 0, 6, 7, 1, 2, 0, 0, 0], 8, "d", 0, false, fuel - 0) == FailureOf(nodes, [0, 0, 6, 7, 1, 2, 0, 0, 0], 8, "d", 0, true, fuel - 1);
    assert Get(nodes[0].next, "d") == None;
    assert FailureOf(nodes, [0, 0, 6, 7, 1, 2, 0, 0, 0], 8, "d", 0, true, fuel - 1) == Finished([0, 0, 6, 7, 1, 2, 0, 0, 0]);
    BfsStep(nodes, [0, 0, 6, 7, 1, 2, 0, 0, 0], [8], fuel, [0, 0, 6, 7, 1, 2, 0, 0, 0]);
    assert Values(nodes[8].next) == [];
    assert [8][1..] + [] == [];
  }

  /** The same matcher once optimised. */
  function BasicOptimized(): Matcher
  {
    Matcher(map["abc" := 0, "aab" := 1, "bcd" := 2], ["abc", "aab", "bcd"], [0, 0, 6, 7, 1, 2, 0, 0, 0], [[], [("a", 4), ("b", 2)], [("c", 3)], [], [("b", 5)], [], [("c", 7)], [("d", 8)], []], map[3 := 0, 5 := 1, 8 := 2], [1, 6], ["a", "b", "c", "a", "b", "b", "c", "d"], true)
  }

  lemma BasicWalk8(fuel: nat)
    requires fuel >= 2
    ensures Bfs(BasicB11().nodes, [0, 0, 6, 7, 1, 2, 0, 0, 0], [8], fuel) == Finished([0, 0, 6, 7, 1, 2, 0, 0, 0])
  {
    BasicPop8(fuel);
    assert Bfs(BasicB11().nodes, [0, 0, 6, 7, 1, 2, 0, 0, 0], [], fuel - 1) == Finished([0, 0, 6, 7, 1, 2, 0, 0, 0]);
  }

  lemma BasicWalk7(fuel: nat)
    requires fuel >= 3
    ensures Bfs(BasicB11().nodes, [0, 0, 6, 0, 1, 2, 0, 0, 0], [3, 8], fuel) == Finished([0, 0, 6, 7, 1, 2, 0, 0, 0])
  {
    BasicPop7(fuel);
    BasicWalk8(fuel - 1);
  }

  lemma BasicWalk6(fuel: nat)
    requires fuel >= 4
    ensures Bfs(BasicB11().nodes, [0, 0, 6, 0, 1, 0, 0, 0, 0], [5, 3, 8], fuel) == Finished([0, 0, 6, 7, 1, 2, 0, 0, 0])
  {
    BasicPop6(fuel);
    BasicWalk7(fuel - 1);
  }

  lemma BasicWalk5(fuel: nat)
    requires fuel >= 5
    ensures Bfs(BasicB11().nodes, [0, 0, 6, 0, 1, 0, 0, 0, 0], [7, 5, 3], fuel) == Finished([0, 0, 6, 7, 1, 2, 0, 0, 0])
  {
    BasicPop5(fuel);
    BasicWalk6(fuel - 1);
  }

  lemma BasicWalk4(fuel: nat)
    requires fuel >= 6
    ensures Bfs(BasicB11().nodes, [0, 0, 0, 0, 1, 0, 0, 0, 0], [2, 7, 5], fuel) == Finished([0, 0, 6, 7, 1, 2, 0, 0, 0])
  {
    BasicPop4(fuel);
    BasicWalk5(fuel - 1);
  }

  lemma BasicWalk3(fuel: nat)
    requires fuel >= 7
    ensures Bfs(BasicB11().nodes, [0, 0, 0, 0, 0, 0, 0, 0, 0], [4, 2, 7], fuel) == Finished([0, 0, 6, 7, 1, 2, 0, 0, 0])
  {
    BasicPop3(fuel);
    BasicWalk4(fuel - 1);
  }

  lemma BasicWalk2(fuel: nat)
    requires fuel >= 8
    ensures Bfs(BasicB11().nodes, [0, 0, 0, 0, 0, 0, 0, 0, 0], [6, 4, 2], fuel) == Finished([0, 0, 6, 7, 1, 2, 0, 0, 0])
  {
    BasicPop2(fuel);
    BasicWalk3(fuel - 1);
  }

  lemma BasicWalk1(fuel: nat)
    requires fuel >= 9
    ensures Bfs(BasicB11().nodes, [0, 0, 0, 0, 0, 0, 0, 0, 0], [1, 6], fuel) == Finished([0, 0, 6, 7, 1, 2, 0, 0, 0])
  {
    BasicPop1(fuel);
    BasicWalk2(fuel - 1);
  }

  lemma BasicWalk0(fuel: nat)
    requires fuel >= 10
    ensures Bfs(BasicB11().nodes, [0, 0, 0, 0, 0, 0, 0, 0, 0], [0], fuel) == Finished([0, 0, 6, 7, 1, 2, 0, 0, 0])
  {
    BasicPop0(fuel);
    BasicWalk1(fuel - 1);
  }

  lemma BasicOptimizes(fuel: nat)
    requires fuel >= 10
    ensures Optimize(Basic(), Standard(), fuel) == Finished(BasicOptimized())
  {
    BasicTrie();
    assert BaseFailure(Basic().failure, 9) == [0, 0, 0, 0, 0, 0, 0, 0, 0];
    BasicWalk0(fuel);
  }

  lemma BasicSample0Step0(fuel: nat)
    ensures Feed(BasicOptimized(), Standard(), ["a", "b", "c"], 0, 0, fuel) == Feed(BasicOptimized(), Standard(), ["a", "b", "c"], 1, 1, fuel)
  {
    FeedRoot(BasicOptimized(), Standard(), ["a", "b", "c"], 0, fuel, 1);
  }

  lemma BasicSample0Step1(fuel: nat)
    ensures Feed(BasicOptimized(), Standard(), ["a", "b", "c"], 1, 1, fuel) == Feed(BasicOptimized(), Standard(), ["a", "b", "c"], 2, 2, fuel)
  {
    FeedMove(BasicOptimized(), Standard(), ["a", "b", "c"], 1, 1, fuel, 2);
  }

  lemma BasicSample0Step2(fuel: nat)
    ensures Feed(BasicOptimized(), Standard(), ["a", "b", "c"], 2, 2, fuel) == Finished(true)
  {
    FeedMove(BasicOptimized(), Standard(), ["a", "b", "c"], 2, 2, fuel, 3);
  }

  lemma BasicSample0(fuel: nat)
    ensures Similar(BasicOptimized(), Standard(), "abc", fuel) == Finished(true)
  {
    assert Standard().split("abc") == ["a", "b", "c"];
    BasicSample0Step0(fuel);
    BasicSample0Step1(fuel);
    BasicSample0Step2(fuel);
  }

  lemma BasicSample1Step0(fuel: nat)
    ensures Feed(BasicOptimized(), Standard(), ["a", "a", "b", "c"], 0, 0, fuel) == Feed(BasicOptimized(), Standard(), ["a", "a", "b", "c"], 1, 1, fuel)
  {
    FeedRoot(BasicOptimized(), Standard(), ["a", "a", "b", "c"], 0, fuel, 1);
  }

  lemma BasicSample1Step1(fuel: nat)
    ensures Feed(BasicOptimized(), Standard(), ["a", "a", "b", "c"], 1, 1, fuel) == Feed(BasicOptimized(), Standard(), ["a", "a", "b", "c"], 2, 4, fuel)
  {
    FeedMove(BasicOptimized(), Standard(), ["a", "a", "b", "c"], 1, 1, fuel, 4);
  }

  lemma BasicSample1Step2(fuel: nat)
    ensures Feed(BasicOptimized(), Standard(), ["a", "a", "b", "c"], 2, 4, fuel) == Finished(true)
  {
    FeedMove(BasicOptimized(), Standard(), ["a", "a", "b", "c"], 2, 4, fuel, 5);
  }

  lemma BasicSample1(fuel: nat)
    ensures Similar(BasicOptimized(), Standard(), "aabc", fuel) == Finished(true)
  {
    assert Standard().split("aabc") == ["a", "a", "b", "c"];
    BasicSample1Step0(fuel);
    BasicSample1Step1(fuel);
    BasicSample1Step2(fuel);
  }

  lemma BasicSample2Step0(fuel: nat)
    ensures Feed(BasicOptimized(), Standard(), ["d", "a", "a", "b", "c", "e"], 0, 0, fuel) == Feed(BasicOptimized(), Standard(), ["d", "a", "a", "b", "c", "e"], 1, 0, fuel)
  {
    FeedRoot(BasicOptimized(), Standard(), ["d", "a", "a", "b", "c", "e"], 0, fuel, 0);
  }

  lemma BasicSample2Step1(fuel: nat)
    ensures Feed(BasicOptimized(), Standard(), ["d", "a", "a", "b", "c", "e"], 1, 0, fuel) == Feed(BasicOptimized(), Standard(), ["d", "a", "a", "b", "c", "e"], 2, 1, fuel)
  {
    FeedRoot(BasicOptimized(), Standard(), ["d", "a", "a", "b", "c", "e"], 1, fuel, 1);
  }

  lemma BasicSample2Step2(fuel: nat)
    ensures Feed(BasicOptimized(), Standard(), ["d", "a", "a", "b", "c", "e"], 2, 1, fuel) == Feed(BasicOptimized(), Standard(), ["d", "a", "a", "b", "c", "e"], 3, 4, fuel)
  {
    FeedMove(BasicOptimized(), Standard(), ["d", "a", "a", "b", "c", "e"], 2, 1, fuel, 4);
  }

  lemma BasicSample2Step3(fuel: nat)
    ensures Feed(BasicOptimized(), Standard(), ["d", "a", "a", "b", "c", "e"], 3, 4, fuel) == Finished(true)
  {
    FeedMove(BasicOptimized(), Standard(), ["d", "a", "a", "b", "c", "e"], 3, 4, fuel, 5);
  }

  lemma BasicSample2(fuel: nat)
    ensures Similar(BasicOptimized(), Standard(), "daabce", fuel) == Finished(true)
  {
    assert Standard().split("daabce") == ["d", "a", "a", "b", "c", "e"];
    BasicSample2Step0(fuel);
    BasicSample2Step1(fuel);
    BasicSample2Step2(fuel);
    BasicSample2Step3(fuel);
  }

  lemma BasicSample3Step0(fuel: nat)
    ensures Feed(BasicOptimized(), Standard(), ["a", "a"], 0, 0, fuel) == Feed(BasicOptimized(), Standard(), ["a", "a"], 1, 1, fuel)
  {
    FeedRoot(BasicOptimized(), Standard(), ["a", "a"], 0, fuel, 1);
  }

  lemma BasicSample3Step1(fuel: nat)
    ensures Feed(BasicOptimized(), Standard(), ["a", "a"], 1, 1, fuel) == Feed(BasicOptimized(), Standard(), ["a", "a"], 2, 4, fuel)
  {
    FeedMove(BasicOptimized(), Standard(), ["a", "a"], 1, 1, fuel, 4);
  }

  lemma BasicSample3(fuel: nat)
    ensures Similar(BasicOptimized(), Standard(), "aa", fuel) == Finished(false)
  {
    assert Standard().split("aa") == ["a", "a"];
    BasicSample3Step0(fuel);
    BasicSample3Step1(fuel);
    assert Feed(BasicOptimized(), Standard(), ["a", "a"], 2, 1, fuel - 0) == Finished(false);
  }

  lemma BasicSample4Step0(fuel: nat)
    ensures Feed(BasicOptimized(), Standard(), ["a", "b", "d"], 0, 0, fuel) == Feed(BasicOptimized(), Standard(), ["a", "b", "d"], 1, 1, fuel)
  {
    FeedRoot(BasicOptimized(), Standard(), ["a", "b", "d"], 0, fuel, 1);
  }

  lemma BasicSample4Step1(fuel: nat)
    ensures Feed(BasicOptimized(), Standard(), ["a", "b", "d"], 1, 1, fuel) == Feed(BasicOptimized(), Standard(), ["a", "b", "d"], 2, 2, fuel)
  {
    FeedMove(BasicOptimized(), Standard(), ["a", "b", "d"], 1, 1, fuel, 2);
  }

  lemma BasicSample4Step2(fuel: nat)
    requires fuel >= 1
    ensures Feed(BasicOptimized(), Standard(), ["a", "b", "d"], 2, 2, fuel) == Feed(BasicOptimized(), Standard(), ["a", "b", "d"], 2, 6, fuel - 1)
  {
    FeedFail(BasicOptimized(), Standard(), ["a", "b", "d"], 2, 2, fuel);
  }

  lemma BasicSample4Step3(fuel: nat)
    requires fuel >= 1
    ensures Feed(BasicOptimized(), Standard(), ["a", "b", "d"], 2, 6, fuel) == Feed(BasicOptimized(), Standard(), ["a", "b", "d"], 2, 0, fuel - 1)
  {
    FeedFail(BasicOptimized(), Standard(), ["a", "b", "d"], 2, 6, fuel);
  }

  lemma BasicSample4Step4(fuel: nat)
    ensures Feed(BasicOptimized(), Standard(), ["a", "b", "d"], 2, 0, fuel) == Feed(BasicOptimized(), Standard(), ["a", "b", "d"], 3, 0, fuel)
  {
    FeedRoot(BasicOptimized(), Standard(), ["a", "b", "d"], 2, fuel, 0);
  }

  lemma BasicSample4(fuel: nat)
    requires fuel >= 2
    ensures Similar(BasicOptimized(), Standard(), "abd", fuel) == Finished(false)
  {
    assert Standard().split("abd") == ["a", "b", "d"];
    BasicSample4Step0(fuel);
    BasicSample4Step1(fuel);
    BasicSample4Step2(fuel);
    BasicSample4Step3(fuel - 1);
    BasicSample4Step4(fuel - 2);
    assert Feed(BasicOptimized(), Standard(), ["a", "b", "d"], 3, 0, fuel - 2) == Finished(false);
  }

  /** The first example: "abc", "aab" and "bcd"; "abc", "aabc" and "daabce" match, "aa" and "abd" do not. "abd" takes two failure links (ab to b, b to the root) before giving up. */
  lemma BasicScenario(fuel: nat, fuel': nat)
    requires fuel >= 10 && fuel' >= 2
    ensures Optimize(Add(Add(Add(New(), "abc"), "aab"), "bcd"), Standard(), fuel) == Finished(BasicOptimized())
    ensures Similar(BasicOptimized(), Standard(), "abc", fuel') == Finished(true)
    ensures Similar(BasicOptimized(), Standard(), "aabc", fuel') == Finished(true)
    ensures Similar(BasicOptimized(), Standard(), "daabce", fuel') == Finished(true)
    ensures Similar(BasicOptimized(), Standard(), "aa", fuel') == Finished(false)
    ensures Similar(BasicOptimized(), Standard(), "abd", fuel') == Finished(false)
  {
    BasicAdded();
    BasicOptimizes(fuel);
    BasicSample0(fuel');
    BasicSample1(fuel');
    BasicSample2(fuel');
    BasicSample3(fuel');
    BasicSample4(fuel');
  }

  /** The patterns "abc", "def" added in this order to a new matcher. */
  function Partial(): Matcher
  {
    Matcher(map["abc" := 0, "def" := 1], ["abc", "def"], [0], [[]], map[], [], [], false)
  }

  lemma PartialAdd0()
    ensures Add(New(), "abc") == Matcher(map["abc" := 0], ["abc"], [0], [[]], map[], [], [], false)
  {
    assert "abc" !in New().patternIndex;
    assert New().patternIndex["abc" := 0] == map["abc" := 0];
  }

  lemma PartialAdd1()
    ensures Add(Matcher(map["abc" := 0], ["abc"], [0], [[]], map[], [], [], false), "def") == Matcher(map["abc" := 0, "def" := 1], ["abc", "def"], [0], [[]], map[], [], [], false)
  {
    assert "def" !in map["abc" := 0];
    assert map["abc" := 0]["def" := 1] == map["abc" := 0, "def" := 1];
  }

  lemma PartialAdded()
    ensures Add(Add(New(), "abc"), "def") == Partial()
  {
    PartialAdd0();
    PartialAdd1();
  }

  function PartialB0(): Build
  {
    Build([Node([], 0, 0, "")], [[]], [], [], map[], 1)
  }

  function PartialB1(): Build
  {
    Build([Node([("a", 1)], 0, 0, ""), Node([], 0, 1, "a")], [[], []], ["a"], [1], map[], 2)
  }

  function PartialB2(): Build
  {
    Build([Node([("a", 1)], 0, 0, ""), Node([("b", 2)], 0, 1, "a"), Node([], 1, 2, "b")], [[], [("b", 2)], []], ["a", "b"], [1], map[], 3)
  }

  function PartialB3(): Build
  {
    Build([Node([("a", 1)], 0, 0, ""), Node([("b", 2)], 0, 1, "a"), Node([("c", 3)], 1, 2, "b"), Node([], 2, 3, "c")], [[], [("b", 2)], [("c", 3)], []], ["a", "b", "c"], [1], map[], 4)
  }

  function PartialB4(): Build
  {
    Build([Node([("a", 1)], 0, 0, ""), Node([("b", 2)], 0, 1, "a"), Node([("c", 3)], 1, 2, "b"), Node([], 2, 3, "c")], [[], [("b", 2)], [("c", 3)], []], ["a", "b", "c"], [1], map[3 := 0], 4)
  }

  function PartialB5(): Build
  {
    Build([Node([("a", 1), ("d", 4)], 0, 0, ""), Node([("b", 2)], 0, 1, "a"), Node([("c", 3)], 1, 2, "b"), Node([], 2, 3, "c"), Node([], 0, 4, "d")], [[], [("b", 2)], [("c", 3)], [], []], ["a", "b", "c", "d"], [1, 4], map[3 := 0], 5)
  }

  function PartialB6(): Build
  {
    Build([Node([("a", 1), ("d", 4)], 0, 0, ""), Node([("b", 2)], 0, 1, "a"), Node([("c", 3)], 1, 2, "b"), Node([], 2, 3, "c"), Node([("e", 5)], 0, 4, "d"), Node([], 4, 5, "e")], [[], [("b", 2)], [("c", 3)], [], [("e", 5)], []], ["a", "b", "c", "d", "e"], [1, 4], map[3 := 0], 6)
  }

  function PartialB7(): Build
  {
    Build([Node([("a", 1), ("d", 4)], 0, 0, ""), Node([("b", 2)], 0, 1, "a"), Node([("c", 3)], 1, 2, "b"), Node([], 2, 3, "c"), Node([("e", 5)], 0, 4, "d"), Node([("f", 6)], 4, 5, "e"), Node([], 5, 6, "f")], [[], [("b", 2)], [("c", 3)], [], [("e", 5)], [("f", 6)], []], ["a", "b", "c", "d", "e", "f"], [1, 4], map[3 := 0], 7)
  }

  function PartialB8(): Build
  {
    Build([Node([("a", 1), ("d", 4)], 0, 0, ""), Node([("b", 2)], 0, 1, "a"), Node([("c", 3)], 1, 2, "b"), Node([], 2, 3, "c"), Node([("e", 5)], 0, 4, "d"), Node([("f", 6)], 4, 5, "e"), Node([], 5, 6, "f")], [[], [("b", 2)], [("c", 3)], [], [("e", 5)], [("f", 6)], []], ["a", "b", "c", "d", "e", "f"], [1, 4], map[3 := 0, 6 := 1], 7)
  }

  lemma PartialFollow0Step0Parts()
    ensures PartialB0().nodes[0 := PartialB0().nodes[0].(next := [("a", 1)])] + [Node([], 0, 1, "a")] == PartialB1().nodes
    ensures PartialB0().goto + [[]] == PartialB1().goto && PartialB0().inputs + [1] == PartialB1().inputs
    ensures PartialB0().blocks + ["a"] == PartialB1().blocks
  {
    assert PartialB0().nodes[0] == Node([], 0, 0, "");
    assert PartialB0().nodes[0 := Node([("a", 1)], 0, 0, "")] == [Node([("a", 1)], 0, 0, "")];
  }

  lemma PartialFollow0Step0()
    ensures Follow(PartialB0(), 0, ["a", "b", "c"]) == Follow(PartialB1(), 1, ["b", "c"])
  {
    assert Insert([], "a", 1) == [("a", 1)];
    FollowNew(PartialB0(), 0, ["a", "b", "c"]);
    PartialFollow0Step0Parts();
    GrowInto(PartialB0(), 0, "a", [("a", 1)], PartialB1());
    assert ["a", "b", "c"][1..] == ["b", "c"];
  }

  lemma PartialFollow0Step1Parts()
    ensures PartialB1().nodes[1 := PartialB1().nodes[1].(next := [("b", 2)])] + [Node([], 1, 2, "b")] == PartialB2().nodes
    ensures PartialB1().nodes[1].index == 1
    ensures PartialB1().goto[1 := Insert(PartialB1().goto[1], "b", 2)] + [[]] == PartialB2().goto
    ensures PartialB1().inputs == PartialB2().inputs
    ensures PartialB1().blocks + ["b"] == PartialB2().blocks
  {
    assert PartialB1().nodes[1] == Node([], 0, 1, "a");
    assert PartialB1().nodes[1 := Node([("b", 2)], 0, 1, "a")] == [Node([("a", 1)], 0, 0, ""), Node([("b", 2)], 0, 1, "a")];
    assert Insert([], "b", 2) == [("b", 2)];
  }

  lemma PartialFollow0Step1()
    ensures Follow(PartialB1(), 1, ["b", "c"]) == Follow(PartialB2(), 2, ["c"])
  {
    assert Insert([], "b", 2) == [("b", 2)];
    FollowNew(PartialB1(), 1, ["b", "c"]);
    PartialFollow0Step1Parts();
    GrowInto(PartialB1(), 1, "b", [("b", 2)], PartialB2());
    assert ["b", "c"][1..] == ["c"];
  }

  lemma PartialFollow0Step2Parts()
    ensures PartialB2().nodes[2 := PartialB2().nodes[2].(next := [("c", 3)])] + [Node([], 2, 3, "c")] == PartialB3().nodes
    ensures PartialB2().nodes[2].index == 2
    ensures PartialB2().goto[2 := Insert(PartialB2().goto[2], "c", 3)] + [[]] == PartialB3().goto
    ensures PartialB2().inputs == PartialB3().inputs
    ensures PartialB2().blocks + ["c"] == PartialB3().blocks
  {
    assert PartialB2().nodes[2] == Node([], 1, 2, "b");
    assert PartialB2().nodes[2 := Node([("c", 3)], 1, 2, "b")] == [Node([("a", 1)], 0, 0, ""), Node([("b", 2)], 0, 1, "a"), Node([("c", 3)], 1, 2, "b")];
    assert Insert([], "c", 3) == [("c", 3)];
  }

  lemma PartialFollow0Step2()
    ensures Follow(PartialB2(), 2, ["c"]) == Follow(PartialB3(), 3, [])
  {
    assert Insert([], "c", 3) == [("c", 3)];
    FollowNew(PartialB2(), 2, ["c"]);
    PartialFollow0Step2Parts();
    GrowInto(PartialB2(), 2, "c", [("c", 3)], PartialB3());
    assert ["c"][1..] == [];
  }

  lemma PartialFollow0()
    ensures Follow(PartialB0(), 0, ["a", "b", "c"]) == Finished((PartialB3(), 3))
  {
    PartialFollow0Step0();
    PartialFollow0Step1();
    PartialFollow0Step2();
    assert Follow(PartialB3(), 3, []) == Finished((PartialB3(), 3));
  }

  lemma PartialPattern0()
    ensures BuildFrom(PartialB0(), Partial().patterns, Standard().split, 0) == BuildFrom(PartialB4(), Partial().patterns, Standard().split, 1)
  {
    var cb := Standard();
    assert Partial().patterns[0] == "abc";
    assert cb.split("abc") == ["a", "b", "c"];
    PartialFollow0();
    BuildNext(PartialB0(), Partial().patterns, cb.split, 0, PartialB3(), 3);
    assert PartialB3().(outputs := PartialB3().outputs[3 := 0]) == PartialB4();
  }

  lemma PartialFollow1Step0Parts()
    ensures PartialB4().nodes[0 := PartialB4().nodes[0].(next := [("a", 1), ("d", 4)])] + [Node([], 0, 4, "d")] == PartialB5().nodes
    ensures PartialB4().goto + [[]] == PartialB5().goto && PartialB4().inputs + [4] == PartialB5().inputs
    ensures PartialB4().blocks + ["d"] == PartialB5().blocks
  {
    assert PartialB4().nodes[0] == Node([("a", 1)], 0, 0, "");
    assert PartialB4().nodes[0 := Node([("a", 1), ("d", 4)], 0, 0, "")] == [Node([("a", 1), ("d", 4)], 0, 0, ""), Node([("b", 2)], 0, 1, "a"), Node([("c", 3)], 1, 2, "b"), Node([], 2, 3, "c")];
  }

  lemma PartialFollow1Step0()
    ensures Follow(PartialB4(), 0, ["d", "e", "f"]) == Follow(PartialB5(), 4, ["e", "f"])
  {
    assert Insert([("a", 1)], "d", 4) == [("a", 1), ("d", 4)];
    FollowNew(PartialB4(), 0, ["d", "e", "f"]);
    PartialFollow1Step0Parts();
    GrowInto(PartialB4(), 0, "d", [("a", 1), ("d", 4)], PartialB5());
    assert ["d", "e", "f"][1..] == ["e", "f"];
  }

  lemma PartialFollow1Step1Parts()
    ensures PartialB5().nodes[4 := PartialB5().nodes[4].(next := [("e", 5)])] + [Node([], 4, 5, "e")] == PartialB6().nodes
    ensures PartialB5().nodes[4].index == 4
    ensures PartialB5().goto[4 := Insert(PartialB5().goto[4], "e", 5)] + [[]] == PartialB6().goto
    ensures PartialB5().inputs == PartialB6().inputs
    ensures PartialB5().blocks + ["e"] == PartialB6().blocks
  {
    assert PartialB5().nodes[4] == Node([], 0, 4, "d");
    assert PartialB5().nodes[4 := Node([("e", 5)], 0, 4, "d")] == [Node([("a", 1), ("d", 4)], 0, 0, ""), Node([("b", 2)], 0, 1, "a"), Node([("c", 3)], 1, 2, "b"), Node([], 2, 3, "c"), Node([("e", 5)], 0, 4, "d")];
    assert Insert([], "e", 5) == [("e", 5)];
  }

  lemma PartialFollow1Step1()
    ensures Follow(PartialB5(), 4, ["e", "f"]) == Follow(PartialB6(), 5, ["f"])
  {
    assert Insert([], "e", 5) == [("e", 5)];
    FollowNew(PartialB5(), 4, ["e", "f"]);
    PartialFollow1Step1Parts();
    GrowInto(PartialB5(), 4, "e", [("e", 5)], PartialB6());
    assert ["e", "f"][1..] == ["f"];
  }

  lemma PartialFollow1Step2Parts()
    ensures PartialB6().nodes[5 := PartialB6().nodes[5].(next := [("f", 6)])] + [Node([], 5, 6, "f")] == PartialB7().nodes
    ensures PartialB6().nodes[5].index == 5
    ensures PartialB6().goto[5 := Insert(PartialB6().goto[5], "f", 6)] + [[]] == PartialB7().goto
    ensures PartialB6().inputs == PartialB7().inputs
    ensures PartialB6().blocks + ["f"] == PartialB7().blocks
  {
    assert PartialB6().nodes[5] == Node([], 4, 5, "e");
    assert PartialB6().nodes[5 := Node([("f", 6)], 4, 5, "e")] == [Node([("a", 1), ("d", 4)], 0, 0, ""), Node([("b", 2)], 0, 1, "a"), Node([("c", 3)], 1, 2, "b"), Node([], 2, 3, "c"), Node([("e", 5)], 0, 4, "d"), Node([("f", 6)], 4, 5, "e")];
    assert Insert([], "f", 6) == [("f", 6)];
  }

  lemma PartialFollow1Step2()
    ensures Follow(PartialB6(), 5, ["f"]) == Follow(PartialB7(), 6, [])
  {
    assert Insert([], "f", 6) == [("f", 6)];
    FollowNew(PartialB6(), 5, ["f"]);
    PartialFollow1Step2Parts();
    GrowInto(PartialB6(), 5, "f", [("f", 6)], PartialB7());
    assert ["f"][1..] == [];
  }

  lemma PartialFollow1()
    ensures Follow(PartialB4(), 0, ["d", "e", "f"]) == Finished((PartialB7(), 6))
  {
    PartialFollow1Step0();
    PartialFollow1Step1();
    PartialFollow1Step2();
    assert Follow(PartialB7(), 6, []) == Finished((PartialB7(), 6));
  }

  lemma PartialPattern1()
    ensures BuildFrom(PartialB4(), Partial().patterns, Standard().split, 1) == BuildFrom(PartialB8(), Partial().patterns, Standard().split, 2)
  {
    var cb := Standard();
    assert Partial().patterns[1] == "def";
    assert cb.split("def") == ["d", "e", "f"];
    PartialFollow1();
    BuildNext(PartialB4(), Partial().patterns, cb.split, 1, PartialB7(), 6);
    assert PartialB7().(outputs := PartialB7().outputs[6 := 1]) == PartialB8();
  }

  lemma PartialTrie()
    ensures Trie(Partial(), Standard()) == Finished(PartialB8())
  {
    assert Trie(Partial(), Standard()) == BuildFrom(PartialB0(), Partial().patterns, Standard().split, 0);
    PartialPattern0();
    PartialPattern1();
    assert |Partial().patterns| == 2;
  }

  lemma PartialPop0(fuel: nat)
    requires fuel >= 1
    ensures Bfs(PartialB8().nodes, [0, 0, 0, 0, 0, 0, 0], [0], fuel) == Bfs(PartialB8().nodes, [0, 0, 0, 0, 0, 0, 0], [1, 4], fuel - 1)
  {
    var nodes := PartialB8().nodes;
    BfsRootStep(nodes, [0, 0, 0, 0, 0, 0, 0], [0], fuel);
    assert Values(nodes[0].next) == [1, 4];
    assert [0][1..] + [1, 4] == [1, 4];
  }

  lemma PartialPop1(fuel: nat)
    requires fuel >= 1
    ensures Bfs(PartialB8().nodes, [0, 0, 0, 0, 0, 0, 0], [1, 4], fuel) == Bfs(PartialB8().nodes, [0, 0, 0, 0, 0, 0, 0], [4, 2], fuel - 1)
  {
    var nodes := PartialB8().nodes;
    BfsRootStep(nodes, [0, 0, 0, 0, 0, 0, 0], [1, 4], fuel);
    assert Values(nodes[1].next) == [2];
    assert [1, 4][1..] + [2] == [4, 2];
  }

  lemma PartialPop2(fuel: nat)
    requires fuel >= 1
    ensures Bfs(PartialB8().nodes, [0, 0, 0, 0, 0, 0, 0], [4, 2], fuel) == Bfs(PartialB8().nodes, [0, 0, 0, 0, 0, 0, 0], [2, 5], fuel - 1)
  {
    var nodes := PartialB8().nodes;
    BfsRootStep(nodes, [0, 0, 0, 0, 0, 0, 0], [4, 2], fuel);
    assert Values(nodes[4].next) == [5];
    assert [4, 2][1..] + [5] == [2, 5];
  }

  lemma PartialPop3(fuel: nat)
    requires fuel >= 2
    ensures Bfs(PartialB8().nodes, [0, 0, 0, 0, 0, 0, 0], [2, 5], fuel) == Bfs(PartialB8().nodes, [0, 0, 0, 0, 0, 0, 0], [5, 3], fuel - 1)
  {
    var nodes := PartialB8().nodes;
    assert Get(nodes[0].next, "b") == None;
    assert FailureOf(nodes, [0, 0, 0, 0, 0, 0, 0], 2, "b", 0, false, fuel - 0) == FailureOf(nodes, [0, 0, 0, 0, 0, 0, 0], 2, "b", 0, true, fuel - 1);
    assert Get(nodes[0].next, "b") == None;
    assert FailureOf(nodes, [0, 0, 0, 0, 0, 0, 0], 2, "b", 0, true, fuel - 1) == Finished([0, 0, 0, 0, 0, 0, 0]);
    BfsStep(nodes, [0, 0, 0, 0, 0, 0, 0], [2, 5], fuel, [0, 0, 0, 0, 0, 0, 0]);
    assert Values(nodes[2].next) == [3];
    assert [2, 5][1..] + [3] == [5, 3];
  }

  lemma PartialPop4(fuel: nat)
    requires fuel >= 2
    ensures Bfs(PartialB8().nodes, [0, 0, 0, 0, 0, 0, 0], [5, 3], fuel) == Bfs(PartialB8().nodes, [0, 0, 0, 0, 0, 0, 0], [3, 6], fuel - 1)
  {
    var nodes := PartialB8().nodes;
    assert Get(nodes[0].next, "e") == None;
    assert FailureOf(nodes, [0, 0, 0, 0, 0, 0, 0], 5, "e", 0, false, fuel - 0) == FailureOf(nodes, [0, 0, 0, 0, 0, 0, 0], 5, "e", 0, true, fuel - 1);
    assert Get(nodes[0].next, "e") == None;
    assert FailureOf(nodes, [0, 0, 0, 0, 0, 0, 0], 5, "e", 0, true, fuel - 1) == Finished([0, 0, 0, 0, 0, 0, 0]);
    BfsStep(nodes, [0, 0, 0, 0, 0, 0, 0], [5, 3], fuel, [0, 0, 0, 0, 0, 0, 0]);
    assert Values(nodes[5].next) == [6];
    assert [5, 3][1..] + [6] == [3, 6];
  }

  lemma PartialPop5(fuel: nat)
    requires fuel >= 2
    ensures Bfs(PartialB8().nodes, [0, 0, 0, 0, 0, 0, 0], [3, 6], fuel) == Bfs(PartialB8().nodes, [0, 0, 0, 0, 0, 0, 0], [6], fuel - 1)
  {
    var nodes := PartialB8().nodes;
    assert Get(nodes[0].next, "c") == None;
    assert FailureOf(nodes, [0, 0, 0, 0, 0, 0, 0], 3, "c", 0, false, fuel - 0) == FailureOf(nodes, [0, 0, 0, 0, 0, 0, 0], 3, "c", 0, true, fuel - 1);
    assert Get(nodes[0].next, "c") == None;
    assert FailureOf(nodes, [0, 0, 0, 0, 0, 0, 0], 3, "c", 0, true, fuel - 1) == Finished([0, 0, 0, 0, 0, 0, 0]);
    BfsStep(nodes, [0, 0, 0, 0, 0, 0, 0], [3, 6], fuel, [0, 0, 0, 0, 0, 0, 0]);
    assert Values(nodes[3].next) == [];
    assert [3, 6][1..] + [] == [6];
  }

  lemma PartialPop6(fuel: nat)
    requires fuel >= 2
    ensures Bfs(PartialB8().nodes, [0, 0, 0, 0, 0, 0, 0], [6], fuel) == Bfs(PartialB8().nodes, [0, 0, 0, 0, 0, 0, 0], [], fuel - 1)
  {
    var nodes := PartialB8().nodes;
    assert Get(nodes[0].next, "f") == None;
    assert FailureOf(nodes, [0, 0, 0, 0, 0, 0, 0], 6, "f", 0, false, fuel - 0) == FailureOf(nodes, [0, 0, 0, 0, 0, 0, 0], 6, "f", 0, true, fuel - 1);
    assert Get(nodes[0].next, "f") == None;
    assert FailureOf(nodes, [0, 0, 0, 0, 0, 0, 0], 6, "f", 0, true, fuel - 1) == Finished([0, 0, 0, 0, 0, 0, 0]);
    BfsStep(nodes, [0, 0, 0, 0, 0, 0, 0], [6], fuel, [0, 0, 0, 0, 0, 0, 0]);
    assert Values(nodes[6].next) == [];
    assert [6][1..] + [] == [];
  }

  /** The same matcher once optimised. */
  function PartialOptimized(): Matcher
  {
    Matcher(map["abc" := 0, "def" := 1], ["abc", "def"], [0, 0, 0, 0, 0, 0, 0], [[], [("b", 2)], [("c", 3)], [], [("e", 5)], [("f", 6)], []], map[3 := 0, 6 := 1], [1, 4], ["a", "b", "c", "d", "e", "f"], true)
  }

  lemma PartialWalk6(fuel: nat)
    requires fuel >= 2
    ensures Bfs(PartialB8().nodes, [0, 0, 0, 0, 0, 0, 0], [6], fuel) == Finished([0, 0, 0, 0, 0, 0, 0])
  {
    PartialPop6(fuel);
    assert Bfs(PartialB8().nodes, [0, 0, 0, 0, 0, 0, 0], [], fuel - 1) == Finished([0, 0, 0, 0, 0, 0, 0]);
  }

  lemma PartialWalk5(fuel: nat)
    requires fuel >= 3
    ensures Bfs(PartialB8().nodes, [0, 0, 0, 0, 0, 0, 0], [3, 6], fuel) == Finished([0, 0, 0, 0, 0, 0, 0])
  {
    PartialPop5(fuel);
    PartialWalk6(fuel - 1);
  }

  lemma PartialWalk4(fuel: nat)
    requires fuel >= 4
    ensures Bfs(PartialB8().nodes, [0, 0, 0, 0, 0, 0, 0], [5, 3], fuel) == Finished([0, 0, 0, 0, 0, 0, 0])
  {
    PartialPop4(fuel);
    PartialWalk5(fuel - 1);
  }

  lemma PartialWalk3(fuel: nat)
    requires fuel >= 5
    ensures Bfs(PartialB8().nodes, [0, 0, 0, 0, 0, 0, 0], [2, 5], fuel) == Finished([0, 0, 0, 0, 0, 0, 0])
  {
    PartialPop3(fuel);
    PartialWalk4(fuel - 1);
  }

  lemma PartialWalk2(fuel: nat)
    requires fuel >= 6
    ensures Bfs(PartialB8().nodes, [0, 0, 0, 0, 0, 0, 0], [4, 2], fuel) == Finished([0, 0, 0, 0, 0, 0, 0])
  {
    PartialPop2(fuel);
    PartialWalk3(fuel - 1);
  }

  lemma PartialWalk1(fuel: nat)
    requires fuel >= 7
    ensures Bfs(PartialB8().nodes, [0, 0, 0, 0, 0, 0, 0], [1, 4], fuel) == Finished([0, 0, 0, 0, 0, 0, 0])
  {
    PartialPop1(fuel);
    PartialWalk2(fuel - 1);
  }

  lemma PartialWalk0(fuel: nat)
    requires fuel >= 8
    ensures Bfs(PartialB8().nodes, [0, 0, 0, 0, 0, 0, 0], [0], fuel) == Finished([0, 0, 0, 0, 0, 0, 0])
  {
    PartialPop0(fuel);
    PartialWalk1(fuel - 1);
  }

  lemma PartialOptimizes(fuel: nat)
    requires fuel >= 8
    ensures Optimize(Partial(), Standard(), fuel) == Finished(PartialOptimized())
  {
    PartialTrie();
    assert BaseFailure(Partial().failure, 7) == [0, 0, 0, 0, 0, 0, 0];
    PartialWalk0(fuel);
  }

  lemma PartialSample0Step0(fuel: nat)
    ensures Feed(PartialOptimized(), Standard(), ["a", "b"], 0, 0, fuel) == Feed(PartialOptimized(), Standard(), ["a", "b"], 1, 1, fuel)
  {
    FeedRoot(PartialOptimized(), Standard(), ["a", "b"], 0, fuel, 1);
  }

  lemma PartialSample0Step1(fuel: nat)
    ensures Feed(PartialOptimized(), Standard(), ["a", "b"], 1, 1, fuel) == Feed(PartialOptimized(), Standard(), ["a", "b"], 2, 2, fuel)
  {
    FeedMove(PartialOptimized(), Standard(), ["a", "b"], 1, 1, fuel, 2);
  }

  lemma PartialSample0(fuel: nat)
    ensures Similar(PartialOptimized(), Standard(), "ab", fuel) == Finished(false)
  {
    assert Standard().split("ab") == ["a", "b"];
    PartialSample0Step0(fuel);
    PartialSample0Step1(fuel);
    assert Feed(PartialOptimized(), Standard(), ["a", "b"], 2, 1, fuel - 0) == Finished(false);
  }

  lemma PartialSample1Step0(fuel: nat)
    ensures Feed(PartialOptimized(), Standard(), ["d", "e"], 0, 0, fuel) == Feed(PartialOptimized(), Standard(), ["d", "e"], 1, 4, fuel)
  {
    FeedRoot(PartialOptimized(), Standard(), ["d", "e"], 0, fuel, 4);
  }

  lemma PartialSample1Step1(fuel: nat)
    ensures Feed(PartialOptimized(), Standard(), ["d", "e"], 1, 4, fuel) == Feed(PartialOptimized(), Standard(), ["d", "e"], 2, 5, fuel)
  {
    FeedMove(PartialOptimized(), Standard(), ["d", "e"], 1, 4, fuel, 5);
  }

  lemma PartialSample1(fuel: nat)
    ensures Similar(PartialOptimized(), Standard(), "de", fuel) == Finished(false)
  {
    assert Standard().split("de") == ["d", "e"];
    PartialSample1Step0(fuel);
    PartialSample1Step1(fuel);
    assert Feed(PartialOptimized(), Standard(), ["d", "e"], 2, 4, fuel - 0) == Finished(false);
  }

  /** Strict prefixes of the patterns "abc" and "def" do not match. */
  lemma PartialScenario(fuel: nat, fuel': nat)
    requires fuel >= 8
    ensures Optimize(Add(Add(New(), "abc"), "def"), Standard(), fuel) == Finished(PartialOptimized())
    ensures Similar(PartialOptimized(), Standard(), "ab", fuel') == Finished(false)
    ensures Similar(PartialOptimized(), Standard(), "de", fuel') == Finished(false)
  {
    PartialAdded();
    PartialOptimizes(fuel);
    PartialSample0(fuel');
    PartialSample1(fuel');
  }

  /** The patterns "abcd", "bc" added in this order to a new matcher. */
  function Suffix(): Matcher
  {
    Matcher(map["abcd" := 0, "bc" := 1], ["abcd", "bc"], [0], [[]], map[], [], [], false)
  }

  lemma SuffixAdd0()
    ensures Add(New(), "abcd") == Matcher(map["abcd" := 0], ["abcd"], [0], [[]], map[], [], [], false)
  {
    assert "abcd" !in New().patternIndex;
    assert New().patternIndex["abcd" := 0] == map["abcd" := 0];
  }

  lemma SuffixAdd1()
    ensures Add(Matcher(map["abcd" := 0], ["abcd"], [0], [[]], map[], [], [], false), "bc") == Matcher(map["abcd" := 0, "bc" := 1], ["abcd", "bc"], [0], [[]], map[], [], [], false)
  {
    assert "bc" !in map["abcd" := 0];
    assert map["abcd" := 0]["bc" := 1] == map["abcd" := 0, "bc" := 1];
  }

  lemma SuffixAdded()
    ensures Add(Add(New(), "abcd"), "bc") == Suffix()
  {
    SuffixAdd0();
    SuffixAdd1();
  }

  function SuffixB0(): Build
  {
    Build([Node([], 0, 0, "")], [[]], [], [], map[], 1)
  }

  function SuffixB1(): Build
  {
    Build([Node([("a", 1)], 0, 0, ""), Node([], 0, 1, "a")], [[], []], ["a"], [1], map[], 2)
  }

  function SuffixB2(): Build
  {
    Build([Node([("a", 1)], 0, 0, ""), Node([("b", 2)], 0, 1, "a"), Node([], 1, 2, "b")], [[], [("b", 2)], []], ["a", "b"], [1], map[], 3)
  }

  function SuffixB3(): Build
  {
    Build([Node([("a", 1)], 0, 0, ""), Node([("b", 2)], 0, 1, "a"), Node([("c", 3)], 1, 2, "b"), Node([], 2, 3, "c")], [[], [("b", 2)], [("c", 3)], []], ["a", "b", "c"], [1], map[], 4)
  }

  function SuffixB4(): Build
  {
    Build([Node([("a", 1)], 0, 0, ""), Node([("b", 2)], 0, 1, "a"), Node([("c", 3)], 1, 2, "b"), Node([("d", 4)], 2, 3, "c"), Node([], 3, 4, "d")], [[], [("b", 2)], [("c", 3)], [("d", 4)], []], ["a", "b", "c", "d"], [1], map[], 5)
  }

  function SuffixB5(): Build
  {
    Build([Node([("a", 1)], 0, 0, ""), Node([("b", 2)], 0, 1, "a"), Node([("c", 3)], 1, 2, "b"), Node([("d", 4)], 2, 3, "c"), Node([], 3, 4, "d")], [[], [("b", 2)], [("c", 3)], [("d", 4)], []], ["a", "b", "c", "d"], [1], map[4 := 0], 5)
  }

  function SuffixB6(): Build
  {
    Build([Node([("a", 1), ("b", 5)], 0, 0, ""), Node([("b", 2)], 0, 1, "a"), Node([("c", 3)], 1, 2, "b"), Node([("d", 4)], 2, 3, "c"), Node([], 3, 4, "d"), Node([], 0, 5, "b")], [[], [("b", 2)], [("c", 3)], [("d", 4)], [], []], ["a", "b", "c", "d", "b"], [1, 5], map[4 := 0], 6)
  }

  function SuffixB7(): Build
  {
    Build([Node([("a", 1), ("b", 5)], 0, 0, ""), Node([("b", 2)], 0, 1, "a"), Node([("c", 3)], 1, 2, "b"), Node([("d", 4)], 2, 3, "c"), Node([], 3, 4, "d"), Node([("c", 6)], 0, 5, "b"), Node([], 5, 6, "c")], [[], [("b", 2)], [("c", 3)], [("d", 4)], [], [("c", 6)], []], ["a", "b", "c", "d", "b", "c"], [1, 5], map[4 := 0], 7)
  }

  function SuffixB8(): Build
  {
    Build([Node([("a", 1), ("b", 5)], 0, 0, ""), Node([("b", 2)], 0, 1, "a"), Node([("c", 3)], 1, 2, "b"), Node([("d", 4)], 2, 3, "c"), Node([], 3, 4, "d"), Node([("c", 6)], 0, 5, "b"), Node([], 5, 6, "c")], [[], [("b", 2)], [("c", 3)], [("d", 4)], [], [("c", 6)], []], ["a", "b", "c", "d", "b", "c"], [1, 5], map[4 := 0, 6 := 1], 7)
  }

  lemma SuffixFollow0Step0Parts()
    ensures SuffixB0().nodes[0 := SuffixB0().nodes[0].(next := [("a", 1)])] + [Node([], 0, 1, "a")] == SuffixB1().nodes
    ensures SuffixB0().goto + [[]] == SuffixB1().goto && SuffixB0().inputs + [1] == SuffixB1().inputs
    ensures SuffixB0().blocks + ["a"] == SuffixB1().blocks
  {
    assert SuffixB0().nodes[0] == Node([], 0, 0, "");
    assert SuffixB0().nodes[0 := Node([("a", 1)], 0, 0, "")] == [Node([("a", 1)], 0, 0, "")];
  }

  lemma SuffixFollow0Step0()
    ensures Follow(SuffixB0(), 0, ["a", "b", "c", "d"]) == Follow(SuffixB1(), 1, ["b", "c", "d"])
  {
    assert Insert([], "a", 1) == [("a", 1)];
    FollowNew(SuffixB0(), 0, ["a", "b", "c", "d"]);
    SuffixFollow0Step0Parts();
    GrowInto(SuffixB0(), 0, "a", [("a", 1)], SuffixB1());
    assert ["a", "b", "c", "d"][1..] == ["b", "c", "d"];
  }

  lemma SuffixFollow0Step1Parts()
    ensures SuffixB1().nodes[1 := SuffixB1().nodes[1].(next := [("b", 2)])] + [Node([], 1, 2, "b")] == SuffixB2().nodes
    ensures SuffixB1().nodes[1].index == 1
    ensures SuffixB1().goto[1 := Insert(SuffixB1().goto[1], "b", 2)] + [[]] == SuffixB2().goto
    ensures SuffixB1().inputs == SuffixB2().inputs
    ensures SuffixB1().blocks + ["b"] == SuffixB2().blocks
  {
    assert SuffixB1().nodes[1] == Node([], 0, 1, "a");
    assert SuffixB1().nodes[1 := Node([("b", 2)], 0, 1, "a")] == [Node([("a", 1)], 0, 0, ""), Node([("b", 2)], 0, 1, "a")];
    assert Insert([], "b", 2) == [("b", 2)];
  }

  lemma SuffixFollow0Step1()
    ensures Follow(SuffixB1(), 1, ["b", "c", "d"]) == Follow(SuffixB2(), 2, ["c", "d"])
  {
    assert Insert([], "b", 2) == [("b", 2)];
    FollowNew(SuffixB1(), 1, ["b", "c", "d"]);
    SuffixFollow0Step1Parts();
    GrowInto(SuffixB1(), 1, "b", [("b", 2)], SuffixB2());
    assert ["b", "c", "d"][1..] == ["c", "d"];
  }

  lemma SuffixFollow0Step2Parts()
    ensures SuffixB2().nodes[2 := SuffixB2().nodes[2].(next := [("c", 3)])] + [Node([], 2, 3, "c")] == SuffixB3().nodes
    ensures SuffixB2().nodes[2].index == 2
    ensures SuffixB2().goto[2 := Insert(SuffixB2().goto[2], "c", 3)] + [[]] == SuffixB3().goto
    ensures SuffixB2().inputs == SuffixB3().inputs
    ensures SuffixB2().blocks + ["c"] == SuffixB3().blocks
  {
    assert SuffixB2().nodes[2] == Node([], 1, 2, "b");
    assert SuffixB2().nodes[2 := Node([("c", 3)], 1, 2, "b")] == [Node([("a", 1)], 0, 0, ""), Node([("b", 2)], 0, 1, "a"), Node([("c", 3)], 1, 2, "b")];
    assert Insert([], "c", 3) == [("c", 3)];
  }

  lemma SuffixFollow0Step2()
    ensures Follow(SuffixB2(), 2, ["c", "d"]) == Follow(SuffixB3(), 3, ["d"])
  {
    assert Insert([], "c", 3) == [("c", 3)];
    FollowNew(SuffixB2(), 2, ["c", "d"]);
    SuffixFollow0Step2Parts();
    GrowInto(SuffixB2(), 2, "c", [("c", 3)], SuffixB3());
    assert ["c", "d"][1..] == ["d"];
  }

  lemma SuffixFollow0Step3Parts()
    ensures SuffixB3().nodes[3 := SuffixB3().nodes[3].(next := [("d", 4)])] + [Node([], 3, 4, "d")] == SuffixB4().nodes
    ensures SuffixB3().nodes[3].index == 3
    ensures SuffixB3().goto[3 := Insert(SuffixB3().goto[3], "d", 4)] + [[]] == SuffixB4().goto
    ensures SuffixB3().inputs == SuffixB4().inputs
    ensures SuffixB3().blocks + ["d"] == SuffixB4().blocks
  {
    assert SuffixB3().nodes[3] == Node([], 2, 3, "c");
    assert SuffixB3().nodes[3 := Node([("d", 4)], 2, 3, "c")] == [Node([("a", 1)], 0, 0, ""), Node([("b", 2)], 0, 1, "a"), Node([("c", 3)], 1, 2, "b"), Node([("d", 4)], 2, 3, "c")];
    assert Insert([], "d", 4) == [("d", 4)];
  }

  lemma SuffixFollow0Step3()
    ensures Follow(SuffixB3(), 3, ["d"]) == Follow(SuffixB4(), 4, [])
  {
    assert Insert([], "d", 4) == [("d", 4)];
    FollowNew(SuffixB3(), 3, ["d"]);
    SuffixFollow0Step3Parts();
    GrowInto(SuffixB3(), 3, "d", [("d", 4)], SuffixB4());
    assert ["d"][1..] == [];
  }

  lemma SuffixFollow0()
    ensures Follow(SuffixB0(), 0, ["a", "b", "c", "d"]) == Finished((SuffixB4(), 4))
  {
    SuffixFollow0Step0();
    SuffixFollow0Step1();
    SuffixFollow0Step2();
    SuffixFollow0Step3();
    assert Follow(SuffixB4(), 4, []) == Finished((SuffixB4(), 4));
  }

  lemma SuffixPattern0()
    ensures BuildFrom(SuffixB0(), Suffix().patterns, Standard().split, 0) == BuildFrom(SuffixB5(), Suffix().patterns, Standard().split, 1)
  {
    var cb := Standard();
    assert Suffix().patterns[0] == "abcd";
    assert cb.split("abcd") == ["a", "b", "c", "d"];
    SuffixFollow0();
    BuildNext(SuffixB0(), Suffix().patterns, cb.split, 0, SuffixB4(), 4);
    assert SuffixB4().(outputs := SuffixB4().outputs[4 := 0]) == SuffixB5();
  }

  lemma SuffixFollow1Step0Parts()
    ensures SuffixB5().nodes[0 := SuffixB5().nodes[0].(next := [("a", 1), ("b", 5)])] + [Node([], 0, 5, "b")] == SuffixB6().nodes
    ensures SuffixB5().goto + [[]] == SuffixB6().goto && SuffixB5().inputs + [5] == SuffixB6().inputs
    ensures SuffixB5().blocks + ["b"] == SuffixB6().blocks
  {
    assert SuffixB5().nodes[0] == Node([("a", 1)], 0, 0, "");
    assert SuffixB5().nodes[0 := Node([("a", 1), ("b", 5)], 0, 0, "")] == [Node([("a", 1), ("b", 5)], 0, 0, ""), Node([("b", 2)], 0, 1, "a"), Node([("c", 3)], 1, 2, "b"), Node([("d", 4)], 2, 3, "c"), Node([], 3, 4, "d")];
  }

  lemma SuffixFollow1Step0()
    ensures Follow(SuffixB5(), 0, ["b", "c"]) == Follow(SuffixB6(), 5, ["c"])
  {
    assert Insert([("a", 1)], "b", 5) == [("a", 1), ("b", 5)];
    FollowNew(SuffixB5(), 0, ["b", "c"]);
    SuffixFollow1Step0Parts();
    GrowInto(SuffixB5(), 0, "b", [("a", 1), ("b", 5)], SuffixB6());
    assert ["b", "c"][1..] == ["c"];
  }

  lemma SuffixFollow1Step1Parts()
    ensures SuffixB6().nodes[5 := SuffixB6().nodes[5].(next := [("c", 6)])] + [Node([], 5, 6, "c")] == SuffixB7().nodes
    ensures SuffixB6().nodes[5].index == 5
    ensures SuffixB6().goto[5 := Insert(SuffixB6().goto[5], "c", 6)] + [[]] == SuffixB7().goto
    ensures SuffixB6().inputs == SuffixB7().inputs
    ensures SuffixB6().blocks + ["c"] == SuffixB7().blocks
  {
    assert SuffixB6().nodes[5] == Node([], 0, 5, "b");
    assert SuffixB6().nodes[5 := Node([("c", 6)], 0, 5, "b")] == [Node([("a", 1), ("b", 5)], 0, 0, ""), Node([("b", 2)], 0, 1, "a"), Node([("c", 3)], 1, 2, "b"), Node([("d", 4)], 2, 3, "c"), Node([], 3, 4, "d"), Node([("c", 6)], 0, 5, "b")];
    assert Insert([], "c", 6) == [("c", 6)];
  }

  lemma SuffixFollow1Step1()
    ensures Follow(SuffixB6(), 5, ["c"]) == Follow(SuffixB7(), 6, [])
  {
    assert Insert([], "c", 6) == [("c", 6)];
    FollowNew(SuffixB6(), 5, ["c"]);
    SuffixFollow1Step1Parts();
    GrowInto(SuffixB6(), 5, "c", [("c", 6)], SuffixB7());
    assert ["c"][1..] == [];
  }

  lemma SuffixFollow1()
    ensures Follow(SuffixB5(), 0, ["b", "c"]) == Finished((SuffixB7(), 6))
  {
    SuffixFollow1Step0();
    SuffixFollow1Step1();
    assert Follow(SuffixB7(), 6, []) == Finished((SuffixB7(), 6));
  }

  lemma SuffixPattern1()
    ensures BuildFrom(SuffixB5(), Suffix().patterns, Standard().split, 1) == BuildFrom(SuffixB8(), Suffix().patterns, Standard().split, 2)
  {
    var cb := Standard();
    assert Suffix().patterns[1] == "bc";
    assert cb.split("bc") == ["b", "c"];
    SuffixFollow1();
    BuildNext(SuffixB5(), Suffix().patterns, cb.split, 1, SuffixB7(), 6);
    assert SuffixB7().(outputs := SuffixB7().outputs[6 := 1]) == SuffixB8();
  }

  lemma SuffixTrie()
    ensures Trie(Suffix(), Standard()) == Finished(SuffixB8())
  {
    assert Trie(Suffix(), Standard()) == BuildFrom(SuffixB0(), Suffix().patterns, Standard().split, 0);
    SuffixPattern0();
    SuffixPattern1();
    assert |Suffix().patterns| == 2;
  }

  lemma SuffixPop0(fuel: nat)
    requires fuel >= 1
    ensures Bfs(SuffixB8().nodes, [0, 0, 0, 0, 0, 0, 0], [0], fuel) == Bfs(SuffixB8().nodes, [0, 0, 0, 0, 0, 0, 0], [1, 5], fuel - 1)
  {
    var nodes := SuffixB8().nodes;
    BfsRootStep(nodes, [0, 0, 0, 0, 0, 0, 0], [0], fuel);
    assert Values(nodes[0].next) == [1, 5];
    assert [0][1..] + [1, 5] == [1, 5];
  }

  lemma SuffixPop1(fuel: nat)
    requires fuel >= 1
    ensures Bfs(SuffixB8().nodes, [0, 0, 0, 0, 0, 0, 0], [1, 5], fuel) == Bfs(SuffixB8().nodes, [0, 0, 0, 0, 0, 0, 0], [5, 2], fuel - 1)
  {
    var nodes := SuffixB8().nodes;
    BfsRootStep(nodes, [0, 0, 0, 0, 0, 0, 0], [1, 5], fuel);
    assert Values(nodes[1].next) == [2];
    assert [1, 5][1..] + [2] == [5, 2];
  }

  lemma SuffixPop2(fuel: nat)
    requires fuel >= 1
    ensures Bfs(SuffixB8().nodes, [0, 0, 0, 0, 0, 0, 0], [5, 2], fuel) == Bfs(SuffixB8().nodes, [0, 0, 0, 0, 0, 0, 0], [2, 6], fuel - 1)
  {
    var nodes := SuffixB8().nodes;
    BfsRootStep(nodes, [0, 0, 0, 0, 0, 0, 0], [5, 2], fuel);
    assert Values(nodes[5].next) == [6];
    assert [5, 2][1..] + [6] == [2, 6];
  }

  lemma SuffixPop3(fuel: nat)
    requires fuel >= 1
    ensures Bfs(SuffixB8().nodes, [0, 0, 0, 0, 0, 0, 0], [2, 6], fuel) == Bfs(SuffixB8().nodes, [0, 0, 5, 0, 0, 0, 0], [6, 3], fuel - 1)
  {
    var nodes := SuffixB8().nodes;
    assert Get(nodes[0].next, "b") == Some(5);
    assert [0, 0, 0, 0, 0, 0, 0][2 := 5] == [0, 0, 5, 0, 0, 0, 0];
    assert FailureOf(nodes, [0, 0, 0, 0, 0, 0, 0], 2, "b", 0, false, fuel - 0) == Finished([0, 0, 5, 0, 0, 0, 0]);
    BfsStep(nodes, [0, 0, 0, 0, 0, 0, 0], [2, 6], fuel, [0, 0, 5, 0, 0, 0, 0]);
    assert Values(nodes[2].next) == [3];
    assert [2, 6][1..] + [3] == [6, 3];
  }

  lemma SuffixPop4(fuel: nat)
    requires fuel >= 2
    ensures Bfs(SuffixB8().nodes, [0, 0, 5, 0, 0, 0, 0], [6, 3], fuel) == Bfs(SuffixB8().nodes, [0, 0, 5, 0, 0, 0, 0], [3], fuel - 1)
  {
    var nodes := SuffixB8().nodes;
    assert Get(nodes[0].next, "c") == None;
    assert FailureOf(nodes, [0, 0, 5, 0, 0, 0, 0], 6, "c", 0, false, fuel - 0) == FailureOf(nodes, [0, 0, 5, 0, 0, 0, 0], 6, "c", 0, true, fuel - 1);
    assert Get(nodes[0].next, "c") == None;
    assert FailureOf(nodes, [0, 0, 5, 0, 0, 0, 0], 6, "c", 0, true, fuel - 1) == Finished([0, 0, 5, 0, 0, 0, 0]);
    BfsStep(nodes, [0, 0, 5, 0, 0, 0, 0], [6, 3], fuel, [0, 0, 5, 0, 0, 0, 0]);
    assert Values(nodes[6].next) == [];
    assert [6, 3][1..] + [] == [3];
  }

  lemma SuffixPop5(fuel: nat)
    requires fuel >= 1
    ensures Bfs(SuffixB8().nodes, [0, 0, 5, 0, 0, 0, 0], [3], fuel) == Bfs(SuffixB8().nodes, [0, 0, 5, 6, 0, 0, 0], [4], fuel - 1)
  {
    var nodes := SuffixB8().nodes;
    assert Get(nodes[5].next, "c") == Some(6);
    assert [0, 0, 5, 0, 0, 0, 0][3 := 6] == [0, 0, 5, 6, 0, 0, 0];
    assert FailureOf(nodes, [0, 0, 5, 0, 0, 0, 0], 3, "c", 5, false, fuel - 0) == Finished([0, 0, 5, 6, 0, 0, 0]);
    BfsStep(nodes, [0, 0, 5, 0, 0, 0, 0], [3], fuel, [0, 0, 5, 6, 0, 0, 0]);
    assert Values(nodes[3].next) == [4];
    assert [3][1..] + [4] == [4];
  }

  lemma SuffixPop6(fuel: nat)
    requires fuel >= 3
    ensures Bfs(SuffixB8().nodes, [0, 0, 5, 6, 0, 0, 0], [4], fuel) == Bfs(SuffixB8().nodes, [0, 0, 5, 6, 0, 0, 0], [], fuel - 1)
  {
    var nodes := SuffixB8().nodes;
    assert Get(nodes[6].next, "d") == None;
    assert FailureOf(nodes, [0, 0, 5, 6, 0, 0, 0], 4, "d", 6, false, fuel - 0) == FailureOf(nodes, [0, 0, 5, 6, 0, 0, 0], 4, "d", 0, false, fuel - 1);
    assert Get(nodes[0].next, "d") == None;
    assert FailureOf(nodes, [0, 0, 5, 6, 0, 0, 0], 4, "d", 0, false, fuel - 1) == FailureOf(nodes, [0, 0, 5, 6, 0, 0, 0], 4, "d", 0, true, fuel - 2);
    assert Get(nodes[0].next, "d") == None;
    assert FailureOf(nodes, [0, 0, 5, 6, 0, 0, 0], 4, "d", 0, true, fuel - 2) == Finished([0, 0, 5, 6, 0, 0, 0]);
    BfsStep(nodes, [0, 0, 5, 6, 0, 0, 0], [4], fuel, [0, 0, 5, 6, 0, 0, 0]);
    assert Values(nodes[4].next) == [];
    assert [4][1..] + [] == [];
  }

  /** The same matcher once optimised. */
  function SuffixOptimized(): Matcher
  {
    Matcher(map["abcd" := 0, "bc" := 1], ["abcd", "bc"], [0, 0, 5, 6, 0, 0, 0], [[], [("b", 2)], [("c", 3)], [("d", 4)], [], [("c", 6)], []], map[4 := 0, 6 := 1], [1, 5], ["a", "b", "c", "d", "b", "c"], true)
  }

  lemma SuffixWalk6(fuel: nat)
    requires fuel >= 3
    ensures Bfs(SuffixB8().nodes, [0, 0, 5, 6, 0, 0, 0], [4], fuel) == Finished([0, 0, 5, 6, 0, 0, 0])
  {
    SuffixPop6(fuel);
    assert Bfs(SuffixB8().nodes, [0, 0, 5, 6, 0, 0, 0], [], fuel - 1) == Finished([0, 0, 5, 6, 0, 0, 0]);
  }

  lemma SuffixWalk5(fuel: nat)
    requires fuel >= 4
    ensures Bfs(SuffixB8().nodes, [0, 0, 5, 0, 0, 0, 0], [3], fuel) == Finished([0, 0, 5, 6, 0, 0, 0])
  {
    SuffixPop5(fuel);
    SuffixWalk6(fuel - 1);
  }

  lemma SuffixWalk4(fuel: nat)
    requires fuel >= 5
    ensures Bfs(SuffixB8().nodes, [0, 0, 5, 0, 0, 0, 0], [6, 3], fuel) == Finished([0, 0, 5, 6, 0, 0, 0])
  {
    SuffixPop4(fuel);
    SuffixWalk5(fuel - 1);
  }

  lemma SuffixWalk3(fuel: nat)
    requires fuel >= 6
    ensures Bfs(SuffixB8().nodes, [0, 0, 0, 0, 0, 0, 0], [2, 6], fuel) == Finished([0, 0, 5, 6, 0, 0, 0])
  {
    SuffixPop3(fuel);
    SuffixWalk4(fuel - 1);
  }

  lemma SuffixWalk2(fuel: nat)
    requires fuel >= 7
    ensures Bfs(SuffixB8().nodes, [0, 0, 0, 0, 0, 0, 0], [5, 2], fuel) == Finished([0, 0, 5, 6, 0, 0, 0])
  {
    SuffixPop2(fuel);
    SuffixWalk3(fuel - 1);
  }

  lemma SuffixWalk1(fuel: nat)
    requires fuel >= 8
    ensures Bfs(SuffixB8().nodes, [0, 0, 0, 0, 0, 0, 0], [1, 5], fuel) == Finished([0, 0, 5, 6, 0, 0, 0])
  {
    SuffixPop1(fuel);
    SuffixWalk2(fuel - 1);
  }

  lemma SuffixWalk0(fuel: nat)
    requires fuel >= 9
    ensures Bfs(SuffixB8().nodes, [0, 0, 0, 0, 0, 0, 0], [0], fuel) == Finished([0, 0, 5, 6, 0, 0, 0])
  {
    SuffixPop0(fuel);
    SuffixWalk1(fuel - 1);
  }

  lemma SuffixOptimizes(fuel: nat)
    requires fuel >= 9
    ensures Optimize(Suffix(), Standard(), fuel) == Finished(SuffixOptimized())
  {
    SuffixTrie();
    assert BaseFailure(Suffix().failure, 7) == [0, 0, 0, 0, 0, 0, 0];
    SuffixWalk0(fuel);
  }

  lemma SuffixSample0Step0(fuel: nat)
    ensures Feed(SuffixOptimized(), Standard(), ["a", "b", "c"], 0, 0, fuel) == Feed(SuffixOptimized(), Standard(), ["a", "b", "c"], 1, 1, fuel)
  {
    FeedRoot(SuffixOptimized(), Standard(), ["a", "b", "c"], 0, fuel, 1);
  }

  lemma SuffixSample0Step1(fuel: nat)
    ensures Feed(SuffixOptimized(), Standard(), ["a", "b", "c"], 1, 1, fuel) == Feed(SuffixOptimized(), Standard(), ["a", "b", "c"], 2, 2, fuel)
  {
    FeedMove(SuffixOptimized(), Standard(), ["a", "b", "c"], 1, 1, fuel, 2);
  }

  lemma SuffixSample0Step2(fuel: nat)
    ensures Feed(SuffixOptimized(), Standard(), ["a", "b", "c"], 2, 2, fuel) == Feed(SuffixOptimized(), Standard(), ["a", "b", "c"], 3, 3, fuel)
  {
    FeedMove(SuffixOptimized(), Standard(), ["a", "b", "c"], 2, 2, fuel, 3);
  }

  lemma SuffixSample0(fuel: nat)
    ensures Similar(SuffixOptimized(), Standard(), "abc", fuel) == Finished(false)
  {
    assert Standard().split("abc") == ["a", "b", "c"];
    SuffixSample0Step0(fuel);
    SuffixSample0Step1(fuel);
    SuffixSample0Step2(fuel);
    assert Feed(SuffixOptimized(), Standard(), ["a", "b", "c"], 3, 2, fuel - 0) == Finished(false);
  }

  /** The patterns "abcd" and "bc": the sample "abc" walks a-b-c down the first chain and ends there, so the output node of "bc" is never visited and `similar` answers false. */
  lemma SuffixScenario(fuel: nat, fuel': nat)
    requires fuel >= 9
    ensures Optimize(Add(Add(New(), "abcd"), "bc"), Standard(), fuel) == Finished(SuffixOptimized())
    ensures Similar(SuffixOptimized(), Standard(), "abc", fuel') == Finished(false)
  {
    SuffixAdded();
    SuffixOptimizes(fuel);
    SuffixSample0(fuel');
  }

}

=== FILE: aho_corasick_tests.dfy ===
/** The remaining unit tests of the Aho-Corasick matcher, and the sample on
    which `similar` as written disagrees with plain containment. */
module AhoCorasickTests {
  import opened Wrappers
  import opened AhoCorasick
  import opened AhoCorasickScenarios

  /** Adding a pattern twice is the same as adding it once. */
  lemma AddIdempotent(m: Matcher, pattern: string)
    requires Indexed(m)
    ensures Add(Add(m, pattern), pattern) == Add(m, pattern)
  {
    var r := Add(m, pattern);
    if |pattern| > 0 && pattern !in m.patterns {
      assert r.patterns == m.patterns + [pattern];
      assert pattern in r.patterns;
    }
  }

  /** The duplicate-pattern test: "abc" added twice is one pattern, and the
      optimised matcher recognises "abc". */
  lemma DuplicatePattern(fuel: nat, fuel': nat)
    ensures Add(Add(New(), "abc"), "abc") == Add(New(), "abc")
    ensures |Add(Add(New(), "abc"), "abc").patterns| == 1
    ensures Optimize(Add(Add(New(), "abc"), "abc"), Standard(), fuel).Finished? ==>
              Similar(Optimize(Add(Add(New(), "abc"), "abc"), Standard(), fuel).value, Standard(), "abc", fuel') == Finished(true)
  {
    AddIdempotent(New(), "abc");
    var m := Add(New(), "abc");
    assert m.patterns == ["abc"];
    if Optimize(m, Standard(), fuel).Finished? {
      assert |Standard().split(m.patterns[0])| == 3;
      OptimizeRecognisesPatterns(m, Standard(), fuel, 0, fuel');
    }
  }

  /** The empty-pattern test: the empty pattern is not added, so neither the
      empty sample nor any other matches. */
  lemma EmptyPattern(sample: string, fuel: nat, fuel': nat)
    requires fuel >= 1
    ensures Add(New(), "") == New()
    ensures Optimize(Add(New(), ""), Standard(), fuel).Finished?
    ensures Similar(Optimize(Add(New(), ""), Standard(), fuel).value, Standard(), sample, fuel') == Finished(false)
  {
    NoPatternsNeverMatch(New(), Standard(), fuel, sample, fuel');
  }

  /** On the "abcd"/"bc" matcher the sample "abc" contains "bc", yet
      `similar` answers false: the scan only looks at the output of the state
      it stands in, never along that state's failure links, so the output
      of "bc", reachable from state "abc" by one failure link, is missed.
      The intended answer, `SimilarFixed`, is true. */
  lemma SuffixMisses(fuel: nat, fuel': nat)
    requires fuel >= 9
    ensures Optimize(Add(Add(New(), "abcd"), "bc"), Standard(), fuel) == Finished(SuffixOptimized())
    ensures Similar(SuffixOptimized(), Standard(), "abc", fuel') == Finished(false)
    ensures SimilarFixed(SuffixOptimized(), Standard(), "abc")
  {
    SuffixScenario(fuel, fuel');
    SuffixContains();
  }

  /** The blocks of "abc" contain those of the second pattern, "bc". */
  lemma SuffixContains()
    ensures SimilarFixed(SuffixOptimized(), Standard(), "abc")
  {
    var m := SuffixOptimized();
    assert m.patterns[1] == "bc";
    assert Standard().split("abc") == ["a", "b", "c"];
    assert Standard().split("bc") == ["b", "c"];
    assert At(["a", "b", "c"], ["b", "c"], 1);
  }

  /** On the samples of the first unit test, the intended answer agrees with
      the one the test expects. */
  lemma BasicFixedAgrees()
    ensures SimilarFixed(BasicOptimized(), Standard(), "abc")
    ensures SimilarFixed(BasicOptimized(), Standard(), "aabc")
    ensures SimilarFixed(BasicOptimized(), Standard(), "daabce")
    ensures !SimilarFixed(BasicOptimized(), Standard(), "aa")
    ensures !SimilarFixed(BasicOptimized(), Standard(), "abd")
  {
    BasicFixedMatches();
    BasicFixedShort();
    BasicFixedMismatch();
  }

  lemma BasicPatterns()
    ensures BasicOptimized().patterns == ["abc", "aab", "bcd"]
    ensures Standard().split("abc") == ["a", "b", "c"]
    ensures Standard().split("aab") == ["a", "a", "b"]
    ensures Standard().split("bcd") == ["b", "c", "d"]
  {
  }

  lemma BasicFixedMatches()
    ensures SimilarFixed(BasicOptimized(), Standard(), "abc")
    ensures SimilarFixed(BasicOptimized(), Standard(), "aabc")
    ensures SimilarFixed(BasicOptimized(), Standard(), "daabce")
  {
    BasicPatterns();
    assert At(["a", "b", "c"], ["a", "b", "c"], 0);
    BasicFixedInner();
    BasicFixedSurrounded();
  }

  lemma BasicFixedInner()
    ensures SimilarFixed(BasicOptimized(), Standard(), "aabc")
  {
    BasicPatterns();
    assert Standard().split("aabc") == ["a", "a", "b", "c"];
    assert At(["a", "a", "b", "c"], ["a", "b", "c"], 1);
  }

  lemma BasicFixedSurrounded()
    ensures SimilarFixed(BasicOptimized(), Standard(), "daabce")
  {
    BasicPatterns();
    assert Standard().split("daabce") == ["d", "a", "a", "b", "c", "e"];
    assert At(["d", "a", "a", "b", "c", "e"], ["a", "b", "c"], 2);
  }

  lemma BasicFixedShort()
    ensures !SimilarFixed(BasicOptimized(), Standard(), "aa")
  {
    BasicPatterns();
    var m := BasicOptimized();
    assert Standard().split("aa") == ["a", "a"];
    assert forall j :: 0 <= j < 3 ==> |Standard().split(m.patterns[j])| == 3;
    assert forall j :: 0 <= j < 3 ==> !Occurs(["a", "a"], Standard().split(m.patterns[j]));
  }

  lemma BasicFixedMismatch()
    ensures !SimilarFixed(BasicOptimized(), Standard(), "abd")
  {
    BasicPatterns();
    var m := BasicOptimized();
    assert Standard().split("abd") == ["a", "b", "d"];
    assert forall j :: 0 <= j < 3 ==> !Occurs(["a", "b", "d"], Standard().split(m.patterns[j])) by {
      forall j, q | 0 <= j < 3 && 0 <= q < 3
        ensures !At(["a", "b", "d"], Standard().split(m.patterns[j]), q)
      {
        if q == 0 {
          assert ["a", "b", "d"][0..3] == ["a", "b", "d"];
        }
      }
    }
  }
}

=== FILE: binary_search.dfy ===
/** Binary search over a slice with a caller-supplied three-way comparator
    (`pkgs/backend/src/algorithm/binarysearch.rs`).

    The comparator answers how the target compares with one element. The
    search does not demand that the slice be sorted; it only promises that a
    `Some(i)` answer points at an element comparing `Equal`. When the slice is
    partitioned for the target (every `Greater` answer before every `Equal`,
    every `Equal` before every `Less`), a `None` answer also means that no
    element compares `Equal`.
 */
module BinarySearch {
  import opened Wrappers

  /** Rust's `std::cmp::Ordering`. */
  datatype Ordering = Less | Equal | Greater

  /** Position of an answer along a slice partitioned for the target:
      `Greater` answers come first, `Less` answers last. */
  function Rank(o: Ordering): nat {
    match o
    case Greater => 2
    case Equal => 1
    case Less => 0
  }

  /** The slice is ordered as the comparator sees it from `target`. */
  ghost predicate PartitionedFor<T, K>(arr: seq<T>, target: K, cmp: (K, T) -> Ordering) {
    forall i, j :: 0 <= i < j < |arr| ==> Rank(cmp(target, arr[i])) >= Rank(cmp(target, arr[j]))
  }

  /** Some element of the slice compares `Equal` with the target. */
  ghost predicate Present<T, K>(arr: seq<T>, target: K, cmp: (K, T) -> Ordering) {
    exists i :: 0 <= i < |arr| && cmp(target, arr[i]) == Equal
  }

  /** `binary_search(arr, target, comparator)`: halve `[left, right)` until
      the middle element compares `Equal`, or the range is empty. */
  method Search<T, K>(arr: seq<T>, target: K, cmp: (K, T) -> Ordering) returns (r: Option<nat>)
    ensures r.Some? ==> r.value < |arr| && cmp(target, arr[r.value]) == Equal
    ensures |arr| == 0 ==> r == None
    ensures PartitionedFor(arr, target, cmp) ==> (r.None? <==> !Present(arr, target, cmp))
  {
    var left: nat := 0;
    var right: nat := |arr|;
    while left < right
      invariant left <= right <= |arr|
      invariant PartitionedFor(arr, target, cmp) ==>
        forall i :: 0 <= i < left ==> cmp(target, arr[i]) == Greater
      invariant PartitionedFor(arr, target, cmp) ==>
        forall i :: right <= i < |arr| ==> cmp(target, arr[i]) == Less
      decreases right - left
    {
      var mid := left + (right - left) / 2;
      match cmp(target, arr[mid])
      case Less =>
        right := mid;
      case Equal =>
        return Some(mid);
      case Greater =>
        left := mid + 1;
    }
    r := None;
  }

  /** The comparator of the ascending test: `a.cmp(b)`. */
  function AscendingCmp(a: int, b: int): Ordering {
    if a < b then Less else if a == b then Equal else Greater
  }

  /** The comparator of the descending test: `b.cmp(a)`. */
  function DescendingCmp(a: int, b: int): Ordering {
    AscendingCmp(b, a)
  }

  /** A slice whose neighbours never decrease is partitioned for every
      target under the ascending comparator. */
  lemma {:induction false} AscendingPartitioned(arr: seq<int>, target: int)
    requires forall i :: 0 <= i < |arr| - 1 ==> arr[i] <= arr[i + 1]
    ensures PartitionedFor(arr, target, AscendingCmp)
  {
    if |arr| > 1 {
      AscendingPartitioned(arr[1..], target);
      forall i, j | 0 <= i < j < |arr|
        ensures Rank(AscendingCmp(target, arr[i])) >= Rank(AscendingCmp(target, arr[j]))
      {
        if i > 0 {
          assert arr[i] == arr[1..][i - 1] && arr[j] == arr[1..][j - 1];
        } else {
          assert arr[0] <= arr[1];
          if j > 1 {
            assert arr[1] == arr[1..][0] && arr[j] == arr[1..][j - 1];
            assert Rank(AscendingCmp(target, arr[1])) >= Rank(AscendingCmp(target, arr[j]));
          }
        }
      }
    }
  }

  /** A slice whose neighbours never increase is partitioned for every
      target under the descending comparator. */
  lemma {:induction false} DescendingPartitioned(arr: seq<int>, target: int)
    requires forall i :: 0 <= i < |arr| - 1 ==> arr[i] >= arr[i + 1]
    ensures PartitionedFor(arr, target, DescendingCmp)
  {
    if |arr| > 1 {
      DescendingPartitioned(arr[1..], target);
      forall i, j | 0 <= i < j < |arr|
        ensures Rank(DescendingCmp(target, arr[i])) >= Rank(DescendingCmp(target, arr[j]))
      {
        if i > 0 {
          assert arr[i] == arr[1..][i - 1] && arr[j] == arr[1..][j - 1];
        } else {
          assert arr[0] >= arr[1];
          if j > 1 {
            assert arr[1] == arr[1..][0] && arr[j] == arr[1..][j - 1];
            assert Rank(DescendingCmp(target, arr[1])) >= Rank(DescendingCmp(target, arr[j]));
          }
        }
      }
    }
  }

  /** The ascending scenario of the module's unit test: 7 is found at index
      2 of `[2, 5, 7, 8, 11, 12]`, 1 is absent, and the empty slice finds
      nothing. */
  method AscendingScenario() returns (found: Option<nat>, missing: Option<nat>, empty: Option<nat>)
    ensures found == Some(2) && missing == None && empty == None
  {
    var arr := [2, 5, 7, 8, 11, 12];
    AscendingPartitioned(arr, 7);
    AscendingPartitioned(arr, 1);
    found := Search(arr, 7, AscendingCmp);
    assert AscendingCmp(7, arr[2]) == Equal;
    missing := Search(arr, 1, AscendingCmp);
    empty := Search([], 5, AscendingCmp);
  }

  /** The descending scenario of the module's unit test: with `b.cmp(a)`, 7
      is found at index 3 of `[12, 11, 8, 7, 5, 2]` and 1 is absent. */
  method DescendingScenario() returns (found: Option<nat>, missing: Option<nat>)
    ensures found == Some(3) && missing == None
  {
    var arr := [12, 11, 8, 7, 5, 2];
    DescendingPartitioned(arr, 7);
    DescendingPartitioned(arr, 1);
    found := Search(arr, 7, DescendingCmp);
    assert DescendingCmp(7, arr[3]) == Equal;
    missing := Search(arr, 1, DescendingCmp);
  }
}

=== FILE: data.dfy ===
/** The train/test window slicer of the simulator
    (`pkgs/backend/src/algorithm/simulator/data.rs`).

    `Data` holds a candle series, a window length `range` and three cut
    points `begin <= split <= end`. `shuttle` draws new cut points at random;
    the random draws become a parameter `pick(lo, hi)` standing for
    `gen_range(lo..=hi)`. Index arithmetic is 64-bit `usize`: the saturating
    operations are written out against an explicit ceiling, and the one
    plain multiply, `range * 2`, overflows into a panic (the behaviour of a
    build with overflow checks).
 */
module SimulatorData {
  import opened Wrappers

  const UsizeMax: nat := 0xFFFF_FFFF_FFFF_FFFF
  /** A `Vec` never holds more than `isize::MAX` elements. */
  const VecMax: nat := 0x7FFF_FFFF_FFFF_FFFF

  type Usize = x: nat | x <= UsizeMax

  /** `usize::saturating_add`. */
  function SatAdd(a: nat, b: nat): nat {
    if a + b > UsizeMax then UsizeMax else a + b
  }

  /** `usize::saturating_sub`. */
  function SatSub(a: nat, b: nat): nat {
    if a > b then a - b else 0
  }

  datatype Phase = Test | Train

  datatype Data<C> = Data(candles: seq<C>, range: Usize, begin: Usize, split: Usize, end: Usize)

  /** The series fits a `Vec`. */
  predicate Valid<C>(d: Data<C>) {
    |d.candles| <= VecMax
  }

  datatype DataError =
    | TooFewCandles(have: nat, need: nat)
    | Overflow    // `range * 2` above `usize::MAX`: a panic
    | OutOfRange
    | Underflow   // `len - range` on `usize` below zero: a panic

  /** `Data::new`: all cut points at zero. */
  function New<C>(candles: seq<C>, range: Usize): (r: Data<C>)
    ensures r.candles == candles && r.range == range && r.begin == 0 && r.split == 0 && r.end == 0
  {
    Data(candles, range, 0, 0, 0)
  }

  /** `shuttle`: panics when `range * 2` overflows, rejects a series shorter
      than two windows; otherwise draws
      `end` in `[2 range, len]`, `begin` in `[0, end - 2 range]` and `split`
      in `[begin + range, end - range]`. */
  function Shuttle<C>(d: Data<C>, pick: (nat, nat) -> nat): (r: Result<Data<C>, DataError>)
    requires Valid(d)
    requires forall lo: nat, hi: nat :: lo <= hi ==> lo <= pick(lo, hi) <= hi
    ensures r.Err? <==> |d.candles| < 2 * d.range
    ensures r.Err? ==> r.error == if 2 * d.range > UsizeMax then Overflow else TooFewCandles(|d.candles|, 2 * d.range)
    ensures r.Ok? ==> r.value.candles == d.candles && r.value.range == d.range
    ensures r.Ok? ==> 2 * d.range <= r.value.end <= |d.candles|
    ensures r.Ok? ==> r.value.begin + d.range <= r.value.split <= r.value.end - d.range
  {
    var len := |d.candles|;
    if d.range * 2 > UsizeMax then Err(Overflow)
    else
      var minRequired := d.range * 2;
      if len < minRequired then Err(TooFewCandles(len, minRequired))
      else
        var end := pick(minRequired, len);
        var maxBegin := SatSub(end, minRequired);
        var begin := pick(0, maxBegin);
        var minSplit := SatAdd(begin, d.range);
        var maxSplit := SatSub(end, d.range);
        var split := if minSplit <= maxSplit then pick(minSplit, maxSplit) else begin;
        assert end <= VecMax && begin <= end && split <= end;
        Ok(d.(begin := begin, split := split, end := end))
  }

  /** `size`: how many windows fit in the phase's part, at least one. */
  function Size<C>(d: Data<C>, phase: Phase): (r: nat)
    ensures r >= 1
    ensures phase == Train && d.begin + d.range <= d.split < UsizeMax ==> r == d.split - d.begin - d.range + 1
    ensures phase == Test && d.split + d.range <= d.end < UsizeMax ==> r == d.end - d.split - d.range + 1
  {
    match phase
    case Train => SatAdd(SatSub(SatSub(d.split, d.begin), d.range), 1)
    case Test => SatAdd(SatSub(SatSub(d.end, d.split), d.range), 1)
  }

  /** Where the phase's windows start. */
  function Base<C>(d: Data<C>, phase: Phase): nat {
    match phase
    case Train => d.begin
    case Test => d.split
  }

  /** `sample(i, phase)`: the `i`-th window of the phase. A training window
      past the series is an error; a test window past the series falls back
      to the last `range` candles. */
  function Sample<C>(d: Data<C>, i: Usize, phase: Phase): (r: Result<seq<C>, DataError>)
    requires Valid(d)
    ensures i >= Size(d, phase) ==> r == Err(OutOfRange)
    ensures r.Ok? ==> |r.value| == d.range
    ensures i < Size(d, phase) && SatAdd(SatAdd(Base(d, phase), i), d.range) <= |d.candles| ==>
      r == Ok(d.candles[SatAdd(Base(d, phase), i)..SatAdd(SatAdd(Base(d, phase), i), d.range)])
    ensures i < Size(d, phase) && SatAdd(SatAdd(Base(d, phase), i), d.range) > |d.candles| ==>
      (phase == Train ==> r == Err(OutOfRange)) &&
      (phase == Test && d.range <= |d.candles| ==> r == Ok(d.candles[|d.candles| - d.range..])) &&
      (phase == Test && d.range > |d.candles| ==> r == Err(Underflow))
  {
    var start := SatAdd(Base(d, phase), i);
    var endSlice := SatAdd(start, d.range);
    if Size(d, phase) > i then
      match phase
      case Train =>
        if endSlice <= |d.candles| then Ok(d.candles[start..endSlice]) else Err(OutOfRange)
      case Test =>
        if endSlice <= |d.candles| then Ok(d.candles[start..endSlice])
        else if d.range <= |d.candles| then Ok(d.candles[|d.candles| - d.range..])
        else Err(Underflow)
    else Err(OutOfRange)
  }

  /** `last_candle(i, phase)`: the candle right after the `i`-th window. */
  function LastCandle<C>(d: Data<C>, i: Usize, phase: Phase): (r: Result<C, DataError>)
    ensures r.Ok? <==> i < Size(d, phase) && SatAdd(SatAdd(Base(d, phase), i), d.range) < |d.candles|
    ensures r.Ok? ==> r.value == d.candles[SatAdd(SatAdd(Base(d, phase), i), d.range)]
    ensures r.Err? ==> r.error == OutOfRange
  {
    var idx := SatAdd(SatAdd(Base(d, phase), i), d.range);
    if Size(d, phase) > i then
      if idx < |d.candles| then Ok(d.candles[idx]) else Err(OutOfRange)
    else Err(OutOfRange)
  }

  /** After a successful shuttle every window of either phase lies inside
      its part of the series: sampling never falls back and returns exactly
      the `range` candles starting at `base + i`. */
  lemma ShuttledWindowsFit<C>(d: Data<C>, pick: (nat, nat) -> nat, phase: Phase, i: Usize)
    requires forall lo: nat, hi: nat :: lo <= hi ==> lo <= pick(lo, hi) <= hi
    requires Valid(d)
    requires Shuttle(d, pick).Ok?
    requires i < Size(Shuttle(d, pick).value, phase)
    ensures var s := Shuttle(d, pick).value;
      Sample(s, i, phase) == Ok(d.candles[Base(s, phase) + i..Base(s, phase) + i + d.range])
    ensures var s := Shuttle(d, pick).value;
      phase == Train ==> Base(s, phase) + i + d.range <= s.split
    ensures var s := Shuttle(d, pick).value;
      phase == Test ==> Base(s, phase) + i + d.range <= s.end
  {
    var s := Shuttle(d, pick).value;
    assert SatAdd(SatAdd(Base(s, phase), i), d.range) == Base(s, phase) + i + d.range;
  }

  /** The train windows end where the test windows begin: the last train
      window's end is at most `split`, the first test window starts there. */
  lemma PhasesDoNotOverlap<C>(d: Data<C>, pick: (nat, nat) -> nat, i: Usize)
    requires forall lo: nat, hi: nat :: lo <= hi ==> lo <= pick(lo, hi) <= hi
    requires Valid(d)
    requires Shuttle(d, pick).Ok?
    requires i < Size(Shuttle(d, pick).value, Train)
    ensures Base(Shuttle(d, pick).value, Train) + i + d.range <= Base(Shuttle(d, pick).value, Test)
  {
    ShuttledWindowsFit(d, pick, Train, i);
  }
}

=== FILE: genetic.dfy ===
/** The genetic population manager (`backend/src/algorithm/genetic.rs`).

    A population of individuals caches, per individual, the fitness of its
    player together with the session in which that fitness was computed.
    `evolute` refreshes every fitness, lets an extinction callback mark
    individuals that may die, trims the population to make room, and breeds
    `number_of_couple` children chosen on a roulette wheel.

    Everything the source leaves to the caller or to chance is a parameter:
    the player's own behaviour (`Player`), the three callbacks
    (`Callbacks`), and every random draw (`Draws`, indexed by the position
    the draw is made for). `f64` is modelled as `real`, so fitness values are
    never NaN: the cull's `partial_cmp(..).unwrap()`, which panics on a NaN
    fitness, is modelled only for numbers. The mutation rate is the one
    argument that may be NaN here, modelled by `Float`.
 */
module Genetic {
  import opened Wrappers

  /** `Individual<T>`: a player with its cached fitness and the session
      that fitness belongs to. */
  datatype Individual<T> = Individual(player: T, session: int, fitness: real)

  /** The source's `Genetic<T>` without its callbacks, which are passed to
      each call. */
  datatype Population<T> = Population(population: seq<Individual<T>>, limit: nat)

  /** The `Player` trait: `initialize`, `estimate` and the length of `gene`. */
  datatype Player<!T> = Player(init: T -> T, score: T -> real, genes: T -> nat)

  /** The crossover, mutate and extinction callbacks of `Genetic::new`. */
  datatype Callbacks<!T> = Callbacks(
    crossover: (Population<T>, T, nat, T, nat, int) -> T,
    mutate: (T, seq<real>, nat) -> T,
    extinguish: (Individual<T>, int) -> bool)

  /** The values `rng.gen::<f64>()` yields: `survive(i)` for the individual
      at position `i` during extinction, `select(j)` for the `j`-th wheel spin,
      `mutation(k, i)` for gene `i` of the `k`-th mutated player. */
  datatype Draws = Draws(survive: nat -> real, select: nat -> real, mutation: (nat, nat) -> real)

  /** An `f64` argument that may be NaN. */
  datatype Float = Number(value: real) | NaN

  datatype GeneticError = InvalidMutationRate | TooManyCouples | Panicked

  function Min(a: nat, b: nat): nat {
    if a <= b then a else b
  }

  /** `usize::saturating_sub`. */
  function SaturatingSub(a: nat, b: nat): nat {
    if a >= b then a - b else 0
  }

  // ---------------------------------------------------------------------
  // Individual
  // ---------------------------------------------------------------------

  /** `Individual::new`: nothing is cached yet, so every session reads 0. */
  function NewIndividual<T>(player: T): (r: Individual<T>)
    ensures r.player == player
    ensures forall session :: Estimate(r, session) == 0.0
  {
    Individual(player, -1, 0.0)
  }

  /** `Individual::estimate`: the cached fitness is reported only for the
      session it was computed in; any other session reads 0. */
  function Estimate<T>(ind: Individual<T>, session: int): (r: real)
    ensures session == ind.session ==> r == ind.fitness
    ensures session != ind.session ==> r == 0.0
  {
    if session != ind.session then 0.0 else ind.fitness
  }

  /** `Individual::update_fitness`. */
  function UpdateFitness<T>(ind: Individual<T>, session: int, fitness: real): Individual<T> {
    Individual(ind.player, session, fitness)
  }

  /** `Individual::estimate_mut`: recompute the fitness only when the cache
      is older than `session`; return the (possibly stale) cached value. */
  function EstimateMut<T>(ind: Individual<T>, session: int, score: T -> real): (r: (Individual<T>, real))
    ensures r.0.player == ind.player
    ensures ind.session < session ==> r.0.session == session && r.1 == score(ind.player)
    ensures session <= ind.session ==> r.0 == ind && r.1 == ind.fitness
    ensures r.1 == r.0.fitness
  {
    var next := if ind.session != session && ind.session < session
      then UpdateFitness(ind, session, score(ind.player)) else ind;
    (next, next.fitness)
  }

  /** After `estimate_mut(s)` from an older cache, `estimate(s)` agrees with
      it and a second `estimate_mut(s)` recomputes nothing. From a newer
      cache, `estimate_mut(s)` returns the newer fitness while `estimate(s)`
      reads 0. */
  lemma EstimateMutAgrees<T>(ind: Individual<T>, session: int, score: T -> real)
    ensures ind.session <= session ==>
      Estimate(EstimateMut(ind, session, score).0, session) == EstimateMut(ind, session, score).1
    ensures EstimateMut(EstimateMut(ind, session, score).0, session, score) == EstimateMut(ind, session, score)
    ensures session < ind.session ==>
      Estimate(EstimateMut(ind, session, score).0, session) == 0.0 &&
      EstimateMut(ind, session, score).1 == ind.fitness
  {
  }

  // ---------------------------------------------------------------------
  // Population set-up
  // ---------------------------------------------------------------------

  /** `Genetic::new`. */
  function New<T>(limit: nat): (r: Population<T>)
    ensures r.population == [] && r.limit == limit
  {
    Population([], limit)
  }

  /** `Genetic::initialize`: the old population is dropped and replaced by
      one fresh individual per given player, in order, each player passed
      through `Player::initialize`. */
  function Initialize<T>(g: Population<T>, players: seq<T>, player: Player<T>): (r: Population<T>)
    ensures r.limit == g.limit
    ensures |r.population| == |players|
    ensures forall i :: 0 <= i < |players| ==> r.population[i].player == player.init(players[i])
    ensures forall i, session :: 0 <= i < |players| ==> Estimate(r.population[i], session) == 0.0
  {
    Population(seq(|players|, i requires 0 <= i < |players| => NewIndividual(player.init(players[i]))), g.limit)
  }

  /** The result of `initialize` does not depend on the population it
      replaces. */
  lemma InitializeReplaces<T>(g1: Population<T>, g2: Population<T>, players: seq<T>, player: Player<T>)
    requires g1.limit == g2.limit
    ensures Initialize(g1, players, player) == Initialize(g2, players, player)
  {
  }

  // ---------------------------------------------------------------------
  // Accessors
  // ---------------------------------------------------------------------

  /** `Genetic::get`: the individual at `index`; indexing past the end
      panics. */
  function Get<T>(g: Population<T>, index: nat): (r: Outcome<Individual<T>>)
    ensures r.Panic? <==> index >= |g.population|
    ensures r.Done? ==> r.value == g.population[index]
  {
    if index < |g.population| then Done(g.population[index]) else Panic
  }

  /** `Genetic::size`: the population's length. */
  function Size<T>(g: Population<T>): nat {
    |g.population|
  }

  /** `Genetic::estimate`: the re-scoring pass that also opens `evolute`;
      every individual keeps its player and place and is stamped with
      `session`. */
  function EstimateAll<T>(g: Population<T>, session: int, score: T -> real): (r: Population<T>)
    ensures r.limit == g.limit && Size(r) == Size(g)
    ensures forall i :: 0 <= i < Size(g) ==>
      Get(r, i).Done? && Get(r, i).value.player == g.population[i].player &&
      Estimate(Get(r, i).value, session) == score(g.population[i].player)
  {
    Population(Refresh(g.population, session, score), g.limit)
  }

  /** A freshly initialised population read back through `estimate`, `size`
      and `get`: one individual per player, in order, each scored on its
      initialised player, and a panic past the last. */
  lemma InitializedThenEstimated<T>(g: Population<T>, players: seq<T>, player: Player<T>, session: int, i: nat)
    ensures var e := EstimateAll(Initialize(g, players, player), session, player.score);
      Size(e) == |players| &&
      (i < |players| ==> Get(e, i).Done? && Get(e, i).value.player == player.init(players[i]) &&
                         Estimate(Get(e, i).value, session) == player.score(player.init(players[i]))) &&
      (i >= |players| ==> Get(e, i).Panic?)
  {
  }

  /** Scoring twice in one session is scoring once. */
  lemma EstimateAllIdempotent<T>(g: Population<T>, session: int, score: T -> real)
    ensures EstimateAll(EstimateAll(g, session, score), session, score) == EstimateAll(g, session, score)
  {
    var once := EstimateAll(g, session, score);
    var twice := EstimateAll(once, session, score);
    assert |twice.population| == |once.population|;
    forall i | 0 <= i < |once.population|
      ensures twice.population[i] == once.population[i]
    {
    }
  }

  /** The sum of the first `n` estimates, in index order, as `average_fitness`
      accumulates it. */
  function SumUpTo<T>(pop: seq<Individual<T>>, session: int, n: nat): real
    requires n <= |pop|
  {
    if n == 0 then 0.0 else SumUpTo(pop, session, n - 1) + Estimate(pop[n - 1], session)
  }

  /** `Genetic::average_fitness`: the sum of the estimates over the size; an
      empty population divides 0.0 by 0.0, which is NaN. */
  function AverageFitness<T>(g: Population<T>, session: int): (r: Float)
    ensures r.NaN? <==> |g.population| == 0
    ensures r.Number? ==> r.value * (|g.population| as real) == SumUpTo(g.population, session, |g.population|)
  {
    if |g.population| == 0 then NaN
    else Number(SumUpTo(g.population, session, |g.population|) / (|g.population| as real))
  }

  /** The loop of `best_player` over the first `n` individuals: the running
      best, which starts at 0.0, and the index where it was first reached. */
  function BestUpTo<T>(pop: seq<Individual<T>>, session: int, n: nat): (r: (real, nat))
    requires n <= |pop|
    ensures r.0 >= 0.0
    ensures forall j :: 0 <= j < n ==> Estimate(pop[j], session) <= r.0
    ensures r.0 == 0.0 ==> r.1 == 0
    ensures r.0 > 0.0 ==> r.1 < n && Estimate(pop[r.1], session) == r.0
    ensures forall j :: 0 <= j < r.1 ==> Estimate(pop[j], session) < r.0
    decreases n
  {
    if n == 0 then (0.0, 0)
    else
      var prev := BestUpTo(pop, session, n - 1);
      var e := Estimate(pop[n - 1], session);
      if e > prev.0 then (e, n - 1) else prev
  }

  /** `Genetic::best_fitness`: the greatest estimate, or 0.0 when no
      estimate is positive. */
  function BestFitness<T>(g: Population<T>, session: int): (r: real)
    ensures r >= 0.0
    ensures forall i :: 0 <= i < |g.population| ==> Estimate(g.population[i], session) <= r
    ensures r == 0.0 || exists i :: 0 <= i < |g.population| && Estimate(g.population[i], session) == r
  {
    BestUpTo(g.population, session, |g.population|).0
  }

  /** `Genetic::best_player`: the player of the first individual reaching
      the best fitness, or of the first individual when no estimate is
      positive; an empty population panics on `population[0]`. */
  function BestPlayer<T>(g: Population<T>, session: int): (r: Outcome<T>)
    ensures r.Panic? <==> |g.population| == 0
    ensures r.Done? && BestFitness(g, session) == 0.0 ==> r.value == g.population[0].player
    ensures r.Done? && BestFitness(g, session) > 0.0 ==>
      exists i :: 0 <= i < |g.population| && r.value == g.population[i].player &&
        Estimate(g.population[i], session) == BestFitness(g, session) &&
        forall j :: 0 <= j < i ==> Estimate(g.population[j], session) < BestFitness(g, session)
  {
    var id := BestUpTo(g.population, session, |g.population|).1;
    if id < |g.population| then Done(g.population[id].player) else Panic
  }

  lemma {:induction false} SumBelowBest<T>(pop: seq<Individual<T>>, session: int, n: nat, best: real)
    requires n <= |pop|
    requires forall j :: 0 <= j < |pop| ==> Estimate(pop[j], session) <= best
    ensures SumUpTo(pop, session, n) <= (n as real) * best
  {
    if n > 0 {
      SumBelowBest(pop, session, n - 1, best);
    }
  }

  /** On a non-empty population the average never exceeds the best
      fitness. */
  lemma AverageBelowBest<T>(g: Population<T>, session: int)
    requires |g.population| > 0
    ensures AverageFitness(g, session).Number?
    ensures AverageFitness(g, session).value <= BestFitness(g, session)
  {
    var sum := SumUpTo(g.population, session, |g.population|);
    var n := |g.population| as real;
    SumBelowBest(g.population, session, |g.population|, BestFitness(g, session));
    QuotientBelow(sum, n, BestFitness(g, session));
    assert AverageFitness(g, session) == Number(sum / n);
  }

  lemma QuotientBelow(sum: real, n: real, best: real)
    requires n > 0.0 && sum <= n * best
    ensures sum / n <= best
  {
    var q := sum / n;
    assert q * n == sum;
    if q > best {
      assert (q - best) * n > 0.0;
    }
  }

  // ---------------------------------------------------------------------
  // Fitness refresh and extinction (evolute, steps 1 and 2)
  // ---------------------------------------------------------------------

  /** Every individual's fitness recomputed and stamped with `session`. */
  function Refresh<T>(pop: seq<Individual<T>>, session: int, score: T -> real): (r: seq<Individual<T>>)
    ensures |r| == |pop|
    ensures forall i :: 0 <= i < |pop| ==>
      r[i].player == pop[i].player && Estimate(r[i], session) == score(pop[i].player)
  {
    seq(|pop|, i requires 0 <= i < |pop| => UpdateFitness(pop[i], session, score(pop[i].player)))
  }

  /** Which individuals the extinction callback marks. */
  function Marks<T>(pop: seq<Individual<T>>, session: int, extinguish: (Individual<T>, int) -> bool): (r: seq<bool>)
    ensures |r| == |pop|
    ensures forall i :: 0 <= i < |pop| ==> (r[i] <==> extinguish(pop[i], session))
  {
    seq(|pop|, i requires 0 <= i < |pop| => extinguish(pop[i], session))
  }

  /** Number of marked positions. */
  function CountMarked(marks: seq<bool>): (r: nat)
    ensures r <= |marks|
  {
    if |marks| == 0 then 0
    else CountMarked(marks[..|marks| - 1]) + (if marks[|marks| - 1] then 1 else 0)
  }

  lemma {:induction false} CountMarkedAll(marks: seq<bool>)
    requires forall i :: 0 <= i < |marks| ==> marks[i]
    ensures CountMarked(marks) == |marks|
  {
    if |marks| > 0 {
      CountMarkedAll(marks[..|marks| - 1]);
    }
  }

  lemma {:induction false} CountMarkedNone(marks: seq<bool>)
    requires forall i :: 0 <= i < |marks| ==> !marks[i]
    ensures CountMarked(marks) == 0
  {
    if |marks| > 0 {
      CountMarkedNone(marks[..|marks| - 1]);
    }
  }

  /** The drain loop: an unmarked individual always stays; a marked one
      stays when its draw is at least `percent`. Order is kept. */
  function Survivors<T(==)>(pop: seq<Individual<T>>, marks: seq<bool>, percent: real, survive: nat -> real): (r: seq<Individual<T>>)
    requires |marks| == |pop|
    ensures |pop| - CountMarked(marks) <= |r| <= |pop|
    ensures forall x :: x in r ==> x in pop
    ensures forall i :: 0 <= i < |pop| && !marks[i] ==> pop[i] in r
  {
    if |pop| == 0 then []
    else
      var k := |pop| - 1;
      var front := Survivors(pop[..k], marks[..k], percent, survive);
      assert forall i :: 0 <= i < k ==> pop[..k][i] == pop[i] && marks[..k][i] == marks[i];
      if !marks[k] || survive(k) >= percent then front + [pop[k]] else front
  }

  /** `evolute`'s removal of dead players: skipped when nobody is marked or
      when everybody is; otherwise the survivors of the drain loop, with
      `percent` the marked fraction of the population. */
  function Extinction<T(==)>(pop: seq<Individual<T>>, marks: seq<bool>, survive: nat -> real): (r: seq<Individual<T>>)
    requires |marks| == |pop|
    ensures CountMarked(marks) == 0 || CountMarked(marks) >= |pop| ==> r == pop
    ensures |pop| - CountMarked(marks) <= |r| <= |pop|
    ensures 0 < |pop| ==> 0 < |r|
    ensures forall x :: x in r ==> x in pop
    ensures forall i :: 0 <= i < |pop| && !marks[i] ==> pop[i] in r
  {
    var n := CountMarked(marks);
    if n == 0 || n >= |pop| then pop
    else Survivors(pop, marks, n as real / |pop| as real, survive)
  }

  /** Marking everybody, like marking nobody, removes nobody. */
  lemma ExtinctionSkipped<T>(pop: seq<Individual<T>>, marks: seq<bool>, survive: nat -> real)
    requires |marks| == |pop|
    requires (forall i :: 0 <= i < |marks| ==> marks[i]) || (forall i :: 0 <= i < |marks| ==> !marks[i])
    ensures Extinction(pop, marks, survive) == pop
  {
    if forall i :: 0 <= i < |marks| ==> marks[i] {
      CountMarkedAll(marks);
    } else {
      CountMarkedNone(marks);
    }
  }

  // ---------------------------------------------------------------------
  // Truncation (evolute, step 3)
  // ---------------------------------------------------------------------

  /** Best first: estimates never increase along the sequence. */
  ghost predicate RankedBy<T>(pop: seq<Individual<T>>, session: int) {
    forall i, j :: 0 <= i < j < |pop| ==> Estimate(pop[i], session) >= Estimate(pop[j], session)
  }

  /** Insert `x` in front of the first individual that is no better, so
      that equal estimates keep their original order. */
  function Insert<T(==)>(x: Individual<T>, pop: seq<Individual<T>>, session: int): (r: seq<Individual<T>>)
    ensures |r| == |pop| + 1
    ensures multiset(r) == multiset(pop) + multiset{x}
  {
    if |pop| == 0 then [x]
    else if Estimate(pop[0], session) <= Estimate(x, session) then [x] + pop
    else
      assert pop == [pop[0]] + pop[1..];
      [pop[0]] + Insert(x, pop[1..], session)
  }

  /** Inserting an individual no better than `e` into individuals no better
      than `e` yields individuals no better than `e`. */
  lemma {:induction false} InsertBounded<T>(x: Individual<T>, pop: seq<Individual<T>>, session: int, e: real)
    requires Estimate(x, session) <= e
    requires forall i :: 0 <= i < |pop| ==> Estimate(pop[i], session) <= e
    ensures forall i :: 0 <= i < |Insert(x, pop, session)| ==> Estimate(Insert(x, pop, session)[i], session) <= e
  {
    if |pop| > 0 && Estimate(pop[0], session) > Estimate(x, session) {
      InsertBounded(x, pop[1..], session, e);
    }
  }

  /** Insertion keeps a ranked sequence ranked. */
  lemma {:induction false} InsertRanked<T>(x: Individual<T>, pop: seq<Individual<T>>, session: int)
    requires RankedBy(pop, session)
    ensures RankedBy(Insert(x, pop, session), session)
  {
    if |pop| > 0 && Estimate(pop[0], session) > Estimate(x, session) {
      InsertRanked(x, pop[1..], session);
      InsertBounded(x, pop[1..], session, Estimate(pop[0], session));
    }
  }

  /** `sort_by` best first on the session's estimates (a stable sort). */
  function Rank<T(==)>(pop: seq<Individual<T>>, session: int): (r: seq<Individual<T>>)
    ensures multiset(r) == multiset(pop)
    ensures |r| == |pop|
    ensures RankedBy(r, session)
  {
    if |pop| == 0 then []
    else
      var sorted := Rank(pop[1..], session);
      InsertRanked(pop[0], sorted, session);
      assert pop == [pop[0]] + pop[1..];
      Insert(pop[0], sorted, session)
  }

  /** Cutting a ranked permutation of `pop` after `keep` keeps part of `pop`,
      each kept individual at least as good as each one cut off. */
  lemma CutRanked<T>(pop: seq<Individual<T>>, ranked: seq<Individual<T>>, session: int, keep: nat)
    requires multiset(ranked) == multiset(pop) && RankedBy(ranked, session)
    requires keep <= |ranked|
    ensures multiset(ranked[..keep]) <= multiset(pop)
    ensures forall i, y :: 0 <= i < keep && y in multiset(pop) - multiset(ranked[..keep]) ==>
      Estimate(ranked[..keep][i], session) >= Estimate(y, session)
  {
    var kept := ranked[..keep];
    var dropped := ranked[keep..];
    CutParts(ranked, keep);
    forall i, y | 0 <= i < keep && y in multiset(dropped)
      ensures Estimate(kept[i], session) >= Estimate(y, session)
    {
      DroppedRanksBelow(ranked, session, keep, i, y);
    }
  }

  /** A cut splits a sequence's multiset into the kept and dropped parts. */
  lemma CutParts<T>(s: seq<T>, keep: nat)
    requires keep <= |s|
    ensures multiset(s) - multiset(s[..keep]) == multiset(s[keep..])
    ensures multiset(s[..keep]) <= multiset(s)
  {
    assert s == s[..keep] + s[keep..];
  }

  /** Every individual after the cut ranks no better than one before it. */
  lemma DroppedRanksBelow<T>(ranked: seq<Individual<T>>, session: int, keep: nat, i: nat, y: Individual<T>)
    requires RankedBy(ranked, session) && i < keep <= |ranked| && y in multiset(ranked[keep..])
    ensures Estimate(ranked[i], session) >= Estimate(y, session)
  {
    var dropped := ranked[keep..];
    var j :| 0 <= j < |dropped| && dropped[j] == y;
    assert ranked[keep + j] == y;
  }

  /** `evolute`'s forced removal: when the population is larger than
      `keep`, rank it best first and keep the first `keep`. */
  function Cull<T(==)>(pop: seq<Individual<T>>, session: int, keep: nat): (r: seq<Individual<T>>)
    ensures |r| == Min(|pop|, keep)
    ensures |pop| <= keep ==> r == pop
    ensures multiset(r) <= multiset(pop)
    ensures forall i, y :: 0 <= i < |r| && y in multiset(pop) - multiset(r) ==>
      Estimate(r[i], session) >= Estimate(y, session)
  {
    if |pop| > keep then
      var ranked := Rank(pop, session);
      CutRanked(pop, ranked, session, keep);
      ranked[..keep]
    else pop
  }

  // ---------------------------------------------------------------------
  // Roulette wheel (evolute, step 4)
  // ---------------------------------------------------------------------

  /** Sum of a sequence, adding from the front like the source's loops. */
  function Sum(xs: seq<real>): real {
    if |xs| == 0 then 0.0 else Sum(xs[..|xs| - 1]) + xs[|xs| - 1]
  }

  /** `roulette[i] += roulette[i - 1]` for `i` in `1..len`. */
  function Accumulate(ws: seq<real>): (r: seq<real>)
    ensures |r| == |ws|
    ensures forall i :: 0 <= i < |ws| ==> r[i] == Sum(ws[..i + 1])
  {
    if |ws| == 0 then []
    else
      var front := Accumulate(ws[..|ws| - 1]);
      forall i | 0 <= i < |ws| - 1
        ensures front[i] == Sum(ws[..i + 1])
      {
        assert ws[..|ws| - 1][..i + 1] == ws[..i + 1];
      }
      assert ws[..|ws|] == ws;
      front + [Sum(ws)]
  }

  /** The estimates of the population for `session`. */
  function Fitnesses<T>(pop: seq<Individual<T>>, session: int): (r: seq<real>)
    ensures |r| == |pop|
    ensures forall i :: 0 <= i < |pop| ==> r[i] == Estimate(pop[i], session)
  {
    seq(|pop|, i requires 0 <= i < |pop| => Estimate(pop[i], session))
  }

  /** Every individual's share of the wheel: its estimate over the total,
      or an equal share when the total is not positive. */
  function Weights<T>(pop: seq<Individual<T>>, session: int): (r: seq<real>)
    ensures |r| == |pop|
  {
    var fs := Fitnesses(pop, session);
    var total := Sum(fs);
    if total <= 0.0 then seq(|pop|, i requires 0 <= i < |pop| => 1.0 / |pop| as real)
    else seq(|pop|, i requires 0 <= i < |pop| => fs[i] / total)
  }

  /** The cumulative wheel `evolute` spins. */
  function Roulette<T>(pop: seq<Individual<T>>, session: int): (r: seq<real>)
    ensures |r| == |pop|
  {
    Accumulate(Weights(pop, session))
  }

  lemma {:induction false} SumConstant(n: nat, c: real)
    ensures Sum(seq(n, i requires 0 <= i < n => c)) == n as real * c
  {
    if n > 0 {
      var xs := seq(n, i requires 0 <= i < n => c);
      assert xs[..n - 1] == seq(n - 1, i requires 0 <= i < n - 1 => c);
      SumConstant(n - 1, c);
    }
  }

  lemma {:induction false} SumScaled(xs: seq<real>, t: real)
    requires t != 0.0
    ensures Sum(seq(|xs|, i requires 0 <= i < |xs| => xs[i] / t)) == Sum(xs) / t
  {
    if |xs| > 0 {
      var ys := seq(|xs|, i requires 0 <= i < |xs| => xs[i] / t);
      var front := xs[..|xs| - 1];
      assert ys[..|xs| - 1] == seq(|front|, i requires 0 <= i < |front| => front[i] / t);
      SumScaled(front, t);
    }
  }

  lemma {:induction false} SumNonNegative(xs: seq<real>)
    requires forall i :: 0 <= i < |xs| ==> xs[i] >= 0.0
    ensures Sum(xs) >= 0.0
  {
    if |xs| > 0 {
      SumNonNegative(xs[..|xs| - 1]);
    }
  }

  /** The last slot of a non-empty wheel ends at exactly 1. */
  lemma RouletteEndsAtOne<T>(pop: seq<Individual<T>>, session: int)
    requires |pop| > 0
    ensures Roulette(pop, session)[|pop| - 1] == 1.0
  {
    var ws := Weights(pop, session);
    assert ws[..|pop|] == ws;
    var fs := Fitnesses(pop, session);
    var total := Sum(fs);
    if total <= 0.0 {
      SumConstant(|pop|, 1.0 / |pop| as real);
    } else {
      SumScaled(fs, total);
    }
  }

  /** With no negative estimate, the wheel's slots never go backwards. */
  lemma RouletteNondecreasing<T>(pop: seq<Individual<T>>, session: int)
    requires forall i :: 0 <= i < |pop| ==> Estimate(pop[i], session) >= 0.0
    ensures forall i, j :: 0 <= i <= j < |pop| ==> Roulette(pop, session)[i] <= Roulette(pop, session)[j]
  {
    var ws := Weights(pop, session);
    var fs := Fitnesses(pop, session);
    assert forall i :: 0 <= i < |ws| ==> ws[i] >= 0.0 by {
      if Sum(fs) > 0.0 {
        forall i | 0 <= i < |ws| ensures ws[i] >= 0.0 {
          assert ws[i] == fs[i] / Sum(fs);
        }
      }
    }
    forall i, j | 0 <= i <= j < |pop|
      ensures Roulette(pop, session)[i] <= Roulette(pop, session)[j]
    {
      PrefixSumGrows(ws, i, j);
    }
  }

  lemma {:induction false} PrefixSumGrows(ws: seq<real>, i: nat, j: nat)
    requires i <= j < |ws|
    requires forall k :: 0 <= k < |ws| ==> ws[k] >= 0.0
    ensures Sum(ws[..i + 1]) <= Sum(ws[..j + 1])
  {
    if i < j {
      PrefixSumGrows(ws, i, j - 1);
      assert ws[..j + 1][..j] == ws[..j];
    }
  }

  // ---------------------------------------------------------------------
  // Roulette selection
  // ---------------------------------------------------------------------

  /** The answer of `slice::binary_search_by`. */
  datatype Search = Found(index: nat) | NotFound(insert: nat)

  ghost predicate Nondecreasing(xs: seq<real>) {
    forall i, j :: 0 <= i <= j < |xs| ==> xs[i] <= xs[j]
  }

  /** One lawful `binary_search_by` for the comparator
      `x.partial_cmp(&target)`: halve `[left, right)`. */
  function SearchIn(xs: seq<real>, target: real, left: nat, right: nat): (r: Search)
    requires left <= right <= |xs|
    ensures r.Found? ==> left <= r.index < right && xs[r.index] == target
    ensures r.NotFound? ==> left <= r.insert <= right
    ensures (Nondecreasing(xs) && r.NotFound? &&
      (forall i :: 0 <= i < left ==> xs[i] < target) &&
      (forall i :: right <= i < |xs| ==> xs[i] > target)) ==>
      (forall i :: 0 <= i < r.insert ==> xs[i] < target) &&
      (forall i :: r.insert <= i < |xs| ==> xs[i] > target)
    decreases right - left
  {
    if left >= right then NotFound(left)
    else
      var mid := left + (right - left) / 2;
      if xs[mid] < target then SearchIn(xs, target, mid + 1, right)
      else if xs[mid] > target then SearchIn(xs, target, left, mid)
      else Found(mid)
  }

  /** `binary_search_by` over the whole slice. On a non-decreasing slice a
      miss reports the insertion point. */
  function SearchBy(xs: seq<real>, target: real): (r: Search)
    ensures r.Found? ==> r.index < |xs| && xs[r.index] == target
    ensures r.NotFound? ==> r.insert <= |xs|
    ensures Nondecreasing(xs) && r.NotFound? ==>
      (forall i :: 0 <= i < r.insert ==> xs[i] < target) &&
      (forall i :: r.insert <= i < |xs| ==> xs[i] > target)
  {
    SearchIn(xs, target, 0, |xs|)
  }

  /** `roulette_wheel_selection`: an exact hit, or the insertion point
      clamped to the last individual. `population.len() - 1` underflows,
      and panics, on a miss over an empty population. */
  function Select(roulette: seq<real>, target: real, popLen: nat): (r: Outcome<nat>)
    ensures r.Panic? <==> popLen == 0 && SearchBy(roulette, target).NotFound?
    ensures r.Done? && |roulette| <= popLen ==> r.value < popLen
  {
    match SearchBy(roulette, target)
    case Found(i) => Done(i)
    case NotFound(i) => if popLen == 0 then Panic else Done(Min(i, popLen - 1))
  }

  /** On a non-decreasing wheel with one slot per individual, the selected
      individual is the one whose slot holds the target: every earlier slot
      ends at or below it, and its own slot reaches it unless it is the
      last. */
  lemma SelectLandsInSlot(roulette: seq<real>, target: real)
    requires |roulette| > 0
    requires Nondecreasing(roulette)
    ensures Select(roulette, target, |roulette|).Done?
    ensures var i := Select(roulette, target, |roulette|).value;
      i < |roulette| &&
      (forall j :: 0 <= j < i ==> roulette[j] <= target) &&
      (i == |roulette| - 1 || target <= roulette[i])
  {
  }

  /** The selection test: the wheel for weights 1, 3, 6 over a total of 6,
      spun at 0.1, 0.5 and 0.9. */
  method SelectionScenario() returns (low: Outcome<nat>, mid: Outcome<nat>, high: Outcome<nat>)
    ensures low == Done(0) && mid == Done(1) && high == Done(2)
  {
    var shares := [1.0 / 6.0, 3.0 / 6.0, 6.0 / 6.0];
    var wheel := Accumulate(shares);
    assert shares[..1] == [1.0 / 6.0] && shares[..1][..0] == [];
    assert Sum(shares[..1]) == 1.0 / 6.0;
    assert shares[..2] == [1.0 / 6.0, 3.0 / 6.0] && shares[..2][..1] == shares[..1];
    assert Sum(shares[..2]) == 4.0 / 6.0;
    assert shares[..3] == shares && shares[..3][..2] == shares[..2];
    assert Sum(shares[..3]) == 10.0 / 6.0;
    low := Select(wheel, 0.1, 3);
    mid := Select(wheel, 0.5, 3);
    high := Select(wheel, 0.9, 3);
  }

  // ---------------------------------------------------------------------
  // Breeding (evolute, step 5) and mutation
  // ---------------------------------------------------------------------

  /** The mutation loop over genes `0..n`: gene `i` is mutated, with
      argument `args(i)`, when its draw is below `rate`. */
  function Mutated<T>(child: T, n: nat, rate: real, draw: nat -> real, args: nat -> seq<real>, mutate: (T, seq<real>, nat) -> T): (r: T)
    ensures (forall i :: 0 <= i < n ==> draw(i) >= rate) ==> r == child
  {
    if n == 0 then child
    else
      var c := Mutated(child, n - 1, rate, draw, args, mutate);
      if draw(n - 1) < rate then mutate(c, args(n - 1), n - 1) else c
  }

  /** No argument: the empty `Vec` evolute passes to `mutate`. */
  function NoArguments(i: nat): seq<real> {
    []
  }

  /** One couple: spin twice, cross the two parents, mutate the child and
      push it as a fresh individual. */
  function Couple<T>(g: Population<T>, roulette: seq<real>, k: nat, session: int, rate: real,
                     cb: Callbacks<T>, player: Player<T>, draws: Draws): (r: Outcome<Population<T>>)
    requires |roulette| <= |g.population|
    ensures r.Panic? <==> |g.population| == 0 && SearchBy(roulette, draws.select(2 * k)).NotFound?
    ensures r.Done? ==> r.value.limit == g.limit && |r.value.population| == |g.population| + 1
    ensures r.Done? ==> r.value.population[..|g.population|] == g.population
    ensures r.Done? ==> forall session' :: Estimate(r.value.population[|g.population|], session') == 0.0
  {
    var n := |g.population|;
    match Select(roulette, draws.select(2 * k), n)
    case Panic => Panic
    case Done(f) =>
      match Select(roulette, draws.select(2 * k + 1), n)
      case Panic => Panic
      case Done(m) =>
        var child := cb.crossover(g, g.population[f].player, f, g.population[m].player, m, session);
        var mutated := Mutated(child, player.genes(child), rate,
          (i: nat) => draws.mutation(k, i), NoArguments, cb.mutate);
        var pop := g.population + [NewIndividual(mutated)];
        assert pop[..n] == g.population;
        Done(Population(pop, g.limit))
  }

  /** The first `k` couples, each seeing the children of those before it. */
  function Breed<T>(g: Population<T>, roulette: seq<real>, k: nat, session: int, rate: real,
                    cb: Callbacks<T>, player: Player<T>, draws: Draws): (r: Outcome<Population<T>>)
    requires |roulette| == |g.population|
    ensures r.Panic? <==> 0 < k && |g.population| == 0
    ensures r.Done? ==> r.value.limit == g.limit && |r.value.population| == |g.population| + k
    ensures r.Done? ==> r.value.population[..|g.population|] == g.population
    ensures r.Done? ==> forall i, session' :: |g.population| <= i < |r.value.population| ==>
      Estimate(r.value.population[i], session') == 0.0
    decreases k
  {
    if k == 0 then
      assert g.population[..|g.population|] == g.population;
      Done(g)
    else
      match Breed(g, roulette, k - 1, session, rate, cb, player, draws)
      case Panic => Panic
      case Done(h) =>
        var r := Couple(h, roulette, k - 1, session, rate, cb, player, draws);
        if r.Done? then
          assert r.value.population[..|g.population|] == r.value.population[..|h.population|][..|g.population|];
          r
        else
          r
  }

  // ---------------------------------------------------------------------
  // evolute and fluctuate
  // ---------------------------------------------------------------------

  /** `!(0.0..=1.0).contains(&rate) || rate.is_nan()` is false. */
  predicate RateValid(rate: Float) {
    rate.Number? && 0.0 <= rate.value <= 1.0
  }

  /** The population after the refresh and the extinction of `evolute`. */
  function Survived<T(==)>(g: Population<T>, session: int, cb: Callbacks<T>, player: Player<T>, draws: Draws): (r: seq<Individual<T>>)
    ensures |r| <= |g.population|
    ensures 0 < |g.population| ==> 0 < |r|
  {
    var refreshed := Refresh(g.population, session, player.score);
    Extinction(refreshed, Marks(refreshed, session, cb.extinguish), draws.survive)
  }

  /** `Genetic::evolute`. */
  function Evolute<T(==)>(g: Population<T>, couples: nat, session: int, rate: Float,
                          cb: Callbacks<T>, player: Player<T>, draws: Draws): (r: Result<Population<T>, GeneticError>)
    ensures !RateValid(rate) ==> r == Err(InvalidMutationRate)
    ensures RateValid(rate) && 2 * couples >= g.limit ==> r == Err(TooManyCouples)
    ensures RateValid(rate) && 2 * couples < g.limit ==>
      (r == Err(Panicked) <==> 0 < couples && |g.population| == 0)
    ensures r.Ok? ==> r.value.limit == g.limit
    ensures r.Ok? ==>
      |r.value.population| == Min(|Survived(g, session, cb, player, draws)|, g.limit - couples) + couples <= g.limit
  {
    if !RateValid(rate) then Err(InvalidMutationRate)
    else if 2 * couples >= g.limit then Err(TooManyCouples)
    else
      var survived := Survived(g, session, cb, player, draws);
      var kept := Cull(survived, session, SaturatingSub(g.limit, couples));
      var wheel := Roulette(kept, session);
      match Breed(Population(kept, g.limit), wheel, couples, session, rate.value, cb, player, draws)
      case Panic => Err(Panicked)
      case Done(h) => Ok(h)
  }

  /** What `evolute` keeps: the first `Min(n, limit - couples)` individuals
      of its result are survivors of the extinction, each at least as fit
      (in this session) as every survivor it pushed out, and every child
      behind them is fresh. */
  lemma EvoluteKeepsBest<T>(g: Population<T>, couples: nat, session: int, rate: Float,
                                cb: Callbacks<T>, player: Player<T>, draws: Draws)
    requires Evolute(g, couples, session, rate, cb, player, draws).Ok?
    ensures var survived := Survived(g, session, cb, player, draws);
      var pop := Evolute(g, couples, session, rate, cb, player, draws).value.population;
      var kept := pop[..Min(|survived|, g.limit - couples)];
      multiset(kept) <= multiset(survived) &&
      (forall i, y :: 0 <= i < |kept| && y in multiset(survived) - multiset(kept) ==>
        Estimate(kept[i], session) >= Estimate(y, session)) &&
      (forall i, s :: |kept| <= i < |pop| ==> Estimate(pop[i], s) == 0.0)
  {
    var survived := Survived(g, session, cb, player, draws);
    var kept := Cull(survived, session, SaturatingSub(g.limit, couples));
    var h := Breed(Population(kept, g.limit), Roulette(kept, session), couples, session, rate.value, cb, player, draws);
    EvoluteIsBreed(g, couples, session, rate, cb, player, draws);
    KeptPrefix(survived, kept, h.value.population, session, Min(|survived|, g.limit - couples));
  }

  /** A successful `evolute` is the breeding of the culled survivors. */
  lemma EvoluteIsBreed<T>(g: Population<T>, couples: nat, session: int, rate: Float,
                          cb: Callbacks<T>, player: Player<T>, draws: Draws)
    requires Evolute(g, couples, session, rate, cb, player, draws).Ok?
    ensures var survived := Survived(g, session, cb, player, draws);
      var kept := Cull(survived, session, SaturatingSub(g.limit, couples));
      var h := Breed(Population(kept, g.limit), Roulette(kept, session), couples, session, rate.value, cb, player, draws);
      && |kept| == Min(|survived|, g.limit - couples)
      && h.Done? && Evolute(g, couples, session, rate, cb, player, draws) == Ok(h.value)
  {
  }

  /** A population that starts with a culled `kept` and continues with fresh
      children keeps, in that prefix, the fittest of `survived`. */
  lemma KeptPrefix<T>(survived: seq<Individual<T>>, kept: seq<Individual<T>>, pop: seq<Individual<T>>, session: int, m: nat)
    requires multiset(kept) <= multiset(survived)
    requires forall i, y :: 0 <= i < |kept| && y in multiset(survived) - multiset(kept) ==>
      Estimate(kept[i], session) >= Estimate(y, session)
    requires |kept| == m <= |pop| && pop[..|kept|] == kept
    requires forall i, s :: |kept| <= i < |pop| ==> Estimate(pop[i], s) == 0.0
    ensures var prefix := pop[..m];
      multiset(prefix) <= multiset(survived) &&
      (forall i, y :: 0 <= i < |prefix| && y in multiset(survived) - multiset(prefix) ==>
        Estimate(prefix[i], session) >= Estimate(y, session)) &&
      (forall i, s :: |prefix| <= i < |pop| ==> Estimate(pop[i], s) == 0.0)
  {
  }

  /** The survivors of the extinction: between the unmarked count and the
      whole population, and the whole population when nobody or everybody
      is marked. */
  lemma SurvivedBounds<T>(g: Population<T>, session: int, cb: Callbacks<T>, player: Player<T>, draws: Draws)
    ensures var refreshed := Refresh(g.population, session, player.score);
      var marks := Marks(refreshed, session, cb.extinguish);
      |g.population| - CountMarked(marks) <= |Survived(g, session, cb, player, draws)| <= |g.population| &&
      ((forall i :: 0 <= i < |marks| ==> marks[i]) || (forall i :: 0 <= i < |marks| ==> !marks[i]) ==>
        Survived(g, session, cb, player, draws) == refreshed)
  {
    var refreshed := Refresh(g.population, session, player.score);
    var marks := Marks(refreshed, session, cb.extinguish);
    if (forall i :: 0 <= i < |marks| ==> marks[i]) || (forall i :: 0 <= i < |marks| ==> !marks[i]) {
      ExtinctionSkipped(refreshed, marks, draws.survive);
    }
  }

  /** The arguments `fluctuate` passes for gene `i`:
      `arguments.get(i).unwrap_or(&Vec::new())`. */
  function ArgumentAt(arguments: seq<seq<real>>, i: nat): seq<real> {
    if i < |arguments| then arguments[i] else []
  }

  /** One individual of `fluctuate`: mutate its genes, then
      `estimate_mut(session)`. */
  function FluctuateOne<T>(ind: Individual<T>, k: nat, session: int, arguments: seq<seq<real>>, rate: real,
                           cb: Callbacks<T>, player: Player<T>, draws: Draws): (r: Individual<T>)
    ensures ind.session < session ==> r.session == session && r.fitness == player.score(r.player)
    ensures session <= ind.session ==> r.session == ind.session && r.fitness == ind.fitness
  {
    var mutated := Mutated(ind.player, player.genes(ind.player), rate,
      (i: nat) => draws.mutation(k, i), (i: nat) => ArgumentAt(arguments, i), cb.mutate);
    EstimateMut(Individual(mutated, ind.session, ind.fitness), session, player.score).0
  }

  /** `Genetic::fluctuate`: every player may mutate; only caches older than
      `session` are refreshed, so a player already estimated in `session`
      keeps the fitness of its unmutated self. */
  function Fluctuate<T>(g: Population<T>, session: int, arguments: seq<seq<real>>, rate: Float,
                        cb: Callbacks<T>, player: Player<T>, draws: Draws): (r: Result<Population<T>, GeneticError>)
    ensures !RateValid(rate) <==> r == Err(InvalidMutationRate)
    ensures r.Ok? ==> r.value.limit == g.limit && |r.value.population| == |g.population|
    ensures r.Ok? ==> forall i :: 0 <= i < |g.population| && g.population[i].session < session ==>
      Estimate(r.value.population[i], session) == player.score(r.value.population[i].player)
    ensures r.Ok? ==> forall i :: 0 <= i < |g.population| && session <= g.population[i].session ==>
      r.value.population[i].session == g.population[i].session &&
      r.value.population[i].fitness == g.population[i].fitness
  {
    if !RateValid(rate) then Err(InvalidMutationRate)
    else
      Ok(Population(seq(|g.population|, i requires 0 <= i < |g.population| =>
        FluctuateOne(g.population[i], i, session, arguments, rate.value, cb, player, draws)), g.limit))
  }

  // ---------------------------------------------------------------------
  // The evolute tests
  // ---------------------------------------------------------------------

  /** When the extinction marks nobody, `evolute` keeps
      `Min(n, limit - couples)` of the `n` individuals and adds one child per
      couple. */
  lemma EvoluteUnmarked<T>(g: Population<T>, couples: nat, session: int, rate: Float,
                           cb: Callbacks<T>, player: Player<T>, draws: Draws)
    requires RateValid(rate) && 2 * couples < g.limit && 0 < |g.population|
    requires forall x, s :: !cb.extinguish(x, s)
    ensures Evolute(g, couples, session, rate, cb, player, draws).Ok?
    ensures |Evolute(g, couples, session, rate, cb, player, draws).value.population| ==
      Min(|g.population|, g.limit - couples) + couples
  {
    var refreshed := Refresh(g.population, session, player.score);
    var marks := Marks(refreshed, session, cb.extinguish);
    assert forall i :: 0 <= i < |marks| ==> !marks[i];
    ExtinctionSkipped(refreshed, marks, draws.survive);
    assert |Survived(g, session, cb, player, draws)| == |g.population|;
  }

  /** The normal-operation test: whatever the players, callbacks and
      draws, when nobody is marked, four individuals under limit 5 with two
      couples end as five. */
  lemma EvoluteNormalScenario<T>(pop: seq<Individual<T>>, session: int, cb: Callbacks<T>, player: Player<T>, draws: Draws)
    requires |pop| == 4
    requires forall x, s :: !cb.extinguish(x, s)
    ensures var r := Evolute(Population(pop, 5), 2, session, Number(0.1), cb, player, draws);
      r.Ok? && |r.value.population| == 5
  {
    assert RateValid(Number(0.1));
    EvoluteUnmarked(Population(pop, 5), 2, session, Number(0.1), cb, player, draws);
  }

  /** The zero-fitness test: three individuals under limit 5 with two
      couples end as five. */
  lemma EvoluteZeroFitnessScenario<T>(pop: seq<Individual<T>>, session: int, cb: Callbacks<T>, player: Player<T>, draws: Draws)
    requires |pop| == 3
    requires forall x, s :: !cb.extinguish(x, s)
    ensures var r := Evolute(Population(pop, 5), 2, session, Number(0.1), cb, player, draws);
      r.Ok? && |r.value.population| == 5
  {
    assert RateValid(Number(0.1));
    EvoluteUnmarked(Population(pop, 5), 2, session, Number(0.1), cb, player, draws);
  }

  /** The truncation test: four individuals under limit 3 with one couple
      are cut to two before the child is added. */
  lemma EvoluteTruncationScenario<T>(pop: seq<Individual<T>>, session: int, cb: Callbacks<T>, player: Player<T>, draws: Draws)
    requires |pop| == 4
    requires forall x, s :: !cb.extinguish(x, s)
    ensures var r := Evolute(Population(pop, 3), 1, session, Number(0.1), cb, player, draws);
      r.Ok? && |r.value.population| == 3
  {
    assert RateValid(Number(0.1));
    EvoluteUnmarked(Population(pop, 3), 1, session, Number(0.1), cb, player, draws);
  }

  /** The extinction test: when everybody is marked, a population of three
      (limit 5, one couple) is kept whole and grows by one. */
  lemma EvoluteExtinctionScenario<T>(pop: seq<Individual<T>>, session: int, cb: Callbacks<T>, player: Player<T>, draws: Draws)
    requires |pop| == 3
    requires forall x, s :: cb.extinguish(x, s)
    ensures Evolute(Population(pop, 5), 1, session, Number(0.1), cb, player, draws).Ok?
    ensures |Evolute(Population(pop, 5), 1, session, Number(0.1), cb, player, draws).value.population| == 4
  {
    SurvivedBounds(Population(pop, 5), session, cb, player, draws);
  }
}

=== FILE: heap.dfy ===
/** The comparator heap of `backend/src/algorithm/heap.rs`.

    The heap keeps its elements in `items[..all]`; slots past `all` hold
    stale values that a later push overwrites. The comparator says
    `cmp(x, y) > 0` when `x` belongs nearer the root, so the root is a
    maximum. `refresh` restores the order with a bottom-up sift-down: it
    walks from a node to a leaf along the larger child, climbs back to the
    first node not smaller than the sifted value, and rotates that path one
    level up. A push re-sifts every inner node; a pop swaps the root with
    the last element and sifts the root. The comparator is passed to each
    operation instead of being stored in the value.
 */
module BinaryHeap {
  import opened Wrappers

  datatype Heap<T> = Heap(items: seq<T>, all: nat, branch: nat)

  /** What `pop` does: a popped heap and its boolean answer, or the panic
      of `all - 1` on an empty heap. */
  datatype Popped<T> = Popped(heap: Heap<T>, ok: bool) | Underflow

  /** The comparator is a total preorder: `x` ranks at least as high as `y`
      when `cmp(x, y) >= 0`. */
  ghost predicate Preorder<T(!new)>(cmp: (T, T) -> int) {
    (forall x: T, y: T :: cmp(x, y) <= 0 ==> cmp(y, x) >= 0) &&
    (forall x: T, y: T, z: T :: cmp(x, y) >= 0 && cmp(y, z) >= 0 ==> cmp(x, z) >= 0)
  }

  /** The parent index, computed as the source does. */
  function Parent(i: nat): nat
    requires i > 0
  {
    (i + i % 2) / 2 - 1
  }

  /** Every parent at index `lo` or above ranks at least as high as its
      children inside the first `n` slots. */
  ghost predicate Ordered<T>(cmp: (T, T) -> int, a: seq<T>, n: nat, lo: nat)
    requires n <= |a|
  {
    forall i :: 0 < i < n && lo <= Parent(i) ==> cmp(a[Parent(i)], a[i]) >= 0
  }

  /** The elements the heap holds. */
  ghost function Contents<T>(h: Heap<T>): multiset<T>
    requires h.all <= |h.items|
  {
    multiset(h.items[..h.all])
  }

  ghost predicate Valid<T>(cmp: (T, T) -> int, h: Heap<T>) {
    h.all <= |h.items| && Ordered(cmp, h.items, h.all, 0)
  }

  /** `Heap::new`. */
  function New<T>(): (h: Heap<T>)
    ensures h.all == 0 && h.branch == 0 && Contents(h) == multiset{}
  {
    Heap([], 0, 0)
  }

  /** `size`: the number of elements held. */
  function Size<T>(h: Heap<T>): (r: nat)
    ensures h.all <= |h.items| ==> r == |Contents(h)|
  {
    h.all
  }

  /** `get`: nothing on an empty heap, otherwise slot 0. */
  function Get<T>(h: Heap<T>): (r: Option<T>)
    ensures h.all == 0 ==> r == None
    ensures h.all > 0 && |h.items| > 0 ==> r == Some(h.items[0])
  {
    if h.all == 0 then None
    else if |h.items| > 0 then Some(h.items[0])
    else None
  }

  function Swap<T>(s: seq<T>, i: nat, j: nat): (r: seq<T>)
    requires i < |s| && j < |s|
    ensures |r| == |s| && r[i] == s[j] && r[j] == s[i]
    ensures forall x :: 0 <= x < |s| && x != i && x != j ==> r[x] == s[x]
  {
    s[i := s[j]][j := s[i]]
  }

  lemma SwapPermutes<T>(s: seq<T>, i: nat, j: nat, n: nat)
    requires i < n && j < n && n <= |s|
    ensures multiset(Swap(s, i, j)[..n]) == multiset(s[..n])
    ensures Swap(s, i, j)[n..] == s[n..]
  {
    assert Swap(s, i, j)[..n] == s[..n][i := s[j]][j := s[i]];
  }

  /** The child a descent moves to from `p`: the right child when it exists
      and the comparator does not prefer the left one, else the left. */
  function Chosen<T>(cmp: (T, T) -> int, a: seq<T>, n: nat, p: nat): nat
    requires 2 * p + 1 < n <= |a|
  {
    if 2 * p + 2 < n && cmp(a[2 * p + 1], a[2 * p + 2]) <= 0 then 2 * p + 2 else 2 * p + 1
  }

  /** `path` starts at `b` and each step moves to the chosen child. */
  ghost predicate Descent<T>(cmp: (T, T) -> int, a: seq<T>, n: nat, b: nat, path: seq<nat>)
    requires n <= |a|
  {
    |path| >= 1 && path[0] == b &&
    forall j :: 0 <= j < |path| - 1 ==> 2 * path[j] + 1 < n && path[j + 1] == Chosen(cmp, a, n, path[j])
  }

  /** The shape facts about a descent path used by the climb and the
      rotation: it links parents to children, stays inside the first `n`
      slots below `b`, and never revisits a node. */
  ghost predicate Shaped(path: seq<nat>, n: nat, b: nat) {
    |path| >= 1 && path[0] == b &&
    (forall j :: 0 < j < |path| ==> b < path[j] < n && Parent(path[j]) == path[j - 1]) &&
    (forall i, j :: 0 <= i < j < |path| ==> path[i] < path[j])
  }

  lemma ParentOfChild(p: nat)
    ensures Parent(2 * p + 1) == p && Parent(2 * p + 2) == p
  {
  }

  lemma Increasing(path: seq<nat>)
    requires forall j :: 0 < j < |path| ==> path[j - 1] < path[j]
    ensures forall i, j :: 0 <= i < j < |path| ==> path[i] < path[j]
  {
    forall i, j | 0 <= i < j < |path|
      ensures path[i] < path[j]
    {
      var m := j;
      while m > i + 1
        invariant i < m <= j && path[m] <= path[j]
      {
        m := m - 1;
      }
    }
  }

  lemma PathFacts<T>(cmp: (T, T) -> int, a: seq<T>, n: nat, b: nat, path: seq<nat>)
    requires n <= |a| && Descent(cmp, a, n, b, path)
    ensures Shaped(path, n, b)
  {
    forall j | 0 < j < |path|
      ensures path[j - 1] < path[j] < n && Parent(path[j]) == path[j - 1]
    {
      ParentOfChild(path[j - 1]);
    }
    Increasing(path);
  }

  /** The chosen child ranks at least as high as either child. */
  lemma ChosenIsLargest<T(!new)>(cmp: (T, T) -> int, a: seq<T>, n: nat, p: nat, i: nat)
    requires Preorder(cmp)
    requires 2 * p + 1 < n <= |a| && i < n && (i == 2 * p + 1 || i == 2 * p + 2)
    ensures cmp(a[Chosen(cmp, a, n, p)], a[i]) >= 0
  {
  }

  /** What the climb leaves: every node below the stopping point `k` ranks
      strictly below `a[b]`, and the stopping node (unless it is `b`) ranks
      at least as high. */
  ghost predicate Climbed<T>(cmp: (T, T) -> int, a: seq<T>, b: nat, path: seq<nat>, k: nat)
    requires b < |a| || |path| == 1
    requires forall j :: 0 < j < |path| ==> path[j] < |a|
  {
    k < |path| &&
    (forall j :: k < j < |path| ==> cmp(a[b], a[path[j]]) > 0) &&
    (k > 0 ==> cmp(a[b], a[path[k]]) <= 0)
  }

  /** What the rotation leaves: each path node above `k` holds the value of
      the node below it, node `k` holds `a[b]`, and nothing else moved. */
  ghost predicate Rotated<T>(a: seq<T>, r: seq<T>, b: nat, path: seq<nat>, k: nat)
    requires |r| == |a| && k < |path|
    requires forall j :: 0 <= j < |path| && (j > 0 || k > 0) ==> path[j] < |a|
  {
    (forall i :: 0 <= i < k ==> r[path[i]] == a[path[i + 1]]) &&
    (path[k] < |a| ==> r[path[k]] == a[path[0]]) &&
    (forall x :: 0 <= x < |a| && x !in path[..k + 1] ==> r[x] == a[x])
  }

  /** A child of a path node that is not the next path node is off the
      path, so the rotation left it in place. */
  lemma SiblingUnmoved<T>(a: seq<T>, r: seq<T>, n: nat, b: nat, path: seq<nat>, k: nat, i: nat, j: nat)
    requires n <= |a| == |r| && b < n
    requires Shaped(path, n, b) && k < |path| && Rotated(a, r, b, path, k)
    requires 0 < i < n && j <= k && j + 1 < |path| && path[j] == Parent(i) && i != path[j + 1]
    ensures i !in path[..k + 1] && r[i] == a[i]
  {
    forall x | 0 <= x <= k
      ensures path[x] != i
    {
      if x > 0 && x - 1 != j {
        assert path[x - 1] != path[j];
      }
    }
  }

  /** The order argument at a pair whose parent is on the path strictly
      above the stopping node: the parent now holds the chosen child's old
      value, which ranks at least as high as both children's new values. */
  lemma RotationOrdersAbove<T(!new)>(cmp: (T, T) -> int, a: seq<T>, r: seq<T>, n: nat, b: nat,
                                     path: seq<nat>, k: nat, i: nat, j: nat)
    requires Preorder(cmp)
    requires n <= |a| == |r| && b < n
    requires Ordered(cmp, a, n, b + 1)
    requires Descent(cmp, a, n, b, path) && Shaped(path, n, b)
    requires Climbed(cmp, a, b, path, k) && Rotated(a, r, b, path, k)
    requires 0 < i < n && j < k && path[j] == Parent(i)
    ensures cmp(r[Parent(i)], r[i]) >= 0
  {
    var p := Parent(i);
    var q := path[j + 1];
    assert r[p] == a[q];
    assert i == 2 * p + 1 || i == 2 * p + 2;
    if i != q {
      SiblingUnmoved(a, r, n, b, path, k, i, j);
      ChosenIsLargest(cmp, a, n, p, i);
    } else if j + 1 < k {
      assert r[i] == a[path[j + 2]] && Parent(path[j + 2]) == q;
    } else {
      assert r[i] == a[b];
    }
  }

  /** The order argument at a pair whose parent is the stopping node: it
      now holds `a[b]`, which the climb found strictly above the chosen
      child, and so at least as high as either child. */
  lemma RotationOrdersAtStop<T(!new)>(cmp: (T, T) -> int, a: seq<T>, r: seq<T>, n: nat, b: nat,
                                      path: seq<nat>, k: nat, i: nat)
    requires Preorder(cmp)
    requires n <= |a| == |r| && b < n
    requires Descent(cmp, a, n, b, path) && 2 * path[|path| - 1] + 1 >= n && Shaped(path, n, b)
    requires Climbed(cmp, a, b, path, k) && Rotated(a, r, b, path, k)
    requires 0 < i < n && path[k] == Parent(i)
    ensures cmp(r[Parent(i)], r[i]) >= 0
  {
    var p := Parent(i);
    assert i == 2 * p + 1 || i == 2 * p + 2;
    assert k + 1 < |path|;
    var q := path[k + 1];
    assert r[p] == a[b];
    assert q !in path[..k + 1];
    assert r[q] == a[q] && cmp(a[b], a[q]) > 0;
    if i != q {
      SiblingUnmoved(a, r, n, b, path, k, i, k);
      ChosenIsLargest(cmp, a, n, p, i);
      assert cmp(a[q], a[i]) >= 0;
    }
  }

  /** The order argument at one pair whose parent is off the rotated part:
      then the child is off it too and neither moved. */
  lemma RotationOrdersOffPath<T>(cmp: (T, T) -> int, a: seq<T>, r: seq<T>, n: nat, b: nat,
                                 path: seq<nat>, k: nat, i: nat)
    requires n <= |a| == |r| && b < n
    requires Ordered(cmp, a, n, b + 1)
    requires Shaped(path, n, b) && k < |path|
    requires Rotated(a, r, b, path, k)
    requires 0 < i < n && b <= Parent(i) && Parent(i) !in path[..k + 1]
    ensures cmp(r[Parent(i)], r[i]) >= 0
  {
    forall x | 0 < x <= k
      ensures path[x] != i
    {
      assert path[..k + 1][x - 1] == path[x - 1];
    }
    assert path[0] in path[..k + 1];
  }

  /** The order argument for one sift: after the rotation every parent at
      `b` or below is at least its children. */
  lemma RotationOrders<T(!new)>(cmp: (T, T) -> int, a: seq<T>, r: seq<T>, n: nat, b: nat, path: seq<nat>, k: nat)
    requires Preorder(cmp)
    requires n <= |a| == |r|
    requires Ordered(cmp, a, n, b + 1)
    requires Descent(cmp, a, n, b, path) && 2 * path[|path| - 1] + 1 >= n && Shaped(path, n, b)
    requires Climbed(cmp, a, b, path, k) && Rotated(a, r, b, path, k)
    ensures Ordered(cmp, r, n, b)
  {
    forall i | 0 < i < n && b <= Parent(i)
      ensures cmp(r[Parent(i)], r[i]) >= 0
    {
      if Parent(i) in path[..k + 1] {
        var j :| 0 <= j <= k && path[j] == Parent(i);
        if j < k {
          RotationOrdersAbove(cmp, a, r, n, b, path, k, i, j);
        } else {
          RotationOrdersAtStop(cmp, a, r, n, b, path, k, i);
        }
      } else {
        RotationOrdersOffPath(cmp, a, r, n, b, path, k, i);
      }
    }
  }

  /** The first loop of `refresh`: from `b`, follow the chosen child until a
      node without children. */
  method Descend<T>(cmp: (T, T) -> int, a: seq<T>, n: nat, b: nat) returns (c: nat, ghost path: seq<nat>)
    requires n <= |a|
    ensures Descent(cmp, a, n, b, path) && c == path[|path| - 1] && 2 * c + 1 >= n
  {
    c := b;
    path := [b];
    var left := 2 * c + 1;
    var right := left + 1;
    while right < n
      invariant Descent(cmp, a, n, b, path) && c == path[|path| - 1]
      invariant left == 2 * c + 1 && right == left + 1
      decreases n - c
    {
      c := if cmp(a[left], a[right]) > 0 then left else right;
      path := path + [c];
      left := 2 * c + 1;
      right := left + 1;
    }
    if right == n {
      c := left;
      path := path + [c];
    }
  }

  /** The second loop: climb from the leaf while `a[b]` ranks strictly
      above the current node, stopping at `b` at the latest. */
  method Climb<T>(cmp: (T, T) -> int, a: seq<T>, n: nat, b: nat, leaf: nat, ghost path: seq<nat>)
    returns (c: nat, ghost k: nat)
    requires n <= |a| && Shaped(path, n, b) && leaf == path[|path| - 1]
    ensures Climbed(cmp, a, b, path, k) && c == path[k]
  {
    k := |path| - 1;
    c := leaf;
    while c != b && cmp(a[b], a[c]) > 0
      invariant 0 <= k < |path| && c == path[k]
      invariant forall j :: k < j < |path| ==> cmp(a[b], a[path[j]]) > 0
      decreases k
    {
      c := Parent(c);
      k := k - 1;
    }
  }

  /** The third loop: walk from the stopping node `cache` up to `b`,
      swapping each visited node with `cache`. */
  method Rotate<T>(a: seq<T>, n: nat, b: nat, cache: nat, ghost path: seq<nat>, ghost k: nat) returns (r: seq<T>)
    requires n <= |a| && Shaped(path, n, b) && k < |path| && cache == path[k]
    ensures |r| == |a| && r[n..] == a[n..] && multiset(r[..n]) == multiset(a[..n])
    ensures Rotated(a, r, b, path, k)
  {
    var c := cache;
    ghost var t := k;
    r := a;
    while c != b
      invariant 0 <= t <= k && c == path[t]
      invariant |r| == |a| && r[n..] == a[n..] && multiset(r[..n]) == multiset(a[..n])
      invariant cache < |a| ==> r[cache] == a[path[t]]
      invariant forall i :: t <= i < k ==> r[path[i]] == a[path[i + 1]]
      invariant forall j :: 0 <= j < t ==> r[path[j]] == a[path[j]]
      invariant forall x :: 0 <= x < |a| && x !in path[..k + 1] ==> r[x] == a[x]
      decreases t
    {
      RotateStep(a, r, n, b, path, k, t);
      c := Parent(c);
      t := t - 1;
      SwapPermutes(r, c, cache, n);
      r := Swap(r, c, cache);
    }
  }

  /** One pass of `Rotate`'s loop: swapping the hole at the end of the path
      with the parent of the path node it holds moves that node's value one
      step up and keeps every invariant. */
  lemma RotateStep<T>(a: seq<T>, r: seq<T>, n: nat, b: nat, path: seq<nat>, k: nat, t: nat)
    requires n <= |a| && Shaped(path, n, b) && k < |path| && t <= k && path[t] != b && |r| == |a|
    requires path[k] < |a| ==> r[path[k]] == a[path[t]]
    requires forall i :: t <= i < k ==> r[path[i]] == a[path[i + 1]]
    requires forall j :: 0 <= j < t ==> r[path[j]] == a[path[j]]
    requires forall x :: 0 <= x < |a| && x !in path[..k + 1] ==> r[x] == a[x]
    ensures 0 < t && path[k] < n && Parent(path[t]) == path[t - 1]
    ensures var r' := Swap(r, path[t - 1], path[k]);
      && r'[path[k]] == a[path[t - 1]]
      && (forall i :: t - 1 <= i < k ==> r'[path[i]] == a[path[i + 1]])
      && (forall j :: 0 <= j < t - 1 ==> r'[path[j]] == a[path[j]])
      && (forall x :: 0 <= x < |a| && x !in path[..k + 1] ==> r'[x] == a[x])
  {
    var r' := Swap(r, path[t - 1], path[k]);
    forall x | 0 <= x < |a| && x !in path[..k + 1]
      ensures r'[x] == a[x]
    {
      assert path[t - 1] in path[..k + 1] && path[k] in path[..k + 1];
    }
    forall i | t - 1 <= i < k
      ensures r'[path[i]] == a[path[i + 1]]
    {
      if i > t - 1 {
        assert path[t - 1] < path[i] < path[k];
      }
    }
    forall j | 0 <= j < t - 1
      ensures r'[path[j]] == a[path[j]]
    {
      assert path[j] < path[t - 1] < path[k];
    }
  }

  /** One pass of `refresh` at node `b` over the first `n` slots: given
      order below `b`, it establishes order from `b` down, permuting only
      the first `n` slots. */
  method SiftDown<T(!new)>(cmp: (T, T) -> int, a: seq<T>, n: nat, b: nat) returns (r: seq<T>)
    requires Preorder(cmp)
    requires n <= |a|
    requires Ordered(cmp, a, n, b + 1)
    ensures |r| == |a| && r[n..] == a[n..]
    ensures multiset(r[..n]) == multiset(a[..n])
    ensures Ordered(cmp, r, n, b)
  {
    var leaf, path := Descend(cmp, a, n, b);
    PathFacts(cmp, a, n, b, path);
    var stop, k := Climb(cmp, a, n, b, leaf, path);
    r := Rotate(a, n, b, stop, path, k);
    if b < n {
      RotationOrders(cmp, a, r, n, b, path, k);
    }
  }

  /** `push`: store the value in slot `all` and re-sift every inner node,
      last to first. Always answers `true`. */
  method Push<T(!new)>(cmp: (T, T) -> int, h: Heap<T>, value: T) returns (r: Heap<T>, ok: bool)
    requires Preorder(cmp)
    requires h.all <= |h.items|
    ensures ok
    ensures r.all == h.all + 1 && r.branch == 0
    ensures r.all <= |r.items| && Contents(r) == Contents(h) + multiset{value}
    ensures Valid(cmp, r)
  {
    var items := if h.all == |h.items| then h.items + [value] else h.items[h.all := value];
    var all := h.all + 1;
    assert items[..all] == h.items[..h.all] + [value];
    var branch: nat := all / 2;
    while branch > 0
      invariant all <= |items| && Ordered(cmp, items, all, branch)
      invariant multiset(items[..all]) == Contents(h) + multiset{value}
    {
      branch := branch - 1;
      items := SiftDown(cmp, items, all, branch);
    }
    r := Heap(items, all, branch);
    ok := true;
  }

  /** `pop`: refused while a push is half done (`branch > 0`, which no
      complete operation leaves behind), a panic on an empty heap, and
      otherwise the root is swapped to the end and the new root sifted. */
  method Pop<T(!new)>(cmp: (T, T) -> int, h: Heap<T>) returns (r: Popped<T>)
    requires Preorder(cmp)
    requires Valid(cmp, h)
    ensures h.branch > 0 ==> r == Popped(h, false)
    ensures h.branch == 0 && h.all == 0 ==> r == Underflow
    ensures h.branch == 0 && h.all > 0 ==>
      r.Popped? && r.ok && r.heap.all == h.all - 1 && r.heap.branch == 0 &&
      r.heap.all <= |r.heap.items| && Contents(r.heap) == Contents(h) - multiset{h.items[0]}
    ensures r.Popped? ==> Valid(cmp, r.heap)
  {
    if h.branch > 0 {
      return Popped(h, false);
    }
    if h.all == 0 {
      return Underflow;
    }
    var all := h.all - 1;
    var items := h.items;
    if all > 0 {
      SwapPermutes(items, 0, all, h.all);
      items := Swap(items, 0, all);
    }
    assert items[..h.all] == items[..all] + [h.items[0]];
    assert Ordered(cmp, items, all, 1);
    items := SiftDown(cmp, items, all, 0);
    return Popped(Heap(items, all, 0), true);
  }

  /** In an ordered heap the root ranks at least as high as every element. */
  lemma {:induction false} RootIsMaximal<T(!new)>(cmp: (T, T) -> int, h: Heap<T>)
    requires Preorder(cmp) && Valid(cmp, h) && h.all > 0
    ensures Get(h) == Some(h.items[0]) && h.items[0] in Contents(h)
    ensures forall y :: y in Contents(h) ==> cmp(h.items[0], y) >= 0
  {
    assert h.items[..h.all][0] == h.items[0];
    forall i | 0 <= i < h.all
      ensures cmp(h.items[0], h.items[i]) >= 0
    {
      RootAboveIndex(cmp, h, i);
    }
    forall y | y in Contents(h)
      ensures cmp(h.items[0], y) >= 0
    {
      var i :| 0 <= i < h.all && h.items[..h.all][i] == y;
      assert h.items[i] == y;
    }
  }

  lemma {:induction false} RootAboveIndex<T(!new)>(cmp: (T, T) -> int, h: Heap<T>, i: nat)
    requires Preorder(cmp) && Valid(cmp, h) && i < h.all
    ensures cmp(h.items[0], h.items[i]) >= 0
    decreases i
  {
    if i > 0 {
      RootAboveIndex(cmp, h, Parent(i));
    }
  }

  function Upto(n: nat): (r: seq<int>)
    ensures |r| == n && forall j :: 0 <= j < n ==> r[j] == j
  {
    seq(n, j => j)
  }

  /** The comparator of the unit test, `l - r` on integers. */
  function Diff(l: int, r: int): int {
    l - r
  }

  lemma DiffIsPreorder()
    ensures Preorder(Diff)
  {
  }

  /** With `Diff`, a heap holding `0 .. i-1` has `i - 1` at its root, and
      popping it leaves `0 .. i-2`. */
  lemma {:induction false} CountdownTop(h: Heap<int>, i: nat)
    requires Valid(Diff, h) && h.all == i > 0 && Contents(h) == multiset(Upto(i))
    ensures Get(h) == Some(i - 1)
    ensures Contents(h) - multiset{h.items[0]} == multiset(Upto(i - 1))
  {
    DiffIsPreorder();
    RootIsMaximal(Diff, h);
    assert Upto(i) == Upto(i - 1) + [i - 1];
    assert Upto(i)[i - 1] == i - 1;
    assert i - 1 in Contents(h);
    assert Diff(h.items[0], i - 1) >= 0;
    var x :| 0 <= x < i && Upto(i)[x] == h.items[0];
  }

  /** The first half of the unit test: pushing `0 .. n-1` under `Diff`
      yields an ordered heap holding exactly those values, every push
      answering `true`. */
  method PushRange(n: nat) returns (h: Heap<int>, allOk: bool)
    ensures allOk && h.all == n && h.branch == 0 && Valid(Diff, h)
    ensures Contents(h) == multiset(Upto(n))
  {
    DiffIsPreorder();
    h := New<int>();
    allOk := true;
    var i := 0;
    while i < n
      invariant 0 <= i <= n && allOk
      invariant h.all == i && h.branch == 0 && Valid(Diff, h)
      invariant Contents(h) == multiset(Upto(i))
    {
      var ok;
      h, ok := Push(Diff, h, i);
      allOk := allOk && ok;
      assert Upto(i + 1) == Upto(i) + [i];
      i := i + 1;
    }
  }

  /** The unit test: push 0 to 99 under `l - r`, then read and pop the root
      a hundred times; the roots come out 99 down to 0 and every push and
      pop answers `true`. */
  method CountdownScenario() returns (got: seq<int>, allOk: bool)
    ensures allOk
    ensures |got| == 100 && forall j :: 0 <= j < 100 ==> got[j] == 99 - j
  {
    DiffIsPreorder();
    var h;
    h, allOk := PushRange(100);
    var i := 100;
    got := [];
    while i > 0
      invariant 0 <= i <= 100 && allOk
      invariant h.all == i && h.branch == 0 && Valid(Diff, h)
      invariant Contents(h) == multiset(Upto(i))
      invariant |got| == 100 - i && forall j :: 0 <= j < |got| ==> got[j] == 99 - j
    {
      CountdownTop(h, i);
      var top := Get(h);
      var popped := Pop(Diff, h);
      h := popped.heap;
      allOk := allOk && popped.ok;
      got := got + [top.value];
      i := i - 1;
    }
  }
}

=== FILE: legacy_lru.dfy ===
/** The index-linked cache of `backend/src/algorithm/lru.rs`.

    Entries live in an arena `caching` of nodes carrying `next`/`prev`
    indices; `mapping` sends each key to its node's index. A full cache
    evicts the node at `first`: the loop over `mapping` shifts every index
    above it down by one and patches the neighbours' links, then the node is
    removed from the arena. `move_to_front` relinks a node after `last` but
    never changes `first` or `last`, so reads do not protect an entry from
    eviction. The loop visits the hash map in an order the program does not
    control; it is the parameter `order`, the map's keys each listed once.
    An index out of range is a panic, the `Panic` outcome. `ReadsLatest`
    and `ReadsLatestWhileRoom` follow the map view `Contents` over any run
    of puts and gets.
 */
module LegacyLru {
  import opened Wrappers
  import LruReference
  import opened LruArena

  /** `order` lists the keys of `m` exactly once each. */
  ghost predicate Enumerates<K>(order: seq<K>, m: map<K, nat>) {
    (forall k :: k in m ==> k in order) && (forall k :: k in order ==> k in m) &&
    (forall i, j :: 0 <= i < j < |order| ==> order[i] != order[j])
  }

  /** `move_to_front`: unlink node `index` from its neighbours and hang it
      after `last`. Only links change; `first` and `last` stay. */
  function MoveToFront<K, V>(c: Cache<K, V>, index: nat): (r: Outcome<Cache<K, V>>)
    ensures r.Panic? <==>
      index >= |c.caching| || c.caching[index].next >= |c.caching| ||
      c.caching[index].prev >= |c.caching| || c.last >= |c.caching|
    ensures r.Done? ==>
      r.value.mapping == c.mapping && r.value.capacity == c.capacity &&
      r.value.first == c.first && r.value.last == c.last &&
      SameEntries(r.value.caching, c.caching) &&
      r.value.caching[c.last].next == index && r.value.caching[index].prev == c.last
  {
    var nodes := c.caching;
    if index >= |nodes| then Panic
    else
      var next := nodes[index].next;
      var prev := nodes[index].prev;
      if next >= |nodes| || prev >= |nodes| || c.last >= |nodes| then Panic
      else
        var n1 := SetPrev(nodes, next, prev);
        var n2 := SetNext(n1, prev, next);
        var n3 := SetPrev(n2, index, c.last);
        var n4 := SetNext(n3, c.last, index);
        Done(c.(caching := n4))
  }

  /** Point node `i` back at `prev`; nothing else changes. */
  function SetPrev<K, V>(ns: seq<Node<K, V>>, i: nat, prev: nat): (r: seq<Node<K, V>>)
    requires i < |ns|
    ensures SameEntries(r, ns) && r[i].prev == prev && r[i].next == ns[i].next
    ensures forall j :: 0 <= j < |ns| && j != i ==> r[j] == ns[j]
  {
    ns[i := ns[i].(prev := prev)]
  }

  /** Point node `i` on to `next`; nothing else changes. */
  function SetNext<K, V>(ns: seq<Node<K, V>>, i: nat, next: nat): (r: seq<Node<K, V>>)
    requires i < |ns|
    ensures SameEntries(r, ns) && r[i].next == next && r[i].prev == ns[i].prev
    ensures forall j :: 0 <= j < |ns| && j != i ==> r[j] == ns[j]
  {
    ns[i := ns[i].(next := next)]
  }

  /** The loop of `put` over `mapping` before an eviction at `first`: each
      key whose index exceeds `first` moves down by one, `last` follows its
      node, and the node's neighbours are pointed at the new index. */
  function Relink<K, V>(c: Cache<K, V>, first: nat, order: seq<K>): (r: Outcome<Cache<K, V>>)
    requires forall i, j :: 0 <= i < j < |order| ==> order[i] != order[j]
    ensures r.Done? ==>
      r.value.mapping.Keys == c.mapping.Keys && r.value.capacity == c.capacity && r.value.first == c.first &&
      SameEntries(r.value.caching, c.caching)
    ensures r.Done? ==> forall k :: k in c.mapping ==>
      r.value.mapping[k] == if k in order && c.mapping[k] > first then c.mapping[k] - 1 else c.mapping[k]
    decreases |order|
  {
    if order == [] then Done(c)
    else
      var k := order[0];
      if k in c.mapping && c.mapping[k] > first then
        match MoveDown(c, k)
        case Panic => Panic
        case Done(c') =>
          assert forall x :: x in order[1..] ==> x != k;
          Relink(c', first, order[1..])
      else
        Relink(c, first, order[1..])
  }

  /** One pass of that loop for a key that moves: its index drops by one,
      `last` follows the node, and the node's neighbours are pointed at the
      new index; a neighbour outside the arena is an index panic. */
  function MoveDown<K, V>(c: Cache<K, V>, k: K): (r: Outcome<Cache<K, V>>)
    requires k in c.mapping && c.mapping[k] > 0
    ensures r.Panic? <==>
      (c.mapping[k] >= |c.caching| ||
       c.caching[c.mapping[k]].prev >= |c.caching| || c.caching[c.mapping[k]].next >= |c.caching|)
    ensures r.Done? ==>
      r.value.mapping == c.mapping[k := c.mapping[k] - 1] && r.value.capacity == c.capacity &&
      r.value.first == c.first && SameEntries(r.value.caching, c.caching)
  {
    var origin := c.mapping[k];
    if origin >= |c.caching| then Panic
    else
      var prev := c.caching[origin].prev;
      var next := c.caching[origin].next;
      var moved := origin - 1;
      var last := if c.last == origin then moved else c.last;
      if prev >= |c.caching| || next >= |c.caching| then Panic
      else
        var n1 := SetNext(c.caching, prev, moved);
        var n2 := SetPrev(n1, next, moved);
        Done(c.(mapping := c.mapping[k := moved], last := last, caching := n2))
  }

  /** The eviction branch of `put`: relink, advance `first` along the
      evicted node's `next`, forget its key and remove it from the arena. */
  function Evict<K, V>(c: Cache<K, V>, order: seq<K>): (r: Outcome<Cache<K, V>>)
    requires Enumerates(order, c.mapping)
    ensures r.Done? ==> c.first < |c.caching| && |r.value.caching| == |c.caching| - 1 && r.value.capacity == c.capacity
    ensures Indexed(c) && r.Done? ==>
      Indexed(r.value) && r.value.mapping.Keys == c.mapping.Keys - {c.caching[c.first].key} &&
      Contents(r.value) == Contents(c) - {c.caching[c.first].key}
  {
    var first := c.first;
    match Relink(c, first, order)
    case Panic => Panic
    case Done(c1) =>
      if first >= |c1.caching| then Panic
      else
        var gone := c1.caching[first].key;
        var rest := c1.caching[..first] + c1.caching[first + 1..];
        var r := c1.(first := c1.caching[first].next, mapping := c1.mapping - {gone}, caching := rest);
        assert Indexed(c) ==> Indexed(r) && Contents(r) == Contents(c) - {gone} by {
          if Indexed(c) {
            RemovalKeepsIndex(c, c1, r, first);
            RemovalContents(c, c1, r, first);
          }
        }
        Done(r)
  }

  lemma RemovalKeepsIndex<K, V>(c: Cache<K, V>, c1: Cache<K, V>, r: Cache<K, V>, first: nat)
    requires Indexed(c) && first < |c.caching| && SameEntries(c1.caching, c.caching)
    requires c1.mapping.Keys == c.mapping.Keys
    requires forall k :: k in c.mapping ==> c1.mapping[k] == if c.mapping[k] > first then c.mapping[k] - 1 else c.mapping[k]
    requires r.mapping == c1.mapping - {c1.caching[first].key}
    requires r.caching == c1.caching[..first] + c1.caching[first + 1..]
    ensures Indexed(r)
  {
    var gone := c1.caching[first].key;
    forall k | k in r.mapping
      ensures r.mapping[k] < |r.caching| && r.caching[r.mapping[k]].key == k
    {
      assert c.mapping[k] != first;
    }
    forall i | 0 <= i < |r.caching|
      ensures r.caching[i].key in r.mapping && r.mapping[r.caching[i].key] == i
    {
      var j := if i < first then i else i + 1;
      assert r.caching[i] == c1.caching[j];
      assert c.mapping[c.caching[j].key] == j;
    }
  }

  /** The removal forgets the evicted key and keeps every other key's
      value. */
  lemma RemovalContents<K, V>(c: Cache<K, V>, c1: Cache<K, V>, r: Cache<K, V>, first: nat)
    requires Indexed(c) && first < |c.caching| && SameEntries(c1.caching, c.caching)
    requires c1.mapping.Keys == c.mapping.Keys
    requires forall k :: k in c.mapping ==> c1.mapping[k] == if c.mapping[k] > first then c.mapping[k] - 1 else c.mapping[k]
    requires r.mapping == c1.mapping - {c1.caching[first].key}
    requires r.caching == c1.caching[..first] + c1.caching[first + 1..]
    ensures Contents(r) == Contents(c) - {c.caching[first].key}
  {
    var gone := c.caching[first].key;
    ContentsKeys(c);
    forall k | k in r.mapping
      ensures r.mapping[k] < |r.caching| && r.caching[r.mapping[k]].value == c.caching[c.mapping[k]].value
    {
      var j := c.mapping[k];
      assert j != first;
      var i := if j > first then j - 1 else j;
      assert r.caching[i] == c1.caching[j];
    }
    ContentsAre(r, Contents(c) - {gone});
  }

  /** The insertion branch of `put`: the new node goes to the end of the
      arena with `next` 0 and `prev` the old `last`; the old last node points
      to it, unless the arena was empty, which resets `first` and `last`. */
  function Append<K, V>(c: Cache<K, V>, key: K, value: V): (r: Outcome<Cache<K, V>>)
    ensures r.Panic? <==> |c.caching| > 0 && c.last >= |c.caching|
    ensures r.Done? ==>
      r.value.mapping == c.mapping[key := |c.caching|] && r.value.capacity == c.capacity &&
      |r.value.caching| == |c.caching| + 1 && r.value.last == |c.caching| &&
      r.value.caching[|c.caching|] == Node(key, value, 0, c.last) &&
      SameEntries(r.value.caching[..|c.caching|], c.caching)
  {
    var index := |c.caching|;
    var last := c.last;
    if index == 0 then
      Done(c.(first := index, last := index, caching := [Node(key, value, index, last)], mapping := c.mapping[key := index]))
    else if last >= index then Panic
    else
      var linked := c.caching[last := c.caching[last].(next := index)];
      Done(c.(last := index, caching := linked + [Node(key, value, 0, last)], mapping := c.mapping[key := index]))
  }

  /** `put`: overwrite and relink a present key; refuse a new key when the
      capacity is 0; otherwise evict `first` if full and append. */
  function Put<K, V>(c: Cache<K, V>, key: K, value: V, order: seq<K>): (r: Outcome<(Cache<K, V>, bool)>)
    requires Enumerates(order, c.mapping)
    ensures key !in c.mapping && c.capacity == 0 ==> r == Done((c, false))
    ensures key in c.mapping && r.Done? ==>
      r.value.1 && r.value.0.mapping == c.mapping && |r.value.0.caching| == |c.caching| &&
      c.mapping[key] < |c.caching| && r.value.0.caching[c.mapping[key]].value == value
    ensures key !in c.mapping && c.capacity > 0 && r.Done? ==>
      r.value.1 && key in r.value.0.mapping &&
      |r.value.0.caching| == (if |c.caching| >= c.capacity then |c.caching| else |c.caching| + 1) &&
      r.value.0.mapping[key] == |r.value.0.caching| - 1 &&
      r.value.0.caching[r.value.0.mapping[key]].value == value
    ensures r.Done? ==> r.value.0.capacity == c.capacity
  {
    if key in c.mapping then
      var index := c.mapping[key];
      if index >= |c.caching| then Panic
      else
        var c1 := c.(caching := c.caching[index := c.caching[index].(value := value)]);
        match MoveToFront(c1, index)
        case Panic => Panic
        case Done(c2) => Done((c2, true))
    else if c.capacity == 0 then Done((c, false))
    else
      var room := if |c.caching| >= c.capacity then Evict(c, order) else Done(c);
      match room
      case Panic => Panic
      case Done(c1) =>
        match Append(c1, key, value)
        case Panic => Panic
        case Done(c2) => Done((c2, true))
  }

  /** `get`: a present key is relinked and its value returned. */
  function Get<K, V>(c: Cache<K, V>, key: K): (r: Outcome<(Cache<K, V>, Option<V>)>)
    ensures key !in c.mapping ==> r == Done((c, None))
    ensures key in c.mapping && r.Done? ==>
      c.mapping[key] < |c.caching| && r.value.1 == Some(c.caching[c.mapping[key]].value) &&
      r.value.0.mapping == c.mapping && SameEntries(r.value.0.caching, c.caching) &&
      r.value.0.capacity == c.capacity
  {
    if key in c.mapping then
      var index := c.mapping[key];
      match MoveToFront(c, index)
      case Panic => Panic
      case Done(c1) => Done((c1, Some(c1.caching[index].value)))
    else Done((c, None))
  }

  /** Appending a fresh key to an indexed arena keeps it indexed. */
  lemma AppendKeepsIndex<K, V>(c: Cache<K, V>, key: K, value: V)
    requires Indexed(c) && key !in c.mapping && Append(c, key, value).Done?
    ensures Indexed(Append(c, key, value).value)
  {
    var r := Append(c, key, value).value;
    forall i | 0 <= i < |r.caching|
      ensures r.caching[i].key in r.mapping && r.mapping[r.caching[i].key] == i
    {
      if i < |c.caching| {
        assert r.caching[..|c.caching|][i] == r.caching[i];
      }
    }
    forall k | k in r.mapping
      ensures r.mapping[k] < |r.caching| && r.caching[r.mapping[k]].key == k
    {
      if k != key {
        assert r.caching[..|c.caching|][c.mapping[k]] == r.caching[c.mapping[k]];
      }
    }
  }

  /** Overwriting a value and relinking keeps an arena indexed. */
  lemma UpdateKeepsIndex<K, V>(c: Cache<K, V>, key: K, value: V)
    requires Indexed(c) && key in c.mapping
    ensures var c1 := c.(caching := c.caching[c.mapping[key] := c.caching[c.mapping[key]].(value := value)]);
      Indexed(c1) && (MoveToFront(c1, c.mapping[key]).Done? ==> Indexed(MoveToFront(c1, c.mapping[key]).value))
  {
    var index := c.mapping[key];
    var c1 := c.(caching := c.caching[index := c.caching[index].(value := value)]);
    assert forall i :: 0 <= i < |c.caching| ==> c1.caching[i].key == c.caching[i].key;
    if MoveToFront(c1, index).Done? {
      var c2 := MoveToFront(c1, index).value;
      assert forall i :: 0 <= i < |c.caching| ==> c2.caching[i].key == c1.caching[i].key;
    }
  }

  /** A completed `put` keeps `mapping` and the arena in bijection and the
      arena within the capacity. */
  lemma {:induction false} PutKeepsIndex<K, V>(c: Cache<K, V>, key: K, value: V, order: seq<K>)
    requires Enumerates(order, c.mapping) && Indexed(c) && |c.caching| <= c.capacity
    requires Put(c, key, value, order).Done?
    ensures Indexed(Put(c, key, value, order).value.0)
    ensures |Put(c, key, value, order).value.0.caching| <= c.capacity
  {
    if key in c.mapping {
      UpdateKeepsIndex(c, key, value);
    } else if c.capacity > 0 {
      var room := if |c.caching| >= c.capacity then Evict(c, order) else Done(c);
      var c1 := room.value;
      assert Indexed(c1) && key !in c1.mapping;
      AppendKeepsIndex(c1, key, value);
    }
  }

  /** After a completed `put`, a completed `get` of the same key returns
      the value just put. */
  lemma {:induction false} GetAfterPut<K, V>(c: Cache<K, V>, key: K, value: V, order: seq<K>)
    requires Enumerates(order, c.mapping) && c.capacity > 0
    requires Put(c, key, value, order).Done?
    requires Get(Put(c, key, value, order).value.0, key).Done?
    ensures Get(Put(c, key, value, order).value.0, key).value.1 == Some(value)
  {
  }

  // ----------------------------------------------------- the map view

  /** A completed `put` writes its key into the map view; a new key on a
      full cache first forgets the key at `first`; a refused key changes
      nothing. */
  lemma PutContents<K, V>(c: Cache<K, V>, key: K, value: V, order: seq<K>)
    requires Enumerates(order, c.mapping) && Indexed(c) && Put(c, key, value, order).Done?
    ensures var d := Put(c, key, value, order).value.0;
      if key !in c.mapping && c.capacity == 0 then Contents(d) == Contents(c)
      else if key !in c.mapping && |c.caching| >= c.capacity then
        c.first < |c.caching| && Contents(d) == (Contents(c) - {c.caching[c.first].key})[key := value]
      else Contents(d) == Contents(c)[key := value]
  {
    if key in c.mapping {
      RewriteContents(c, key, value, order);
    } else if c.capacity > 0 {
      if |c.caching| >= c.capacity {
        AppendContents(Evict(c, order).value, key, value);
      } else {
        AppendContents(c, key, value);
      }
    }
  }

  /** A put of a present key changes that key's value only. */
  lemma RewriteContents<K, V>(c: Cache<K, V>, key: K, value: V, order: seq<K>)
    requires Enumerates(order, c.mapping) && Indexed(c) && key in c.mapping && Put(c, key, value, order).Done?
    ensures Contents(Put(c, key, value, order).value.0) == Contents(c)[key := value]
  {
    var d := Put(c, key, value, order).value.0;
    var index := c.mapping[key];
    var c1 := c.(caching := c.caching[index := c.caching[index].(value := value)]);
    assert MoveToFront(c1, index) == Done(d);
    assert SameEntries(d.caching, c1.caching);
    ContentsAre(d, Contents(c)[key := value]);
  }

  /** Appending a fresh key adds it to the map view. */
  lemma AppendContents<K, V>(c: Cache<K, V>, key: K, value: V)
    requires Indexed(c) && key !in c.mapping && Append(c, key, value).Done?
    ensures Contents(Append(c, key, value).value) == Contents(c)[key := value]
  {
    var r := Append(c, key, value).value;
    forall k | k in c.mapping
      ensures r.caching[c.mapping[k]].value == c.caching[c.mapping[k]].value
    {
      assert r.caching[..|c.caching|][c.mapping[k]] == r.caching[c.mapping[k]];
    }
    ContentsAre(r, Contents(c)[key := value]);
  }

  /** A completed `get` returns the key's value in the map view, or `None`
      for a missing key, and leaves the view alone. */
  lemma GetContents<K, V>(c: Cache<K, V>, key: K)
    requires Indexed(c) && Get(c, key).Done?
    ensures Contents(Get(c, key).value.0) == Contents(c)
    ensures Get(c, key).value.1 == if key in Contents(c) then Some(Contents(c)[key]) else None
  {
    ContentsAre(Get(c, key).value.0, Contents(c));
  }

  /** The call `op` on `c`, with the hash map visited in `order`, returns
      normally, leaving `d`; `out` is what a get returned. */
  ghost predicate Step<K, V>(c: Cache<K, V>, op: LruReference.Op<K, V>, order: seq<K>, d: Cache<K, V>, out: Option<V>) {
    match op
    case Write(k, v) =>
      Enumerates(order, c.mapping) && Put(c, k, v, order).Done? && Put(c, k, v, order).value.0 == d && out == None
    case Read(k) => Get(c, k) == Done((d, out))
  }

  /** `cs` are the states of a run of the calls `ops` from an indexed cache
      within its capacity, `orders` the hash map orders the puts met and
      `outs` what the calls returned. */
  ghost predicate Run<K, V>(cs: seq<Cache<K, V>>, ops: seq<LruReference.Op<K, V>>, orders: seq<seq<K>>, outs: seq<Option<V>>) {
    |cs| == |ops| + 1 && |orders| == |ops| && |outs| == |ops| &&
    Indexed(cs[0]) && |cs[0].caching| <= cs[0].capacity &&
    forall i :: 0 <= i < |ops| ==> Step(cs[i], ops[i], orders[i], cs[i + 1], outs[i])
  }

  /** One call keeps the cache indexed and within its capacity, and keeps
      the map view inside the map of latest writes `m`; a get that finds its
      key returns that key's latest write. */
  lemma StepWithin<K, V>(c: Cache<K, V>, op: LruReference.Op<K, V>, order: seq<K>, d: Cache<K, V>, out: Option<V>, m: map<K, V>)
    requires Indexed(c) && |c.caching| <= c.capacity && Step(c, op, order, d, out)
    requires LruReference.Within(Contents(c), m)
    ensures Indexed(d) && |d.caching| <= d.capacity == c.capacity
    ensures LruReference.Within(Contents(d), LruReference.Apply(m, op))
    ensures op.Read? && out.Some? ==> op.key in m && out.value == m[op.key]
  {
    match op
    case Write(k, v) =>
      PutKeepsIndex(c, k, v, order);
      WriteWithin(c, k, v, order, m);
    case Read(k) =>
      GetKeepsIndex(c, k);
      GetContents(c, k);
  }

  /** A put keeps the map view inside the latest writes. */
  lemma WriteWithin<K, V>(c: Cache<K, V>, key: K, value: V, order: seq<K>, m: map<K, V>)
    requires Enumerates(order, c.mapping) && Indexed(c) && Put(c, key, value, order).Done?
    requires LruReference.Within(Contents(c), m)
    ensures LruReference.Within(Contents(Put(c, key, value, order).value.0), m[key := value])
  {
    PutContents(c, key, value, order);
  }

  /** A completed `get` keeps `mapping` and the arena in bijection. */
  lemma GetKeepsIndex<K, V>(c: Cache<K, V>, key: K)
    requires Indexed(c) && Get(c, key).Done?
    ensures Indexed(Get(c, key).value.0)
  {
    var d := Get(c, key).value.0;
    assert forall i :: 0 <= i < |c.caching| ==> d.caching[i].key == c.caching[i].key;
  }

  /** One call whose writes still fit in the capacity evicts nothing: the
      map view becomes exactly the written map, and a get returns the key's
      value or `None` for a key not in the view. */
  lemma StepExact<K, V>(c: Cache<K, V>, op: LruReference.Op<K, V>, order: seq<K>, d: Cache<K, V>, out: Option<V>)
    requires Indexed(c) && |c.caching| <= c.capacity && Step(c, op, order, d, out)
    requires op.Write? ==> |LruReference.Apply(Contents(c), op).Keys| <= c.capacity
    ensures Contents(d) == LruReference.Apply(Contents(c), op)
    ensures op.Read? ==> out == if op.key in Contents(c) then Some(Contents(c)[op.key]) else None
  {
    match op
    case Write(k, v) => WriteExact(c, k, v, order);
    case Read(k) => GetContents(c, k);
  }

  /** A put of a key that fits in the capacity evicts nothing. */
  lemma WriteExact<K, V>(c: Cache<K, V>, key: K, value: V, order: seq<K>)
    requires Enumerates(order, c.mapping) && Indexed(c) && |c.caching| <= c.capacity
    requires Put(c, key, value, order).Done?
    requires |Contents(c)[key := value].Keys| <= c.capacity
    ensures Contents(Put(c, key, value, order).value.0) == Contents(c)[key := value]
  {
    if key !in c.mapping {
      Fits(c, key, value);
    }
    PutContents(c, key, value, order);
  }

  /** Every state of a run is indexed, within the capacity, and holds only
      latest writes. */
  lemma {:induction false} RunWithin<K, V>(cs: seq<Cache<K, V>>, ops: seq<LruReference.Op<K, V>>, orders: seq<seq<K>>, outs: seq<Option<V>>, n: nat)
    requires Run(cs, ops, orders, outs) && n <= |ops|
    ensures Indexed(cs[n]) && |cs[n].caching| <= cs[n].capacity == cs[0].capacity
    ensures LruReference.Within(Contents(cs[n]), LruReference.Latest(Contents(cs[0]), ops[..n]))
    decreases n
  {
    if n == 0 {
      assert ops[..0] == [];
    } else {
      RunWithin(cs, ops, orders, outs, n - 1);
      assert ops[..n][..n - 1] == ops[..n - 1];
      StepWithin(cs[n - 1], ops[n - 1], orders[n - 1], cs[n], outs[n - 1], LruReference.Latest(Contents(cs[0]), ops[..n - 1]));
    }
  }

  /** `get` returns the last value put (lru.rs:98-105 reading what lines
      32-96 stored): over any run, a get that finds its key returns the
      value of the latest put of that key, or of the starting map. */
  lemma ReadsLatest<K, V>(cs: seq<Cache<K, V>>, ops: seq<LruReference.Op<K, V>>, orders: seq<seq<K>>, outs: seq<Option<V>>, i: nat)
    requires Run(cs, ops, orders, outs) && i < |ops| && ops[i].Read? && outs[i].Some?
    ensures ops[i].key in LruReference.Latest(Contents(cs[0]), ops[..i])
    ensures outs[i].value == LruReference.Latest(Contents(cs[0]), ops[..i])[ops[i].key]
  {
    RunWithin(cs, ops, orders, outs, i);
    StepWithin(cs[i], ops[i], orders[i], cs[i + 1], outs[i], LruReference.Latest(Contents(cs[0]), ops[..i]));
  }

  /** While every key a run writes fits in the capacity, no state loses a
      key: each holds exactly the latest writes. */
  lemma {:induction false} RunExact<K, V>(cs: seq<Cache<K, V>>, ops: seq<LruReference.Op<K, V>>, orders: seq<seq<K>>, outs: seq<Option<V>>, n: nat)
    requires Run(cs, ops, orders, outs) && n <= |ops|
    requires |LruReference.Latest(Contents(cs[0]), ops).Keys| <= cs[0].capacity
    ensures Contents(cs[n]) == LruReference.Latest(Contents(cs[0]), ops[..n])
    decreases n
  {
    if n == 0 {
      assert ops[..0] == [];
    } else {
      RunExact(cs, ops, orders, outs, n - 1);
      RunWithin(cs, ops, orders, outs, n - 1);
      assert ops[..n][..n - 1] == ops[..n - 1];
      LruReference.LatestGrows(Contents(cs[0]), ops, n);
      StepExact(cs[n - 1], ops[n - 1], orders[n - 1], cs[n], outs[n - 1]);
    }
  }

  /** The same run in the other direction: while the keys written fit in
      the capacity, a get returns `Some` of the latest write of its key, and
      `None` only for a key never written. */
  lemma ReadsLatestWhileRoom<K, V>(cs: seq<Cache<K, V>>, ops: seq<LruReference.Op<K, V>>, orders: seq<seq<K>>, outs: seq<Option<V>>, i: nat)
    requires Run(cs, ops, orders, outs) && i < |ops| && ops[i].Read?
    requires |LruReference.Latest(Contents(cs[0]), ops).Keys| <= cs[0].capacity
    ensures var m := LruReference.Latest(Contents(cs[0]), ops[..i]);
      outs[i] == if ops[i].key in m then Some(m[ops[i].key]) else None
  {
    RunExact(cs, ops, orders, outs, i);
    RunWithin(cs, ops, orders, outs, i);
    StepExact(cs[i], ops[i], orders[i], cs[i + 1], outs[i]);
  }

  // Concrete states of a capacity-2 cache of `int` keys met by the
  // scenarios below, one lemma per operation between them.

  /** After put 1. */
  function One(): Cache<int, int> { Cache(map[1 := 0], [Node(1, 10, 0, 0)], 2, 0, 0) }
  /** After put 1, put 2. */
  function OneTwo(): Cache<int, int> { Cache(map[1 := 0, 2 := 1], [Node(1, 10, 1, 0), Node(2, 20, 0, 0)], 2, 0, 1) }
  /** After put 1, put 2 and then a get or a put of 1: only links moved. */
  function OneTwoRead(): Cache<int, int> { Cache(map[1 := 0, 2 := 1], [Node(1, 10, 1, 1), Node(2, 20, 0, 0)], 2, 0, 1) }
  /** After key 1 was evicted for key 3. */
  function TwoThree(): Cache<int, int> { Cache(map[2 := 0, 3 := 1], [Node(2, 20, 1, 0), Node(3, 30, 0, 0)], 2, 0, 1) }
  /** After put 1, put 2, put 1, put 1: node 2 now points back at itself. */
  function OneTwoTwice(): Cache<int, int> { Cache(map[1 := 0, 2 := 1], [Node(1, 10, 1, 1), Node(2, 20, 0, 1)], 2, 0, 1) }
  /** After a further put 3: `first` and `last` both at slot 1. */
  function TwoThreeStale(): Cache<int, int> { Cache(map[2 := 0, 3 := 1], [Node(2, 20, 1, 1), Node(3, 30, 0, 0)], 2, 1, 1) }

  lemma StepOne()
    ensures Put(New(2), 1, 10, []) == Done((One(), true))
  {
    var r := Put(New<int, int>(2), 1, 10, []);
    assert r.Done? && r.value.0.caching == One().caching && r.value.0.mapping == One().mapping;
  }

  lemma StepTwo()
    ensures Put(One(), 2, 20, [1]) == Done((OneTwo(), true))
  {
    var r := Put(One(), 2, 20, [1]);
    assert r.Done? && r.value.0.caching == OneTwo().caching && r.value.0.mapping == OneTwo().mapping;
  }

  lemma StepRead()
    ensures Get(OneTwo(), 1) == Done((OneTwoRead(), Some(10)))
  {
    var r := Get(OneTwo(), 1);
    assert r.Done? && r.value.0.caching == OneTwoRead().caching;
  }

  lemma StepRewrite()
    ensures Put(OneTwo(), 1, 10, [1, 2]) == Done((OneTwoRead(), true))
  {
    var r := Put(OneTwo(), 1, 10, [1, 2]);
    assert r.Done? && r.value.0.caching == OneTwoRead().caching;
  }

  lemma StepRewriteAgain()
    ensures Put(OneTwoRead(), 1, 10, [1, 2]) == Done((OneTwoTwice(), true))
  {
    var r := Put(OneTwoRead(), 1, 10, [1, 2]);
    assert r.Done? && r.value.0.caching == OneTwoTwice().caching;
  }

  lemma StepRelink()
    ensures var r := Relink(OneTwoRead(), 0, [1, 2]);
      r.Done? && r.value.caching == [Node(1, 10, 0, 0), Node(2, 20, 0, 0)] && r.value.mapping == map[1 := 0, 2 := 0] &&
      r.value.first == 0 && r.value.last == 0 && r.value.capacity == 2
  {
    assert [1, 2][1..] == [2];
    assert [2][1..] == [];
  }

  lemma StepEvict()
    ensures Evict(OneTwoRead(), [1, 2]) == Done(Cache(map[2 := 0], [Node(2, 20, 0, 0)], 2, 0, 0))
  {
    StepRelink();
    var c1 := Cache(map[1 := 0, 2 := 0], [Node(1, 10, 0, 0), Node(2, 20, 0, 0)], 2, 0, 0);
    EvictAfter(OneTwoRead(), [1, 2], c1);
    DropHead(c1.caching);
    DropKeyOne();
  }

  lemma StepAppend()
    ensures Append(Cache(map[2 := 0], [Node(2, 20, 0, 0)], 2, 0, 0), 3, 30) == Done(TwoThree())
  {
    var r := Append(Cache(map[2 := 0], [Node(2, 20, 0, 0)], 2, 0, 0), 3, 30);
    assert r.Done? && r.value.caching == TwoThree().caching && r.value.mapping == TwoThree().mapping;
  }

  lemma StepThree()
    ensures Put(OneTwoRead(), 3, 30, [1, 2]) == Done((TwoThree(), true))
  {
    StepEvict();
    StepAppend();
  }

  lemma StaleRelink()
    ensures var r := Relink(OneTwoTwice(), 0, [1, 2]);
      r.Done? && r.value.caching == [Node(1, 10, 1, 0), Node(2, 20, 0, 1)] && r.value.mapping == map[1 := 0, 2 := 0] &&
      r.value.first == 0 && r.value.last == 0 && r.value.capacity == 2
  {
    assert [1, 2][1..] == [2];
    assert [2][1..] == [];
  }

  lemma StaleEvict()
    ensures Evict(OneTwoTwice(), [1, 2]) == Done(Cache(map[2 := 0], [Node(2, 20, 0, 1)], 2, 1, 0))
  {
    StaleRelink();
    var c1 := Cache(map[1 := 0, 2 := 0], [Node(1, 10, 1, 0), Node(2, 20, 0, 1)], 2, 0, 0);
    EvictAfter(OneTwoTwice(), [1, 2], c1);
    DropHead(c1.caching);
    DropKeyOne();
  }

  lemma DropHead<T>(s: seq<T>)
    requires |s| == 2
    ensures s[..0] + s[1..] == [s[1]]
  {
  }

  lemma DropKeyOne()
    ensures map[1 := 0, 2 := 0] - {1} == map[2 := 0]
  {
  }

  /** Evict, once its relink is known, drops the first slot. */
  lemma EvictAfter<K, V>(c: Cache<K, V>, order: seq<K>, c1: Cache<K, V>)
    requires Enumerates(order, c.mapping)
    requires Relink(c, c.first, order) == Done(c1) && c.first < |c1.caching|
    ensures Evict(c, order) == Done(c1.(first := c1.caching[c.first].next, mapping := c1.mapping - {c1.caching[c.first].key},
                                         caching := c1.caching[..c.first] + c1.caching[c.first + 1..]))
  {
  }

  lemma StaleAppend()
    ensures Append(Cache(map[2 := 0], [Node(2, 20, 0, 1)], 2, 1, 0), 3, 30) == Done(TwoThreeStale())
  {
    var r := Append(Cache(map[2 := 0], [Node(2, 20, 0, 1)], 2, 1, 0), 3, 30);
    assert r.Done? && r.value.caching == TwoThreeStale().caching && r.value.mapping == TwoThreeStale().mapping;
  }

  lemma StaleThree()
    ensures Put(OneTwoTwice(), 3, 30, [1, 2]) == Done((TwoThreeStale(), true))
  {
    StaleEvict();
    StaleAppend();
  }

  lemma StalePanics()
    ensures Put(TwoThreeStale(), 1, 10, [2, 3]).Panic?
  {
    assert [2, 3][1..] == [3];
    assert [3][1..] == [];
    var r := Relink(TwoThreeStale(), 1, [2, 3]);
    assert r == Done(TwoThreeStale());
  }

  /** Put 1 and put 2 into an empty cache of capacity 2. */
  method FillScenario() returns (c: Cache<int, int>)
    ensures c == OneTwo()
  {
    StepOne();
    StepTwo();
    c := New<int, int>(2);
    c := Put(c, 1, 10, []).value.0;
    c := Put(c, 2, 20, [1]).value.0;
  }

  /** Put 1, put 2, get 1, put 3 into an empty cache of capacity 2. */
  method ReadThenFillScenario() returns (c: Cache<int, int>)
    ensures c == TwoThree()
  {
    StepRead();
    StepThree();
    c := FillScenario();
    c := Get(c, 1).value.0;
    c := Put(c, 3, 30, [1, 2]).value.0;
  }

  /** Reading a key does not save it: with capacity 2, after put 1, put 2,
      get 1 and put 3 the cache has dropped key 1, the one just read, and
      kept key 2. */
  method RecencyIgnoredScenario() returns (one: Option<int>, two: Option<int>)
    ensures one == None && two == Some(20)
  {
    var c := ReadThenFillScenario();
    one := Get(c, 1).value.1;
    two := Get(c, 2).value.1;
  }

  /** Put 1, put 2, put 1, put 1 into an empty cache of capacity 2. */
  method RewriteScenario() returns (c: Cache<int, int>)
    ensures c == OneTwoTwice()
  {
    StepRewrite();
    StepRewriteAgain();
    c := FillScenario();
    c := Put(c, 1, 10, [1, 2]).value.0;
    c := Put(c, 1, 10, [1, 2]).value.0;
  }

  /** A further put 3 leaves `first` and `last` both at slot 1. */
  method StaleScenario() returns (c: Cache<int, int>)
    ensures c == TwoThreeStale()
  {
    StaleThree();
    c := RewriteScenario();
    c := Put(c, 3, 30, [1, 2]).value.0;
  }

  /** From there, the next new key evicts slot 1 and then links the old
      `last`, now past the end of the arena: a panic. */
  method PanicScenario() returns (r: Outcome<(Cache<int, int>, bool)>)
    ensures r.Panic?
  {
    var c := StaleScenario();
    StalePanics();
    r := Put(c, 1, 10, [2, 3]);
  }
}

=== FILE: lru_arena.dfy ===
/** The arena both index-linked caches keep their entries in
    (`backend/src/algorithm/lru.rs` and `pkgs/backend/src/algorithm/lru.rs`
    declare the same `Node` and the same fields): a vector `caching` of
    nodes linked by `next`/`prev` indices, `mapping` from each key to its
    node's index, the `capacity`, and the `first` and `last` indices.

    `Contents` is the key-value map such an arena stands for; the two cache
    modules prove what each call does to it.
 */
module LruArena {
  import LruReference

  datatype Node<K, V> = Node(key: K, value: V, next: nat, prev: nat)

  datatype Cache<K, V> = Cache(mapping: map<K, nat>, caching: seq<Node<K, V>>, capacity: nat, first: nat, last: nat)

  /** `mapping` and the arena's keys are in bijection. */
  ghost predicate Indexed<K, V>(c: Cache<K, V>) {
    (forall k :: k in c.mapping ==> c.mapping[k] < |c.caching| && c.caching[c.mapping[k]].key == k) &&
    (forall i :: 0 <= i < |c.caching| ==> c.caching[i].key in c.mapping && c.mapping[c.caching[i].key] == i)
  }

  /** Two arenas hold the same keys and values slot by slot; only links may
      differ. */
  ghost predicate SameEntries<K, V>(a: seq<Node<K, V>>, b: seq<Node<K, V>>) {
    |a| == |b| && forall i :: 0 <= i < |a| ==> a[i].key == b[i].key && a[i].value == b[i].value
  }

  /** `LruCache::new`. */
  function New<K, V>(capacity: nat): (c: Cache<K, V>)
    ensures c.mapping == map[] && c.caching == [] && c.capacity == capacity && Indexed(c)
  {
    Cache(map[], [], capacity, 0, 0)
  }

  /** The key-value map the cache holds: each key of `mapping` with the
      value in its slot. */
  ghost function Contents<K, V>(c: Cache<K, V>): map<K, V> {
    map k | k in c.mapping && c.mapping[k] < |c.caching| :: c.caching[c.mapping[k]].value
  }

  /** In an indexed cache every key of `mapping` is in the map view, and
      there are as many keys as nodes. */
  lemma ContentsKeys<K, V>(c: Cache<K, V>)
    requires Indexed(c)
    ensures Contents(c).Keys == c.mapping.Keys
    ensures |Contents(c).Keys| == |c.caching|
  {
    var keys := seq(|c.caching|, i requires 0 <= i < |c.caching| => c.caching[i].key);
    LruReference.IndexCard(c.mapping, keys);
  }

  /** The map view is `m` when the keys agree and each slot holds `m`'s
      value. */
  lemma ContentsAre<K, V>(c: Cache<K, V>, m: map<K, V>)
    requires forall k :: k in c.mapping <==> k in m
    requires forall k :: k in m ==> c.mapping[k] < |c.caching| && c.caching[c.mapping[k]].value == m[k]
    ensures Contents(c) == m
  {
    assert Contents(c).Keys == m.Keys;
  }

  /** A new key that fits in the capacity finds the arena not full. */
  lemma Fits<K, V>(c: Cache<K, V>, key: K, value: V)
    requires Indexed(c) && key !in c.mapping && |Contents(c)[key := value].Keys| <= c.capacity
    ensures |c.caching| < c.capacity
  {
    ContentsKeys(c);
    assert Contents(c)[key := value].Keys == Contents(c).Keys + {key};
  }
}

=== FILE: lru_reference.dfy ===
/** The least-recently-used cache both arena caches are meant to be, as a
    plain recency list: `entries` runs from the most recently used entry to
    the least. A put or a successful read moves its key to the front; a new
    key on a full cache drops the entry at the back.

    The partner definition is `Recent`: the distinct keys of a history of
    uses, most recent first, cut to the capacity. `PutTracks` and
    `GetTracks` prove that the cache always holds exactly those keys, which
    is what "evicts the least recently used entry" means.
 */
module LruReference {
  import opened Wrappers

  datatype Entry<K, V> = Entry(key: K, value: V)

  datatype Cache<K, V> = Cache(entries: seq<Entry<K, V>>, capacity: nat)

  function Keys<K(==), V>(es: seq<Entry<K, V>>): (r: seq<K>)
    ensures |r| == |es| && forall i :: 0 <= i < |es| ==> r[i] == es[i].key
  {
    seq(|es|, i requires 0 <= i < |es| => es[i].key)
  }

  predicate Distinct<K(==)>(s: seq<K>) {
    forall i, j :: 0 <= i < j < |s| ==> s[i] != s[j]
  }

  /** Keys are distinct and the capacity is respected. */
  predicate Valid<K(==), V>(c: Cache<K, V>) {
    Distinct(Keys(c.entries)) && |c.entries| <= c.capacity
  }

  function New<K(==), V>(capacity: nat): (c: Cache<K, V>)
    ensures c.entries == [] && c.capacity == capacity && Valid(c)
  {
    Cache([], capacity)
  }

  /** The position of `key`, if present. */
  function Lookup<K(==), V>(es: seq<Entry<K, V>>, key: K): (r: Option<nat>)
    ensures r.Some? ==> r.value < |es| && es[r.value].key == key
    ensures r.None? <==> key !in Keys(es)
  {
    if es == [] then None
    else if es[0].key == key then Some(0)
    else
      match Lookup(es[1..], key)
      case None =>
        assert forall i :: 0 < i < |es| ==> Keys(es)[i] == Keys(es[1..])[i - 1];
        None
      case Some(i) => Some(i + 1)
  }

  /** `s` without slot `i`. */
  function Drop<T>(s: seq<T>, i: nat): (r: seq<T>)
    requires i < |s|
    ensures |r| == |s| - 1
    ensures forall j :: 0 <= j < |r| ==> r[j] == if j < i then s[j] else s[j + 1]
  {
    s[..i] + s[i + 1..]
  }

  /** `put`: a present key moves to the front with its new value; a new key
      is refused at capacity 0, and otherwise goes to the front after the
      back entry was dropped from a full cache. */
  function Put<K(==), V>(c: Cache<K, V>, key: K, value: V): (r: (Cache<K, V>, bool))
    ensures r.0.capacity == c.capacity
    ensures key !in Keys(c.entries) && c.capacity == 0 ==> r == (c, false)
    ensures key in Keys(c.entries) || c.capacity > 0 ==> r.1 && |r.0.entries| > 0 && r.0.entries[0] == Entry(key, value)
    ensures key in Keys(c.entries) ==> |r.0.entries| == |c.entries|
    ensures Valid(c) && key !in Keys(c.entries) && c.capacity > 0 ==>
      |r.0.entries| == (if |c.entries| == c.capacity then c.capacity else |c.entries| + 1)
  {
    match Lookup(c.entries, key)
    case Some(i) => (c.(entries := [Entry(key, value)] + Drop(c.entries, i)), true)
    case None =>
      if c.capacity == 0 then (c, false)
      else
        var kept := if |c.entries| >= c.capacity then c.entries[..c.capacity - 1] else c.entries;
        (c.(entries := [Entry(key, value)] + kept), true)
  }

  /** `get`: a present key moves to the front and its value is returned. */
  function Get<K(==), V>(c: Cache<K, V>, key: K): (r: (Cache<K, V>, Option<V>))
    ensures key !in Keys(c.entries) ==> r == (c, None)
    ensures key in Keys(c.entries) ==>
      r.1.Some? && |r.0.entries| == |c.entries| > 0 && r.0.entries[0] == Entry(key, r.1.value) &&
      Entry(key, r.1.value) in c.entries
    ensures r.0.capacity == c.capacity
  {
    match Lookup(c.entries, key)
    case Some(i) => (c.(entries := [c.entries[i]] + Drop(c.entries, i)), Some(c.entries[i].value))
    case None => (c, None)
  }

  /** `s` without any occurrence of `k`. */
  function Without<K(==)>(s: seq<K>, k: K): (r: seq<K>)
    ensures k !in r
    ensures forall x :: x in r ==> x in s && x != k
    ensures forall x :: x in s && x != k ==> x in r
  {
    if s == [] then [] else (if s[0] == k then [] else [s[0]]) + Without(s[1..], k)
  }

  /** The distinct keys of a history of uses, most recent first. */
  function Recency<K(==)>(t: seq<K>): (r: seq<K>)
    ensures Distinct(r)
    ensures forall x :: x in r ==> x in t
    ensures forall x :: x in t ==> x in r
  {
    if t == [] then []
    else
      var rest := Recency(t[..|t| - 1]);
      var r := [t[|t| - 1]] + Without(rest, t[|t| - 1]);
      assert forall x :: x in t ==> x in t[..|t| - 1] || x == t[|t| - 1];
      assert forall x :: x in t[..|t| - 1] ==> x in t;
      WithoutKeepsDistinct(rest, t[|t| - 1]);
      r
  }

  /** The keys an LRU cache of capacity `n` holds after the history `t`. */
  function Recent<K(==)>(t: seq<K>, n: nat): (r: seq<K>)
    ensures Distinct(r) && |r| <= n
  {
    var all := Recency(t);
    all[..if n < |all| then n else |all|]
  }

  /** The cache holds exactly the keys `Recent` prescribes for `t`. */
  ghost predicate Tracks<K, V>(c: Cache<K, V>, t: seq<K>) {
    Keys(c.entries) == Recent(t, c.capacity)
  }

  lemma {:induction false} WithoutKeepsDistinct<K>(s: seq<K>, k: K)
    requires Distinct(s)
    ensures Distinct(Without(s, k))
  {
    if s != [] {
      WithoutKeepsDistinct(s[1..], k);
      assert s[0] !in s[1..];
    }
  }

  /** In a sequence without repeats, dropping `k` is dropping its slot. */
  lemma {:induction false} WithoutAt<K>(s: seq<K>, i: nat)
    requires Distinct(s) && i < |s|
    ensures Without(s, s[i]) == Drop(s, i)
  {
    if i == 0 {
      WithoutAbsent(s[1..], s[0]);
      assert s[1..] == Drop(s, 0);
    } else {
      WithoutAt(s[1..], i - 1);
      assert Drop(s, i) == [s[0]] + Drop(s[1..], i - 1);
    }
  }

  /** Dropping an absent key changes nothing. */
  lemma {:induction false} WithoutAbsent<K>(s: seq<K>, k: K)
    requires k !in s
    ensures Without(s, k) == s
  {
    if s != [] {
      WithoutAbsent(s[1..], k);
      assert [s[0]] + s[1..] == s;
    }
  }

  /** One more use of `k` puts it at the front of the recency order. */
  lemma RecencySnoc<K>(t: seq<K>, k: K)
    ensures Recency(t + [k]) == [k] + Without(Recency(t), k)
  {
    assert (t + [k])[..|t + [k]| - 1] == t;
  }

  /** A tracked cache is valid and holds a prefix of the recency order. */
  lemma TrackedKeys<K, V>(c: Cache<K, V>, t: seq<K>)
    requires Tracks(c, t)
    ensures Valid(c)
    ensures var all := Recency(t);
      |c.entries| == (if c.capacity < |all| then c.capacity else |all|) &&
      Keys(c.entries) == all[..|c.entries|]
  {
  }

  lemma DropOfPrefix<T>(s: seq<T>, i: nat, m: nat)
    requires i < m <= |s|
    ensures Drop(s[..m], i) == Drop(s, i)[..m - 1]
  {
  }

  lemma KeysOfFront<K, V>(e: Entry<K, V>, es: seq<Entry<K, V>>)
    ensures Keys([e] + es) == [e.key] + Keys(es)
  {
  }

  lemma KeysOfDrop<K, V>(es: seq<Entry<K, V>>, i: nat)
    requires i < |es|
    ensures Keys(Drop(es, i)) == Drop(Keys(es), i)
  {
  }

  /** Moving the entry in slot `i` to the front tracks one more use of its
      key. */
  lemma ToFrontTracks<K, V>(c: Cache<K, V>, t: seq<K>, i: nat, e: Entry<K, V>)
    requires Tracks(c, t) && i < |c.entries| && e.key == c.entries[i].key
    ensures Tracks(c.(entries := [e] + Drop(c.entries, i)), t + [e.key])
  {
    TrackedKeys(c, t);
    var all := Recency(t);
    var k := e.key;
    var m := |c.entries|;
    RecencySnoc(t, k);
    WithoutAt(all, i);
    KeysOfFront(e, Drop(c.entries, i));
    KeysOfDrop(c.entries, i);
    FrontRecency(all, k, i, m);
    assert Keys([e] + Drop(c.entries, i)) == [k] + Drop(all[..m], i);
  }

  /** Moving slot `i` of the first `m` keys to the front is a prefix of
      moving it to the front of all of them. */
  lemma FrontRecency<K>(all: seq<K>, k: K, i: nat, m: nat)
    requires i < m <= |all|
    ensures [k] + Drop(all[..m], i) == ([k] + Drop(all, i))[..m]
  {
    DropOfPrefix(all, i, m);
  }

  /** The keys of a new key followed by the kept entries. */
  lemma PutNewKeys<K, V>(c: Cache<K, V>, key: K, value: V)
    requires key !in Keys(c.entries) && c.capacity > 0
    ensures var kept := if |c.entries| >= c.capacity then c.entries[..c.capacity - 1] else c.entries;
      Keys(Put(c, key, value).0.entries) == [key] + Keys(kept)
  {
    var kept := if |c.entries| >= c.capacity then c.entries[..c.capacity - 1] else c.entries;
    KeysOfFront(Entry(key, value), kept);
  }

  /** Putting a key that is not cached tracks one more use of it. */
  lemma PutNewTracks<K, V>(c: Cache<K, V>, t: seq<K>, key: K, value: V)
    requires Tracks(c, t) && key !in Keys(c.entries) && c.capacity > 0
    ensures Tracks(Put(c, key, value).0, t + [key])
  {
    RecencySnoc(t, key);
    var all := Recency(t);
    if key in all {
      var j :| 0 <= j < |all| && all[j] == key;
      WithoutAt(all, j);
      PutEvictedTracks(c, t, key, value, j);
    } else {
      WithoutAbsent(all, key);
      PutFreshTracks(c, t, key, value);
    }
  }

  /** The case where `key` was never used before. */
  lemma PutFreshTracks<K, V>(c: Cache<K, V>, t: seq<K>, key: K, value: V)
    requires Tracks(c, t) && key !in Keys(c.entries) && c.capacity > 0
    requires Recency(t + [key]) == [key] + Recency(t)
    ensures Tracks(Put(c, key, value).0, t + [key])
  {
    TrackedKeys(c, t);
    PutNewKeys(c, key, value);
    var all := Recency(t);
    var kept := if |c.entries| >= c.capacity then c.entries[..c.capacity - 1] else c.entries;
    assert Keys(kept) == all[..|kept|];
    assert |kept| + 1 == if c.capacity < |all| + 1 then c.capacity else |all| + 1;
    ConsPrefix(key, all, |kept|);
  }

  lemma ConsPrefix<T>(x: T, s: seq<T>, n: nat)
    requires n <= |s|
    ensures ([x] + s)[..n + 1] == [x] + s[..n]
  {
  }

  /** The case where `key` was used before but has since been evicted. */
  lemma PutEvictedTracks<K, V>(c: Cache<K, V>, t: seq<K>, key: K, value: V, j: nat)
    requires Tracks(c, t) && key !in Keys(c.entries) && c.capacity > 0
    requires j < |Recency(t)| && Recency(t)[j] == key
    requires Recency(t + [key]) == [key] + Drop(Recency(t), j)
    ensures Tracks(Put(c, key, value).0, t + [key])
  {
    TrackedKeys(c, t);
    var all := Recency(t);
    var m := |c.entries|;
    EvictedBound(all, Keys(c.entries), key, j, c.capacity);
    PutEvictsLeastRecent(c, key, value);
    EvictedRecency(all, Keys(c.entries), key, j, m);
  }

  /** A key used before but no longer among the first `m` cached ones lies
      past them, so the cache is full. */
  lemma EvictedBound<K>(all: seq<K>, keys: seq<K>, key: K, j: nat, capacity: nat)
    requires |keys| == (if capacity < |all| then capacity else |all|) && keys == all[..|keys|]
    requires j < |all| && all[j] == key && key !in keys
    ensures |keys| == capacity <= j
  {
  }

  /** Moving the key in slot `j` past the first `m` to the front shifts the
      first `m - 1` keys back by one. */
  lemma EvictedRecency<K>(all: seq<K>, keys: seq<K>, key: K, j: nat, m: nat)
    requires 0 < m <= j < |all| && keys == all[..m]
    ensures ([key] + Drop(all, j))[..m] == [key] + keys[..m - 1]
  {
    assert Drop(all, j)[..m - 1] == all[..m - 1];
  }

  /** Every put is one more use of its key: the cache keeps holding exactly
      the `capacity` most recently used keys. */
  lemma PutTracks<K, V>(c: Cache<K, V>, t: seq<K>, key: K, value: V)
    requires Tracks(c, t)
    ensures Tracks(Put(c, key, value).0, t + [key])
  {
    match Lookup(c.entries, key)
    case Some(i) => ToFrontTracks(c, t, i, Entry(key, value));
    case None =>
      if c.capacity == 0 {
        assert Recent(t + [key], 0) == [];
      } else {
        PutNewTracks(c, t, key, value);
      }
  }

  /** A read that finds its key is one more use of it; a miss is no use. */
  lemma GetTracks<K, V>(c: Cache<K, V>, t: seq<K>, key: K)
    requires Tracks(c, t)
    ensures key in Keys(c.entries) ==> Tracks(Get(c, key).0, t + [key])
    ensures key !in Keys(c.entries) ==> Tracks(Get(c, key).0, t)
  {
    match Lookup(c.entries, key)
    case Some(i) => ToFrontTracks(c, t, i, c.entries[i]);
    case None =>
  }

  /** A new key on a full cache drops exactly the entry used least
      recently, the back of the list. */
  lemma PutEvictsLeastRecent<K, V>(c: Cache<K, V>, key: K, value: V)
    requires Valid(c) && key !in Keys(c.entries) && |c.entries| == c.capacity > 0
    ensures var r := Put(c, key, value).0;
      Keys(r.entries) == [key] + Keys(c.entries)[..c.capacity - 1] &&
      c.entries[c.capacity - 1].key !in Keys(r.entries)
  {
    var r := Put(c, key, value).0;
    assert Keys(r.entries) == [key] + Keys(c.entries)[..c.capacity - 1];
    var gone := c.entries[c.capacity - 1].key;
    assert forall j :: 0 <= j < c.capacity - 1 ==> Keys(c.entries)[j] != gone;
  }

  /** After a put, a read of the same key on a cache of non-zero capacity
      returns the value just put. */
  lemma GetAfterPut<K, V>(c: Cache<K, V>, key: K, value: V)
    requires c.capacity > 0
    ensures Get(Put(c, key, value).0, key).1 == Some(value)
  {
    var r := Put(c, key, value).0;
    assert Keys(r.entries)[0] == key;
    assert Lookup(r.entries, key) == Some(0);
  }

  /** Capacity 2: put 1, put 2, get 1, put 3 evicts 2, the entry left
      unused longest, and keeps 1, the one just read. */
  method ReadProtectsScenario() returns (one: Option<int>, two: Option<int>)
    ensures one == Some(10) && two == None
  {
    var c := New<int, int>(2);
    PutFirst();
    c := Put(c, 1, 10).0;
    PutSecond();
    c := Put(c, 2, 20).0;
    ReadBack();
    c := Get(c, 1).0;
    PutThirdAfterRead();
    c := Put(c, 3, 30).0;
    ReadAfterThird();
    one := Get(c, 1).1;
    two := Get(c, 2).1;
  }

  /** Capacity 2: put 1, put 2, put 3, put 1 evicts 2, the older of the
      two cached entries, and keeps 3. */
  method OldestEvictedScenario() returns (two: Option<int>, three: Option<int>)
    ensures two == None && three == Some(30)
  {
    var c := New<int, int>(2);
    PutFirst();
    c := Put(c, 1, 10).0;
    PutSecond();
    c := Put(c, 2, 20).0;
    PutThird();
    c := Put(c, 3, 30).0;
    PutFirstAgain();
    c := Put(c, 1, 10).0;
    ReadAfterFirstAgain();
    two := Get(c, 2).1;
    three := Get(c, 3).1;
  }

  lemma LookupSecond<K, V>(a: Entry<K, V>, b: Entry<K, V>)
    requires a.key != b.key
    ensures Lookup([a, b], b.key) == Some(1)
  {
    assert [a, b][1..] == [b];
  }

  lemma LookupNeither<K, V>(a: Entry<K, V>, b: Entry<K, V>, k: K)
    requires a.key != k && b.key != k
    ensures Lookup([a, b], k) == None
  {
    assert [a, b][1..] == [b];
  }

  /** Reading the back entry of a two-entry cache moves it to the front. */
  lemma GetSecond<K, V>(a: Entry<K, V>, b: Entry<K, V>, capacity: nat)
    requires a.key != b.key
    ensures Get(Cache([a, b], capacity), b.key) == (Cache([b, a], capacity), Some(b.value))
  {
    LookupSecond(a, b);
    assert Drop([a, b], 1) == [a];
    assert [[a, b][1]] + Drop([a, b], 1) == [b, a];
  }

  lemma PutFirst()
    ensures Put(New<int, int>(2), 1, 10).0 == Cache([Entry(1, 10)], 2)
  {
  }

  lemma PutSecond()
    ensures Put(Cache([Entry(1, 10)], 2), 2, 20).0 == Cache([Entry(2, 20), Entry(1, 10)], 2)
  {
    assert Lookup([Entry(1, 10)], 2) == None;
  }

  lemma ReadBack()
    ensures Get(Cache([Entry(2, 20), Entry(1, 10)], 2), 1).0 == Cache([Entry(1, 10), Entry(2, 20)], 2)
  {
    GetSecond(Entry(2, 20), Entry(1, 10), 2);
  }

  lemma PutThirdAfterRead()
    ensures Put(Cache([Entry(1, 10), Entry(2, 20)], 2), 3, 30).0 == Cache([Entry(3, 30), Entry(1, 10)], 2)
  {
    assert Lookup([Entry(1, 10), Entry(2, 20)], 3) == None;
  }

  lemma ReadAfterThird()
    ensures Get(Cache([Entry(3, 30), Entry(1, 10)], 2), 1).1 == Some(10)
    ensures Get(Cache([Entry(3, 30), Entry(1, 10)], 2), 2).1 == None
  {
    GetSecond(Entry(3, 30), Entry(1, 10), 2);
    LookupNeither(Entry(3, 30), Entry(1, 10), 2);
  }

  lemma PutThird()
    ensures Put(Cache([Entry(2, 20), Entry(1, 10)], 2), 3, 30).0 == Cache([Entry(3, 30), Entry(2, 20)], 2)
  {
    assert Lookup([Entry(2, 20), Entry(1, 10)], 3) == None;
  }

  lemma PutFirstAgain()
    ensures Put(Cache([Entry(3, 30), Entry(2, 20)], 2), 1, 10).0 == Cache([Entry(1, 10), Entry(3, 30)], 2)
  {
    assert Lookup([Entry(3, 30), Entry(2, 20)], 1) == None;
  }

  lemma ReadAfterFirstAgain()
    ensures Get(Cache([Entry(1, 10), Entry(3, 30)], 2), 2).1 == None
    ensures Get(Cache([Entry(1, 10), Entry(3, 30)], 2), 3).1 == Some(30)
  {
    LookupNeither(Entry(1, 10), Entry(3, 30), 2);
    GetSecond(Entry(1, 10), Entry(3, 30), 2);
  }

  // A run of calls seen through the key-value map the cache should hold.

  /** One call on a cache: `put(key, value)` or `get(key)`. */
  datatype Op<K, V> = Write(key: K, value: V) | Read(key: K)

  /** The map after `op`: a put writes its key, a get changes nothing. */
  function Apply<K, V>(m: map<K, V>, op: Op<K, V>): map<K, V> {
    if op.Write? then m[op.key := op.value] else m
  }

  /** Each key with the value it was last put with over `ops`, starting
      from the map `m`. */
  function Latest<K, V>(m: map<K, V>, ops: seq<Op<K, V>>): (r: map<K, V>)
    ensures m.Keys <= r.Keys
    decreases |ops|
  {
    if ops == [] then m else Apply(Latest(m, ops[..|ops| - 1]), ops[|ops| - 1])
  }

  /** Every entry of `m` is in `n` with the same value. */
  ghost predicate Within<K, V>(m: map<K, V>, n: map<K, V>) {
    forall k :: k in m ==> k in n && m[k] == n[k]
  }

  /** A prefix of a run has written no key the whole run has not. */
  lemma {:induction false} LatestGrows<K, V>(m: map<K, V>, ops: seq<Op<K, V>>, n: nat)
    requires n <= |ops|
    ensures Latest(m, ops[..n]).Keys <= Latest(m, ops).Keys
    ensures |Latest(m, ops[..n]).Keys| <= |Latest(m, ops).Keys|
    decreases |ops| - n
  {
    if n < |ops| {
      LatestGrows(m, ops, n + 1);
      assert ops[..n + 1][..n] == ops[..n];
    } else {
      assert ops[..n] == ops;
    }
    SubsetCard(Latest(m, ops[..n]).Keys, Latest(m, ops).Keys);
  }

  lemma {:induction false} SubsetCard<T>(a: set<T>, b: set<T>)
    requires a <= b
    ensures |a| <= |b|
    decreases |a|
  {
    if a != {} {
      var x :| x in a;
      SubsetCard(a - {x}, b - {x});
    }
  }

  /** A map onto the slots of an arena that names each slot's own key is
      as large as the arena. */
  lemma {:induction false} IndexCard<K>(m: map<K, nat>, keys: seq<K>)
    requires forall k :: k in m ==> m[k] < |keys| && keys[m[k]] == k
    requires forall i :: 0 <= i < |keys| ==> keys[i] in m && m[keys[i]] == i
    ensures |m.Keys| == |keys|
    decreases |keys|
  {
    if |keys| > 0 {
      var n := |keys| - 1;
      var m' := m - {keys[n]};
      IndexCard(m', keys[..n]);
      assert m'.Keys == m.Keys - {keys[n]};
    }
  }
}

=== FILE: mcts.dfy ===
/** Monte Carlo tree search over an arena of nodes
    (`backend/src/algorithm/markov/mcts.rs`).

    Nodes live in one vector and name their children by index. Every
    operation that grows the arena (`new`, `expand`, `shift`) only ever adds
    a child whose index is larger than its parent's and inside the arena;
    `Arena` states that shape, and every operation here keeps it.

    The handler's `expand` answer, the exploration bonus of the UCB formula
    (a logarithm and a square root) and the weighted random choice of
    `simulate` are parameters or left out.
 */
module Mcts {
  import opened Wrappers

  /** `Node`: child indices, visit count and accumulated value. */
  datatype Node = Node(children: seq<nat>, nvisits: nat, value: real)

  /** `MonteCarloTreeSearch` without its handler. */
  datatype Search = Search(tree: seq<Node>, iroot: nat, exploration: real, discount: real, combat: bool)

  datatype ShiftError = NotAChild(inode: nat, iroot: nat)

  /** Every child index is larger than its parent's and inside the arena. */
  predicate Arena(tree: seq<Node>) {
    forall i, k :: 0 <= i < |tree| && 0 <= k < |tree[i].children| ==>
      i < tree[i].children[k] < |tree|
  }

  predicate Valid(m: Search) {
    Arena(m.tree) && m.iroot < |m.tree|
  }

  /** A node with no children and no statistics. */
  function Fresh(): Node {
    Node([], 0, 0.0)
  }

  /** `MonteCarloTreeSearch::new`: a single unvisited root. */
  function New(combat: bool, exploration: real, discount: real): (r: Search)
    ensures Valid(r) && |r.tree| == 1 && r.tree[0].children == []
  {
    Search([Fresh()], 0, exploration, discount, combat)
  }

  // ---------------------------------------------------------------------
  // Subtree sizes
  // ---------------------------------------------------------------------

  /** Number of nodes met when walking the subtree below `o`, the node
      itself included (a node reached along two paths counts twice). */
  function Size(tree: seq<Node>, o: nat): (r: nat)
    requires Arena(tree) && o < |tree|
    ensures r >= 1
    decreases |tree| - o, 1
  {
    1 + SizeOf(tree, o, tree[o].children)
  }

  /** Sum of the sizes of the subtrees below `cs`, children of `parent`. */
  function SizeOf(tree: seq<Node>, parent: nat, cs: seq<nat>): nat
    requires Arena(tree) && parent < |tree|
    requires forall k :: 0 <= k < |cs| ==> parent < cs[k] < |tree|
    decreases |tree| - parent, 0, |cs|
  {
    if |cs| == 0 then 0
    else SizeOf(tree, parent, cs[..|cs| - 1]) + Size(tree, cs[|cs| - 1])
  }

  // ---------------------------------------------------------------------
  // shift, as written
  // ---------------------------------------------------------------------

  /** A work item of `shift`: (index in the old arena, index in the new). */
  type Work = (nat, nat)

  /** Nodes still to be copied for the items on the stack. */
  function Pending(src: seq<Node>, stack: seq<Work>): nat
    requires Arena(src)
    requires forall j :: 0 <= j < |stack| ==> stack[j].0 < |src|
  {
    if |stack| == 0 then 0
    else Pending(src, stack[..|stack| - 1]) + Size(src, stack[|stack| - 1].0)
  }

  /** The items pushed for the children `cs`, all given the same new index. */
  function Items(cs: seq<nat>, index: nat): (r: seq<Work>)
    ensures |r| == |cs|
    ensures forall k :: 0 <= k < |cs| ==> r[k] == (cs[k], index)
  {
    seq(|cs|, k requires 0 <= k < |cs| => (cs[k], index))
  }

  lemma {:induction false} PendingItems(src: seq<Node>, rest: seq<Work>, parent: nat, cs: seq<nat>, index: nat)
    requires Arena(src) && parent < |src|
    requires forall j :: 0 <= j < |rest| ==> rest[j].0 < |src|
    requires forall k :: 0 <= k < |cs| ==> parent < cs[k] < |src|
    ensures forall j :: 0 <= j < |rest + Items(cs, index)| ==> (rest + Items(cs, index))[j].0 < |src|
    ensures Pending(src, rest + Items(cs, index)) == Pending(src, rest) + SizeOf(src, parent, cs)
    decreases |cs|
  {
    var all := rest + Items(cs, index);
    if |cs| == 0 {
      assert all == rest;
    } else {
      var front := cs[..|cs| - 1];
      PendingItems(src, rest, parent, front, index);
      assert all[..|all| - 1] == rest + Items(front, index);
    }
  }

  /** The arena the loop of `shift` is building: child indices above their
      parents', and inside the arena once the items still on the stack are
      copied. */
  predicate Building(tree: seq<Node>, stack: seq<Work>) {
    forall i, k :: 0 <= i < |tree| && 0 <= k < |tree[i].children| ==>
      i < tree[i].children[k] < |tree| + |stack|
  }

  /** `n` copies of `x`. */
  function Repeat(x: nat, n: nat): (r: seq<nat>)
    ensures |r| == n && forall k :: 0 <= k < n ==> r[k] == x
  {
    seq(n, _ => x)
  }

  /** One iteration of the `while let` loop of `shift`: pop an item, copy
      its node without children, and give every child of the old node the
      index `tree.len()`, read once, after the copy. */
  function ShiftStep(src: seq<Node>, stack: seq<Work>, tree: seq<Node>): (r: (seq<Work>, seq<Node>))
    requires |stack| > 0
    requires forall j :: 0 <= j < |stack| ==> stack[j].0 < |src| && stack[j].1 <= |tree|
    ensures |r.1| == |tree| + 1
  {
    var item := stack[|stack| - 1];
    var node := src[item.0];
    var copied := tree + [Node([], node.nvisits, node.value)];
    var linked := copied[item.1 := copied[item.1].(children := copied[item.1].children +
      Repeat(|copied|, |node.children|))];
    (stack[..|stack| - 1] + Items(node.children, |copied|), linked)
  }

  /** A step keeps every item inside both arenas and uses up one pending
      node. */
  lemma StepItems(src: seq<Node>, stack: seq<Work>, tree: seq<Node>)
    requires Arena(src) && |stack| > 0
    requires forall j :: 0 <= j < |stack| ==> stack[j].0 < |src| && stack[j].1 <= |tree|
    ensures var r := ShiftStep(src, stack, tree);
      (forall j :: 0 <= j < |r.0| ==> r.0[j].0 < |src| && r.0[j].1 <= |r.1|) &&
      |r.1| + Pending(src, r.0) == |tree| + Pending(src, stack) &&
      (forall j :: 0 <= j < |r.0| ==> r.0[j].1 > 0 || r.0[j] == stack[j])
  {
    var item := stack[|stack| - 1];
    var rest := stack[..|stack| - 1];
    var cs := src[item.0].children;
    PendingItems(src, rest, item.0, cs, |tree| + 1);
    assert stack[..|stack| - 1] == rest;
  }

  /** A step keeps the arena under construction well shaped. */
  lemma StepBuilding(src: seq<Node>, stack: seq<Work>, tree: seq<Node>)
    requires Arena(src) && |stack| > 0
    requires forall j :: 0 <= j < |stack| ==> stack[j].0 < |src| && stack[j].1 <= |tree|
    requires Building(tree, stack)
    ensures var r := ShiftStep(src, stack, tree); Building(r.1, r.0)
  {
    var r := ShiftStep(src, stack, tree);
    var item := stack[|stack| - 1];
    var m := |src[item.0].children|;
    assert |r.0| == |stack| - 1 + m;
    forall i, k | 0 <= i < |r.1| && 0 <= k < |r.1[i].children|
      ensures i < r.1[i].children[k] < |r.1| + |r.0|
    {
      if i == item.1 {
        var before := if i < |tree| then tree[i].children else [];
        assert r.1[i].children == before + Repeat(|tree| + 1, m);
        if k >= |before| {
          assert r.1[i].children[k] == |tree| + 1;
        }
      } else if i < |tree| {
        assert r.1[i].children == tree[i].children;
      }
    }
  }

  /** A step leaves the statistics of the nodes already copied alone, and
      touches no node's children but those of the popped item's target. */
  lemma StepStats(src: seq<Node>, stack: seq<Work>, tree: seq<Node>)
    requires |stack| > 0
    requires forall j :: 0 <= j < |stack| ==> stack[j].0 < |src| && stack[j].1 <= |tree|
    ensures var r := ShiftStep(src, stack, tree);
      (forall i :: 0 <= i < |tree| ==> r.1[i].nvisits == tree[i].nvisits && r.1[i].value == tree[i].value) &&
      r.1[|tree|].nvisits == src[stack[|stack| - 1].0].nvisits &&
      r.1[|tree|].value == src[stack[|stack| - 1].0].value &&
      (forall i :: 0 <= i < |tree| && i != stack[|stack| - 1].1 ==> r.1[i] == tree[i]) &&
      (stack[|stack| - 1].1 < |tree| ==>
        r.1[stack[|stack| - 1].1].children ==
        tree[stack[|stack| - 1].1].children + Repeat(|tree| + 1, |src[stack[|stack| - 1].0].children|))
  {
  }

  /** The `while let` loop of `shift`, until the stack is empty. */
  function ShiftLoop(src: seq<Node>, stack: seq<Work>, tree: seq<Node>): (r: seq<Node>)
    requires Arena(src)
    requires forall j :: 0 <= j < |stack| ==> stack[j].0 < |src| && stack[j].1 <= |tree|
    requires Building(tree, stack)
    ensures Arena(r)
    ensures |r| == |tree| + Pending(src, stack)
    ensures forall i :: 0 <= i < |tree| ==> r[i].nvisits == tree[i].nvisits && r[i].value == tree[i].value
    ensures 0 < |tree| && (forall j :: 0 <= j < |stack| ==> stack[j].1 > 0) ==> r[0] == tree[0]
    decreases Pending(src, stack)
  {
    if |stack| == 0 then tree
    else
      var next := ShiftStep(src, stack, tree);
      StepItems(src, stack, tree);
      StepBuilding(src, stack, tree);
      StepStats(src, stack, tree);
      ShiftLoop(src, next.0, next.1)
  }

  /** `MonteCarloTreeSearch::shift` as written: re-root the arena at
      `inode`, which must be a child of the current root. */
  function Shift(m: Search, inode: nat): (r: Result<Search, ShiftError>)
    requires Valid(m)
    ensures !(inode in m.tree[m.iroot].children) <==> r == Err(NotAChild(inode, m.iroot))
    ensures r.Ok? ==> Valid(r.value) && r.value.iroot == 0
    ensures r.Ok? ==> |r.value.tree| == Size(m.tree, inode)
    ensures r.Ok? ==> r.value.tree[0].nvisits == m.tree[inode].nvisits
    ensures r.Ok? ==> r.value.tree[0].value == m.tree[inode].value
    ensures r.Ok? ==>
      r.value.discount == m.discount && r.value.combat == m.combat && r.value.exploration == m.exploration
  {
    if !(inode in m.tree[m.iroot].children) then Err(NotAChild(inode, m.iroot))
    else
      assert inode < |m.tree|;
      assert Pending(m.tree, [(inode, 0)]) == Size(m.tree, inode) by {
        assert [(inode, 0)][..0] == [];
      }
      Ok(m.(tree := ShiftLoop(m.tree, [(inode, 0)], []), iroot := 0))
  }

  /** Shifting to a leaf leaves a one-node arena holding that leaf's
      statistics. */
  lemma ShiftToLeaf(m: Search, inode: nat)
    requires Valid(m) && inode in m.tree[m.iroot].children
    requires m.tree[inode].children == []
    ensures Shift(m, inode).Ok?
    ensures Shift(m, inode).value.tree == [Node([], m.tree[inode].nvisits, m.tree[inode].value)]
  {
    assert inode < |m.tree|;
    var first := ShiftStep(m.tree, [(inode, 0)], []);
    StepStats(m.tree, [(inode, 0)], []);
    assert first.0 == [];
  }

  /** The defect of the loop: the new root lists index 1 once per child of
      the old node, so with two or more children it lists the same node
      twice and every other child's subtree is unreachable from it. */
  lemma ShiftCollapsesChildren(m: Search, inode: nat)
    requires Valid(m) && inode in m.tree[m.iroot].children
    ensures Shift(m, inode).Ok?
    ensures Shift(m, inode).value.tree[0].children == Repeat(1, |m.tree[inode].children|)
  {
    assert inode < |m.tree|;
    var start: seq<Work> := [(inode, 0)];
    var first := ShiftStep(m.tree, start, []);
    StepItems(m.tree, start, []);
    StepBuilding(m.tree, start, []);
    assert first.1[0].children == Repeat(1, |m.tree[inode].children|);
    assert forall j :: 0 <= j < |first.0| ==> first.0[j].1 > 0;
    var result := ShiftLoop(m.tree, start, []);
    assert result == ShiftLoop(m.tree, first.0, first.1);
    assert result[0] == first.1[0];
    assert Shift(m, inode) == Ok(m.(tree := result, iroot := 0));
  }

  /** The shape the finding is about: the root has one child with two leaf
      children. */
  function TwoLeafChild(): (r: Search)
    ensures Valid(r)
  {
    Search([Node([1], 1, 0.0), Node([2, 3], 1, 0.5), Fresh(), Fresh()], 0, 1.0, 0.99, false)
  }

  /** On that shape, shifting to node 1 gives a root whose two children are
      both index 1, in a three-node arena. */
  lemma ShiftDuplicatesChild()
    ensures Shift(TwoLeafChild(), 1).Ok?
    ensures Shift(TwoLeafChild(), 1).value.tree[0].children == [1, 1]
    ensures |Shift(TwoLeafChild(), 1).value.tree| == 3
  {
    ShiftCollapsesChildren(TwoLeafChild(), 1);
    RepeatOneTwice();
    TwoLeafChildSize();
  }

  lemma RepeatOneTwice()
    ensures Repeat(1, 2) == [1, 1]
  {
  }

  /** Node 1 of that shape and its two leaves: a subtree of three nodes. */
  lemma TwoLeafChildSize()
    ensures Size(TwoLeafChild().tree, 1) == 3
  {
    var tree := TwoLeafChild().tree;
    assert Size(tree, 2) == 1 && Size(tree, 3) == 1;
    assert [2, 3][..1] == [2] && [2, 3][..1][..0] == [];
  }

  // ---------------------------------------------------------------------
  // shift, corrected
  // ---------------------------------------------------------------------

  /** Strictly increasing indices, hence pairwise distinct. */
  predicate Increasing(xs: seq<nat>) {
    forall i, j :: 0 <= i < j < |xs| ==> xs[i] < xs[j]
  }

  /** A block of nodes that sits at `base` in some arena: every child index
      is above its parent's and inside the block. */
  predicate Block(nodes: seq<Node>, base: nat) {
    forall i, k :: 0 <= i < |nodes| && 0 <= k < |nodes[i].children| ==>
      base + i < nodes[i].children[k] < base + |nodes|
  }

  /** The subtree below `o` copied in preorder into a block at `base`. */
  function Copy(src: seq<Node>, o: nat, base: nat): (r: seq<Node>)
    requires Arena(src) && o < |src|
    ensures |r| == Size(src, o)
    ensures r[0].nvisits == src[o].nvisits && r[0].value == src[o].value
    ensures |r[0].children| == |src[o].children|
    ensures Increasing(r[0].children)
    ensures Block(r, base)
    decreases |src| - o, 1
  {
    var kids := CopyAll(src, o, src[o].children, base + 1);
    var r := [Node(kids.1, src[o].nvisits, src[o].value)] + kids.0;
    assert forall i :: 1 <= i < |r| ==> r[i] == kids.0[i - 1];
    r
  }

  /** The subtrees below `cs` copied one after another into a block at
      `start`, with the index each of them starts at. */
  function CopyAll(src: seq<Node>, parent: nat, cs: seq<nat>, start: nat): (r: (seq<Node>, seq<nat>))
    requires Arena(src) && parent < |src|
    requires forall k :: 0 <= k < |cs| ==> parent < cs[k] < |src|
    ensures |r.0| == SizeOf(src, parent, cs)
    ensures |r.1| == |cs|
    ensures forall k :: 0 <= k < |cs| ==> start <= r.1[k] < start + |r.0|
    ensures Increasing(r.1)
    ensures Block(r.0, start)
    decreases |src| - parent, 0, |cs|
  {
    if |cs| == 0 then ([], [])
    else
      var front := CopyAll(src, parent, cs[..|cs| - 1], start);
      var at := start + |front.0|;
      var sub := Copy(src, cs[|cs| - 1], at);
      var nodes := front.0 + sub;
      assert forall i :: |front.0| <= i < |nodes| ==> nodes[i] == sub[i - |front.0|];
      (nodes, front.1 + [at])
  }

  /** `shift` with each subtree given its own block: the new root keeps the
      old node's statistics and lists one distinct index per old child. */
  function ShiftFixed(m: Search, inode: nat): (r: Result<Search, ShiftError>)
    requires Valid(m)
    ensures !(inode in m.tree[m.iroot].children) <==> r == Err(NotAChild(inode, m.iroot))
    ensures r.Ok? ==> Valid(r.value) && r.value.iroot == 0
    ensures r.Ok? ==> |r.value.tree| == Size(m.tree, inode)
    ensures r.Ok? ==> r.value.tree[0].nvisits == m.tree[inode].nvisits
    ensures r.Ok? ==> r.value.tree[0].value == m.tree[inode].value
    ensures r.Ok? ==> |r.value.tree[0].children| == |m.tree[inode].children|
    ensures r.Ok? ==> Increasing(r.value.tree[0].children)
  {
    if !(inode in m.tree[m.iroot].children) then Err(NotAChild(inode, m.iroot))
    else
      assert inode < |m.tree|;
      Ok(m.(tree := Copy(m.tree, inode, 0), iroot := 0))
  }

  // ---------------------------------------------------------------------
  // select
  // ---------------------------------------------------------------------

  /** `Node::ucb`: an unvisited node scores infinity. */
  datatype Ucb = Infinite | Score(value: real)

  /** `partial_cmp(..) != Greater` read as "`a` is at least `b`". */
  predicate AtLeast(a: Ucb, b: Ucb) {
    a.Infinite? || (b.Score? && a.value >= b.value)
  }

  /** `Node::ucb(tvisits, exploration)`: the mean value plus the exploration
      term, which `bonus(tvisits, nvisits)` stands for. */
  function NodeUcb(node: Node, tvisits: nat, bonus: (nat, nat) -> real): Ucb {
    if node.nvisits == 0 then Infinite
    else Score(node.value / node.nvisits as real + bonus(tvisits, node.nvisits))
  }

  /** `children.iter().max_by(..)`: the last child whose score no later
      child beats. */
  function BestChild(tree: seq<Node>, cs: seq<nat>, tvisits: nat, bonus: (nat, nat) -> real): (r: nat)
    requires |cs| > 0 && forall k :: 0 <= k < |cs| ==> cs[k] < |tree|
    ensures r in cs
    ensures forall k :: 0 <= k < |cs| ==>
      AtLeast(NodeUcb(tree[r], tvisits, bonus), NodeUcb(tree[cs[k]], tvisits, bonus))
    ensures exists p :: 0 <= p < |cs| && cs[p] == r && forall k :: p < k < |cs| ==>
      !AtLeast(NodeUcb(tree[cs[k]], tvisits, bonus), NodeUcb(tree[r], tvisits, bonus))
  {
    if |cs| == 1 then cs[0]
    else
      var front := cs[..|cs| - 1];
      var b := BestChild(tree, front, tvisits, bonus);
      var last := cs[|cs| - 1];
      if AtLeast(NodeUcb(tree[last], tvisits, bonus), NodeUcb(tree[b], tvisits, bonus)) then
        LastBest(tree, cs, front, tvisits, bonus, b);
        last
      else
        FrontBest(tree, cs, front, tvisits, bonus, b);
        b
  }

  /** The last child is the best when it scores at least the best of the
      others. */
  lemma LastBest(tree: seq<Node>, cs: seq<nat>, front: seq<nat>, tvisits: nat, bonus: (nat, nat) -> real, b: nat)
    requires |cs| > 1 && (forall k :: 0 <= k < |cs| ==> cs[k] < |tree|) && front == cs[..|cs| - 1] && b < |tree|
    requires forall k :: 0 <= k < |front| ==>
      AtLeast(NodeUcb(tree[b], tvisits, bonus), NodeUcb(tree[front[k]], tvisits, bonus))
    requires AtLeast(NodeUcb(tree[cs[|cs| - 1]], tvisits, bonus), NodeUcb(tree[b], tvisits, bonus))
    ensures forall k :: 0 <= k < |cs| ==>
      AtLeast(NodeUcb(tree[cs[|cs| - 1]], tvisits, bonus), NodeUcb(tree[cs[k]], tvisits, bonus))
  {
    forall k | 0 <= k < |cs|
      ensures AtLeast(NodeUcb(tree[cs[|cs| - 1]], tvisits, bonus), NodeUcb(tree[cs[k]], tvisits, bonus))
    {
      if k < |front| {
        assert front[k] == cs[k];
      }
    }
  }

  /** Otherwise the best of the others stays the best, and the last child
      does not beat it. */
  lemma FrontBest(tree: seq<Node>, cs: seq<nat>, front: seq<nat>, tvisits: nat, bonus: (nat, nat) -> real, b: nat)
    requires |cs| > 1 && (forall k :: 0 <= k < |cs| ==> cs[k] < |tree|) && front == cs[..|cs| - 1]
    requires b in front
    requires forall k :: 0 <= k < |front| ==>
      AtLeast(NodeUcb(tree[b], tvisits, bonus), NodeUcb(tree[front[k]], tvisits, bonus))
    requires exists p :: 0 <= p < |front| && front[p] == b && forall k :: p < k < |front| ==>
      !AtLeast(NodeUcb(tree[front[k]], tvisits, bonus), NodeUcb(tree[b], tvisits, bonus))
    requires !AtLeast(NodeUcb(tree[cs[|cs| - 1]], tvisits, bonus), NodeUcb(tree[b], tvisits, bonus))
    ensures b in cs
    ensures forall k :: 0 <= k < |cs| ==>
      AtLeast(NodeUcb(tree[b], tvisits, bonus), NodeUcb(tree[cs[k]], tvisits, bonus))
    ensures exists p :: 0 <= p < |cs| && cs[p] == b && forall k :: p < k < |cs| ==>
      !AtLeast(NodeUcb(tree[cs[k]], tvisits, bonus), NodeUcb(tree[b], tvisits, bonus))
  {
    var p :| 0 <= p < |front| && front[p] == b && forall k :: p < k < |front| ==>
      !AtLeast(NodeUcb(tree[front[k]], tvisits, bonus), NodeUcb(tree[b], tvisits, bonus));
    forall k | 0 <= k < |cs|
      ensures AtLeast(NodeUcb(tree[b], tvisits, bonus), NodeUcb(tree[cs[k]], tvisits, bonus))
      ensures p < k ==> !AtLeast(NodeUcb(tree[cs[k]], tvisits, bonus), NodeUcb(tree[b], tvisits, bonus))
    {
      if k < |front| {
        assert front[k] == cs[k];
      }
    }
    assert cs[p] == b;
  }

  /** `b` is a child of `a` scoring at least as well as every child of `a`,
      with `a`'s visits as the total. */
  ghost predicate BestStep(tree: seq<Node>, a: nat, b: nat, bonus: (nat, nat) -> real)
    requires Arena(tree) && a < |tree| && b < |tree|
  {
    && b in tree[a].children
    && forall c :: c in tree[a].children ==>
         AtLeast(NodeUcb(tree[b], tree[a].nvisits, bonus), NodeUcb(tree[c], tree[a].nvisits, bonus))
  }

  /** `select(current)`: from `current`, repeatedly descend to the best
      child until a node without children. */
  function Select(tree: seq<Node>, current: nat, bonus: (nat, nat) -> real): (r: seq<nat>)
    requires Arena(tree) && current < |tree|
    ensures |r| >= 1 && r[0] == current
    ensures forall j :: 0 <= j < |r| ==> r[j] < |tree|
    ensures forall j :: 0 <= j < |r| - 1 ==> BestStep(tree, r[j], r[j + 1], bonus)
    ensures tree[r[|r| - 1]].children == []
    decreases |tree| - current
  {
    var cs := tree[current].children;
    if |cs| == 0 then [current]
    else
      var best := BestChild(tree, cs, tree[current].nvisits, bonus);
      var rest := Select(tree, best, bonus);
      BestOfChildren(tree, cs, tree[current].nvisits, bonus, best);
      var r := [current] + rest;
      assert forall j :: 0 < j < |r| ==> r[j] == rest[j - 1];
      r
  }

  /** The best child scores at least as well as every child. */
  lemma BestOfChildren(tree: seq<Node>, cs: seq<nat>, tvisits: nat, bonus: (nat, nat) -> real, best: nat)
    requires (forall k :: 0 <= k < |cs| ==> cs[k] < |tree|) && best < |tree|
    requires forall k :: 0 <= k < |cs| ==>
      AtLeast(NodeUcb(tree[best], tvisits, bonus), NodeUcb(tree[cs[k]], tvisits, bonus))
    ensures forall c :: c in cs ==> (c < |tree| && AtLeast(NodeUcb(tree[best], tvisits, bonus), NodeUcb(tree[c], tvisits, bonus)))
  {
    forall c | c in cs
      ensures c < |tree| && AtLeast(NodeUcb(tree[best], tvisits, bonus), NodeUcb(tree[c], tvisits, bonus))
    {
      var k :| 0 <= k < |cs| && cs[k] == c;
    }
  }

  /** A selected path climbs strictly through the arena, so it never visits
      a node twice. */
  lemma SelectIncreasing(tree: seq<Node>, current: nat, bonus: (nat, nat) -> real)
    requires Arena(tree) && current < |tree|
    ensures Increasing(Select(tree, current, bonus))
  {
    var r := Select(tree, current, bonus);
    assert forall k :: 0 <= k < |r| - 1 ==> r[k + 1] in tree[r[k]].children;
    forall i, j | 0 <= i < j < |r|
      ensures r[i] < r[j]
    {
      ClimbStep(tree, r, i, j);
    }
  }

  lemma {:induction false} ClimbStep(tree: seq<Node>, r: seq<nat>, i: nat, j: nat)
    requires Arena(tree)
    requires forall k :: 0 <= k < |r| ==> r[k] < |tree|
    requires forall k :: 0 <= k < |r| - 1 ==> r[k + 1] in tree[r[k]].children
    requires i < j < |r|
    ensures r[i] < r[j]
    decreases j - i
  {
    if j > i + 1 {
      ClimbStep(tree, r, i, j - 1);
    }
    var k :| 0 <= k < |tree[r[j - 1]].children| && tree[r[j - 1]].children[k] == r[j];
  }

  // ---------------------------------------------------------------------
  // expand
  // ---------------------------------------------------------------------

  /** `expand(route, leaf)`: append the handler's nodes `possible` to the
      arena and list their indices as the leaf's new children. */
  function Expand(m: Search, leaf: nat, possible: seq<Node>): (r: Search)
    requires leaf < |m.tree|
    ensures |r.tree| == |m.tree| + |possible|
    ensures r.tree[leaf].children == m.tree[leaf].children + seq(|possible|, i => |m.tree| + i)
    ensures r.tree[leaf].nvisits == m.tree[leaf].nvisits && r.tree[leaf].value == m.tree[leaf].value
    ensures forall i :: 0 <= i < |m.tree| && i != leaf ==> r.tree[i] == m.tree[i]
    ensures r.tree[|m.tree|..] == possible
    ensures r.iroot == m.iroot && r.discount == m.discount && r.combat == m.combat
    ensures Valid(m) && (forall i :: 0 <= i < |possible| ==> possible[i].children == []) ==> Valid(r)
  {
    var n := |m.tree|;
    var grown := m.tree[leaf := m.tree[leaf].(children := m.tree[leaf].children +
      seq(|possible|, i => n + i))] + possible;
    assert grown[n..] == possible;
    m.(tree := grown)
  }

  /** The expand test: the new search's root expanded with two fresh nodes
      has children 1 and 2 in a three-node arena. */
  lemma ExpandScenario(combat: bool, exploration: real, discount: real)
    ensures var r := Expand(New(combat, exploration, discount), 0, [Fresh(), Fresh()]);
      Valid(r) && |r.tree| == 3 && r.tree[0].children == [1, 2]
  {
    assert seq(2, i => 1 + i) == [1, 2];
  }

  // ---------------------------------------------------------------------
  // backpropagate
  // ---------------------------------------------------------------------

  /** `discount.powi(depth)`. */
  function Pow(x: real, n: nat): real {
    if n == 0 then 1.0 else x * Pow(x, n - 1)
  }

  /** The reward seen at `depth` from the leaf: negated at odd depths in
      combat mode. */
  function Signed(reward: real, combat: bool, depth: nat): real {
    if combat && depth % 2 == 1 then -reward else reward
  }

  /** `reward * factor.powi(depth)` with the reward's sign at `depth`. */
  function Discounted(reward: real, discount: real, combat: bool, depth: nat): real {
    Signed(reward, combat, depth) * Pow(discount, depth)
  }

  /** What `backpropagate` does to a node `depth` steps above the leaf:
      nothing at depth 0, otherwise one more visit and the signed reward
      discounted `depth` times. */
  function Credit(node: Node, reward: real, discount: real, combat: bool, depth: nat): (r: Node)
    ensures r.children == node.children
    ensures depth == 0 ==> r == node
    ensures depth > 0 ==>
      r.nvisits == node.nvisits + 1 && r.value == node.value + Discounted(reward, discount, combat, depth)
  {
    if depth > 0 then
      node.(nvisits := node.nvisits + 1, value := node.value + Discounted(reward, discount, combat, depth))
    else node
  }

  /** The last `n` steps of `backpropagate`'s reversed walk, that is,
      depths `0 .. n - 1`. */
  function Propagate(tree: seq<Node>, selected: seq<nat>, reward: real, discount: real, combat: bool, n: nat): (r: seq<Node>)
    requires n <= |selected|
    requires forall j :: 0 <= j < |selected| ==> selected[j] < |tree|
    ensures |r| == |tree|
    ensures forall i :: 0 <= i < |tree| ==> r[i].children == tree[i].children
    decreases n
  {
    if n == 0 then tree
    else
      var t := Propagate(tree, selected, reward, discount, combat, n - 1);
      var i := selected[|selected| - n];
      t[i := Credit(t[i], reward, discount, combat, n - 1)]
  }

  /** Nodes not among the last `n` entries of the path are untouched. */
  lemma {:induction false} PropagateOffPath(tree: seq<Node>, selected: seq<nat>, reward: real, discount: real, combat: bool, n: nat)
    requires n <= |selected|
    requires forall j :: 0 <= j < |selected| ==> selected[j] < |tree|
    ensures forall i :: 0 <= i < |tree| && (forall p :: |selected| - n <= p < |selected| ==> selected[p] != i) ==>
      Propagate(tree, selected, reward, discount, combat, n)[i] == tree[i]
    decreases n
  {
    if n > 0 {
      PropagateOffPath(tree, selected, reward, discount, combat, n - 1);
    }
  }

  /** On a path that never repeats a node, each of the last `n` entries is
      credited once, for its own depth. */
  lemma {:induction false} PropagateOnPath(tree: seq<Node>, selected: seq<nat>, reward: real, discount: real, combat: bool, n: nat)
    requires n <= |selected|
    requires forall j :: 0 <= j < |selected| ==> selected[j] < |tree|
    ensures Increasing(selected) ==> forall p :: |selected| - n <= p < |selected| ==>
      Propagate(tree, selected, reward, discount, combat, n)[selected[p]] ==
      Credit(tree[selected[p]], reward, discount, combat, |selected| - 1 - p)
    decreases n
  {
    if n > 0 && Increasing(selected) {
      PropagateOnPath(tree, selected, reward, discount, combat, n - 1);
      PropagateOffPath(tree, selected, reward, discount, combat, n - 1);
      var q := |selected| - n;
      assert forall p :: |selected| - (n - 1) <= p < |selected| ==> selected[p] != selected[q];
    }
  }

  /** Every entry above the leaf of a path that never repeats a node gains
      one visit and its discounted signed reward. */
  lemma PropagateCredits(tree: seq<Node>, selected: seq<nat>, reward: real, discount: real, combat: bool)
    requires forall j :: 0 <= j < |selected| ==> selected[j] < |tree|
    ensures Increasing(selected) ==> forall p :: 0 <= p < |selected| - 1 ==>
      Propagate(tree, selected, reward, discount, combat, |selected|)[selected[p]].nvisits ==
        tree[selected[p]].nvisits + 1 &&
      Propagate(tree, selected, reward, discount, combat, |selected|)[selected[p]].value ==
        tree[selected[p]].value + Discounted(reward, discount, combat, |selected| - 1 - p)
  {
    if Increasing(selected) {
      PropagateOnPath(tree, selected, reward, discount, combat, |selected|);
      var r := Propagate(tree, selected, reward, discount, combat, |selected|);
      forall p | 0 <= p < |selected| - 1
        ensures r[selected[p]].nvisits == tree[selected[p]].nvisits + 1
        ensures r[selected[p]].value ==
          tree[selected[p]].value + Discounted(reward, discount, combat, |selected| - 1 - p)
      {
        assert r[selected[p]] == Credit(tree[selected[p]], reward, discount, combat, |selected| - 1 - p);
      }
    }
  }

  /** `backpropagate(selected, rollout_value)`. On a path that never
      repeats a node, the leaf is untouched, every other node on it gains
      one visit and the reward discounted by its depth (sign-alternating
      in combat mode), and nothing off the path changes. */
  function Backpropagate(m: Search, selected: seq<nat>, reward: real): (r: Search)
    requires forall j :: 0 <= j < |selected| ==> selected[j] < |m.tree|
    ensures |r.tree| == |m.tree| && r.iroot == m.iroot
    ensures forall i :: 0 <= i < |m.tree| ==> r.tree[i].children == m.tree[i].children
    ensures Valid(m) ==> Valid(r)
    ensures forall i :: 0 <= i < |m.tree| && !(i in selected) ==> r.tree[i] == m.tree[i]
    ensures Increasing(selected) && |selected| > 0 ==>
      r.tree[selected[|selected| - 1]] == m.tree[selected[|selected| - 1]]
    ensures Increasing(selected) ==> forall p :: 0 <= p < |selected| - 1 ==>
      r.tree[selected[p]].nvisits == m.tree[selected[p]].nvisits + 1 &&
      r.tree[selected[p]].value == m.tree[selected[p]].value +
        Discounted(reward, m.discount, m.combat, |selected| - 1 - p)
  {
    var t := Propagate(m.tree, selected, reward, m.discount, m.combat, |selected|);
    PropagateOffPath(m.tree, selected, reward, m.discount, m.combat, |selected|);
    PropagateOnPath(m.tree, selected, reward, m.discount, m.combat, |selected|);
    PropagateCredits(m.tree, selected, reward, m.discount, m.combat);
    m.(tree := t)
  }

  /** The combat-mode test: on the path root, parent, leaf the leaf keeps
      its value, the parent gains the reward negated and discounted once,
      the root the reward discounted twice. */
  lemma CombatScenario(m: Search, parent: nat, leaf: nat, reward: real)
    requires Valid(m) && m.combat
    requires 0 < parent < leaf < |m.tree|
    ensures var r := Backpropagate(m, [0, parent, leaf], reward);
      r.tree[leaf] == m.tree[leaf] &&
      r.tree[parent].value == m.tree[parent].value - reward * m.discount &&
      r.tree[0].value == m.tree[0].value + reward * (m.discount * m.discount)
  {
    var path := [0, parent, leaf];
    assert Increasing(path);
    var r := Backpropagate(m, path, reward);
    assert Pow(m.discount, 1) == m.discount;
    assert Pow(m.discount, 2) == m.discount * m.discount;
    assert r.tree[path[1]].value == m.tree[path[1]].value + Discounted(reward, m.discount, true, 1);
    assert r.tree[path[0]].value == m.tree[path[0]].value + Discounted(reward, m.discount, true, 2);
  }
}

=== FILE: mention.dfy ===
/** Per-symbol forum statistics (`backend/src/analytic/mention.rs`, with the
    counters of `backend/src/analytic/mod.rs`).

    Each counting pass walks the posts in order and, for every tag of a post
    that counts in that pass, bumps one counter of the tag's entry, creating
    the entry with all counters at zero when the symbol is new. The source
    first flattens the posts into one record per tag and then folds the
    records; folding post by post and tag by tag visits the same records in
    the same order, which is what the model does. The three passes differ
    only in which posts count and which counter they bump; that choice is the
    `Pass` below. The counters are `i32` in the source; the model leaves
    their overflow out.
 */
module Mention {
  import opened Wrappers

  datatype Votes = Votes(positive: int, neutral: int, negative: int)

  /** `Sentiment`: how often a symbol is mentioned, voted on and promoted. */
  datatype Sentiment = Sentiment(mention: int, votes: Votes, promotion: int)

  /** `Sentiment::new()`: every counter at zero. */
  const Fresh: Sentiment := Sentiment(0, Votes(0, 0, 0), 0)

  /** The part of a forum post the passes read. */
  datatype Post = Post(link: Option<string>, tags: seq<string>, sentiment: int)

  /** The five counters of an entry. */
  datatype Counter = Mentions | Positive | Neutral | Negative | Promotions

  /** The three counting passes. */
  datatype Pass = MentionPass | VotePass | LinkPass

  /** The value of one counter of an entry. */
  function Get(e: Sentiment, c: Counter): int {
    match c
    case Mentions => e.mention
    case Positive => e.votes.positive
    case Neutral => e.votes.neutral
    case Negative => e.votes.negative
    case Promotions => e.promotion
  }

  /** The `+= 1` of one tag on counter `c`: that counter goes up by one and
      no other counter moves. */
  function Inc(e: Sentiment, c: Counter): (r: Sentiment)
    ensures forall d :: Get(r, d) == Get(e, d) + (if d == c then 1 else 0)
  {
    match c
    case Mentions => e.(mention := e.mention + 1)
    case Positive => e.(votes := e.votes.(positive := e.votes.positive + 1))
    case Neutral => e.(votes := e.votes.(neutral := e.votes.neutral + 1))
    case Negative => e.(votes := e.votes.(negative := e.votes.negative + 1))
    case Promotions => e.(promotion := e.promotion + 1)
  }

  /** The entry of `s`, or a fresh one (`entry(..).or_insert(Sentiment::new())`). */
  function Entry(m: map<string, Sentiment>, s: string): Sentiment {
    if s in m then m[s] else Fresh
  }

  /** Which counter, if any, a post's tags bump in a pass: the sign of the
      post's sentiment picks the vote, and only a present, non-empty link
      counts as a promotion. */
  function CounterOf(pass: Pass, p: Post): Option<Counter> {
    match pass
    case MentionPass => Some(Mentions)
    case VotePass =>
      if p.sentiment > 0 then Some(Positive)
      else if p.sentiment < 0 then Some(Negative)
      else Some(Neutral)
    case LinkPass =>
      if p.link.Some? && |p.link.value| > 0 then Some(Promotions) else None
  }

  /** The inner fold: bumps counter `c` once per tag, in tag order. */
  function Bump(m: map<string, Sentiment>, tags: seq<string>, c: Counter): (r: map<string, Sentiment>)
    ensures r.Keys == m.Keys + set t | t in tags
    ensures forall s, d :: s in r ==>
      Get(r[s], d) == Get(Entry(m, s), d) + (if d == c then multiset(tags)[s] else 0)
    decreases |tags|
  {
    if |tags| == 0 then m
    else
      var m1 := m[tags[0] := Inc(Entry(m, tags[0]), c)];
      var r := Bump(m1, tags[1..], c);
      assert tags == [tags[0]] + tags[1..];
      assert forall s :: multiset(tags)[s] == (if s == tags[0] then 1 else 0) + multiset(tags[1..])[s];
      r
  }

  /** The symbols tagged on posts that count in `pass`. */
  function Tagged(posts: seq<Post>, pass: Pass): set<string> {
    if |posts| == 0 then {}
    else (if CounterOf(pass, posts[0]).Some? then set t | t in posts[0].tags else {})
         + Tagged(posts[1..], pass)
  }

  /** Independent count: how often `s` is tagged on posts whose tags bump
      `c` in `pass`. */
  function Occurrences(posts: seq<Post>, pass: Pass, c: Counter, s: string): nat {
    if |posts| == 0 then 0
    else (if CounterOf(pass, posts[0]) == Some(c) then multiset(posts[0].tags)[s] else 0)
         + Occurrences(posts[1..], pass, c, s)
  }

  /** One pass over the posts: every symbol the pass tags gets an entry, and
      every counter of every entry grows by exactly its occurrences. */
  function Count(m: map<string, Sentiment>, posts: seq<Post>, pass: Pass): (r: map<string, Sentiment>)
    ensures r.Keys == m.Keys + Tagged(posts, pass)
    ensures forall s, d :: s in r ==> Get(r[s], d) == Get(Entry(m, s), d) + Occurrences(posts, pass, d, s)
    decreases |posts|
  {
    if |posts| == 0 then m
    else
      var m1 := match CounterOf(pass, posts[0])
        case Some(c) => Bump(m, posts[0].tags, c)
        case None => m;
      Count(m1, posts[1..], pass)
  }

  /** A pass only moves the counters it bumps. */
  lemma {:induction false} OnlyPassCounters(posts: seq<Post>, pass: Pass, d: Counter, s: string)
    requires (pass == MentionPass && d != Mentions)
          || (pass == VotePass && (d == Mentions || d == Promotions))
          || (pass == LinkPass && d != Promotions)
    ensures Occurrences(posts, pass, d, s) == 0
  {
    if |posts| > 0 {
      OnlyPassCounters(posts[1..], pass, d, s);
    }
  }

  /** `count_mention_by_symbol`: every tag occurrence adds one to its
      symbol's mention count; the other counters stay as they were. */
  function CountMentionBySymbol(m: map<string, Sentiment>, posts: seq<Post>): (r: map<string, Sentiment>)
    ensures r.Keys == m.Keys + Tagged(posts, MentionPass)
    ensures forall s :: s in r ==>
      r[s].mention == Entry(m, s).mention + Occurrences(posts, MentionPass, Mentions, s) &&
      r[s].votes == Entry(m, s).votes && r[s].promotion == Entry(m, s).promotion
  {
    var r := Count(m, posts, MentionPass);
    assert forall s :: s in r ==> r[s].votes == Entry(m, s).votes && r[s].promotion == Entry(m, s).promotion by {
      forall s | s in r ensures r[s].votes == Entry(m, s).votes && r[s].promotion == Entry(m, s).promotion {
        OnlyPassCounters(posts, MentionPass, Positive, s);
        OnlyPassCounters(posts, MentionPass, Neutral, s);
        OnlyPassCounters(posts, MentionPass, Negative, s);
        OnlyPassCounters(posts, MentionPass, Promotions, s);
        assert Get(r[s], Positive) == Get(Entry(m, s), Positive);
        assert Get(r[s], Neutral) == Get(Entry(m, s), Neutral);
        assert Get(r[s], Negative) == Get(Entry(m, s), Negative);
        assert Get(r[s], Promotions) == Get(Entry(m, s), Promotions);
      }
    }
    assert forall s :: s in r ==> Get(r[s], Mentions) == Get(Entry(m, s), Mentions) + Occurrences(posts, MentionPass, Mentions, s);
    r
  }

  /** The entry of `s` in `r` is its entry in `m` with each vote grown by
      the vote pass's occurrences, mention and promotion as they were. */
  predicate VoteEntry(m: map<string, Sentiment>, posts: seq<Post>, r: map<string, Sentiment>, s: string)
    requires s in r
  {
    r[s].votes.positive == Entry(m, s).votes.positive + Occurrences(posts, VotePass, Positive, s) &&
    r[s].votes.neutral == Entry(m, s).votes.neutral + Occurrences(posts, VotePass, Neutral, s) &&
    r[s].votes.negative == Entry(m, s).votes.negative + Occurrences(posts, VotePass, Negative, s) &&
    r[s].mention == Entry(m, s).mention && r[s].promotion == Entry(m, s).promotion
  }

  /** `count_sentiment_vote_by_symbol`: every tag occurrence adds one to the
      positive, negative or neutral vote of its symbol, chosen by the sign of
      the post's sentiment; mention and promotion are untouched. */
  function CountSentimentVoteBySymbol(m: map<string, Sentiment>, posts: seq<Post>): (r: map<string, Sentiment>)
    ensures r.Keys == m.Keys + Tagged(posts, VotePass)
    ensures forall s :: s in r ==> VoteEntry(m, posts, r, s)
  {
    var r := Count(m, posts, VotePass);
    forall s | s in r ensures VoteEntry(m, posts, r, s) {
      VoteEntryOf(m, posts, r, s);
    }
    r
  }

  /** One symbol of the vote pass. */
  lemma VoteEntryOf(m: map<string, Sentiment>, posts: seq<Post>, r: map<string, Sentiment>, s: string)
    requires s in r
    requires forall d :: Get(r[s], d) == Get(Entry(m, s), d) + Occurrences(posts, VotePass, d, s)
    ensures VoteEntry(m, posts, r, s)
  {
    OnlyPassCounters(posts, VotePass, Mentions, s);
    OnlyPassCounters(posts, VotePass, Promotions, s);
    assert Get(r[s], Mentions) == Get(Entry(m, s), Mentions);
    assert Get(r[s], Promotions) == Get(Entry(m, s), Promotions);
    assert Get(r[s], Positive) == Get(Entry(m, s), Positive) + Occurrences(posts, VotePass, Positive, s);
    assert Get(r[s], Neutral) == Get(Entry(m, s), Neutral) + Occurrences(posts, VotePass, Neutral, s);
    assert Get(r[s], Negative) == Get(Entry(m, s), Negative) + Occurrences(posts, VotePass, Negative, s);
  }

  /** `count_youtube_link_by_symbol`: every tag of a post with a non-empty
      link adds one to its symbol's promotion count; posts without one
      create no entry and change nothing. */
  function CountYoutubeLinkBySymbol(m: map<string, Sentiment>, posts: seq<Post>): (r: map<string, Sentiment>)
    ensures r.Keys == m.Keys + Tagged(posts, LinkPass)
    ensures forall s :: s in r ==>
      r[s].promotion == Entry(m, s).promotion + Occurrences(posts, LinkPass, Promotions, s) &&
      r[s].mention == Entry(m, s).mention && r[s].votes == Entry(m, s).votes
  {
    var r := Count(m, posts, LinkPass);
    assert forall s :: s in r ==> r[s].votes == Entry(m, s).votes && r[s].mention == Entry(m, s).mention by {
      forall s | s in r ensures r[s].votes == Entry(m, s).votes && r[s].mention == Entry(m, s).mention {
        OnlyPassCounters(posts, LinkPass, Positive, s);
        OnlyPassCounters(posts, LinkPass, Neutral, s);
        OnlyPassCounters(posts, LinkPass, Negative, s);
        OnlyPassCounters(posts, LinkPass, Mentions, s);
        assert Get(r[s], Positive) == Get(Entry(m, s), Positive);
        assert Get(r[s], Neutral) == Get(Entry(m, s), Neutral);
        assert Get(r[s], Negative) == Get(Entry(m, s), Negative);
        assert Get(r[s], Mentions) == Get(Entry(m, s), Mentions);
      }
    }
    assert forall s :: s in r ==> Get(r[s], Promotions) == Get(Entry(m, s), Promotions) + Occurrences(posts, LinkPass, Promotions, s);
    r
  }

  /** A symbol tagged nowhere gains no occurrences, so its entry stays. */
  lemma {:induction false} UntaggedUnchanged(posts: seq<Post>, pass: Pass, c: Counter, s: string)
    requires s !in Tagged(posts, pass)
    ensures Occurrences(posts, pass, c, s) == 0
  {
    if |posts| > 0 {
      if CounterOf(pass, posts[0]).Some? {
        assert s !in posts[0].tags;
      }
      UntaggedUnchanged(posts[1..], pass, c, s);
    }
  }

  /** Each tag occurrence lands in exactly one of the three vote counters:
      the votes of the vote pass sum to the mentions of the mention pass. */
  lemma {:induction false} VotesPartitionMentions(posts: seq<Post>, s: string)
    ensures Occurrences(posts, VotePass, Positive, s) + Occurrences(posts, VotePass, Negative, s)
          + Occurrences(posts, VotePass, Neutral, s) == Occurrences(posts, MentionPass, Mentions, s)
  {
    if |posts| > 0 { VotesPartitionMentions(posts[1..], s); }
  }
}

=== FILE: order.dfy ===
/** The order state machine inside the `inquiry` handler
    (`backend/src/api/order.rs`).

    Each order carries an integer state code: 0 Open, 1 Keep (bought and
    held), 2 Close. For every order the handler reads the latest daily candle
    of its stock and moves it one step along Open -> Keep -> Close. The
    candle fetch is I/O and becomes a parameter: one optional latest quote
    per order, `None` standing for an empty candle list, on which the source
    panics (`last().unwrap()`).
 */
module OrderInquiry {
  import opened Wrappers

  datatype OrderState = Open | Keep | Close

  /** The request/response order record (the fields the handler reads or
      writes). */
  datatype Order = Order(
    id: string,
    stock: string,
    state: int,
    openDate: Option<int>,
    closeDate: Option<int>,
    earn: Option<real>,
    priceOrder: real,
    takeProfit: real,
    stopLoss: real,
    shares: int)

  /** Close price and timestamp of the latest candle. */
  datatype Quote = Quote(price: real, timestamp: int)

  datatype InquiryError =
    | NoCandles      // `candles_1d.last().unwrap()` on an empty list: a panic
    | InvalidState   // the 400 response for an unknown state code

  /** The enum's discriminants (`OrderState::X as i32`). */
  function Code(s: OrderState): int {
    match s
    case Open => 0
    case Keep => 1
    case Close => 2
  }

  /** `OrderState::try_from(i32)`. */
  function Decode(code: int): (r: Result<OrderState, string>)
    ensures r.Ok? <==> 0 <= code <= 2
    ensures r.Ok? ==> Code(r.value) == code
    ensures r.Err? ==> r.error == "Invalid status value"
  {
    match code
    case 0 => Ok(Open)
    case 1 => Ok(Keep)
    case 2 => Ok(Close)
    case _ => Err("Invalid status value")
  }

  /** Decoding inverts the discriminants. */
  lemma DecodeCode(s: OrderState)
    ensures Decode(Code(s)) == Ok(s)
  {
  }

  /** The fields no transition touches. */
  predicate SameTerms(a: Order, b: Order) {
    a.id == b.id && a.stock == b.stock && a.takeProfit == b.takeProfit &&
    a.stopLoss == b.stopLoss && a.shares == b.shares
  }

  /** Profit of the position at the given price. */
  function Earn(o: Order, price: real): real {
    (price - o.priceOrder) * (o.shares as real)
  }

  /** One order's transition given its latest quote. */
  function Step(o: Order, q: Quote): (r: Result<Order, InquiryError>)
    ensures r.Err? <==> Decode(o.state).Err?
    ensures r.Err? ==> r.error == InvalidState
    ensures r.Ok? ==> SameTerms(o, r.value)
    // the state code stays valid and advances by at most one step
    ensures r.Ok? ==> Decode(r.value.state).Ok? && (r.value.state == o.state || r.value.state == o.state + 1)
    // The clauses below document the transition table state by state; the
    // clauses above are the properties every transition keeps.
    // Open: buy when the price drops below the order price, at that price
    ensures o.state == 0 ==>
      if q.price < o.priceOrder then
        r == Ok(o.(state := 1, openDate := Some(q.timestamp), closeDate := None, earn := Some(0.0), priceOrder := q.price))
      else
        r == Ok(o.(openDate := None, closeDate := None, earn := Some(0.0)))
    // Keep: close on take-profit or stop-loss, otherwise report the running earn
    ensures o.state == 1 ==>
      if q.price >= o.takeProfit || q.price <= o.stopLoss then
        r == Ok(o.(state := 2, closeDate := Some(q.timestamp), earn := Some(Earn(o, q.price))))
      else
        r == Ok(o.(closeDate := None, earn := Some(Earn(o, q.price))))
    // Close: copied unchanged
    ensures o.state == 2 ==> r == Ok(o)
  {
    match Decode(o.state)
    case Err(_) => Err(InvalidState)
    case Ok(Open) =>
      if q.price < o.priceOrder then
        Ok(Order(o.id, o.stock, Code(Keep), Some(q.timestamp), None, Some(0.0),
                 q.price, o.takeProfit, o.stopLoss, o.shares))
      else
        Ok(Order(o.id, o.stock, Code(Open), None, None, Some(0.0),
                 o.priceOrder, o.takeProfit, o.stopLoss, o.shares))
    case Ok(Keep) =>
      if q.price >= o.takeProfit then
        Ok(Order(o.id, o.stock, Code(Close), o.openDate, Some(q.timestamp), Some(Earn(o, q.price)),
                 o.priceOrder, o.takeProfit, o.stopLoss, o.shares))
      else if q.price <= o.stopLoss then
        Ok(Order(o.id, o.stock, Code(Close), o.openDate, Some(q.timestamp), Some(Earn(o, q.price)),
                 o.priceOrder, o.takeProfit, o.stopLoss, o.shares))
      else
        Ok(Order(o.id, o.stock, Code(Keep), o.openDate, None, Some(Earn(o, q.price)),
                 o.priceOrder, o.takeProfit, o.stopLoss, o.shares))
    case Ok(Close) =>
      Ok(Order(o.id, o.stock, o.state, o.openDate, o.closeDate, o.earn,
               o.priceOrder, o.takeProfit, o.stopLoss, o.shares))
  }

  /** One iteration of the handler's loop: fetch (a panic when there is no
      candle), then transition. */
  function StepWith(o: Order, q: Option<Quote>): Result<Order, InquiryError> {
    match q
    case None => Err(NoCandles)
    case Some(quote) => Step(o, quote)
  }

  /** `inquiry`: the orders processed in request order; the first failure
      aborts the whole request. */
  function Inquiry(orders: seq<Order>, quotes: seq<Option<Quote>>): (r: Result<seq<Order>, InquiryError>)
    requires |quotes| == |orders|
    ensures r.Ok? ==> |r.value| == |orders|
    ensures r.Ok? ==> forall i :: 0 <= i < |orders| ==> StepWith(orders[i], quotes[i]) == Ok(r.value[i])
    ensures r.Ok? <==> forall i :: 0 <= i < |orders| ==> StepWith(orders[i], quotes[i]).Ok?
    ensures r.Err? ==> exists i :: (0 <= i < |orders| && StepWith(orders[i], quotes[i]) == Err(r.error) &&
      forall j :: 0 <= j < i ==> StepWith(orders[j], quotes[j]).Ok?)
  {
    if |orders| == 0 then Ok([])
    else
      match StepWith(orders[0], quotes[0])
      case Err(e) => Err(e)
      case Ok(first) =>
        match Inquiry(orders[1..], quotes[1..])
        case Err(e) =>
          assert forall j :: 1 <= j < |orders| ==> orders[1..][j - 1] == orders[j] && quotes[1..][j - 1] == quotes[j];
          Err(e)
        case Ok(rest) =>
          assert forall j :: 1 <= j < |orders| ==> orders[1..][j - 1] == orders[j] && quotes[1..][j - 1] == quotes[j];
          Ok([first] + rest)
  }

  /** A closed order is a fixed point of the handler: processing it again,
      at any price, returns it unchanged. */
  lemma {:induction false} ClosedOrdersAreStable(orders: seq<Order>, quotes: seq<Option<Quote>>)
    requires |quotes| == |orders|
    requires forall i :: 0 <= i < |orders| ==> orders[i].state == Code(Close) && quotes[i].Some?
    ensures Inquiry(orders, quotes) == Ok(orders)
  {
    if |orders| > 0 {
      ClosedOrdersAreStable(orders[1..], quotes[1..]);
      assert [orders[0]] + orders[1..] == orders;
    }
  }
}

=== FILE: price.dfy ===
/** Candle pattern detectors (`backend/src/algorithm/math/price.rs`):
    reversal points, opening gaps and swing highs/lows over a sequence of
    OHLC candles. Prices are `f64` in the source and `real` here; the
    detectors only compare them.
 */
module PricePatterns {
  import opened Wrappers

  /** One OHLC candle: timestamp `t`, open, high, low and close. */
  datatype Candle = Candle(t: int, o: real, h: real, l: real, c: real)

  /** The patterns the detectors look for at one index. */
  datatype Pattern =
    | Reversal             // open strictly above or strictly below both neighbours' opens
    | GapUp                // open above the previous high
    | GapDown              // otherwise, open below the previous low
    | SwingHigh(lb: nat)   // high strictly above every high within `lb` on both sides
    | SwingLow(lb: nat)    // low strictly below every low within `lb` on both sides

  /** Whether pattern `p` holds at index `i` of `cs`; false out of range. */
  predicate Holds(cs: seq<Candle>, p: Pattern, i: nat) {
    match p
    case Reversal =>
      0 < i < |cs| - 1 &&
      ((cs[i].o > cs[i - 1].o && cs[i].o > cs[i + 1].o) ||
       (cs[i].o < cs[i - 1].o && cs[i].o < cs[i + 1].o))
    case GapUp =>
      0 < i < |cs| && cs[i].o > cs[i - 1].h
    case GapDown =>
      0 < i < |cs| && !(cs[i].o > cs[i - 1].h) && cs[i].o < cs[i - 1].l
    case SwingHigh(lb) =>
      lb <= i && i + lb < |cs| &&
      forall j :: i - lb <= j <= i + lb && j != i ==> cs[j].h < cs[i].h
    case SwingLow(lb) =>
      lb <= i && i + lb < |cs| &&
      forall j :: i - lb <= j <= i + lb && j != i ==> cs[j].l > cs[i].l
  }

  /** The indices in `[lo, hi)` where `p` holds, in increasing order. */
  function Where(cs: seq<Candle>, p: Pattern, lo: nat, hi: nat): (r: seq<nat>)
    ensures forall k :: 0 <= k < |r| ==> lo <= r[k] < hi && Holds(cs, p, r[k])
    ensures forall i :: lo <= i < hi && Holds(cs, p, i) ==> i in r
    ensures forall k, m :: 0 <= k < m < |r| ==> r[k] < r[m]
    decreases hi
  {
    if hi <= lo then []
    else Where(cs, p, lo, hi - 1) + (if Holds(cs, p, hi - 1) then [hi - 1] else [])
  }

  /** The timestamps of the candles at `idx`. */
  function Times(cs: seq<Candle>, idx: seq<nat>): (r: seq<int>)
    requires forall k :: 0 <= k < |idx| ==> idx[k] < |cs|
    ensures |r| == |idx| && forall k :: 0 <= k < |idx| ==> r[k] == cs[idx[k]].t
  {
    seq(|idx|, k requires 0 <= k < |idx| => cs[idx[k]].t)
  }

  /** `find_reverse_points`: `(t, o)` of every candle strictly inside the
      sequence whose open is a strict local extremum. The loop bound
      `len - 1` is computed on a `usize`, so an empty input panics (on
      overflow, or when the wrapped bound lets the loop read past the end). */
  function FindReversePoints(cs: seq<Candle>): (r: Outcome<seq<(int, real)>>)
    ensures r.Panic? <==> |cs| == 0
    ensures r.Done? ==> |r.value| == |Where(cs, Reversal, 1, |cs| - 1)|
    ensures r.Done? ==> forall k :: 0 <= k < |r.value| ==>
      var i := Where(cs, Reversal, 1, |cs| - 1)[k]; r.value[k] == (cs[i].t, cs[i].o)
    ensures r.Done? ==> forall i :: 1 <= i < |cs| - 1 && Holds(cs, Reversal, i) ==> (cs[i].t, cs[i].o) in r.value
  {
    if |cs| == 0 then Panic
    else
      var idx := Where(cs, Reversal, 1, |cs| - 1);
      var r := seq(|idx|, k requires 0 <= k < |idx| => (cs[idx[k]].t, cs[idx[k]].o));
      assert forall i :: 1 <= i < |cs| - 1 && Holds(cs, Reversal, i) ==> (cs[i].t, cs[i].o) in r by {
        forall i | 1 <= i < |cs| - 1 && Holds(cs, Reversal, i)
          ensures (cs[i].t, cs[i].o) in r
        {
          var k :| 0 <= k < |idx| && idx[k] == i;
          assert r[k] == (cs[i].t, cs[i].o);
        }
      }
      Done(r)
  }

  /** `find_gap_candles`: timestamps of the gap-up candles and of the
      gap-down candles, in order. A candle is a gap down only when it is not
      a gap up, so the two index sets are disjoint. */
  function FindGapCandles(cs: seq<Candle>): (r: (seq<int>, seq<int>))
    ensures r.0 == Times(cs, Where(cs, GapUp, 1, |cs|))
    ensures r.1 == Times(cs, Where(cs, GapDown, 1, |cs|))
    ensures forall i :: !(i in Where(cs, GapUp, 1, |cs|) && i in Where(cs, GapDown, 1, |cs|))
  {
    (Times(cs, Where(cs, GapUp, 1, |cs|)), Times(cs, Where(cs, GapDown, 1, |cs|)))
  }

  /** `find_swing_points`: the swing-high and swing-low indices for the given
      lookback, both empty when fewer than `2 * lookback + 1` candles exist. */
  function FindSwingPoints(cs: seq<Candle>, lookback: nat): (r: (seq<nat>, seq<nat>))
    ensures |cs| < 2 * lookback + 1 ==> r == ([], [])
    ensures forall i :: i in r.0 <==> lookback <= i && i + lookback < |cs| && Holds(cs, SwingHigh(lookback), i)
    ensures forall i :: i in r.1 <==> lookback <= i && i + lookback < |cs| && Holds(cs, SwingLow(lookback), i)
    ensures forall k, m :: 0 <= k < m < |r.0| ==> r.0[k] < r.0[m]
    ensures forall k, m :: 0 <= k < m < |r.1| ==> r.1[k] < r.1[m]
  {
    if |cs| < 2 * lookback + 1 then ([], [])
    else (Where(cs, SwingHigh(lookback), lookback, |cs| - lookback),
          Where(cs, SwingLow(lookback), lookback, |cs| - lookback))
  }
}

=== FILE: rule.dfy ===
/** The expression tree of a fuzzy rule (`backend/src/algorithm/fuzzy/rule.rs`).

    An `Expression` names an operator and lists pins; a pin is a nested
    expression, an input value or a threshold. `build_expression_nested_tree`
    turns it into an `ExprTree` whose per-pin bookkeeping is kept in parallel
    vectors: `slots[i]` says whether pin `i` is nested, nested pins are
    stored in `nodes` and leaf pins in `values`/`thresholds`, each in pin
    order, and `mapping` sends a pin name to its (last) position.

    The operators behind `Arc<dyn Function>` are opaque: the tree stores the
    value `F` the function map holds, and evaluating an operator is the
    parameter `apply`. The default rule's `Noop` always gives 0
    (`backend/src/algorithm/fuzzy/functions.rs`). The `RefCell` around
    `values` becomes a function returning the updated tree.
 */
module FuzzyRule {
  import opened Wrappers

  datatype Pin = Pin(name: string, value: Option<real>, nested: Option<Expression>, threshold: Option<real>)
  datatype Expression = Expression(operator: string, pins: seq<Pin>)

  datatype Op<F> = Noop | Fn(f: F)

  datatype Tree<F> = Tree(
    op: Op<F>,
    slots: seq<bool>,
    thresholds: seq<bool>,
    nodes: seq<Tree<F>>,
    labels: seq<string>,
    mapping: map<string, nat>,
    values: seq<real>)

  datatype RuleError = NotImplemented(operator: string) | PinValueMissing

  /** How many entries of `s` equal `b`. */
  function Count(s: seq<bool>, b: bool): (n: nat)
    ensures n <= |s|
  {
    if |s| == 0 then 0 else Count(s[..|s| - 1], b) + (if s[|s| - 1] == b then 1 else 0)
  }

  lemma CountSnoc(s: seq<bool>, i: nat, b: bool)
    requires i < |s|
    ensures Count(s[..i + 1], b) == Count(s[..i], b) + (if s[i] == b then 1 else 0)
  {
    assert s[..i + 1][..i] == s[..i];
  }

  lemma {:induction false} CountPrefix(s: seq<bool>, i: nat, b: bool)
    requires i <= |s|
    ensures Count(s[..i], b) <= Count(s, b)
    decreases |s| - i
  {
    if i == |s| {
      assert s[..i] == s;
    } else {
      CountSnoc(s, i, b);
      CountPrefix(s, i + 1, b);
    }
  }

  /** The pin at `i` has its node (or value) at index `Count(slots[..i], _)`. */
  lemma CountBelow(s: seq<bool>, i: nat, b: bool)
    requires i < |s| && s[i] == b
    ensures Count(s[..i], b) < Count(s, b)
  {
    CountSnoc(s, i, b);
    CountPrefix(s, i + 1, b);
  }

  lemma CountAppend(s: seq<bool>, x: bool, b: bool)
    ensures Count(s + [x], b) == Count(s, b) + (if x == b then 1 else 0)
  {
    assert (s + [x])[..|s|] == s;
  }

  /** What every tree the builder produces satisfies: one slot and one label
      per pin, one node per nested pin, one value and one threshold flag per
      leaf pin, and `mapping` sending each label to its last position. */
  predicate WellFormed<F>(t: Tree<F>)
    decreases t
  {
    && |t.labels| == |t.slots|
    && |t.nodes| == Count(t.slots, true)
    && |t.thresholds| == Count(t.slots, false)
    && |t.values| == Count(t.slots, false)
    && (forall name :: name in t.mapping ==> t.mapping[name] < |t.slots| && t.labels[t.mapping[name]] == name)
    && (forall i :: 0 <= i < |t.labels| ==> t.labels[i] in t.mapping && i <= t.mapping[t.labels[i]])
    && (forall i :: 0 <= i < |t.nodes| ==> WellFormed(t.nodes[i]))
  }

  // ---------------------------------------------------------------------
  // Building.

  /** Reference: the expression builds when every operator in it is known
      and every pin that is not nested carries a value or a threshold. */
  predicate Buildable<F>(fs: map<string, F>, e: Expression)
    decreases e
  {
    && e.operator in fs
    && forall i :: 0 <= i < |e.pins| ==> PinBuildable(fs, e.pins[i])
  }

  predicate PinBuildable<F>(fs: map<string, F>, p: Pin)
    decreases p
  {
    match p.nested
    case Some(n) => Buildable(fs, n)
    case None => p.value.Some? || p.threshold.Some?
  }

  /** `build_expression_nested_tree`. */
  function Build<F>(fs: map<string, F>, e: Expression): (r: Result<Tree<F>, RuleError>)
    ensures r.Ok? <==> Buildable(fs, e)
    ensures e.operator !in fs ==> r == Err(NotImplemented(e.operator))
    ensures r.Ok? ==> WellFormed(r.value) && r.value.op == Fn(fs[e.operator])
    ensures r.Ok? ==> |r.value.slots| == |e.pins|
    decreases e, |e.pins| + 1
  {
    if e.operator in fs then BuildPins(fs, e, |e.pins|) else Err(NotImplemented(e.operator))
  }

  /** The builder's loop after its first `k` pins. */
  function BuildPins<F>(fs: map<string, F>, e: Expression, k: nat): (r: Result<Tree<F>, RuleError>)
    requires e.operator in fs && k <= |e.pins|
    ensures r.Ok? <==> forall i :: 0 <= i < k ==> PinBuildable(fs, e.pins[i])
    ensures r.Ok? ==> WellFormed(r.value) && r.value.op == Fn(fs[e.operator]) && |r.value.slots| == k
    decreases e, k
  {
    if k == 0 then Ok(Tree(Fn(fs[e.operator]), [], [], [], [], map[], []))
    else match BuildPins(fs, e, k - 1)
      case Err(err) => Err(err)
      case Ok(t) =>
        var p := e.pins[k - 1];
        match p.nested
        case Some(n) =>
          (match Build(fs, n)
           case Err(err) => Err(err)
           case Ok(child) => Ok(AddNested(t, p.name, child)))
        case None =>
          if p.value.Some? then Ok(AddLeaf(t, p.name, p.value.value, false))
          else if p.threshold.Some? then Ok(AddLeaf(t, p.name, p.threshold.value, true))
          else Err(PinValueMissing)
  }

  /** One pass of the loop for a nested pin: the name is mapped to the new
      slot, the slot is marked nested and the child tree appended. */
  function AddNested<F>(t: Tree<F>, name: string, child: Tree<F>): (r: Tree<F>)
    requires WellFormed(t) && WellFormed(child)
    ensures WellFormed(r) && r.op == t.op
    ensures r.slots == t.slots + [true] && r.labels == t.labels + [name] && r.nodes == t.nodes + [child]
    ensures r.values == t.values && r.thresholds == t.thresholds
  {
    CountAppend(t.slots, true, true);
    CountAppend(t.slots, true, false);
    var r := Tree(t.op, t.slots + [true], t.thresholds, t.nodes + [child], t.labels + [name],
                  t.mapping[name := |t.slots|], t.values);
    assert forall i :: 0 <= i < |t.labels| ==> r.labels[i] == t.labels[i];
    r
  }

  /** One pass of the loop for a leaf pin: the name is mapped to the new
      slot, the value (or threshold) appended with its threshold flag. */
  function AddLeaf<F>(t: Tree<F>, name: string, value: real, threshold: bool): (r: Tree<F>)
    requires WellFormed(t)
    ensures WellFormed(r) && r.op == t.op
    ensures r.slots == t.slots + [false] && r.labels == t.labels + [name] && r.nodes == t.nodes
    ensures r.values == t.values + [value] && r.thresholds == t.thresholds + [threshold]
  {
    CountAppend(t.slots, false, true);
    CountAppend(t.slots, false, false);
    var r := Tree(t.op, t.slots + [false], t.thresholds + [threshold], t.nodes, t.labels + [name],
                  t.mapping[name := |t.slots|], t.values + [value]);
    assert forall i :: 0 <= i < |t.labels| ==> r.labels[i] == t.labels[i];
    r
  }

  /** `Rule::default`: a `Noop` root without pins. */
  function Default<F>(): (r: Tree<F>)
    ensures WellFormed(r) && r.slots == [] && r.op == Noop
  {
    Tree(Noop, [], [], [], [], map[], [])
  }

  /** How pin `i` of `e` sits in the tree `t` built from it. */
  ghost predicate PinShape<F>(fs: map<string, F>, e: Expression, t: Tree<F>, i: nat)
    requires i < |e.pins| && i < |t.slots| && i < |t.labels|
  {
    var p := e.pins[i];
    && t.labels[i] == p.name
    && t.slots[i] == p.nested.Some?
    && (p.nested.Some? ==>
          Count(t.slots[..i], true) < |t.nodes| && Build(fs, p.nested.value) == Ok(t.nodes[Count(t.slots[..i], true)]))
    && (p.nested.None? ==>
          && Count(t.slots[..i], false) < |t.values| && Count(t.slots[..i], false) < |t.thresholds|
          && t.thresholds[Count(t.slots[..i], false)] == p.value.None?
          && (p.value.Some? ==> t.values[Count(t.slots[..i], false)] == p.value.value)
          && (p.value.None? ==> p.threshold.Some? && t.values[Count(t.slots[..i], false)] == p.threshold.value))
  }

  ghost predicate Shape<F>(fs: map<string, F>, e: Expression, t: Tree<F>, k: nat) {
    && k <= |e.pins| && |t.slots| == k && |t.labels| == k
    && forall i :: 0 <= i < k ==> PinShape(fs, e, t, i)
  }

  /** Appending to every vector keeps the pins already placed. */
  lemma ExtendKeepsPins<F>(fs: map<string, F>, e: Expression, t0: Tree<F>, t: Tree<F>, k: nat)
    requires 0 < k <= |e.pins| && Shape(fs, e, t0, k - 1)
    requires |t.slots| == k && |t.labels| == k && t.slots[..k - 1] == t0.slots && t.labels[..k - 1] == t0.labels
    requires |t0.nodes| <= |t.nodes| && t.nodes[..|t0.nodes|] == t0.nodes
    requires |t0.values| <= |t.values| && t.values[..|t0.values|] == t0.values
    requires |t0.thresholds| <= |t.thresholds| && t.thresholds[..|t0.thresholds|] == t0.thresholds
    ensures forall i :: 0 <= i < k - 1 ==> PinShape(fs, e, t, i)
  {
    forall i | 0 <= i < k - 1 ensures PinShape(fs, e, t, i) {
      assert PinShape(fs, e, t0, i);
      assert t.slots[..i] == t0.slots[..i];
      assert t.labels[i] == t0.labels[i] && t.slots[i] == t0.slots[i];
      var j := Count(t.slots[..i], true);
      var v := Count(t.slots[..i], false);
      if j < |t0.nodes| {
        assert t.nodes[j] == t.nodes[..|t0.nodes|][j];
      }
      if v < |t0.values| {
        assert t.values[v] == t.values[..|t0.values|][v];
      }
      if v < |t0.thresholds| {
        assert t.thresholds[v] == t.thresholds[..|t0.thresholds|][v];
      }
    }
  }

  /** Each pin lands in its own slot: labels in pin order, nested pins as
      the trees built from them, leaf pins as their value or threshold. */
  lemma {:induction false} BuildShape<F>(fs: map<string, F>, e: Expression, k: nat)
    requires e.operator in fs && k <= |e.pins|
    requires BuildPins(fs, e, k).Ok?
    ensures Shape(fs, e, BuildPins(fs, e, k).value, k)
  {
    if k > 0 {
      BuildShape(fs, e, k - 1);
      StepShape(fs, e, k);
      ExtendKeepsPins(fs, e, BuildPins(fs, e, k - 1).value, BuildPins(fs, e, k).value, k);
    }
  }

  /** One pass of the loop appends to every vector of the tree so far and
      places pin `k - 1` as `PinShape` describes. */
  lemma StepShape<F>(fs: map<string, F>, e: Expression, k: nat)
    requires e.operator in fs && 0 < k <= |e.pins|
    requires BuildPins(fs, e, k).Ok?
    ensures BuildPins(fs, e, k - 1).Ok?
    ensures var t0 := BuildPins(fs, e, k - 1).value;
      var t := BuildPins(fs, e, k).value;
      && |t.slots| == k && |t.labels| == k && t.slots[..k - 1] == t0.slots && t.labels[..k - 1] == t0.labels
      && |t0.nodes| <= |t.nodes| && t.nodes[..|t0.nodes|] == t0.nodes
      && |t0.values| <= |t.values| && t.values[..|t0.values|] == t0.values
      && |t0.thresholds| <= |t.thresholds| && t.thresholds[..|t0.thresholds|] == t0.thresholds
      && PinShape(fs, e, t, k - 1)
  {
    var t0 := BuildPins(fs, e, k - 1).value;
    var p := e.pins[k - 1];
    if p.nested.Some? {
      var child := Build(fs, p.nested.value).value;
      NestedShape(fs, e, k, t0, child, BuildPins(fs, e, k).value);
    } else {
      LeafShape(fs, e, k, t0, BuildPins(fs, e, k).value);
    }
  }

  /** `StepShape` for a nested pin. */
  lemma NestedShape<F>(fs: map<string, F>, e: Expression, k: nat, t0: Tree<F>, child: Tree<F>, t: Tree<F>)
    requires 0 < k <= |e.pins| && WellFormed(t0) && WellFormed(child) && |t0.slots| == k - 1
    requires e.pins[k - 1].nested.Some? && Build(fs, e.pins[k - 1].nested.value) == Ok(child)
    requires t == AddNested(t0, e.pins[k - 1].name, child)
    ensures |t.slots| == k && |t.labels| == k && t.slots[..k - 1] == t0.slots && t.labels[..k - 1] == t0.labels
    ensures |t0.nodes| <= |t.nodes| && t.nodes[..|t0.nodes|] == t0.nodes
    ensures |t0.values| <= |t.values| && t.values[..|t0.values|] == t0.values
    ensures |t0.thresholds| <= |t.thresholds| && t.thresholds[..|t0.thresholds|] == t0.thresholds
    ensures PinShape(fs, e, t, k - 1)
  {
    assert t.slots[..k - 1] == t0.slots && t.labels[..k - 1] == t0.labels;
    assert t.nodes[..|t0.nodes|] == t0.nodes;
  }

  /** `StepShape` for a leaf pin. */
  lemma LeafShape<F>(fs: map<string, F>, e: Expression, k: nat, t0: Tree<F>, t: Tree<F>)
    requires 0 < k <= |e.pins| && WellFormed(t0) && |t0.slots| == k - 1
    requires var p := e.pins[k - 1];
      && p.nested.None? && (p.value.Some? || p.threshold.Some?)
      && t == (if p.value.Some? then AddLeaf(t0, p.name, p.value.value, false)
               else AddLeaf(t0, p.name, p.threshold.value, true))
    ensures |t.slots| == k && |t.labels| == k && t.slots[..k - 1] == t0.slots && t.labels[..k - 1] == t0.labels
    ensures |t0.nodes| <= |t.nodes| && t.nodes[..|t0.nodes|] == t0.nodes
    ensures |t0.values| <= |t.values| && t.values[..|t0.values|] == t0.values
    ensures |t0.thresholds| <= |t.thresholds| && t.thresholds[..|t0.thresholds|] == t0.thresholds
    ensures PinShape(fs, e, t, k - 1)
  {
    assert t.slots[..k - 1] == t0.slots && t.labels[..k - 1] == t0.labels;
    assert t.values[..|t0.values|] == t0.values;
    assert t.thresholds[..|t0.thresholds|] == t0.thresholds;
  }

  // ---------------------------------------------------------------------
  // Labels and inputs.

  /** `ExprTree::labels(is_threshold)`: leaf labels with that threshold flag,
      nested pins expanded in place, in pin order. */
  function Labels<F>(t: Tree<F>, threshold: bool): seq<string>
    requires WellFormed(t)
    decreases t, |t.slots| + 1
  {
    LabelsUpTo(t, threshold, |t.slots|)
  }

  function LabelsUpTo<F>(t: Tree<F>, threshold: bool, k: nat): seq<string>
    requires WellFormed(t) && k <= |t.slots|
    decreases t, k
  {
    if k == 0 then []
    else
      var i := k - 1;
      LabelsUpTo(t, threshold, i) +
      if t.slots[i] then
        CountBelow(t.slots, i, true);
        Labels(t.nodes[Count(t.slots[..i], true)], threshold)
      else
        CountBelow(t.slots, i, false);
        if t.thresholds[Count(t.slots[..i], false)] == threshold then [t.labels[i]] else []
  }

  /** `inputs`: the labels of the non-threshold leaves. */
  function Inputs<F>(t: Tree<F>): seq<string>
    requires WellFormed(t)
  {
    Labels(t, false)
  }

  /** Reference on the expression itself: the names of its leaf pins whose
      kind (a threshold is a pin without a value) matches, nested
      expressions expanded in place. */
  function ExprLabels(e: Expression, threshold: bool): seq<string>
    decreases e, |e.pins| + 1
  {
    ExprLabelsUpTo(e, threshold, |e.pins|)
  }

  function ExprLabelsUpTo(e: Expression, threshold: bool, k: nat): seq<string>
    requires k <= |e.pins|
    decreases e, k
  {
    if k == 0 then []
    else
      var p := e.pins[k - 1];
      ExprLabelsUpTo(e, threshold, k - 1) +
      match p.nested
      case Some(n) => ExprLabels(n, threshold)
      case None => if p.value.None? == threshold then [p.name] else []
  }

  /** The tree's labels are the expression's leaf names: in particular
      `inputs` lists exactly the value pins, nested ones included. */
  lemma {:induction false} BuildLabels<F>(fs: map<string, F>, e: Expression, threshold: bool)
    requires Build(fs, e).Ok?
    ensures Labels(Build(fs, e).value, threshold) == ExprLabels(e, threshold)
    decreases e, |e.pins| + 1
  {
    BuildShape(fs, e, |e.pins|);
    BuildLabelsUpTo(fs, e, Build(fs, e).value, threshold, |e.pins|);
  }

  lemma {:induction false} BuildLabelsUpTo<F>(fs: map<string, F>, e: Expression, t: Tree<F>, threshold: bool, k: nat)
    requires Build(fs, e) == Ok(t) && k <= |e.pins|
    requires Shape(fs, e, t, |e.pins|)
    ensures LabelsUpTo(t, threshold, k) == ExprLabelsUpTo(e, threshold, k)
    decreases e, k
  {
    if k > 0 {
      BuildLabelsUpTo(fs, e, t, threshold, k - 1);
      PinLabels(fs, e, t, threshold, k - 1);
    }
  }

  /** The labels pin `i` contributes agree. */
  lemma {:induction false} PinLabels<F>(fs: map<string, F>, e: Expression, t: Tree<F>, threshold: bool, i: nat)
    requires Build(fs, e) == Ok(t) && i < |e.pins|
    requires Shape(fs, e, t, |e.pins|)
    ensures LabelsUpTo(t, threshold, i + 1) == LabelsUpTo(t, threshold, i) + (
      match e.pins[i].nested
      case Some(n) => ExprLabels(n, threshold)
      case None => if e.pins[i].value.None? == threshold then [e.pins[i].name] else [])
    decreases e, i, 0
  {
    assert PinShape(fs, e, t, i);
    if e.pins[i].nested.Some? {
      BuildLabels(fs, e.pins[i].nested.value, threshold);
    }
  }

  // ---------------------------------------------------------------------
  // Evaluation.

  /** `ExprTree::evaluate`: the `(label, value)` argument list in pin order,
      nested pins evaluated first (the first error stops everything), then
      the operator. */
  function Evaluate<F>(t: Tree<F>, apply: (F, seq<(string, real)>) -> Result<real, RuleError>): Result<real, RuleError>
    requires WellFormed(t)
    decreases t, |t.slots| + 1
  {
    match Arguments(t, apply, |t.slots|)
    case Err(err) => Err(err)
    case Ok(args) =>
      match t.op
      case Noop => Ok(0.0)
      case Fn(f) => apply(f, args)
  }

  function Arguments<F>(t: Tree<F>, apply: (F, seq<(string, real)>) -> Result<real, RuleError>, k: nat): Result<seq<(string, real)>, RuleError>
    requires WellFormed(t) && k <= |t.slots|
    decreases t, k
  {
    if k == 0 then Ok([])
    else match Arguments(t, apply, k - 1)
      case Err(err) => Err(err)
      case Ok(args) =>
        var i := k - 1;
        if t.slots[i] then
          CountBelow(t.slots, i, true);
          match Evaluate(t.nodes[Count(t.slots[..i], true)], apply)
          case Err(err) => Err(err)
          case Ok(v) => Ok(args + [(t.labels[i], v)])
        else
          CountBelow(t.slots, i, false);
          Ok(args + [(t.labels[i], t.values[Count(t.slots[..i], false)])])
  }

  /** Reference on the expression: pins in order, a nested pin giving its
      expression's result and a leaf its value or else its threshold. */
  function ExprEvaluate<F>(fs: map<string, F>, e: Expression, apply: (F, seq<(string, real)>) -> Result<real, RuleError>): Result<real, RuleError>
    requires Buildable(fs, e)
    decreases e, |e.pins| + 1
  {
    match ExprArguments(fs, e, apply, |e.pins|)
    case Err(err) => Err(err)
    case Ok(args) => apply(fs[e.operator], args)
  }

  function ExprArguments<F>(fs: map<string, F>, e: Expression, apply: (F, seq<(string, real)>) -> Result<real, RuleError>, k: nat): Result<seq<(string, real)>, RuleError>
    requires Buildable(fs, e) && k <= |e.pins|
    decreases e, k
  {
    if k == 0 then Ok([])
    else match ExprArguments(fs, e, apply, k - 1)
      case Err(err) => Err(err)
      case Ok(args) =>
        var p := e.pins[k - 1];
        assert PinBuildable(fs, p);
        match p.nested
        case Some(n) =>
          (match ExprEvaluate(fs, n, apply)
           case Err(err) => Err(err)
           case Ok(v) => Ok(args + [(p.name, v)]))
        case None =>
          Ok(args + [(p.name, if p.value.Some? then p.value.value else p.threshold.value)])
  }

  /** A freshly built tree evaluates as its expression does. */
  lemma {:induction false} BuildEvaluates<F>(fs: map<string, F>, e: Expression, apply: (F, seq<(string, real)>) -> Result<real, RuleError>)
    requires Build(fs, e).Ok?
    ensures Evaluate(Build(fs, e).value, apply) == ExprEvaluate(fs, e, apply)
    decreases e, |e.pins| + 1
  {
    BuildShape(fs, e, |e.pins|);
    BuildArguments(fs, e, Build(fs, e).value, apply, |e.pins|);
  }

  lemma {:induction false} BuildArguments<F>(fs: map<string, F>, e: Expression, t: Tree<F>, apply: (F, seq<(string, real)>) -> Result<real, RuleError>, k: nat)
    requires Build(fs, e) == Ok(t) && k <= |e.pins|
    requires Shape(fs, e, t, |e.pins|)
    ensures Arguments(t, apply, k) == ExprArguments(fs, e, apply, k)
    decreases e, k
  {
    if k > 0 {
      BuildArguments(fs, e, t, apply, k - 1);
      var i := k - 1;
      assert PinShape(fs, e, t, i);
      assert PinBuildable(fs, e.pins[i]);
      if e.pins[i].nested.Some? {
        BuildEvaluates(fs, e.pins[i].nested.value, apply);
        assert t.slots[i];
      } else {
        assert !t.slots[i];
      }
    }
  }

  /** The default rule evaluates to 0 whatever `apply` does. */
  lemma DefaultIsZero<F>(apply: (F, seq<(string, real)>) -> Result<real, RuleError>)
    ensures Evaluate(Default<F>(), apply) == Ok(0.0)
    ensures Inputs(Default<F>()) == []
  {
  }

  // ---------------------------------------------------------------------
  // Updating leaf values.

  /** Same structure: only leaf values may differ. */
  ghost predicate SameShape<F>(t: Tree<F>, u: Tree<F>)
    decreases t
  {
    && t.op == u.op && t.slots == u.slots && t.thresholds == u.thresholds
    && t.labels == u.labels && t.mapping == u.mapping
    && |t.values| == |u.values| && |t.nodes| == |u.nodes|
    && forall i :: 0 <= i < |t.nodes| ==> SameShape(t.nodes[i], u.nodes[i])
  }

  /** Whether `update(name)` reports success: at the first level that has a
      pin called `name` there is a value slot at its value index; a level
      without such a pin asks its children. */
  ghost predicate Accepts<F>(t: Tree<F>, name: string)
    decreases t
  {
    if name in t.mapping then
      t.mapping[name] <= |t.slots| && Count(t.slots[..t.mapping[name]], false) < |t.values|
    else exists i :: 0 <= i < |t.nodes| && Accepts(t.nodes[i], name)
  }

  /** `ExprTree::update` as written. When `name` is a pin of this level the
      value written is `values[ivalue]`, `ivalue` counting the leaf pins
      before it, even when that pin is nested; only a level without the pin
      passes the update to its children, all of them. */
  function Update<F>(t: Tree<F>, name: string, value: real): (r: (Tree<F>, bool))
    requires WellFormed(t)
    ensures WellFormed(r.0) && SameShape(t, r.0)
    ensures r.1 == Accepts(t, name)
    ensures r.1 && name in t.mapping ==>
      Count(t.slots[..t.mapping[name]], false) < |t.values| &&
      r.0.values == t.values[Count(t.slots[..t.mapping[name]], false) := value]
    decreases t, |t.nodes| + 1
  {
    if name in t.mapping then
      var index := t.mapping[name];
      var ivalue := Count(t.slots[..index], false);
      SameShapeRefl(t);
      if t.labels[index] == name && ivalue < |t.values| then
        (t.(values := t.values[ivalue := value]), true)
      else (t, false)
    else
      var nodes := seq(|t.nodes|, i requires 0 <= i < |t.nodes| => Update(t.nodes[i], name, value).0);
      var any := exists i :: 0 <= i < |t.nodes| && Update(t.nodes[i], name, value).1;
      (t.(nodes := nodes), any)
  }

  lemma {:induction false} SameShapeAccepts<F>(t: Tree<F>, u: Tree<F>, name: string)
    requires SameShape(t, u)
    ensures Accepts(t, name) == Accepts(u, name)
    decreases t
  {
    if name !in t.mapping {
      forall i | 0 <= i < |t.nodes| ensures Accepts(t.nodes[i], name) == Accepts(u.nodes[i], name) {
        SameShapeAccepts(t.nodes[i], u.nodes[i], name);
      }
    }
  }

  /** `Rule::reload`: every `(label, value)` of the input map, in the map's
      iteration order `inputs`, is passed to `update`; the result counts the
      updates that reported success. */
  function Reload<F>(t: Tree<F>, inputs: seq<(string, real)>): (r: (Tree<F>, nat))
    requires WellFormed(t)
    ensures WellFormed(r.0) && SameShape(t, r.0) && r.1 <= |inputs|
  {
    if |inputs| == 0 then SameShapeRefl(t); (t, 0)
    else
      var (t1, n) := Reload(t, inputs[..|inputs| - 1]);
      var (t2, ok) := Update(t1, inputs[|inputs| - 1].0, inputs[|inputs| - 1].1);
      SameShapeTrans(t, t1, t2);
      (t2, if ok then n + 1 else n)
  }

  lemma {:induction false} SameShapeRefl<F>(t: Tree<F>)
    ensures SameShape(t, t)
    decreases t
  {
    forall i | 0 <= i < |t.nodes| ensures SameShape(t.nodes[i], t.nodes[i]) {
      SameShapeRefl(t.nodes[i]);
    }
  }

  lemma {:induction false} SameShapeTrans<F>(t: Tree<F>, u: Tree<F>, w: Tree<F>)
    requires SameShape(t, u) && SameShape(u, w)
    ensures SameShape(t, w)
    decreases t
  {
    forall i | 0 <= i < |t.nodes| ensures SameShape(t.nodes[i], w.nodes[i]) {
      SameShapeTrans(t.nodes[i], u.nodes[i], w.nodes[i]);
    }
  }

  /** How many of the input labels the tree accepts. */
  ghost function AcceptedCount<F>(t: Tree<F>, inputs: seq<(string, real)>): nat
  {
    if |inputs| == 0 then 0
    else AcceptedCount(t, inputs[..|inputs| - 1]) + (if Accepts(t, inputs[|inputs| - 1].0) then 1 else 0)
  }

  /** `reload` counts exactly the labels the tree accepts: whether an update
      succeeds depends on the tree's structure alone, which updates keep. */
  lemma {:induction false} ReloadCounts<F>(t: Tree<F>, inputs: seq<(string, real)>)
    requires WellFormed(t)
    ensures Reload(t, inputs).1 == AcceptedCount(t, inputs)
  {
    if |inputs| > 0 {
      ReloadCounts(t, inputs[..|inputs| - 1]);
      SameShapeAccepts(t, Reload(t, inputs[..|inputs| - 1]).0, inputs[|inputs| - 1].0);
    }
  }

  // ---------------------------------------------------------------------
  // Which leaves an update may touch.

  /** The labels of the leaf pins, in value order: `LeafNames(t)[j]` names
      `values[j]`. */
  function LeafNames(slots: seq<bool>, labels: seq<string>): (r: seq<string>)
    requires |labels| == |slots|
    ensures |r| == Count(slots, false)
  {
    if |slots| == 0 then []
    else
      LeafNames(slots[..|slots| - 1], labels[..|labels| - 1])
        + (if slots[|slots| - 1] then [] else [labels[|labels| - 1]])
  }

  lemma {:induction false} LeafNamesAt(slots: seq<bool>, labels: seq<string>, i: nat)
    requires |labels| == |slots| && i < |slots| && !slots[i]
    ensures Count(slots[..i], false) < |LeafNames(slots, labels)|
    ensures LeafNames(slots, labels)[Count(slots[..i], false)] == labels[i]
    decreases |slots|
  {
    CountBelow(slots, i, false);
    var n := |slots|;
    if i < n - 1 {
      assert slots[..n - 1][..i] == slots[..i];
      assert slots[..n - 1][i] == slots[i];
      assert labels[..n - 1][i] == labels[i];
      LeafNamesAt(slots[..n - 1], labels[..n - 1], i);
    } else {
      assert slots[..n - 1] == slots[..i];
    }
  }

  /** `u` differs from `t` at most in leaves labelled `name`, at any depth. */
  ghost predicate OthersKept<F>(t: Tree<F>, u: Tree<F>, name: string)
    requires WellFormed(t)
    decreases t
  {
    && |u.values| == |t.values| && |u.nodes| == |t.nodes|
    && (forall j :: 0 <= j < |t.values| && LeafNames(t.slots, t.labels)[j] != name ==> u.values[j] == t.values[j])
    && (forall i :: 0 <= i < |t.nodes| ==> OthersKept(t.nodes[i], u.nodes[i], name))
  }

  lemma {:induction false} OthersKeptRefl<F>(t: Tree<F>, name: string)
    requires WellFormed(t)
    ensures OthersKept(t, t, name)
    decreases t
  {
    forall i | 0 <= i < |t.nodes| ensures OthersKept(t.nodes[i], t.nodes[i], name) {
      OthersKeptRefl(t.nodes[i], name);
    }
  }

  /** The update `update` evidently intends: write the leaf called `name`
      when this level has one, and otherwise look in the children. */
  function UpdateLeaf<F>(t: Tree<F>, name: string, value: real): (r: (Tree<F>, bool))
    requires WellFormed(t)
    ensures WellFormed(r.0) && SameShape(t, r.0)
    ensures name in t.mapping && !t.slots[t.mapping[name]] ==>
      r.1 && Count(t.slots[..t.mapping[name]], false) < |t.values| &&
      r.0.values == t.values[Count(t.slots[..t.mapping[name]], false) := value]
    decreases t, |t.nodes| + 1
  {
    if name in t.mapping && !t.slots[t.mapping[name]] then
      var ivalue := Count(t.slots[..t.mapping[name]], false);
      CountBelow(t.slots, t.mapping[name], false);
      SameShapeRefl(t);
      (t.(values := t.values[ivalue := value]), true)
    else
      var nodes := seq(|t.nodes|, i requires 0 <= i < |t.nodes| => UpdateLeaf(t.nodes[i], name, value).0);
      var any := exists i :: 0 <= i < |t.nodes| && UpdateLeaf(t.nodes[i], name, value).1;
      (t.(nodes := nodes), any)
  }

  /** The corrected update only ever changes leaves labelled `name`. */
  lemma {:induction false} UpdateLeafKeepsOthers<F>(t: Tree<F>, name: string, value: real)
    requires WellFormed(t)
    ensures OthersKept(t, UpdateLeaf(t, name, value).0, name)
    decreases t, |t.nodes| + 1
  {
    var u := UpdateLeaf(t, name, value).0;
    if name in t.mapping && !t.slots[t.mapping[name]] {
      LeafNamesAt(t.slots, t.labels, t.mapping[name]);
      OthersKeptRefl(t, name);
      forall i | 0 <= i < |t.nodes| ensures OthersKept(t.nodes[i], u.nodes[i], name) {
        OthersKeptRefl(t.nodes[i], name);
      }
    } else {
      forall i | 0 <= i < |t.nodes| ensures OthersKept(t.nodes[i], u.nodes[i], name) {
        UpdateLeafKeepsOthers(t.nodes[i], name, value);
      }
    }
  }

  /** The first leaf slot at or after `i`, when the leaves do not all lie
      before `i`. */
  lemma {:induction false} NextLeaf(s: seq<bool>, i: nat) returns (j: nat)
    requires i <= |s| && Count(s[..i], false) < Count(s, false)
    ensures i <= j < |s| && !s[j] && Count(s[..j], false) == Count(s[..i], false)
    decreases |s| - i
  {
    assert s[..|s|] == s;
    if !s[i] {
      j := i;
    } else {
      CountSnoc(s, i, false);
      j := NextLeaf(s, i + 1);
    }
  }

  /** Whenever `update` as written meets its name on a nested pin that has a
      leaf after it, it writes that leaf, whose label is a different one:
      `mapping` keeps a label's last position, so a later leaf with the same
      label cannot exist. */
  lemma UpdateOverwritesOtherLeaf<F>(t: Tree<F>, name: string, value: real)
    requires WellFormed(t) && name in t.mapping && t.slots[t.mapping[name]]
    requires Count(t.slots[..t.mapping[name]], false) < |t.values|
    requires t.values[Count(t.slots[..t.mapping[name]], false)] != value
    ensures Update(t, name, value).1
    ensures !OthersKept(t, Update(t, name, value).0, name)
  {
    var index := t.mapping[name];
    var iv := Count(t.slots[..index], false);
    var j := NextLeaf(t.slots, index);
    LeafNamesAt(t.slots, t.labels, j);
    assert t.labels[j] != name by {
      assert t.labels[j] in t.mapping && j <= t.mapping[t.labels[j]];
    }
    assert LeafNames(t.slots, t.labels)[iv] != name;
  }

  /** A rule `f(a: g(x = 1), b = 2)`: the nested pin `a` comes before the
      leaf `b`. */
  function Sample(): Expression {
    Expression("f", [Pin("a", None, Some(Inner()), None), Pin("b", Some(2.0), None, None)])
  }

  function Inner(): Expression {
    Expression("g", [Pin("x", Some(1.0), None, None)])
  }

  function Functions(): map<string, int> {
    map["f" := 0, "g" := 0]
  }

  /** The tree built from `Inner()`. */
  function InnerTree(): Tree<int> {
    Tree(Fn(0), [false], [false], [], ["x"], map["x" := 0], [1.0])
  }

  /** The tree built from `Sample()`. */
  function SampleTree(): Tree<int> {
    Tree(Fn(0), [true, false], [false], [InnerTree()], ["a", "b"], map["a" := 0, "b" := 1], [2.0])
  }

  lemma BuildsInner()
    ensures Build(Functions(), Inner()) == Ok(InnerTree())
  {
    InnerPins();
    assert "g" in Functions();
  }

  /** The builder's loop over the single pin of `Inner()`. */
  lemma InnerPins()
    ensures BuildPins(Functions(), Inner(), 1) == Ok(InnerTree())
  {
    var base: Tree<int> := Tree(Fn(0), [], [], [], [], map[], []);
    assert "g" in Functions() && Functions()["g"] == 0;
    assert BuildPins(Functions(), Inner(), 0) == Ok(base);
    InnerLeaf();
  }

  /** The leaf "x" of `Inner()` added to the empty tree. */
  lemma InnerLeaf()
    ensures AddLeaf(Tree(Fn(0), [], [], [], [], map[], []), "x", 1.0, false) == InnerTree()
  {
    var leaf := AddLeaf(Tree(Fn(0), [], [], [], [], map[], []), "x", 1.0, false);
    assert leaf.slots == [false] && leaf.thresholds == [false] && leaf.nodes == [];
    assert leaf.labels == ["x"] && leaf.values == [1.0];
    assert leaf.mapping == map["x" := 0];
  }

  lemma BuildsSample()
    ensures Build(Functions(), Sample()) == Ok(SampleTree())
  {
    SamplePins();
    assert "f" in Functions();
  }

  /** The builder's loop over the two pins of `Sample()`. */
  lemma SamplePins()
    ensures BuildPins(Functions(), Sample(), 2) == Ok(SampleTree())
  {
    var base: Tree<int> := Tree(Fn(0), [], [], [], [], map[], []);
    assert "f" in Functions() && Functions()["f"] == 0;
    assert BuildPins(Functions(), Sample(), 0) == Ok(base);
    BuildsInner();
    SampleNested();
    assert BuildPins(Functions(), Sample(), 1) == Ok(SampleOne());
    SampleLeaf();
  }

  /** The tree after the nested pin "a" of `Sample()`. */
  function SampleOne(): Tree<int> {
    Tree(Fn(0), [true], [], [InnerTree()], ["a"], map["a" := 0], [])
  }

  lemma SampleNested()
    ensures AddNested(Tree(Fn(0), [], [], [], [], map[], []), "a", InnerTree()) == SampleOne()
  {
    var one := AddNested(Tree(Fn(0), [], [], [], [], map[], []), "a", InnerTree());
    assert one.slots == [true] && one.thresholds == [] && one.nodes == [InnerTree()];
    assert one.labels == ["a"] && one.values == [] && one.mapping == map["a" := 0];
  }

  lemma SampleLeaf()
    ensures WellFormed(SampleOne()) && AddLeaf(SampleOne(), "b", 2.0, false) == SampleTree()
  {
    SampleOneWellFormed();
    AddLeafIs(SampleOne(), "b", 2.0, false);
    SampleLeafFields();
  }

  lemma SampleLeafFields()
    ensures var one := SampleOne();
      && one.slots + [false] == [true, false] && one.thresholds + [false] == [false]
      && one.labels + ["b"] == ["a", "b"] && one.values + [2.0] == [2.0]
      && one.mapping["b" := |one.slots|] == map["a" := 0, "b" := 1]
  {
    var one := SampleOne();
    assert one.slots + [false] == [true, false];
    assert one.labels + ["b"] == ["a", "b"];
  }

  lemma SampleOneWellFormed()
    ensures WellFormed(SampleOne())
  {
    SampleNested();
  }

  /** A leaf pass, field by field. */
  lemma AddLeafIs<F>(t: Tree<F>, name: string, value: real, threshold: bool)
    requires WellFormed(t)
    ensures AddLeaf(t, name, value, threshold) ==
      Tree(t.op, t.slots + [false], t.thresholds + [threshold], t.nodes, t.labels + [name], t.mapping[name := |t.slots|], t.values + [value])
  {
  }

  /** As written, `update("a", 5)` on that rule reports success and
      overwrites `b`, a leaf with another label. */
  lemma NestedNameOverwritesSibling()
    ensures Build(Functions(), Sample()) == Ok(SampleTree())
    ensures Update(SampleTree(), "a", 5.0).1
    ensures !OthersKept(SampleTree(), Update(SampleTree(), "a", 5.0).0, "a")
  {
    BuildsSample();
    var t := SampleTree();
    assert t.slots[..0] == [];
    assert "a" in t.mapping && t.mapping["a"] == 0 && t.slots[0];
    UpdateOverwritesOtherLeaf(t, "a", 5.0);
  }
}

=== FILE: shared_lru.dfy ===
/** The cache of `pkgs/backend/src/algorithm/lru.rs`.

    Entries live in an arena `caching` of nodes carrying `next`/`prev`
    indices, `mapping` sends each key to its node's index, `first` is meant
    to be the most recently used node and `last` the least. A read or an
    overwrite moves its node to `first`; a new key on a full cache evicts
    the node at `last`, shifts the indices above it down by one and pushes
    the new node, which becomes `first`. The `Arc`s and the optional
    callbacks are left out, and so are the three locks except where one
    thread asks twice for the same one (an eviction from a one-node arena).
    An index out of range is a panic, the `Panic` outcome. `ReadsLatest`
    and `ReadsLatestWhileRoom` follow the map view `Contents` over any run
    of puts and gets.
 */
module SharedLru {
  import opened Wrappers
  import LruReference
  import opened LruArena

  /** `move_to_front`: nothing to do for the front node or an arena of at
      most one node; otherwise unlink node `index`, make it `first` with a
      self-loop as `prev`, and pull `last` back if it was the last node. */
  function MoveToFront<K, V>(c: Cache<K, V>, index: nat): (r: Outcome<Cache<K, V>>)
    ensures index == c.first || |c.caching| <= 1 ==> r == Done(c)
    ensures r.Panic? <==>
      index != c.first && |c.caching| > 1 &&
      (index >= |c.caching| || c.caching[index].next >= |c.caching| ||
       c.caching[index].prev >= |c.caching| || c.first >= |c.caching|)
    ensures r.Done? ==>
      r.value.mapping == c.mapping && r.value.capacity == c.capacity && SameEntries(r.value.caching, c.caching)
    ensures r.Done? && index != c.first && |c.caching| > 1 ==>
      r.value.first == index && r.value.caching[index].next == c.first && r.value.caching[index].prev == index &&
      r.value.caching[c.first].prev == index &&
      r.value.last == (if index == c.last then c.caching[index].prev else c.last)
  {
    var nodes := c.caching;
    if index == c.first || |nodes| <= 1 then Done(c)
    else if index >= |nodes| then Panic
    else if nodes[index].prev >= |nodes| || nodes[index].next >= |nodes| || c.first >= |nodes| then Panic
    else
      var last := if index == c.last then nodes[index].prev else c.last;
      Done(c.(caching := ToFront(nodes, index, c.first), first := index, last := last))
  }

  /** Lines 196-204 of `move_to_front` on the arena. */
  function ToFront<K, V>(nodes: seq<Node<K, V>>, index: nat, first: nat): (r: seq<Node<K, V>>)
    requires index < |nodes| && first < |nodes| && index != first
    requires nodes[index].prev < |nodes| && nodes[index].next < |nodes|
    ensures SameEntries(r, nodes)
    ensures r[index].next == first && r[index].prev == index && r[first].prev == index
  {
    var next := nodes[index].next;
    var prev := nodes[index].prev;
    var n1 := nodes[prev := nodes[prev].(next := next)];
    var n2 := n1[next := n1[next].(prev := prev)];
    var n3 := n2[index := n2[index].(next := first, prev := index)];
    n3[first := n3[first].(prev := index)]
  }

  /** Every index above `gone` moves down by one. */
  function Shift<K>(m: map<K, nat>, gone: nat): (r: map<K, nat>)
    ensures r.Keys == m.Keys
    ensures forall k :: k in m ==> r[k] == if m[k] > gone then m[k] - 1 else m[k]
  {
    map k | k in m :: if m[k] > gone then m[k] - 1 else m[k]
  }

  /** The eviction branch of `put`: forget the key at `last`, let its
      neighbours point at each other, shift the indices above it, move
      `first` if it was at or above it, step `last` back along the node's
      `prev` and remove the node.

      Evicting the only node empties the arena, and the reset at lines
      116-118 then asks for the `first` lock while the write guard taken at
      line 94 is still alive (it lives to line 120). `std`'s `RwLock`
      deadlocks or panics when a thread asks again for a lock it holds, so
      such a `put` never returns: the `Panic` outcome. */
  function Evict<K, V>(c: Cache<K, V>): (r: Outcome<Cache<K, V>>)
    ensures r.Panic? <==>
      c.last >= |c.caching| || |c.caching| == 1 ||
      c.caching[c.last].next >= |c.caching| || c.caching[c.last].prev >= |c.caching|
    ensures r.Done? ==>
      1 < |c.caching| && |r.value.caching| == |c.caching| - 1 && r.value.capacity == c.capacity &&
      r.value.mapping.Keys == c.mapping.Keys - {c.caching[c.last].key} &&
      SameEntries(r.value.caching, LruReference.Drop(c.caching, c.last))
  {
    var nodes := c.caching;
    var last := c.last;
    if last >= |nodes| then Panic
    else if |nodes| == 1 then Panic
    else if nodes[last].next >= |nodes| || nodes[last].prev >= |nodes| then Panic
    else Done(Remove(c, Unlink(nodes, last)))
  }

  /** Lines 88-113 of `put` on an arena of two nodes or more, after the
      neighbours were relinked into `linked`; the arena does not empty, so
      the reset at lines 116-118 is not reached. */
  function Remove<K, V>(c: Cache<K, V>, linked: seq<Node<K, V>>): (r: Cache<K, V>)
    requires 1 < |c.caching| && c.last < |c.caching| && SameEntries(linked, c.caching)
    ensures |r.caching| == |c.caching| - 1 && r.capacity == c.capacity
    ensures r.mapping.Keys == c.mapping.Keys - {c.caching[c.last].key}
    ensures SameEntries(r.caching, LruReference.Drop(c.caching, c.last))
    ensures forall k :: k in r.mapping ==> r.mapping[k] == if c.mapping[k] > c.last then c.mapping[k] - 1 else c.mapping[k]
  {
    var last := c.last;
    var mapping := Shift(c.mapping - {linked[last].key}, last);
    var first :=
      if c.first > last then c.first - 1
      else if c.first == last then linked[last].next
      else c.first;
    c.(mapping := mapping, caching := LruReference.Drop(linked, last), first := first, last := linked[last].prev)
  }

  /** Lines 79-85 of `put`: the neighbours of node `i` point past it (the
      guard of line 79 holds, the arena having two nodes or more). */
  function Unlink<K, V>(nodes: seq<Node<K, V>>, i: nat): (r: seq<Node<K, V>>)
    requires i < |nodes| && nodes[i].next < |nodes| && nodes[i].prev < |nodes|
    ensures SameEntries(r, nodes)
  {
    var next := nodes[i].next;
    var prev := nodes[i].prev;
    var n1 := nodes[next := nodes[next].(prev := prev)];
    n1[prev := n1[prev].(next := next)]
  }

  /** The insertion branch of `put`: the new node is pushed with `next` the
      old `first` and `prev` the current `last`, the old first node points
      back at it and it becomes `first`; into an empty arena it also becomes
      `last` and its own `prev`. */
  function Append<K, V>(c: Cache<K, V>, key: K, value: V): (r: Outcome<Cache<K, V>>)
    ensures r.Panic? <==> |c.caching| > 0 && c.first >= |c.caching|
    ensures r.Done? ==>
      r.value.mapping == c.mapping[key := |c.caching|] && r.value.capacity == c.capacity &&
      |r.value.caching| == |c.caching| + 1 && r.value.first == |c.caching| &&
      r.value.last == (if |c.caching| == 0 then 0 else c.last) &&
      r.value.caching[|c.caching|] == Node(key, value, c.first, r.value.last) &&
      SameEntries(r.value.caching[..|c.caching|], c.caching)
    ensures r.Done? && |c.caching| > 0 ==> r.value.caching[c.first].prev == |c.caching|
  {
    var index := |c.caching|;
    if index == 0 then
      Done(c.(first := index, last := index, caching := [Node(key, value, c.first, index)], mapping := c.mapping[key := index]))
    else if c.first >= index then Panic
    else
      var linked := c.caching[c.first := c.caching[c.first].(prev := index)];
      Done(c.(first := index, caching := linked + [Node(key, value, c.first, c.last)], mapping := c.mapping[key := index]))
  }

  /** `put`: overwrite and move to the front a present key; refuse a new key
      when the capacity is 0; otherwise evict `last` if full and push the
      new key at the front. */
  function Put<K, V>(c: Cache<K, V>, key: K, value: V): (r: Outcome<(Cache<K, V>, bool)>)
    ensures key !in c.mapping && c.capacity == 0 ==> r == Done((c, false))
    ensures key in c.mapping && r.Done? ==>
      r.value.1 && r.value.0.mapping == c.mapping && |r.value.0.caching| == |c.caching| &&
      c.mapping[key] < |c.caching| && r.value.0.caching[c.mapping[key]].value == value &&
      (|c.caching| > 1 ==> r.value.0.first == c.mapping[key])
    ensures key !in c.mapping && c.capacity > 0 && r.Done? ==>
      r.value.1 && key in r.value.0.mapping && r.value.0.first == r.value.0.mapping[key] == |r.value.0.caching| - 1 &&
      r.value.0.caching[r.value.0.first].value == value &&
      |r.value.0.caching| == (if |c.caching| >= c.capacity then |c.caching| else |c.caching| + 1) &&
      (|c.caching| >= c.capacity ==>
        c.last < |c.caching| && r.value.0.mapping.Keys == c.mapping.Keys - {c.caching[c.last].key} + {key}) &&
      (|c.caching| < c.capacity ==> r.value.0.mapping.Keys == c.mapping.Keys + {key})
    ensures r.Done? ==> r.value.0.capacity == c.capacity
  {
    if key in c.mapping then
      var index := c.mapping[key];
      if index >= |c.caching| then Panic
      else
        match MoveToFront(c.(caching := c.caching[index := c.caching[index].(value := value)]), index)
        case Panic => Panic
        case Done(c1) => Done((c1, true))
    else if c.capacity == 0 then Done((c, false))
    else Admit(if |c.caching| >= c.capacity then Evict(c) else Done(c), key, value)
  }

  /** The end of `put` for a new key, once `room` is the cache after any
      eviction: the key is appended. */
  function Admit<K, V>(room: Outcome<Cache<K, V>>, key: K, value: V): Outcome<(Cache<K, V>, bool)> {
    match room
    case Panic => Panic
    case Done(c1) =>
      match Append(c1, key, value)
      case Panic => Panic
      case Done(c2) => Done((c2, true))
  }

  /** `get`: a present key is moved to the front and its value returned;
      the read of the value itself can still be out of range. */
  function Get<K, V>(c: Cache<K, V>, key: K): (r: Outcome<(Cache<K, V>, Option<V>)>)
    ensures key !in c.mapping ==> r == Done((c, None))
    ensures key in c.mapping && r.Done? ==>
      c.mapping[key] < |c.caching| && r.value.1 == Some(c.caching[c.mapping[key]].value) &&
      r.value.0.mapping == c.mapping && SameEntries(r.value.0.caching, c.caching) &&
      r.value.0.capacity == c.capacity &&
      (|c.caching| > 1 ==> r.value.0.first == c.mapping[key])
    ensures key in c.mapping && c.mapping[key] < |c.caching| && (c.mapping[key] == c.first || |c.caching| <= 1) ==>
      r == Done((c, Some(c.caching[c.mapping[key]].value)))
  {
    if key in c.mapping then
      var index := c.mapping[key];
      match MoveToFront(c, index)
      case Panic => Panic
      case Done(c1) => if index < |c1.caching| then Done((c1, Some(c1.caching[index].value))) else Panic
    else Done((c, None))
  }

  /** Evicting from an indexed arena keeps it indexed. */
  lemma EvictKeepsIndex<K, V>(c: Cache<K, V>)
    requires Indexed(c) && Evict(c).Done?
    ensures Indexed(Evict(c).value)
  {
    RemoveKeepsIndex(c, Unlink(c.caching, c.last));
  }

  lemma RemoveKeepsIndex<K, V>(c: Cache<K, V>, linked: seq<Node<K, V>>)
    requires Indexed(c) && 1 < |c.caching| && c.last < |c.caching| && SameEntries(linked, c.caching)
    ensures Indexed(Remove(c, linked))
  {
    RemoveKeepsKeys(c, linked);
    RemoveKeepsSlots(c, linked);
  }

  lemma RemoveKeepsKeys<K, V>(c: Cache<K, V>, linked: seq<Node<K, V>>)
    requires Indexed(c) && 1 < |c.caching| && c.last < |c.caching| && SameEntries(linked, c.caching)
    ensures var r := Remove(c, linked);
      forall k :: k in r.mapping ==> r.mapping[k] < |r.caching| && r.caching[r.mapping[k]].key == k
  {
    var r := Remove(c, linked);
    forall k | k in r.mapping
      ensures r.mapping[k] < |r.caching| && r.caching[r.mapping[k]].key == k
    {
      RemoveKeepsKey(c, linked, k);
    }
  }

  /** One surviving key still names its own slot after the removal. */
  lemma RemoveKeepsKey<K, V>(c: Cache<K, V>, linked: seq<Node<K, V>>, k: K)
    requires Indexed(c) && 1 < |c.caching| && c.last < |c.caching| && SameEntries(linked, c.caching)
    requires k in Remove(c, linked).mapping
    ensures var r := Remove(c, linked);
      r.mapping[k] < |r.caching| && r.caching[r.mapping[k]].key == k
  {
    var r := Remove(c, linked);
    var rest := LruReference.Drop(c.caching, c.last);
    assert k in c.mapping && k != c.caching[c.last].key;
    var j := c.mapping[k];
    assert j < |c.caching| && c.caching[j].key == k;
    assert j != c.last;
    var i := if j > c.last then j - 1 else j;
    assert i < |rest|;
    assert r.mapping[k] == i;
    assert rest[i] == c.caching[j];
    assert r.caching[i].key == rest[i].key;
  }

  lemma RemoveKeepsSlots<K, V>(c: Cache<K, V>, linked: seq<Node<K, V>>)
    requires Indexed(c) && 1 < |c.caching| && c.last < |c.caching| && SameEntries(linked, c.caching)
    ensures var r := Remove(c, linked);
      forall i :: 0 <= i < |r.caching| ==> r.caching[i].key in r.mapping && r.mapping[r.caching[i].key] == i
  {
    var r := Remove(c, linked);
    forall i | 0 <= i < |r.caching|
      ensures r.caching[i].key in r.mapping && r.mapping[r.caching[i].key] == i
    {
      var j := if i < c.last then i else i + 1;
      assert r.caching[i].key == c.caching[j].key;
      assert c.mapping[c.caching[j].key] == j;
    }
  }

  /** Pushing a fresh key onto an indexed arena keeps it indexed. */
  lemma AppendKeepsIndex<K, V>(c: Cache<K, V>, key: K, value: V)
    requires Indexed(c) && key !in c.mapping && Append(c, key, value).Done?
    ensures Indexed(Append(c, key, value).value)
  {
    var r := Append(c, key, value).value;
    forall i | 0 <= i < |r.caching|
      ensures r.caching[i].key in r.mapping && r.mapping[r.caching[i].key] == i
    {
      if i < |c.caching| {
        assert r.caching[..|c.caching|][i] == r.caching[i];
      }
    }
    forall k | k in r.mapping
      ensures r.mapping[k] < |r.caching| && r.caching[r.mapping[k]].key == k
    {
      if k != key {
        assert r.caching[..|c.caching|][c.mapping[k]] == r.caching[c.mapping[k]];
      }
    }
  }

  /** Moving a node to the front, after overwriting its value or not, keeps
      an arena indexed. */
  lemma MoveKeepsIndex<K, V>(c: Cache<K, V>, index: nat)
    requires Indexed(c) && MoveToFront(c, index).Done?
    ensures Indexed(MoveToFront(c, index).value)
  {
    var r := MoveToFront(c, index).value;
    assert forall i :: 0 <= i < |c.caching| ==> r.caching[i].key == c.caching[i].key;
  }

  /** A completed `put` keeps `mapping` and the arena in bijection and the
      arena within the capacity. */
  lemma {:induction false} PutKeepsIndex<K, V>(c: Cache<K, V>, key: K, value: V)
    requires Indexed(c) && |c.caching| <= c.capacity
    requires Put(c, key, value).Done?
    ensures Indexed(Put(c, key, value).value.0)
    ensures |Put(c, key, value).value.0.caching| <= c.capacity
  {
    if key in c.mapping {
      var index := c.mapping[key];
      var c1 := c.(caching := c.caching[index := c.caching[index].(value := value)]);
      assert forall i :: 0 <= i < |c.caching| ==> c1.caching[i].key == c.caching[i].key;
      MoveKeepsIndex(c1, index);
    } else if c.capacity > 0 {
      var room := if |c.caching| >= c.capacity then Evict(c) else Done(c);
      if |c.caching| >= c.capacity {
        EvictKeepsIndex(c);
      }
      AppendKeepsIndex(room.value, key, value);
    }
  }

  /** A completed `get` keeps `mapping` and the arena in bijection. */
  lemma GetKeepsIndex<K, V>(c: Cache<K, V>, key: K)
    requires Indexed(c) && Get(c, key).Done?
    ensures Indexed(Get(c, key).value.0)
  {
    if key in c.mapping {
      MoveKeepsIndex(c, c.mapping[key]);
    }
  }

  /** After a completed `put`, a completed `get` of the same key returns the
      value just put, on a cache of non-zero capacity. */
  lemma GetAfterPut<K, V>(c: Cache<K, V>, key: K, value: V)
    requires c.capacity > 0
    requires Put(c, key, value).Done?
    requires Get(Put(c, key, value).value.0, key).Done?
    ensures Get(Put(c, key, value).value.0, key).value.1 == Some(value)
  {
  }

  /** A completed `put` writes its key into the map view; a new key on a
      full cache first forgets the key at `last`; a refused key changes
      nothing. */
  lemma PutContents<K, V>(c: Cache<K, V>, key: K, value: V)
    requires Indexed(c) && Put(c, key, value).Done?
    ensures var d := Put(c, key, value).value.0;
      if key !in c.mapping && c.capacity == 0 then Contents(d) == Contents(c)
      else if key !in c.mapping && |c.caching| >= c.capacity then
        c.last < |c.caching| && Contents(d) == (Contents(c) - {c.caching[c.last].key})[key := value]
      else Contents(d) == Contents(c)[key := value]
  {
    if key in c.mapping {
      RewriteContents(c, key, value);
    } else if c.capacity > 0 {
      if |c.caching| >= c.capacity {
        EvictKeepsIndex(c);
        EvictContents(c);
        AppendContents(Evict(c).value, key, value);
      } else {
        AppendContents(c, key, value);
      }
    }
  }

  /** A put of a present key changes that key's value only. */
  lemma RewriteContents<K, V>(c: Cache<K, V>, key: K, value: V)
    requires Indexed(c) && key in c.mapping && Put(c, key, value).Done?
    ensures Contents(Put(c, key, value).value.0) == Contents(c)[key := value]
  {
    var d := Put(c, key, value).value.0;
    var index := c.mapping[key];
    var c1 := c.(caching := c.caching[index := c.caching[index].(value := value)]);
    assert MoveToFront(c1, index) == Done(d);
    assert SameEntries(d.caching, c1.caching);
    ContentsAre(d, Contents(c)[key := value]);
  }

  /** An eviction forgets exactly the key at `last`. */
  lemma EvictContents<K, V>(c: Cache<K, V>)
    requires Indexed(c) && Evict(c).Done?
    ensures Contents(Evict(c).value) == Contents(c) - {c.caching[c.last].key}
  {
    var r := Evict(c).value;
    var gone := c.caching[c.last].key;
    forall k | k in r.mapping
      ensures r.mapping[k] < |r.caching| && r.caching[r.mapping[k]].value == c.caching[c.mapping[k]].value
    {
      RemoveKeepsKey(c, Unlink(c.caching, c.last), k);
      var j := c.mapping[k];
      assert j != c.last;
      assert LruReference.Drop(c.caching, c.last)[r.mapping[k]] == c.caching[j];
    }
    ContentsAre(r, Contents(c) - {gone});
  }

  /** Appending a fresh key adds it to the map view. */
  lemma AppendContents<K, V>(c: Cache<K, V>, key: K, value: V)
    requires Indexed(c) && key !in c.mapping && Append(c, key, value).Done?
    ensures Contents(Append(c, key, value).value) == Contents(c)[key := value]
  {
    var r := Append(c, key, value).value;
    forall k | k in c.mapping
      ensures r.caching[c.mapping[k]].value == c.caching[c.mapping[k]].value
    {
      assert r.caching[..|c.caching|][c.mapping[k]] == r.caching[c.mapping[k]];
    }
    ContentsAre(r, Contents(c)[key := value]);
  }

  /** A completed `get` returns the key's value in the map view, or `None`
      for a missing key, and leaves the view alone. */
  lemma GetContents<K, V>(c: Cache<K, V>, key: K)
    requires Indexed(c) && Get(c, key).Done?
    ensures Contents(Get(c, key).value.0) == Contents(c)
    ensures Get(c, key).value.1 == if key in Contents(c) then Some(Contents(c)[key]) else None
  {
    var d := Get(c, key).value.0;
    ContentsAre(d, Contents(c));
  }

  /** The call `op` on `c` returns normally, leaving `d`; `out` is what a
      get returned. */
  ghost predicate Step<K, V>(c: Cache<K, V>, op: LruReference.Op<K, V>, d: Cache<K, V>, out: Option<V>) {
    match op
    case Write(k, v) => Put(c, k, v).Done? && Put(c, k, v).value.0 == d && out == None
    case Read(k) => Get(c, k) == Done((d, out))
  }

  /** `cs` are the states of a run of the calls `ops` from an indexed cache
      within its capacity, and `outs` what they returned. */
  ghost predicate Run<K, V>(cs: seq<Cache<K, V>>, ops: seq<LruReference.Op<K, V>>, outs: seq<Option<V>>) {
    |cs| == |ops| + 1 && |outs| == |ops| && Indexed(cs[0]) && |cs[0].caching| <= cs[0].capacity &&
    forall i :: 0 <= i < |ops| ==> Step(cs[i], ops[i], cs[i + 1], outs[i])
  }

  /** One call keeps the cache indexed and within its capacity, and keeps
      the map view inside the map of latest writes `m`; a get that finds its
      key returns that key's latest write. */
  lemma StepWithin<K, V>(c: Cache<K, V>, op: LruReference.Op<K, V>, d: Cache<K, V>, out: Option<V>, m: map<K, V>)
    requires Indexed(c) && |c.caching| <= c.capacity && Step(c, op, d, out)
    requires LruReference.Within(Contents(c), m)
    ensures Indexed(d) && |d.caching| <= d.capacity == c.capacity
    ensures LruReference.Within(Contents(d), LruReference.Apply(m, op))
    ensures op.Read? && out.Some? ==> op.key in m && out.value == m[op.key]
  {
    match op
    case Write(k, v) =>
      PutKeepsIndex(c, k, v);
      WriteWithin(c, k, v, m);
    case Read(k) =>
      GetKeepsIndex(c, k);
      GetContents(c, k);
  }

  /** A put keeps the map view inside the latest writes. */
  lemma WriteWithin<K, V>(c: Cache<K, V>, key: K, value: V, m: map<K, V>)
    requires Indexed(c) && Put(c, key, value).Done? && LruReference.Within(Contents(c), m)
    ensures LruReference.Within(Contents(Put(c, key, value).value.0), m[key := value])
  {
    PutContents(c, key, value);
  }

  /** One call whose writes still fit in the capacity evicts nothing: the
      map view becomes exactly the written map, and a get returns the key's
      value or `None` for a key not in the view. */
  lemma StepExact<K, V>(c: Cache<K, V>, op: LruReference.Op<K, V>, d: Cache<K, V>, out: Option<V>)
    requires Indexed(c) && |c.caching| <= c.capacity && Step(c, op, d, out)
    requires op.Write? ==> |LruReference.Apply(Contents(c), op).Keys| <= c.capacity
    ensures Contents(d) == LruReference.Apply(Contents(c), op)
    ensures op.Read? ==> out == if op.key in Contents(c) then Some(Contents(c)[op.key]) else None
  {
    match op
    case Write(k, v) => WriteExact(c, k, v);
    case Read(k) => GetContents(c, k);
  }

  /** A put of a key that fits in the capacity evicts nothing. */
  lemma WriteExact<K, V>(c: Cache<K, V>, key: K, value: V)
    requires Indexed(c) && |c.caching| <= c.capacity && Put(c, key, value).Done?
    requires |Contents(c)[key := value].Keys| <= c.capacity
    ensures Contents(Put(c, key, value).value.0) == Contents(c)[key := value]
  {
    if key !in c.mapping {
      Fits(c, key, value);
    }
    PutContents(c, key, value);
  }

  /** Every state of a run is indexed, within the capacity, and holds only
      latest writes. */
  lemma {:induction false} RunWithin<K, V>(cs: seq<Cache<K, V>>, ops: seq<LruReference.Op<K, V>>, outs: seq<Option<V>>, n: nat)
    requires Run(cs, ops, outs) && n <= |ops|
    ensures Indexed(cs[n]) && |cs[n].caching| <= cs[n].capacity == cs[0].capacity
    ensures LruReference.Within(Contents(cs[n]), LruReference.Latest(Contents(cs[0]), ops[..n]))
    decreases n
  {
    if n == 0 {
      assert ops[..0] == [];
    } else {
      RunWithin(cs, ops, outs, n - 1);
      assert ops[..n][..n - 1] == ops[..n - 1];
      StepWithin(cs[n - 1], ops[n - 1], cs[n], outs[n - 1], LruReference.Latest(Contents(cs[0]), ops[..n - 1]));
    }
  }

  /** `get` returns the last value put (lru.rs:152-158 reading what lines
      41-150 stored): over any run, a get that finds its key returns the
      value of the latest put of that key, or of the starting map. */
  lemma ReadsLatest<K, V>(cs: seq<Cache<K, V>>, ops: seq<LruReference.Op<K, V>>, outs: seq<Option<V>>, i: nat)
    requires Run(cs, ops, outs) && i < |ops| && ops[i].Read? && outs[i].Some?
    ensures ops[i].key in LruReference.Latest(Contents(cs[0]), ops[..i])
    ensures outs[i].value == LruReference.Latest(Contents(cs[0]), ops[..i])[ops[i].key]
  {
    RunWithin(cs, ops, outs, i);
    StepWithin(cs[i], ops[i], cs[i + 1], outs[i], LruReference.Latest(Contents(cs[0]), ops[..i]));
  }

  /** While every key a run writes fits in the capacity, no state loses a
      key: each holds exactly the latest writes. */
  lemma {:induction false} RunExact<K, V>(cs: seq<Cache<K, V>>, ops: seq<LruReference.Op<K, V>>, outs: seq<Option<V>>, n: nat)
    requires Run(cs, ops, outs) && n <= |ops|
    requires |LruReference.Latest(Contents(cs[0]), ops).Keys| <= cs[0].capacity
    ensures Contents(cs[n]) == LruReference.Latest(Contents(cs[0]), ops[..n])
    decreases n
  {
    if n == 0 {
      assert ops[..0] == [];
    } else {
      RunExact(cs, ops, outs, n - 1);
      RunWithin(cs, ops, outs, n - 1);
      assert ops[..n][..n - 1] == ops[..n - 1];
      LruReference.LatestGrows(Contents(cs[0]), ops, n);
      StepExact(cs[n - 1], ops[n - 1], cs[n], outs[n - 1]);
    }
  }

  /** The same run in the other direction: while the keys written fit in
      the capacity, a get returns `Some` of the latest write of its key, and
      `None` only for a key never written. */
  lemma ReadsLatestWhileRoom<K, V>(cs: seq<Cache<K, V>>, ops: seq<LruReference.Op<K, V>>, outs: seq<Option<V>>, i: nat)
    requires Run(cs, ops, outs) && i < |ops| && ops[i].Read?
    requires |LruReference.Latest(Contents(cs[0]), ops).Keys| <= cs[0].capacity
    ensures var m := LruReference.Latest(Contents(cs[0]), ops[..i]);
      outs[i] == if ops[i].key in m then Some(m[ops[i].key]) else None
  {
    RunExact(cs, ops, outs, i);
    RunWithin(cs, ops, outs, i);
    StepExact(cs[i], ops[i], cs[i + 1], outs[i]);
  }

  // Shapes of a small cache. In each, slot 0 holds `a` and slot 1 holds
  // `b`; they differ in the links and in where `first` and `last` point.

  /** One entry, after a put into an empty cache. */
  function Single<K, V>(cap: nat, a: K, va: V): Cache<K, V> {
    Cache(map[a := 0], [Node(a, va, 0, 0)], cap, 0, 0)
  }

  /** After put `a`, put `b`: `b` is first and `a` last. */
  function Pair<K, V>(cap: nat, a: K, va: V, b: K, vb: V): Cache<K, V> {
    Cache(map[a := 0, b := 1], [Node(a, va, 0, 1), Node(b, vb, 0, 0)], cap, 1, 0)
  }

  /** After `b` replaced an evicted entry: `first` and `last` both at `b`. */
  function Fresh<K, V>(cap: nat, a: K, va: V, b: K, vb: V): Cache<K, V> {
    Cache(map[a := 0, b := 1], [Node(a, va, 0, 1), Node(b, vb, 0, 1)], cap, 1, 1)
  }

  /** After a read of `a`: `a` is first and `b` last. */
  function FrontA<K, V>(cap: nat, a: K, va: V, b: K, vb: V): Cache<K, V> {
    Cache(map[a := 0, b := 1], [Node(a, va, 1, 0), Node(b, vb, 0, 0)], cap, 0, 1)
  }

  /** After a read of `b` following one of `a`: `b` is first and `a` last. */
  function FrontB<K, V>(cap: nat, a: K, va: V, b: K, vb: V): Cache<K, V> {
    Cache(map[a := 0, b := 1], [Node(a, va, 0, 1), Node(b, vb, 0, 1)], cap, 1, 0)
  }

  lemma PutIntoEmpty<K, V>(cap: nat, a: K, va: V)
    requires cap > 0
    ensures Put(New(cap), a, va) == Done((Single(cap, a, va), true))
  {
    var r := Put(New<K, V>(cap), a, va);
    assert r.Done? && r.value.0.caching == Single(cap, a, va).caching && r.value.0.mapping == Single(cap, a, va).mapping;
  }

  lemma PutIntoSingle<K, V>(cap: nat, a: K, va: V, b: K, vb: V)
    requires cap > 1 && a != b
    ensures Put(Single(cap, a, va), b, vb) == Done((Pair(cap, a, va, b, vb), true))
  {
    var r := Put(Single(cap, a, va), b, vb);
    assert r.Done? && r.value.0.caching == Pair(cap, a, va, b, vb).caching && r.value.0.mapping == Pair(cap, a, va, b, vb).mapping;
  }

  lemma ReadOlderOfPair<K, V>(cap: nat, a: K, va: V, b: K, vb: V)
    requires a != b
    ensures Get(Pair(cap, a, va, b, vb), a) == Done((FrontA(cap, a, va, b, vb), Some(va)))
  {
    var r := Get(Pair(cap, a, va, b, vb), a);
    assert r.Done? && r.value.0.caching == FrontA(cap, a, va, b, vb).caching;
  }

  lemma ReadOlderOfFresh<K, V>(cap: nat, a: K, va: V, b: K, vb: V)
    requires a != b
    ensures Get(Fresh(cap, a, va, b, vb), a) == Done((FrontA(cap, a, va, b, vb), Some(va)))
  {
    var r := Get(Fresh(cap, a, va, b, vb), a);
    assert r.Done? && r.value.0.caching == FrontA(cap, a, va, b, vb).caching;
  }

  lemma ReadB<K, V>(cap: nat, a: K, va: V, b: K, vb: V)
    requires a != b
    ensures Get(FrontA(cap, a, va, b, vb), b) == Done((FrontB(cap, a, va, b, vb), Some(vb)))
  {
    var r := Get(FrontA(cap, a, va, b, vb), b);
    assert r.Done? && r.value.0.caching == FrontB(cap, a, va, b, vb).caching;
  }

  lemma ReadA<K, V>(cap: nat, a: K, va: V, b: K, vb: V)
    requires a != b
    ensures Get(FrontB(cap, a, va, b, vb), a) == Done((FrontA(cap, a, va, b, vb), Some(va)))
  {
    var r := Get(FrontB(cap, a, va, b, vb), a);
    assert r.Done? && r.value.0.caching == FrontA(cap, a, va, b, vb).caching;
  }

  lemma EvictSlotZero<K, V>(a: K, va: V, b: K, vb: V, c: Cache<K, V>, link: nat)
    requires a != b
    requires (c == FrontB(2, a, va, b, vb) && link == 1) || (c == Pair(2, a, va, b, vb) && link == 0)
    ensures Evict(c) == Done(Cache(map[b := 0], [Node(b, vb, 0, link)], 2, 0, 1))
  {
    var r := Evict(c);
    assert Shift(c.mapping - {a}, 0) == map[b := 0];
    assert r.Done? && r.value.caching == [Node(b, vb, 0, link)] && r.value.mapping == map[b := 0];
  }

  lemma EvictSlotOne<K, V>(a: K, va: V, b: K, vb: V)
    requires a != b
    ensures Evict(Fresh(2, a, va, b, vb)) == Done(Cache(map[a := 0], [Node(a, va, 0, 1)], 2, 0, 1))
  {
    var c := Fresh(2, a, va, b, vb);
    var r := Evict(c);
    assert Shift(c.mapping - {b}, 1) == map[a := 0];
    assert r.Done? && r.value.caching == [Node(a, va, 0, 1)] && r.value.mapping == map[a := 0];
  }

  lemma AppendToOne<K, V>(b: K, vb: V, link: nat, c: K, vc: V)
    requires b != c
    ensures Append(Cache(map[b := 0], [Node(b, vb, 0, link)], 2, 0, 1), c, vc) == Done(Fresh(2, b, vb, c, vc))
  {
    var r := Append(Cache(map[b := 0], [Node(b, vb, 0, link)], 2, 0, 1), c, vc);
    assert r.Done? && r.value.caching == Fresh(2, b, vb, c, vc).caching && r.value.mapping == Fresh(2, b, vb, c, vc).mapping;
  }

  /** A full pair whose older entry `a` is at `last`: a new key evicts `a`. */
  lemma PutEvictsOlder<K, V>(a: K, va: V, b: K, vb: V, c: K, vc: V)
    requires a != b && c != a && c != b
    ensures Put(Pair(2, a, va, b, vb), c, vc) == Done((Fresh(2, b, vb, c, vc), true))
    ensures Put(FrontB(2, a, va, b, vb), c, vc) == Done((Fresh(2, b, vb, c, vc), true))
  {
    EvictSlotZero(a, va, b, vb, Pair(2, a, va, b, vb), 0);
    EvictSlotZero(a, va, b, vb, FrontB(2, a, va, b, vb), 1);
    AppendToOne(b, vb, 0, c, vc);
    AppendToOne(b, vb, 1, c, vc);
  }

  /** Right after an eviction `last` is left on the newest entry `b`, so the
      next new key evicts `b` and keeps the older `a`. */
  lemma PutEvictsNewest<K, V>(a: K, va: V, b: K, vb: V, c: K, vc: V)
    requires a != b && c != a && c != b
    ensures Put(Fresh(2, a, va, b, vb), c, vc) == Done((Fresh(2, a, va, c, vc), true))
  {
    EvictSlotOne(a, va, b, vb);
    AppendToOne(a, va, 1, c, vc);
  }

  /** Overwriting the older entry of a pair with its own value moves it to
      the front, as a read does. */
  lemma RewriteOlderOfPair<K, V>(cap: nat, a: K, va: V, b: K, vb: V)
    requires a != b
    ensures Put(Pair(cap, a, va, b, vb), a, va) == Done((FrontA(cap, a, va, b, vb), true))
  {
    var r := Put(Pair(cap, a, va, b, vb), a, va);
    assert r.Done? && r.value.0.caching == FrontA(cap, a, va, b, vb).caching;
  }

  /** Put `a`, put `b` into an empty cache of capacity 2 and read both. */
  method UnitTestOpening(a: int, va: int, b: int, vb: int) returns (c: Cache<int, int>, gets: seq<Option<int>>)
    requires a != b
    ensures c == FrontB(2, a, va, b, vb)
    ensures gets == [Some(va), Some(vb)]
  {
    PutIntoEmpty(2, a, va);
    PutIntoSingle(2, a, va, b, vb);
    ReadOlderOfPair(2, a, va, b, vb);
    ReadB(2, a, va, b, vb);
    var got: Option<int>;
    c := New(2);
    c := Put(c, a, va).value.0;
    c := Put(c, b, vb).value.0;
    c, got := Get(c, a).value.0, Get(c, a).value.1;
    gets := [got];
    c, got := Get(c, b).value.0, Get(c, b).value.1;
    gets := gets + [got];
  }

  /** Reads of absent keys return nothing and leave the cache alone. */
  method ReadAbsent<K, V>(c: Cache<K, V>, keys: seq<K>) returns (gets: seq<Option<V>>)
    requires forall i :: 0 <= i < |keys| ==> keys[i] !in c.mapping
    ensures |gets| == |keys| && forall i :: 0 <= i < |keys| ==> gets[i] == None
  {
    gets := [];
    for i := 0 to |keys|
      invariant |gets| == i && forall j :: 0 <= j < i ==> gets[j] == None
    {
      var r := Get(c, keys[i]);
      assert r == Done((c, None));
      gets := gets + [r.value.1];
    }
  }

  /** One round of the unit test after a read of `a` then `b`: put `d`,
      read every key of `gone` (none is present), then read `b` and `d`. */
  method UnitTestRound(c0: Cache<int, int>, a: int, va: int, b: int, vb: int, d: int, vd: int, gone: seq<int>)
    returns (c: Cache<int, int>, gets: seq<Option<int>>)
    requires c0 == FrontB(2, a, va, b, vb) && a != b && d != a && d != b
    requires forall i :: 0 <= i < |gone| ==> gone[i] != b && gone[i] != d
    ensures c == FrontB(2, b, vb, d, vd)
    ensures |gets| == |gone| + 2 && gets[|gone|] == Some(vb) && gets[|gone| + 1] == Some(vd)
    ensures forall i :: 0 <= i < |gone| ==> gets[i] == None
  {
    PutEvictsOlder(a, va, b, vb, d, vd);
    ReadOlderOfFresh(2, b, vb, d, vd);
    ReadB(2, b, vb, d, vd);
    c := Put(c0, d, vd).value.0;
    forall i | 0 <= i < |gone| ensures gone[i] !in c.mapping {
      FreshReads(2, b, vb, d, vd, gone[i]);
    }
    gets := ReadAbsent(c, gone);
    var got: Option<int>;
    c, got := Get(c, b).value.0, Get(c, b).value.1;
    gets := gets + [got];
    c, got := Get(c, d).value.0, Get(c, d).value.1;
    gets := gets + [got];
  }

  /** A key other than the two of a fresh pair reads as absent; the newer of
      the two is already first, so reading it changes nothing. */
  lemma FreshReads<K, V>(cap: nat, a: K, va: V, b: K, vb: V, x: K)
    requires a != b && x != a && x != b
    ensures x !in Fresh(cap, a, va, b, vb).mapping
    ensures Get(Fresh(cap, a, va, b, vb), x) == Done((Fresh(cap, a, va, b, vb), None))
    ensures Get(Fresh(cap, a, va, b, vb), b) == Done((Fresh(cap, a, va, b, vb), Some(vb)))
  {
  }

  /** The last round of the unit test: put `d`, then read the absent `x`,
      `d`, the evicted `a` and `b`. */
  method UnitTestClosing(c0: Cache<int, int>, a: int, va: int, b: int, vb: int, d: int, vd: int, x: int)
    returns (gets: seq<Option<int>>)
    requires c0 == FrontB(2, a, va, b, vb) && a != b && d != a && d != b && x != b && x != d
    ensures gets == [None, Some(vd), None, Some(vb)]
  {
    PutEvictsOlder(a, va, b, vb, d, vd);
    ReadOlderOfFresh(2, b, vb, d, vd);
    FreshReads(2, b, vb, d, vd, x);
    FreshReads(2, b, vb, d, vd, a);
    var c := Put(c0, d, vd).value.0;
    var g1, g2, g3, g4;
    c, g1 := Get(c, x).value.0, Get(c, x).value.1;
    c, g2 := Get(c, d).value.0, Get(c, d).value.1;
    c, g3 := Get(c, a).value.0, Get(c, a).value.1;
    g4 := Get(c, b).value.1;
    gets := [g1, g2, g3, g4];
  }

  /** The whole of `test_lru_cache`: every read returns what the test
      expects. */
  method UnitTestScenario() returns (gets: seq<Option<int>>)
    ensures gets ==
      [Some(10), Some(20), None, Some(20), Some(30)] +
      [None, None, Some(30), Some(40)] +
      [None, None, Some(40), Some(20)] +
      [None, None, None, Some(20), Some(50)] +
      [None, Some(10), None, Some(50)]
  {
    var c, g1 := UnitTestOpening(1, 10, 2, 20);
    var g2, g3, g4, g5, g6;
    c, g2 := UnitTestRound(c, 1, 10, 2, 20, 3, 30, [1]);
    c, g3 := UnitTestRound(c, 2, 20, 3, 30, 4, 40, [1, 2]);
    c, g4 := UnitTestRound(c, 3, 30, 4, 40, 2, 20, [1, 3]);
    c, g5 := UnitTestRound(c, 4, 40, 2, 20, 5, 50, [1, 3, 4]);
    g6 := UnitTestClosing(c, 2, 20, 5, 50, 1, 10, 4);
    assert g2 == [None, Some(20), Some(30)];
    assert g3 == [None, None, Some(30), Some(40)];
    assert g4 == [None, None, Some(40), Some(20)];
    assert g5 == [None, None, None, Some(20), Some(50)];
    gets := g1 + g2 + g3 + g4 + g5 + g6;
  }

  /** Put `a`, `b`, `d` into an empty cache of capacity 2: `a` is evicted. */
  method Overflow(a: int, va: int, b: int, vb: int, d: int, vd: int) returns (c: Cache<int, int>)
    requires a != b && d != a && d != b
    ensures c == Fresh(2, b, vb, d, vd)
  {
    PutIntoEmpty(2, a, va);
    PutIntoSingle(2, a, va, b, vb);
    PutEvictsOlder(a, va, b, vb, d, vd);
    c := New(2);
    c := Put(c, a, va).value.0;
    c := Put(c, b, vb).value.0;
    c := Put(c, d, vd).value.0;
  }

  /** `test_lru_cache_remove_last`: put 1, put 2, put 3 into a cache of
      capacity 2, then read 1, 2 and 3. */
  method RemoveLastScenario() returns (gets: seq<Option<int>>)
    ensures gets == [None, Some(20), Some(30)]
  {
    ReadOlderOfFresh(2, 2, 20, 3, 30);
    ReadB(2, 2, 20, 3, 30);
    var c := Overflow(1, 10, 2, 20, 3, 30);
    var got: Option<int>;
    got := Get(c, 1).value.1;
    gets := [got];
    c, got := Get(c, 2).value.0, Get(c, 2).value.1;
    gets := gets + [got];
    got := Get(c, 3).value.1;
    gets := gets + [got];
  }

  /** `test_empty_cache`: a cache of capacity 0 refuses a put and has
      nothing to read. */
  method EmptyCacheScenario() returns (stored: bool, got: Option<int>)
    ensures !stored && got == None
  {
    var c := New<int, int>(0);
    var r := Put(c, 1, 10);
    c, stored := r.value.0, r.value.1;
    got := Get(c, 1).value.1;
  }

  /** `test_update_existing_key`: put 1 twice keeps one entry holding the
      second value. */
  method UpdateScenario() returns (got: Option<int>, size: nat)
    ensures got == Some(20) && size == 1
  {
    PutIntoEmpty(2, 1, 10);
    var c := New(2);
    c := Put(c, 1, 10).value.0;
    var r := Put(c, 1, 20);
    c := r.value.0;
    got := Get(c, 1).value.1;
    size := |c.mapping|;
  }

  /** Capacity 2: after put 1, put 2, put 3 the next new key 1 evicts 3,
      the entry just inserted, and keeps 2, which nothing has used since. */
  method NewestEvictedScenario() returns (two: Option<int>, three: Option<int>)
    ensures two == Some(20) && three == None
  {
    PutEvictsNewest(2, 20, 3, 30, 1, 10);
    ReadOlderOfFresh(2, 2, 20, 1, 10);
    var c := Overflow(1, 10, 2, 20, 3, 30);
    c := Put(c, 1, 10).value.0;
    assert c == Fresh(2, 2, 20, 1, 10);
    three := Get(c, 3).value.1;
    two := Get(c, 2).value.1;
  }

  /** Three entries after a read of `a` and a put of `c` with room to
      spare: `c` is first, `b` last. */
  function Trio<K, V>(a: K, va: V, b: K, vb: V, c: K, vc: V): Cache<K, V> {
    Cache(map[a := 0, b := 1, c := 2], [Node(a, va, 1, 2), Node(b, vb, 0, 0), Node(c, vc, 0, 1)], 3, 2, 1)
  }

  /** `Trio` after `b` was evicted for `d`: `last` now at `a`. */
  function TrioEvicted<K, V>(a: K, va: V, c: K, vc: V, d: K, vd: V): Cache<K, V> {
    Cache(map[a := 0, c := 1, d := 2], [Node(a, va, 0, 0), Node(c, vc, 0, 2), Node(d, vd, 1, 0)], 3, 2, 0)
  }

  /** `TrioEvicted` after a rewrite of `a`: `first` and `last` both at `a`. */
  function TrioCornered<K, V>(a: K, va: V, c: K, vc: V, d: K, vd: V): Cache<K, V> {
    Cache(map[a := 0, c := 1, d := 2], [Node(a, va, 2, 0), Node(c, vc, 0, 2), Node(d, vd, 1, 0)], 3, 0, 0)
  }

  lemma PutWithRoom<K, V>(a: K, va: V, b: K, vb: V, c: K, vc: V)
    requires a != b && c != a && c != b
    ensures Put(FrontA(3, a, va, b, vb), c, vc) == Done((Trio(a, va, b, vb, c, vc), true))
  {
    var r := Put(FrontA(3, a, va, b, vb), c, vc);
    assert r.Done? && r.value.0.caching == Trio(a, va, b, vb, c, vc).caching && r.value.0.mapping == Trio(a, va, b, vb, c, vc).mapping;
  }

  lemma EvictMiddle<K, V>(a: K, va: V, b: K, vb: V, c: K, vc: V)
    requires a != b && c != a && c != b
    ensures Evict(Trio(a, va, b, vb, c, vc)) == Done(Cache(map[a := 0, c := 1], [Node(a, va, 0, 0), Node(c, vc, 0, 1)], 3, 1, 0))
  {
    var t := Trio(a, va, b, vb, c, vc);
    var r := Evict(t);
    assert Shift(t.mapping - {b}, 1) == map[a := 0, c := 1];
    assert r.Done? && r.value.caching == [Node(a, va, 0, 0), Node(c, vc, 0, 1)] && r.value.mapping == map[a := 0, c := 1];
  }

  lemma PutIntoFullTrio<K, V>(a: K, va: V, b: K, vb: V, c: K, vc: V, d: K, vd: V)
    requires a != b && c != a && c != b && d != a && d != b && d != c
    ensures Put(Trio(a, va, b, vb, c, vc), d, vd) == Done((TrioEvicted(a, va, c, vc, d, vd), true))
  {
    EvictMiddle(a, va, b, vb, c, vc);
    var r := Append(Cache(map[a := 0, c := 1], [Node(a, va, 0, 0), Node(c, vc, 0, 1)], 3, 1, 0), d, vd);
    assert r.Done? && r.value.caching == TrioEvicted(a, va, c, vc, d, vd).caching;
    assert r.value.mapping == TrioEvicted(a, va, c, vc, d, vd).mapping;
  }

  lemma RewriteLast<K, V>(a: K, va: V, c: K, vc: V, d: K, vd: V)
    requires a != c && d != a && d != c
    ensures Put(TrioEvicted(a, va, c, vc, d, vd), a, va) == Done((TrioCornered(a, va, c, vc, d, vd), true))
  {
    var r := Put(TrioEvicted(a, va, c, vc, d, vd), a, va);
    assert r.Done? && r.value.0.caching == TrioCornered(a, va, c, vc, d, vd).caching;
  }

  lemma CorneredPanics<K, V>(a: K, va: V, c: K, vc: V, d: K, vd: V, e: K, ve: V)
    requires a != c && d != a && d != c && e != a && e != c && e != d
    ensures Put(TrioCornered(a, va, c, vc, d, vd), e, ve).Panic?
  {
    var t := TrioCornered(a, va, c, vc, d, vd);
    var r := Evict(t);
    assert Shift(t.mapping - {a}, 0) == map[c := 0, d := 1];
    assert r.Done? && r.value.caching == [Node(c, vc, 0, 2), Node(d, vd, 1, 0)] && r.value.first == 2;
  }

  /** Capacity 3: put 1, 2, 1, 3, 4, 1 leaves `first` and `last` both on
      key 1; the next new key evicts it, moves `first` to the slot past the
      shortened arena and the push then indexes that slot: a panic. */
  method PanicScenario() returns (r: Outcome<(Cache<int, int>, bool)>)
    ensures r.Panic?
  {
    PutIntoEmpty(3, 1, 10);
    PutIntoSingle(3, 1, 10, 2, 20);
    RewriteOlderOfPair(3, 1, 10, 2, 20);
    PutWithRoom(1, 10, 2, 20, 3, 30);
    PutIntoFullTrio(1, 10, 2, 20, 3, 30, 4, 40);
    RewriteLast(1, 10, 3, 30, 4, 40);
    CorneredPanics(1, 10, 3, 30, 4, 40, 2, 20);
    var c := New(3);
    c := Put(c, 1, 10).value.0;
    c := Put(c, 2, 20).value.0;
    c := Put(c, 1, 10).value.0;
    c := Put(c, 3, 30).value.0;
    c := Put(c, 4, 40).value.0;
    c := Put(c, 1, 10).value.0;
    r := Put(c, 2, 20);
  }

  // ------------------------------------------------- capacity one

  /** A full cache of capacity 1 never takes a new key: evicting its only
      node hangs on the `first` lock. */
  lemma CapacityOneHangs<K, V>(c: Cache<K, V>, key: K, value: V)
    requires c.capacity == 1 && |c.caching| == 1 && key !in c.mapping
    ensures Put(c, key, value).Panic?
  {
  }

  /** `LruCache::new(1)`, `put(a)`, `put(b)`: the first put stores `a`, the
      second never returns. */
  lemma CapacityOneScenario<K, V>(a: K, va: V, b: K, vb: V)
    requires a != b
    ensures Put(New(1), a, va) == Done((Single(1, a, va), true))
    ensures Put(Single(1, a, va), b, vb).Panic?
  {
    PutIntoEmpty(1, a, va);
    CapacityOneHangs(Single(1, a, va), b, vb);
  }

  /** The eviction as intended: taking the only node leaves an empty arena
      with both ends reset, as lines 116-118 mean to do. */
  function EvictFixed<K, V>(c: Cache<K, V>): (r: Outcome<Cache<K, V>>)
    ensures |c.caching| != 1 || c.last != 0 ==> r == Evict(c)
    ensures |c.caching| == 1 && c.last == 0 ==>
      r.Done? && r.value.caching == [] && r.value.first == 0 && r.value.last == 0 &&
      r.value.mapping.Keys == c.mapping.Keys - {c.caching[0].key} && r.value.capacity == c.capacity
  {
    if |c.caching| == 1 && c.last == 0 then
      Done(c.(mapping := Shift(c.mapping - {c.caching[0].key}, 0), caching := [], first := 0, last := 0))
    else Evict(c)
  }

  /** `put` with the intended eviction. */
  function PutFixed<K, V>(c: Cache<K, V>, key: K, value: V): (r: Outcome<(Cache<K, V>, bool)>)
    ensures |c.caching| != 1 ==> r == Put(c, key, value)
  {
    if key !in c.mapping && 0 < c.capacity <= |c.caching| then Admit(EvictFixed(c), key, value)
    else Put(c, key, value)
  }

  /** With the intended eviction a full cache of capacity 1 swaps its entry
      for the new one. */
  lemma CapacityOneFixed<K, V>(c: Cache<K, V>, key: K, value: V)
    requires Indexed(c) && c.capacity == 1 && |c.caching| == 1 && c.last == 0 && key !in c.mapping
    ensures PutFixed(c, key, value) == Done((Single(1, key, value), true))
    ensures Contents(PutFixed(c, key, value).value.0) == map[key := value]
  {
    assert c.mapping.Keys == {c.caching[0].key};
    var r := PutFixed(c, key, value);
    assert r.Done? && r.value.0.caching == Single(1, key, value).caching && r.value.0.mapping == Single(1, key, value).mapping;
    ContentsAre(Single(1, key, value), map[key := value]);
  }

  /** `put(a)`, `put(b)` on a cache of capacity 1 leaves `b` alone, as
      intended. */
  lemma CapacityOneFixedScenario<K, V>(a: K, va: V, b: K, vb: V)
    requires a != b
    ensures PutFixed(Single(1, a, va), b, vb) == Done((Single(1, b, vb), true))
  {
    CapacityOneFixed(Single(1, a, va), b, vb);
  }
}

=== FILE: snowflake.dfy ===
/** Snowflake id generation (`pkgs/backend/src/algorithm/snowflakeid.rs`).

    The generator keeps one 64-bit state word holding the last timestamp
    (milliseconds since a configured start, upper bits) and a 12-bit sequence
    (lower bits). An id packs a 40-bit timestamp, the 12-bit sequence and a
    10-bit machine id. The clock reading is a parameter. The source retries
    inside a compare-and-swap loop; the model is single-threaded, so the swap
    always succeeds and one attempt either issues an id or asks to retry (the
    sequence would wrap within one millisecond).
 */
module Snowflake {
  import opened Wrappers

  const U64: nat := 0x1_0000_0000_0000_0000
  const SeqSpan: nat := 0x1000          // 12 sequence bits in the state and the id
  const MachineSpan: nat := 0x400       // 10 machine bits in the id
  const TsSpan: nat := 0x100_0000_0000  // 40 timestamp bits in the id

  type U16 = x: nat | x < 0x1_0000
  type U64Word = x: nat | x < 0x1_0000_0000_0000_0000

  datatype Generator = Generator(startTime: U64Word, machineId: nat)

  /** `SnowflakeId::new`: machine ids of 10 bits or more are a panic. The
      state word starts at zero, kept by the caller. */
  function New(machineId: U16, startTime: U64Word): (r: Result<Generator, string>)
    ensures r.Ok? <==> machineId < MachineSpan
    ensures r.Ok? ==> r.value.machineId == machineId && r.value.startTime == startTime
  {
    if machineId >= MachineSpan then Err("machine_id too large, only 0..1023")
    else Ok(Generator(startTime, machineId))
  }

  /** The timestamp half of a state word (`state >> 12`). */
  function Ts(state: U64Word): nat {
    state / SeqSpan
  }

  /** The sequence half of a state word (`state & 0xFFF`). */
  function Seq(state: U64Word): nat {
    state % SeqSpan
  }

  /** `(ts << 12) | seq` on `u64`: the shift drops the bits above 64. */
  function Pack(ts: nat, sq: nat): (r: U64Word)
    requires sq < SeqSpan
  {
    (ts * SeqSpan) % U64 + sq
  }

  /** The id layout: `(ts & (2^40 - 1)) << 22 | (seq & 0xFFF) << 10 | machine & 0x3FF`.
      The three fields occupy disjoint bits, so the `|` is a sum. */
  function IdOf(ts: nat, sq: nat, machineId: nat): nat {
    (ts % TsSpan) * (SeqSpan * MachineSpan) + (sq % SeqSpan) * MachineSpan + machineId % MachineSpan
  }

  /** `now.saturating_sub(start)`. */
  function SatSub(a: nat, b: nat): nat {
    if a > b then a - b else 0
  }

  datatype Attempt = Retry | Issued(state: U64Word, id: nat)

  /** One pass of `generate`'s loop with the clock reading `nowMs`. */
  function Generate(g: Generator, state: U64Word, nowMs: U64Word): (r: Attempt)
    // a retry happens exactly when the clock has not advanced and the sequence is exhausted
    ensures r.Retry? <==> SatSub(nowMs, g.startTime) <= Ts(state) && Seq(state) == SeqSpan - 1
    // the id carries the machine id in its low bits and the new state's fields above them
    ensures r.Issued? ==> r.id % MachineSpan == g.machineId % MachineSpan
    ensures r.Issued? ==> r.id / MachineSpan % SeqSpan == Seq(r.state)
    ensures r.Issued? ==> r.id / (SeqSpan * MachineSpan) == Ts(r.state) % TsSpan
  {
    var cur := SatSub(nowMs, g.startTime);
    var oldTs := Ts(state);
    var oldSeq := Seq(state);
    if cur > oldTs then
      IssuedFields(cur, 0, g.machineId);
      Issued(Pack(cur, 0), IdOf(cur, 0, g.machineId))
    else
      var next := (oldSeq + 1) % SeqSpan;
      if next == 0 then Retry
      else
        PackUnpack(oldTs, next);
        IssuedFields(oldTs, next, g.machineId);
        Issued(Pack(oldTs, next), IdOf(oldTs, next, g.machineId))
  }

  /** Unpacking a packed word gives back its fields while the timestamp fits
      the 52 bits left above the sequence. */
  lemma PackUnpack(ts: nat, sq: nat)
    requires sq < SeqSpan && ts < U64 / SeqSpan
    ensures Ts(Pack(ts, sq)) == ts && Seq(Pack(ts, sq)) == sq
  {
    assert ts * SeqSpan < U64;
    assert Pack(ts, sq) == ts * SeqSpan + sq;
  }

  /** The id's fields read back from its bits. */
  lemma IdFields(ts: nat, sq: nat, machineId: nat)
    requires sq < SeqSpan
    ensures IdOf(ts, sq, machineId) % MachineSpan == machineId % MachineSpan
    ensures IdOf(ts, sq, machineId) / MachineSpan % SeqSpan == sq
    ensures IdOf(ts, sq, machineId) / (SeqSpan * MachineSpan) == ts % TsSpan
  {
    var t := ts % TsSpan;
    var m := machineId % MachineSpan;
    var high := t * SeqSpan + sq;
    assert IdOf(ts, sq, machineId) == high * MachineSpan + m;
    assert IdOf(ts, sq, machineId) / MachineSpan == high;
    assert high % SeqSpan == sq;
    assert IdOf(ts, sq, machineId) == t * (SeqSpan * MachineSpan) + (sq * MachineSpan + m);
    assert sq * MachineSpan + m < SeqSpan * MachineSpan;
  }

  /** The id's fields agree with the word the generator stores. */
  lemma IssuedFields(ts: nat, sq: nat, machineId: nat)
    requires sq < SeqSpan
    ensures IdOf(ts, sq, machineId) % MachineSpan == machineId % MachineSpan
    ensures IdOf(ts, sq, machineId) / MachineSpan % SeqSpan == Seq(Pack(ts, sq))
    ensures IdOf(ts, sq, machineId) / (SeqSpan * MachineSpan) == Ts(Pack(ts, sq)) % TsSpan
  {
    IdFields(ts, sq, machineId);
    ShiftedWord(ts);
    var t := ts % (U64 / SeqSpan);
    SplitWord(t, sq);
    assert t % TsSpan == ts % TsSpan by { NestedMod(ts); }
  }

  /** The fields of `t * 2^12 + sq` for a 12-bit `sq`. */
  lemma SplitWord(t: nat, sq: nat)
    requires sq < SeqSpan
    ensures (t * SeqSpan + sq) / SeqSpan == t && (t * SeqSpan + sq) % SeqSpan == sq
  {
  }

  /** Keeping 52 low bits and then 40 low bits keeps 40 low bits. */
  lemma NestedMod(ts: nat)
    ensures (ts % (U64 / SeqSpan)) % TsSpan == ts % TsSpan
  {
    var k := U64 / SeqSpan / TsSpan;
    assert U64 / SeqSpan == TsSpan * k;
    var q := ts / (U64 / SeqSpan);
    var t := ts % (U64 / SeqSpan);
    assert ts == (q * k) * TsSpan + t;
  }

  /** `ts << 12` in a 64-bit word keeps the low 52 bits of `ts`. */
  lemma ShiftedWord(ts: nat)
    ensures (ts * SeqSpan) % U64 == (ts % (U64 / SeqSpan)) * SeqSpan
  {
    var q := ts / (U64 / SeqSpan);
    var t := ts % (U64 / SeqSpan);
    assert ts * SeqSpan == q * U64 + t * SeqSpan;
    assert t * SeqSpan < U64;
  }

  /** While timestamps fit 40 bits, an id is the state word shifted past the
      machine bits, with the machine id below. */
  lemma IdIsScaledState(g: Generator, state: U64Word, nowMs: U64Word)
    requires g.machineId < MachineSpan
    requires SatSub(nowMs, g.startTime) < TsSpan && Ts(state) < TsSpan
    requires Generate(g, state, nowMs).Issued?
    ensures var r := Generate(g, state, nowMs);
      r.id == r.state * MachineSpan + g.machineId && r.state > state && Ts(r.state) < TsSpan
  {
    var cur := SatSub(nowMs, g.startTime);
    GenerateIssues(g, state, nowMs);
    if cur > Ts(state) {
      ScaledId(cur, 0, g.machineId);
      StateGrows(state, cur, 0);
      PackUnpack(cur, 0);
    } else {
      ScaledId(Ts(state), Seq(state) + 1, g.machineId);
      StateGrows(state, Ts(state), Seq(state) + 1);
      PackUnpack(Ts(state), Seq(state) + 1);
    }
  }

  /** The two ways `generate` issues an id. */
  lemma GenerateIssues(g: Generator, state: U64Word, nowMs: U64Word)
    requires Generate(g, state, nowMs).Issued?
    ensures var cur := SatSub(nowMs, g.startTime);
      cur > Ts(state) ==> Generate(g, state, nowMs) == Issued(Pack(cur, 0), IdOf(cur, 0, g.machineId))
    ensures var cur := SatSub(nowMs, g.startTime);
      cur <= Ts(state) ==>
        (Seq(state) + 1 < SeqSpan &&
         Generate(g, state, nowMs) == Issued(Pack(Ts(state), Seq(state) + 1), IdOf(Ts(state), Seq(state) + 1, g.machineId)))
  {
    NextSeq(Seq(state));
  }

  /** The sequence counter wraps to 0 only from its last value. */
  lemma NextSeq(sq: nat)
    requires sq < SeqSpan
    ensures (sq + 1) % SeqSpan == if sq + 1 == SeqSpan then 0 else sq + 1
  {
  }

  /** A later timestamp, or the same one with the next sequence number, packs
      to a larger state word. */
  lemma StateGrows(state: U64Word, ts: nat, sq: nat)
    requires ts < TsSpan && sq < SeqSpan
    requires ts > Ts(state) || (ts == Ts(state) && sq == Seq(state) + 1)
    ensures Pack(ts, sq) > state
  {
    assert ts * SeqSpan < TsSpan * SeqSpan;
    assert Pack(ts, sq) == ts * SeqSpan + sq;
    assert state == Ts(state) * SeqSpan + Seq(state);
    if ts > Ts(state) {
      assert (Ts(state) + 1) * SeqSpan <= ts * SeqSpan;
    }
  }

  /** With every field inside its width, the id is the packed state word
      shifted past the machine bits. */
  lemma ScaledId(ts: nat, sq: nat, machineId: nat)
    requires ts < TsSpan && sq < SeqSpan && machineId < MachineSpan
    ensures IdOf(ts, sq, machineId) == Pack(ts, sq) * MachineSpan + machineId
  {
    assert Pack(ts, sq) == ts * SeqSpan + sq;
    assert ts * SeqSpan < TsSpan * SeqSpan;
    assert (ts * SeqSpan + sq) * MachineSpan == ts * (SeqSpan * MachineSpan) + sq * MachineSpan;
  }

  /** The timestamp in the state never goes back, whatever the clock does. */
  lemma TimestampNeverDecreases(g: Generator, state: U64Word, nowMs: U64Word)
    requires SatSub(nowMs, g.startTime) < U64 / SeqSpan
    requires Generate(g, state, nowMs).Issued?
    ensures Ts(Generate(g, state, nowMs).state) >= Ts(state)
    ensures SatSub(nowMs, g.startTime) > Ts(state) ==>
      Ts(Generate(g, state, nowMs).state) == SatSub(nowMs, g.startTime) && Seq(Generate(g, state, nowMs).state) == 0
    ensures SatSub(nowMs, g.startTime) <= Ts(state) ==>
      Ts(Generate(g, state, nowMs).state) == Ts(state) && Seq(Generate(g, state, nowMs).state) == Seq(state) + 1
  {
    var cur := SatSub(nowMs, g.startTime);
    if cur > Ts(state) {
      PackUnpack(cur, 0);
    } else {
      PackUnpack(Ts(state), Seq(state) + 1);
    }
  }

  /** A run of `generate` calls, one per clock reading; retries issue nothing. */
  function Run(g: Generator, state: U64Word, clock: seq<U64Word>): (r: (seq<nat>, U64Word))
    decreases |clock|
  {
    if |clock| == 0 then ([], state)
    else
      match Generate(g, state, clock[0])
      case Retry => Run(g, state, clock[1..])
      case Issued(next, id) =>
        var rest := Run(g, next, clock[1..]);
        ([id] + rest.0, rest.1)
  }

  /** While timestamps fit 40 bits, a single-threaded run issues strictly
      increasing, hence pairwise distinct, ids. */
  lemma {:induction false} RunIdsIncrease(g: Generator, state: U64Word, clock: seq<U64Word>)
    requires g.machineId < MachineSpan && Ts(state) < TsSpan
    requires forall k :: 0 <= k < |clock| ==> SatSub(clock[k], g.startTime) < TsSpan
    ensures forall k :: 0 <= k < |Run(g, state, clock).0| ==> Run(g, state, clock).0[k] > state * MachineSpan + g.machineId
    ensures forall k, l :: 0 <= k < l < |Run(g, state, clock).0| ==> Run(g, state, clock).0[k] < Run(g, state, clock).0[l]
    decreases |clock|
  {
    if |clock| > 0 {
      match Generate(g, state, clock[0])
      case Retry =>
        RunIdsIncrease(g, state, clock[1..]);
      case Issued(next, id) =>
        IdIsScaledState(g, state, clock[0]);
        RunIdsIncrease(g, next, clock[1..]);
        var ids := Run(g, state, clock).0;
        assert ids == [id] + Run(g, next, clock[1..]).0;
    }
  }

  /** Within one millisecond the sequence bits of consecutive ids go up by one. */
  lemma SameMillisecond(g: Generator, state: U64Word, nowMs: U64Word)
    requires SatSub(nowMs, g.startTime) < U64 / SeqSpan
    requires Generate(g, state, nowMs).Issued?
    requires Generate(g, Generate(g, state, nowMs).state, nowMs).Issued?
    ensures Generate(g, Generate(g, state, nowMs).state, nowMs).id / MachineSpan % SeqSpan ==
      Generate(g, state, nowMs).id / MachineSpan % SeqSpan + 1
  {
    var first := Generate(g, state, nowMs);
    TimestampNeverDecreases(g, state, nowMs);
    TimestampNeverDecreases(g, first.state, nowMs);
  }

  /** The single-thread burst of the module's tests: from the zero state,
      two calls in the same millisecond issue different ids, and a non-zero
      machine id gives a positive id. */
  lemma BurstScenario(nowMs: U64Word, startTime: U64Word)
    requires SatSub(nowMs, startTime) < TsSpan
    ensures var g := Generator(startTime, 42);
      var a := Generate(g, 0, nowMs);
      a.Issued? && a.id > 0 &&
      Generate(g, a.state, nowMs).Issued? && Generate(g, a.state, nowMs).id != a.id
  {
    var g := Generator(startTime, 42);
    var a := Generate(g, 0, nowMs);
    IdIsScaledState(g, 0, nowMs);
    TimestampNeverDecreases(g, 0, nowMs);
    IdIsScaledState(g, a.state, nowMs);
  }
}

=== FILE: variables.dfy ===
/** The bounded time-series store of the fuzzy-rule engine
    (`Variables` in `pkgs/backend/src/algorithm/fuzzy/variables.rs`; the older
    `backend/src/algorithm/fuzzy/variables.rs` has the same in-memory code).

    Each named variable holds a `VecDeque<f64>` with the newest value at the
    front. The model covers a store without an S3 client (the state `new`
    builds): the parquet buffers, scopes and uploads are left out, so a value
    is a `real` and the store is the map from names to series plus the
    series capacity `variables_size`.
 */
module FuzzyVariables {
  import opened Wrappers

  /** `usize::MAX` on a 64-bit target. */
  const UsizeMax: nat := 0xFFFF_FFFF_FFFF_FFFF

  datatype Variables = Variables(series: map<string, seq<real>>, size: nat)

  datatype VarError =
    | AlreadyExists(name: string)
    | NotFound(name: string)
    | InvalidFormat
    | InvalidIndex
    | OutOfBounds(index: nat, name: string)
    | Empty(name: string)

  /** How many values a series can hold: `update_variable` pops only a
      non-empty deque, so a capacity of 0 still keeps the newest value. */
  function Capacity(size: nat): (n: nat)
    ensures n >= 1 && n >= size
  {
    if size == 0 then 1 else size
  }

  /** Every series is within capacity. */
  predicate Valid(v: Variables) {
    forall name :: name in v.series ==> |v.series[name]| <= Capacity(v.size)
  }

  /** `Variables::new`: no variables yet. */
  function New(size: nat): (r: Variables)
    ensures r.series == map[] && r.size == size && Valid(r)
  {
    Variables(map[], size)
  }

  /** `create`: a fresh variable starts with an empty series; an existing
      name is rejected and nothing changes. */
  function Create(v: Variables, name: string): (r: Result<Variables, VarError>)
    ensures r.Err? <==> name in v.series
    ensures r.Err? ==> r.error == AlreadyExists(name)
    ensures r.Ok? ==> r.value.size == v.size && r.value.series.Keys == v.series.Keys + {name}
    ensures r.Ok? ==> r.value.series[name] == []
    ensures r.Ok? ==> forall n :: n in v.series ==> r.value.series[n] == v.series[n]
    ensures Valid(v) && r.Ok? ==> Valid(r.value)
  {
    if name in v.series then Err(AlreadyExists(name))
    else Ok(v.(series := v.series[name := []]))
  }

  /** One `update_variable` step on a series: drop the back when the series
      has reached `size`, then push the value at the front. */
  function Push(s: seq<real>, value: real, size: nat): (r: seq<real>)
    ensures |s| < size ==> |r| == |s| + 1
    ensures |s| >= size ==> |r| == if |s| == 0 then 1 else |s|
    ensures r[0] == value && r[1..] == s[..|r| - 1]
    ensures |s| <= Capacity(size) ==> |r| <= Capacity(size)
  {
    if |s| >= size && |s| > 0 then [value] + s[..|s| - 1] else [value] + s
  }

  /** `update` without an S3 client (`update_variable`): pushes the value to
      the front of the named series and returns the new length. An unknown
      name is an error and changes nothing. */
  function Update(v: Variables, name: string, value: real): (r: Result<(Variables, nat), VarError>)
    ensures r.Err? <==> name !in v.series
    ensures r.Err? ==> r.error == NotFound(name)
    ensures r.Ok? ==> r.value.0.size == v.size && r.value.0.series.Keys == v.series.Keys
    ensures r.Ok? ==> forall n :: n in v.series && n != name ==> r.value.0.series[n] == v.series[n]
    ensures r.Ok? ==> r.value.1 == |r.value.0.series[name]| >= 1
    ensures r.Ok? ==> r.value.0.series[name][0] == value
    ensures r.Ok? ==> r.value.0.series[name][1..] <= v.series[name]
    ensures r.Ok? && |v.series[name]| < v.size ==> r.value.1 == |v.series[name]| + 1
    ensures Valid(v) && r.Ok? ==> Valid(r.value.0)
  {
    if name !in v.series then Err(NotFound(name))
    else
      var s := Push(v.series[name], value, v.size);
      Ok((v.(series := v.series[name := s]), |s|))
  }

  /** `get_by_index`: the value `index` steps back from the newest. */
  function GetByIndex(v: Variables, name: string, index: nat): (r: Result<real, VarError>)
    ensures name !in v.series ==> r == Err(NotFound(name))
    ensures name in v.series && index >= |v.series[name]| ==> r == Err(OutOfBounds(index, name))
    ensures r.Ok? <==> name in v.series && index < |v.series[name]|
    ensures r.Ok? ==> r.value == v.series[name][index]
  {
    if name !in v.series then Err(NotFound(name))
    else if index < |v.series[name]| then Ok(v.series[name][index])
    else Err(OutOfBounds(index, name))
  }

  /** `last`: the back of the series, the oldest value still kept. */
  function Last(v: Variables, name: string): (r: Result<real, VarError>)
    ensures name !in v.series ==> r == Err(NotFound(name))
    ensures name in v.series && v.series[name] == [] ==> r == Err(Empty(name))
    ensures r.Ok? <==> name in v.series && |v.series[name]| > 0
    ensures r.Ok? ==> r.value == v.series[name][|v.series[name]| - 1]
  {
    if name !in v.series then Err(NotFound(name))
    else if |v.series[name]| == 0 then Err(Empty(name))
    else Ok(v.series[name][|v.series[name]| - 1])
  }

  /** `len`. */
  function Len(v: Variables, name: string): (r: Result<nat, VarError>)
    ensures r.Err? <==> name !in v.series
    ensures r.Err? ==> r.error == NotFound(name)
    ensures r.Ok? ==> r.value == |v.series[name]|
  {
    if name !in v.series then Err(NotFound(name)) else Ok(|v.series[name]|)
  }

  /** `clear`: empties one series and keeps the name. */
  function Clear(v: Variables, name: string): (r: Result<Variables, VarError>)
    ensures r.Err? <==> name !in v.series
    ensures r.Err? ==> r.error == NotFound(name)
    ensures r.Ok? ==> r.value.series.Keys == v.series.Keys && r.value.series[name] == []
    ensures r.Ok? ==> forall n :: n in v.series && n != name ==> r.value.series[n] == v.series[n]
    ensures r.Ok? ==> r.value.size == v.size && Len(r.value, name) == Ok(0)
  {
    if name !in v.series then Err(NotFound(name))
    else Ok(v.(series := v.series[name := []]))
  }

  /** `clear_all`: forgets every variable (their buffers with them). */
  function ClearAll(v: Variables): (r: Variables)
    ensures r.series == map[] && r.size == v.size
    ensures forall name :: Len(r, name) == Err(NotFound(name))
  {
    v.(series := map[])
  }

  /** `flush` and `flush_all` without an S3 client: nothing happens. */
  function Flush(v: Variables): (r: Result<Variables, VarError>)
    ensures r == Ok(v)
  {
    Ok(v)
  }

  // ---------------------------------------------------------------------
  // `get_by_expr`: parsing "name[index]".

  predicate IsDigit(c: char) {
    '0' <= c <= '9'
  }

  predicate AllDigits(s: string) {
    forall i :: 0 <= i < |s| ==> IsDigit(s[i])
  }

  /** The value of a decimal digit string, most significant digit first. */
  function DigitsValue(s: string): nat
    requires AllDigits(s)
  {
    if |s| == 0 then 0
    else 10 * DigitsValue(s[..|s| - 1]) + (s[|s| - 1] as int - '0' as int)
  }

  /** `str::parse::<usize>`: an optional leading `+`, then one or more ASCII
      digits, and a value that fits `usize`. */
  function ParseUsize(s: string): (r: Option<nat>)
    ensures r.Some? ==> r.value <= UsizeMax
    ensures s == [] || s == "+" ==> r == None
  {
    if |s| == 0 then None
    else
      var digits := if s[0] == '+' then s[1..] else s;
      if |digits| == 0 || !AllDigits(digits) then None
      else if DigitsValue(digits) <= UsizeMax then Some(DigitsValue(digits))
      else None
  }

  /** `trim_end_matches(']')`: drops every trailing `]`. */
  function TrimClosing(s: string): (r: string)
    ensures r <= s
    ensures |r| > 0 ==> r[|r| - 1] != ']'
    ensures forall i :: |r| <= i < |s| ==> s[i] == ']'
  {
    if |s| == 0 || s[|s| - 1] != ']' then s else TrimClosing(s[..|s| - 1])
  }

  /** Where the first `[` is, if any. */
  function FindOpen(s: string): (r: Option<nat>)
    ensures r.None? <==> '[' !in s
    ensures r.Some? ==> r.value < |s| && s[r.value] == '[' && '[' !in s[..r.value]
  {
    if |s| == 0 then None
    else if s[0] == '[' then Some(0)
    else match FindOpen(s[1..])
      case None => None
      case Some(i) => assert s[1..][..i] == s[1..i + 1]; Some(i + 1)
  }

  /** `get_by_expr`: `expr.split('[')` must give exactly two parts, the name
      and an index that parses after its trailing `]`s are trimmed. */
  function GetByExpr(v: Variables, expr: string): (r: Result<real, VarError>)
    ensures '[' !in expr ==> r == Err(InvalidFormat)
    ensures forall i, j :: 0 <= i < j < |expr| && expr[i] == '[' && expr[j] == '[' ==> r == Err(InvalidFormat)
  {
    match FindOpen(expr)
    case None => Err(InvalidFormat)
    case Some(i) =>
      var name := expr[..i];
      var rest := expr[i + 1..];
      if '[' in rest then Err(InvalidFormat)
      else match ParseUsize(TrimClosing(rest))
        case None => Err(InvalidIndex)
        case Some(index) => GetByIndex(v, name, index)
  }

  /** The decimal numeral of `n` without leading zeros. */
  function Show(n: nat): (s: string)
    ensures |s| > 0 && AllDigits(s)
    decreases n
  {
    if n < 10 then [('0' as int + n) as char]
    else Show(n / 10) + [('0' as int + n % 10) as char]
  }

  lemma {:induction false} ShowValue(n: nat)
    ensures DigitsValue(Show(n)) == n
    decreases n
  {
    var s := Show(n);
    if n >= 10 {
      assert s[..|s| - 1] == Show(n / 10);
      ShowValue(n / 10);
    }
  }

  /** Parsing the numeral of an in-range index gives the index back. */
  lemma ParseShow(n: nat)
    requires n <= UsizeMax
    ensures ParseUsize(Show(n)) == Some(n)
  {
    ShowValue(n);
    assert Show(n)[0] != '+';
  }

  /** An expression with exactly one `[` splits there into the name and the
      index text. */
  lemma SplitOnce(v: Variables, name: string, tail: string)
    requires '[' !in name && '[' !in tail
    ensures GetByExpr(v, name + "[" + tail) ==
      match ParseUsize(TrimClosing(tail))
      case None => Err(InvalidIndex)
      case Some(index) => GetByIndex(v, name, index)
  {
    var expr := name + "[" + tail;
    assert expr[..|name|] == name && expr[|name|] == '[';
    assert FindOpen(expr) == Some(|name|);
    assert expr[|name| + 1..] == tail;
  }

  /** A numeral followed by closing brackets holds no `[`. */
  lemma NumeralHasNoOpen(index: nat, closing: nat)
    ensures '[' !in Show(index) + seq(closing, _ => ']')
  {
    var tail := Show(index) + seq(closing, _ => ']');
    forall k | 0 <= k < |tail| ensures tail[k] != '[' {
      if k < |Show(index)| {
        assert tail[k] == Show(index)[k];
        assert IsDigit(Show(index)[k]);
      }
    }
  }

  /** `get_by_expr("name[i]")` reads the same value as `get_by_index(name, i)`,
      for every name without a `[`, every `usize` index, and with the closing
      bracket written once, left out or repeated. */
  lemma ExprMatchesIndex(v: Variables, name: string, index: nat, closing: nat)
    requires '[' !in name && index <= UsizeMax
    ensures GetByExpr(v, name + "[" + Show(index) + seq(closing, _ => ']')) == GetByIndex(v, name, index)
  {
    var tail := Show(index) + seq(closing, _ => ']');
    assert name + "[" + Show(index) + seq(closing, _ => ']') == name + "[" + tail;
    NumeralHasNoOpen(index, closing);
    NumeralParses(index, closing);
    SplitOnce(v, name, tail);
  }

  lemma NumeralParses(index: nat, closing: nat)
    requires index <= UsizeMax
    ensures ParseUsize(TrimClosing(Show(index) + seq(closing, _ => ']'))) == Some(index)
  {
    TrimAfterDigits(Show(index), closing);
    ParseShow(index);
  }

  lemma {:induction false} TrimAfterDigits(digits: string, closing: nat)
    requires |digits| > 0 && AllDigits(digits)
    ensures TrimClosing(digits + seq(closing, _ => ']')) == digits
    decreases closing
  {
    var s := digits + seq(closing, _ => ']');
    if closing == 0 {
      assert s == digits;
      assert IsDigit(digits[|digits| - 1]);
    } else {
      assert s[..|s| - 1] == digits + seq(closing - 1, _ => ']');
      TrimAfterDigits(digits, closing - 1);
    }
  }

  // ---------------------------------------------------------------------
  // What a series holds after a run of updates.

  /** Reference definition: the `n` newest values of the history `xs`
      (oldest first), newest first. */
  function Newest(xs: seq<real>, n: nat): (r: seq<real>)
    ensures |r| == if n < |xs| then n else |xs|
  {
    if |xs| == 0 || n == 0 then [] else [xs[|xs| - 1]] + Newest(xs[..|xs| - 1], n - 1)
  }

  /** Feeds the history `xs`, oldest first, to `update_variable`. */
  function PushAll(s: seq<real>, xs: seq<real>, size: nat): seq<real>
  {
    if |xs| == 0 then s else Push(PushAll(s, xs[..|xs| - 1], size), xs[|xs| - 1], size)
  }

  lemma {:induction false} NewestShorter(xs: seq<real>, n: nat)
    requires n >= 1
    ensures Newest(xs, n - 1) == Newest(xs, n)[..|Newest(xs, n - 1)|]
  {
    if |xs| > 0 && n > 1 {
      NewestShorter(xs[..|xs| - 1], n - 1);
    }
  }

  lemma {:induction false} NewestAll(xs: seq<real>, n: nat)
    requires n >= |xs|
    ensures Newest(xs, n) == Newest(xs, n + 1)
  {
    if |xs| > 0 {
      NewestAll(xs[..|xs| - 1], n - 1);
    }
  }

  /** Starting from an empty series, the store keeps exactly the
      `Capacity(size)` newest values, newest first: index 0 is the latest
      update and the back is the oldest value still kept. */
  lemma {:induction false} UpdatesKeepNewest(xs: seq<real>, size: nat)
    ensures PushAll([], xs, size) == Newest(xs, Capacity(size))
  {
    if |xs| > 0 {
      var init := xs[..|xs| - 1];
      var n := Capacity(size);
      UpdatesKeepNewest(init, size);
      var s := Newest(init, n);
      assert Newest(xs, n) == [xs[|xs| - 1]] + Newest(init, n - 1);
      if |s| >= size && |s| > 0 {
        NewestShorter(init, n);
      } else {
        NewestAll(init, n - 1);
      }
    }
  }

  /** Running `update` on a created variable is `PushAll` on its series. */
  function UpdateAll(v: Variables, name: string, xs: seq<real>): (r: Result<Variables, VarError>)
  {
    if |xs| == 0 then Ok(v)
    else match UpdateAll(v, name, xs[..|xs| - 1])
      case Err(e) => Err(e)
      case Ok(w) => match Update(w, name, xs[|xs| - 1])
        case Err(e) => Err(e)
        case Ok(p) => Ok(p.0)
  }

  lemma {:induction false} UpdateAllPushes(v: Variables, name: string, xs: seq<real>)
    requires name in v.series
    ensures UpdateAll(v, name, xs).Ok?
    ensures name in UpdateAll(v, name, xs).value.series
    ensures UpdateAll(v, name, xs).value.series[name] == PushAll(v.series[name], xs, v.size)
    ensures UpdateAll(v, name, xs).value.size == v.size
  {
    if |xs| > 0 {
      UpdateAllPushes(v, name, xs[..|xs| - 1]);
    }
  }

  /** After creating `name` and updating it with `xs`, `get_by_index(name, i)`
      is the `i`-th newest update while `i` is within capacity, and `last` is
      the oldest update still kept. */
  lemma HistoryReads(size: nat, name: string, xs: seq<real>, i: nat)
    ensures Create(New(size), name).Ok?
    ensures var r := UpdateAll(Create(New(size), name).value, name, xs);
      r.Ok? &&
      (i < |xs| && i < Capacity(size) ==> GetByIndex(r.value, name, i) == Ok(xs[|xs| - 1 - i])) &&
      (i >= |xs| || i >= Capacity(size) ==> GetByIndex(r.value, name, i).Err?) &&
      (|xs| > 0 ==> Last(r.value, name) == Ok(xs[|xs| - |Newest(xs, Capacity(size))|]))
  {
    var v := Create(New(size), name).value;
    UpdateAllPushes(v, name, xs);
    UpdatesKeepNewest(xs, size);
    var n := Capacity(size);
    if i < |xs| && i < n {
      NewestAt(xs, n, i);
    }
    if |xs| > 0 {
      NewestAt(xs, n, |Newest(xs, n)| - 1);
    }
  }

  lemma {:induction false} NewestAt(xs: seq<real>, n: nat, i: nat)
    requires i < |Newest(xs, n)|
    ensures Newest(xs, n)[i] == xs[|xs| - 1 - i]
  {
    if i > 0 {
      NewestAt(xs[..|xs| - 1], n - 1, i - 1);
    }
  }

  /** The capped-series case: capacity 2, updates 1, 2, 3 leave [3, 2]. */
  method CappedScenario() returns (len: Result<nat, VarError>, first: Result<real, VarError>, second: Result<real, VarError>)
    ensures len == Ok(2) && first == Ok(3.0) && second == Ok(2.0)
  {
    var v := Create(New(2), "x").value;
    var r1 := Update(v, "x", 1.0);
    assert r1.value.0.series["x"] == [1.0];
    var r2 := Update(r1.value.0, "x", 2.0);
    assert r2.value.0.series["x"] == [2.0, 1.0];
    var r3 := Update(r2.value.0, "x", 3.0);
    assert r3.value.0.series["x"] == [3.0, 2.0];
    len := Len(r3.value.0, "x");
    first := GetByIndex(r3.value.0, "x", 0);
    second := GetByIndex(r3.value.0, "x", 1);
  }

  /** The happy path: one update gives length 1 and `last` is that value;
      a second `create` of the same name fails. */
  method HappyPathScenario() returns (len: nat, last: Result<real, VarError>, again: Result<Variables, VarError>)
    ensures len == 1 && last == Ok(25.0) && again == Err(AlreadyExists("temp"))
  {
    var v := Create(New(3), "temp").value;
    var r := Update(v, "temp", 25.0);
    len := r.value.1;
    last := Last(r.value.0, "temp");
    again := Create(r.value.0, "temp");
  }
}

=== FILE: wms_inventory.dfy ===
/** The in-memory rules of the warehouse service
    (`pkgs/backend/src/entities/wms/mod.rs`): the validation and per-(lot,
    stock) counting of `plan_import_new_items`, the per-(shelf, stock)
    counting of `import_real_items`, the status derivation of
    `get_item_by_barcode` and the all-or-nothing rule of
    `sale_at_storefront`.

    Every query of a tenant runs on the database shard `dbt` picks for it
    (`Shard`). Database reads become parameters (the tenant's stock and lot
    ids, its shelves by name, the ids of the lot's items, and the item rows
    stored on the tenant's shard, each row carrying its owner: every tenant
    that shares the shard). Writes become results: the counts
    that would be inserted, or the item rows after the sale. A rolled-back
    transaction is an `Err` that returns no new rows.
 */
module WmsInventory {
  import opened Wrappers
  import opened WmsStatus

  function OrZero(o: Option<int>): int {
    if o.Some? then o.value else 0
  }

  // ------------------------------------------------------ plan_import

  /** The ids of an item in a planned import. */
  datatype PlanItem = PlanItem(lotId: Option<int>, stockId: Option<int>)

  datatype PlanError = InvalidStocks(stocks: set<int>) | InvalidLots(lots: set<int>)

  /** The stock ids the batch names (`filter_map(|item| item.stock_id)`). */
  function StockIds(items: seq<PlanItem>): set<int> {
    set i | 0 <= i < |items| && items[i].stockId.Some? :: items[i].stockId.value
  }

  /** The lot ids the batch names. */
  function LotIds(items: seq<PlanItem>): set<int> {
    set i | 0 <= i < |items| && items[i].lotId.Some? :: items[i].lotId.value
  }

  /** How many items carry the pair (`unwrap_or(0)` on both ids). */
  function PairCount(items: seq<PlanItem>, lot: int, stock: int): nat {
    if |items| == 0 then 0
    else (if OrZero(items[0].lotId) == lot && OrZero(items[0].stockId) == stock then 1 else 0)
         + PairCount(items[1..], lot, stock)
  }

  function MapGet<K>(m: map<K, nat>, k: K): nat {
    if k in m then m[k] else 0
  }

  /** The counting loop: one per item whose pair is valid. */
  function CountLoop(m: map<(int, int), nat>, items: seq<PlanItem>, lots: set<int>, stocks: set<int>)
    : (r: map<(int, int), nat>)
    ensures forall k :: k in r <==> k in m || (k.0 in lots && k.1 in stocks && PairCount(items, k.0, k.1) > 0)
    ensures forall k :: k in r ==>
      r[k] == MapGet(m, k) + (if k.0 in lots && k.1 in stocks then PairCount(items, k.0, k.1) else 0)
    decreases |items|
  {
    if |items| == 0 then m
    else
      var k := (OrZero(items[0].lotId), OrZero(items[0].stockId));
      var m1 := if k.0 in lots && k.1 in stocks then m[k := MapGet(m, k) + 1] else m;
      CountLoop(m1, items[1..], lots, stocks)
  }

  /** `plan_import_new_items` up to the stock-entry insert: the batch is
      rejected when any stock id, then when any lot id, is not the tenant's;
      otherwise the quantity of each (lot, stock) entry is the number of items
      carrying that pair. Comparing the lengths of the valid subset and the
      requested set, as the source does, is comparing the sets. */
  function PlanImport(items: seq<PlanItem>, tenantStocks: set<int>, tenantLots: set<int>)
    : (r: Result<map<(int, int), nat>, PlanError>)
    ensures r == Err(InvalidStocks(StockIds(items) - tenantStocks)) <==> !(StockIds(items) <= tenantStocks)
    ensures r.Err? && r.error.InvalidLots? <==> StockIds(items) <= tenantStocks && !(LotIds(items) <= tenantLots)
    ensures r.Err? && r.error.InvalidLots? ==> r.error.lots == LotIds(items) - tenantLots
    ensures r.Ok? ==> forall k :: k in r.value <==>
      k.0 in LotIds(items) && k.1 in StockIds(items) && PairCount(items, k.0, k.1) > 0
    ensures r.Ok? ==> forall k :: k in r.value ==> r.value[k] == PairCount(items, k.0, k.1)
  {
    var stockIds := StockIds(items);
    var lotIds := LotIds(items);
    if !(stockIds <= tenantStocks) then Err(InvalidStocks(stockIds - tenantStocks))
    else if !(lotIds <= tenantLots) then Err(InvalidLots(lotIds - tenantLots))
    else Ok(CountLoop(map[], items, lotIds, stockIds))
  }

  /** Every item whose two ids are both present is counted under its pair
      in an accepted batch. */
  lemma {:induction false} PlannedItemsCounted(items: seq<PlanItem>, tenantStocks: set<int>, tenantLots: set<int>, i: int)
    requires PlanImport(items, tenantStocks, tenantLots).Ok?
    requires 0 <= i < |items| && items[i].lotId.Some? && items[i].stockId.Some?
    ensures (items[i].lotId.value, items[i].stockId.value) in PlanImport(items, tenantStocks, tenantLots).value
  {
    PairCountPositive(items, i);
  }

  lemma {:induction false} PairCountPositive(items: seq<PlanItem>, i: int)
    requires 0 <= i < |items|
    ensures PairCount(items, OrZero(items[i].lotId), OrZero(items[i].stockId)) > 0
  {
    if i > 0 {
      PairCountPositive(items[1..], i - 1);
    }
  }

  // ------------------------------------------------- import_real_items

  /** An item of a real import: its id, shelf name, stock id and status. */
  datatype RealItem = RealItem(id: Option<int>, shelf: Option<string>, stockId: Option<int>, status: ItemStatus)

  datatype ImportError =
    | MissingId                 // "Item ID is missing"
    | MissingShelf(item: int)   // "Missing field shelf in item .."
    | UnknownShelf(name: string) // `shelves[&name]` on a name the tenant lacks: a panic
    | MissingStock              // a counted item without stock id, reported after the loop

  /** What stops the loop at one item, if anything. */
  function Fault(it: RealItem, shelves: map<string, int>): Option<ImportError> {
    if it.id.None? then Some(MissingId)
    else if it.shelf.None? then Some(MissingShelf(it.id.value))
    else if it.shelf.value !in shelves then Some(UnknownShelf(it.shelf.value))
    else None
  }

  /** The first fault in item order. */
  function FirstFault(items: seq<RealItem>, shelves: map<string, int>): (r: Option<ImportError>)
    ensures r.Some? ==> !r.value.MissingStock?
  {
    if |items| == 0 then None
    else if Fault(items[0], shelves).Some? then Fault(items[0], shelves)
    else FirstFault(items[1..], shelves)
  }

  /** The items of the lot among a fault-free batch, in order. */
  function Accepted(items: seq<RealItem>, lotItems: set<int>): seq<RealItem> {
    if |items| == 0 then []
    else (if items[0].id.Some? && items[0].id.value in lotItems then [items[0]] else [])
         + Accepted(items[1..], lotItems)
  }

  /** How many accepted items go to the shelf `shelfId` with stock `stock`. */
  function ShelfCount(items: seq<RealItem>, shelves: map<string, int>, lotItems: set<int>,
                      shelfId: int, stock: Option<int>): nat {
    if |items| == 0 then 0
    else
      var it := items[0];
      (if it.id.Some? && it.id.value in lotItems && it.shelf.Some? && it.shelf.value in shelves
          && shelves[it.shelf.value] == shelfId && it.stockId == stock then 1 else 0)
      + ShelfCount(items[1..], shelves, lotItems, shelfId, stock)
  }

  /** The loop of `import_real_items`: items of other lots are skipped; each
      item of the lot is returned and counted under (shelf id, stock id). */
  function ImportLoop(m: map<(int, Option<int>), nat>, items: seq<RealItem>, shelves: map<string, int>,
                      lotItems: set<int>)
    : (r: Result<(seq<RealItem>, map<(int, Option<int>), nat>), ImportError>)
    ensures r.Err? <==> FirstFault(items, shelves).Some?
    ensures r.Err? ==> r.error == FirstFault(items, shelves).value
    ensures r.Ok? ==> r.value.0 == Accepted(items, lotItems)
    ensures r.Ok? ==> forall k :: k in r.value.1 <==> k in m || ShelfCount(items, shelves, lotItems, k.0, k.1) > 0
    ensures r.Ok? ==> forall k :: k in r.value.1 ==>
      r.value.1[k] == MapGet(m, k) + ShelfCount(items, shelves, lotItems, k.0, k.1)
    decreases |items|
  {
    if |items| == 0 then Ok(([], m))
    else
      var it := items[0];
      if it.id.None? then Err(MissingId)
      else if it.shelf.None? then Err(MissingShelf(it.id.value))
      else if it.shelf.value !in shelves then Err(UnknownShelf(it.shelf.value))
      else if it.id.value in lotItems then
        var k := (shelves[it.shelf.value], it.stockId);
        match ImportLoop(m[k := MapGet(m, k) + 1], items[1..], shelves, lotItems)
        case Err(e) => Err(e)
        case Ok(res) => Ok(([it] + res.0, res.1))
      else ImportLoop(m, items[1..], shelves, lotItems)
  }

  /** `import_real_items` without the row updates: the accepted items and
      the stock-shelf quantities, or the first fault; a counted item without
      stock id fails the whole import after the loop. */
  function ImportRealItems(items: seq<RealItem>, shelves: map<string, int>, lotItems: set<int>)
    : (r: Result<(seq<RealItem>, map<(int, Option<int>), nat>), ImportError>)
    ensures FirstFault(items, shelves).Some? ==> r == Err(FirstFault(items, shelves).value)
    ensures r == Err(MissingStock) <==>
      FirstFault(items, shelves).None? && exists i :: 0 <= i < |Accepted(items, lotItems)| && Accepted(items, lotItems)[i].stockId.None?
    ensures r.Ok? ==> r.value.0 == Accepted(items, lotItems)
    ensures r.Ok? ==> forall k :: k in r.value.1 <==> k.1.Some? && ShelfCount(items, shelves, lotItems, k.0, k.1) > 0
    ensures r.Ok? ==> forall k :: k in r.value.1 ==> r.value.1[k] == ShelfCount(items, shelves, lotItems, k.0, k.1)
  {
    match ImportLoop(map[], items, shelves, lotItems)
    case Err(e) => Err(e)
    case Ok(res) =>
      if exists k :: k in res.1 && k.1.None? then
        assert exists i :: 0 <= i < |Accepted(items, lotItems)| && Accepted(items, lotItems)[i].stockId.None? by {
          var k :| k in res.1 && k.1.None?;
          CountedHasAccepted(items, shelves, lotItems, k.0, k.1);
        }
        Err(MissingStock)
      else
        assert forall i :: 0 <= i < |Accepted(items, lotItems)| ==> Accepted(items, lotItems)[i].stockId.Some? by {
          forall i | 0 <= i < |Accepted(items, lotItems)| ensures Accepted(items, lotItems)[i].stockId.Some? {
            var k := AcceptedIsCounted(items, shelves, lotItems, i);
            assert k in res.1;
          }
        }
        Ok(res)
  }

  /** A counted (shelf, stock) pair comes from an accepted item with that stock. */
  lemma {:induction false} CountedHasAccepted(items: seq<RealItem>, shelves: map<string, int>, lotItems: set<int>,
                                               shelfId: int, stock: Option<int>)
    requires ShelfCount(items, shelves, lotItems, shelfId, stock) > 0
    ensures exists i :: 0 <= i < |Accepted(items, lotItems)| && Accepted(items, lotItems)[i].stockId == stock
  {
    var it := items[0];
    var head := if it.id.Some? && it.id.value in lotItems then [it] else [];
    assert Accepted(items, lotItems) == head + Accepted(items[1..], lotItems);
    if it.id.Some? && it.id.value in lotItems && it.shelf.Some? && it.shelf.value in shelves
       && shelves[it.shelf.value] == shelfId && it.stockId == stock {
      assert Accepted(items, lotItems)[0] == it;
    } else {
      CountedHasAccepted(items[1..], shelves, lotItems, shelfId, stock);
      var i :| 0 <= i < |Accepted(items[1..], lotItems)| && Accepted(items[1..], lotItems)[i].stockId == stock;
      assert Accepted(items, lotItems)[|head| + i] == Accepted(items[1..], lotItems)[i];
    }
  }

  /** In a fault-free batch every accepted item is counted under its shelf
      and stock. */
  lemma {:induction false} AcceptedIsCounted(items: seq<RealItem>, shelves: map<string, int>, lotItems: set<int>, i: nat)
    returns (k: (int, Option<int>))
    requires FirstFault(items, shelves).None?
    requires i < |Accepted(items, lotItems)|
    ensures k.1 == Accepted(items, lotItems)[i].stockId
    ensures ShelfCount(items, shelves, lotItems, k.0, k.1) > 0
  {
    var it := items[0];
    var head := if it.id.Some? && it.id.value in lotItems then [it] else [];
    assert Accepted(items, lotItems) == head + Accepted(items[1..], lotItems);
    if i < |head| {
      k := (shelves[it.shelf.value], it.stockId);
    } else {
      k := AcceptedIsCounted(items[1..], shelves, lotItems, i - |head|);
    }
  }

  // ------------------------------------------------------------ shards

  /** `dbt`: the index of the connection that serves `tenant` among
      `shards` connections. `tenant as usize` sign-extends a negative id,
      and no connection at all panics on `% 0`. */
  function Shard(tenant: int, shards: nat): (r: Outcome<nat>)
    ensures r.Panic? <==> shards == 0
    ensures r.Done? ==> r.value < shards
    ensures r.Done? && 0 <= tenant < shards ==> r.value == tenant
  {
    if shards == 0 then Panic
    else Done((if tenant < 0 then tenant + 0x1_0000_0000_0000_0000 else tenant) % shards)
  }

  /** Tenants 1 and 2 share a shard exactly when there is one connection;
      only then can a query of one of them see the other's rows. */
  lemma TenantsOneAndTwoShare(shards: nat)
    requires shards > 0
    ensures Shard(1, shards) == Shard(2, shards) <==> shards == 1
  {
    if shards == 2 {
      assert Shard(1, 2) == Done(1) && Shard(2, 2) == Done(0);
    } else if shards > 2 {
      assert Shard(1, shards) == Done(1) && Shard(2, shards) == Done(2);
    }
  }

  // --------------------------------------------- get_item_by_barcode

  /** An item row as stored: its tenant, ids, barcode, stored status code
      and order. */
  datatype Row = Row(tenant: int, id: int, lotId: Option<int>, shelfId: Option<int>, barcode: Option<string>,
                     status: int, orderId: Option<int>)

  /** The row reaches the barcode query of `tenant`: it is the tenant's,
      carries the barcode and joins a lot and a shelf. */
  predicate Found(row: Row, tenant: int, barcode: string) {
    row.tenant == tenant && row.barcode == Some(barcode) && row.lotId.Some? && row.shelfId.Some?
  }

  /** `get_item_by_barcode`: the first matching row, reported `Available`
      when it has no order and `Saled` when it has one, whatever its stored
      status code; "Not found" otherwise. */
  function GetItemByBarcode(rows: seq<Row>, tenant: int, barcode: string): (r: Result<(Row, ItemStatus), string>)
    ensures r.Ok? <==> exists i :: 0 <= i < |rows| && Found(rows[i], tenant, barcode)
    ensures r.Ok? ==> exists i :: 0 <= i < |rows| && rows[i] == r.value.0 && Found(rows[i], tenant, barcode)
                        && forall j :: 0 <= j < i ==> !Found(rows[j], tenant, barcode)
    ensures r.Ok? ==> (r.value.1 == ItemAvailable <==> r.value.0.orderId.None?)
    ensures r.Ok? ==> (r.value.1 == ItemSaled <==> r.value.0.orderId.Some?)
    ensures r.Err? ==> r.error == "Not found barcode " + barcode
  {
    if |rows| == 0 then Err("Not found barcode " + barcode)
    else if Found(rows[0], tenant, barcode) then
      Ok((rows[0], if rows[0].orderId.None? then ItemAvailable else ItemSaled))
    else
      match GetItemByBarcode(rows[1..], tenant, barcode)
      case Err(e) => Err(e)
      case Ok(v) =>
        assert forall i :: 0 <= i < |rows| - 1 ==> rows[1..][i] == rows[i + 1];
        Ok(v)
  }

  // ------------------------------------------------ sale_at_storefront

  /** The inserted sale row. */
  datatype SaleRecord = SaleRecord(tenant: int, orderId: int, status: int, costPrice: real)

  datatype SaleError = MissingBarcodes | NotAllAvailable

  /** Which rows an update may touch: all of them (`None`, as the source's
      update does) or those of one tenant. */
  predicate InScope(row: Row, scope: Option<int>) {
    scope.None? || row.tenant == scope.value
  }

  /** The row is hit by the update: in scope, barcode requested and stored
      status `Available`. */
  predicate Hit(row: Row, scope: Option<int>, barcodes: set<string>) {
    InScope(row, scope) && row.barcode.Some? && row.barcode.value in barcodes && row.status == ItemCode(ItemAvailable)
  }

  /** The update's `rows_affected`. */
  function Hits(rows: seq<Row>, scope: Option<int>, barcodes: set<string>): nat {
    if |rows| == 0 then 0
    else (if Hit(rows[0], scope, barcodes) then 1 else 0) + Hits(rows[1..], scope, barcodes)
  }

  /** The rows after the update: every hit row is `Saled` to the order. */
  function MarkSold(rows: seq<Row>, scope: Option<int>, barcodes: set<string>, orderId: int): (r: seq<Row>)
    ensures |r| == |rows|
    ensures forall i :: 0 <= i < |rows| ==>
      r[i] == if Hit(rows[i], scope, barcodes) then rows[i].(status := ItemCode(ItemSaled), orderId := Some(orderId)) else rows[i]
  {
    seq(|rows|, i requires 0 <= i < |rows| =>
      if Hit(rows[i], scope, barcodes) then rows[i].(status := ItemCode(ItemSaled), orderId := Some(orderId)) else rows[i])
  }

  function Sum(xs: seq<real>): real {
    if |xs| == 0 then 0.0 else xs[0] + Sum(xs[1..])
  }

  /** `sale_at_storefront` of `tenant` as written, on the rows of the
      tenant's shard: inserts the tenant's sale row, then updates every
      `Available` row of that shard carrying a requested barcode, whichever
      tenant owns it (the update has no tenant filter), and
      commits when it touched at least as many rows as barcodes were
      requested, else rolls back. */
  function SaleAtStorefront(rows: seq<Row>, tenant: int, barcodes: Option<seq<string>>, orderId: int, costPrices: seq<real>)
    : (r: Result<(seq<Row>, SaleRecord), SaleError>)
    ensures barcodes.None? ==> r == Err(MissingBarcodes)
    ensures barcodes.Some? ==> (r.Ok? <==> Hits(rows, None, set b | b in barcodes.value) >= |barcodes.value|)
    ensures r.Ok? ==> r.value.1 == SaleRecord(tenant, orderId, SaleCode(SaleDone), Sum(costPrices))
    // only the hit rows change; they become sold to the order
    ensures r.Ok? ==> |r.value.0| == |rows| && forall i :: 0 <= i < |rows| ==>
      (Hit(rows[i], None, set b | b in barcodes.value) ==>
         ItemFromCodeFixed(r.value.0[i].status) == ItemSaled && r.value.0[i].orderId == Some(orderId)) &&
      (!Hit(rows[i], None, set b | b in barcodes.value) ==> r.value.0[i] == rows[i])
  {
    match barcodes
    case None => Err(MissingBarcodes)
    case Some(bs) =>
      var requested := set b | b in bs;
      if Hits(rows, None, requested) < |bs| then Err(NotAllAvailable)
      else Ok((MarkSold(rows, None, requested, orderId), SaleRecord(tenant, orderId, SaleCode(SaleDone), Sum(costPrices))))
  }

  /** Rows in scope that are both `Available` and carry `b`. */
  function RowsWith(rows: seq<Row>, scope: Option<int>, b: string): nat {
    if |rows| == 0 then 0
    else (if InScope(rows[0], scope) && rows[0].barcode == Some(b) && rows[0].status == ItemCode(ItemAvailable) then 1 else 0)
         + RowsWith(rows[1..], scope, b)
  }

  /** No two rows share a barcode. */
  predicate DistinctBarcodes(rows: seq<Row>) {
    forall i, j :: 0 <= i < j < |rows| && rows[i].barcode.Some? ==> rows[i].barcode != rows[j].barcode
  }

  /** No barcode is requested twice. */
  predicate DistinctRequest(bs: seq<string>) {
    forall i, j :: 0 <= i < j < |bs| ==> bs[i] != bs[j]
  }

  /** Every requested barcode hits an `Available` row in scope. */
  predicate AllAvailable(rows: seq<Row>, scope: Option<int>, bs: seq<string>) {
    forall i :: 0 <= i < |bs| ==> RowsWith(rows, scope, bs[i]) >= 1
  }

  /** Adding one barcode to the request adds its rows to the hit count. */
  lemma {:induction false} HitsAdd(rows: seq<Row>, scope: Option<int>, s: set<string>, b: string)
    requires b !in s
    ensures Hits(rows, scope, s + {b}) == Hits(rows, scope, s) + RowsWith(rows, scope, b)
  {
    if |rows| > 0 {
      HitsAdd(rows[1..], scope, s, b);
    }
  }

  /** The hit count of a request without repeats is the sum of its
      barcodes' rows. */
  lemma {:induction false} HitsOfRequest(rows: seq<Row>, scope: Option<int>, bs: seq<string>)
    requires DistinctRequest(bs)
    ensures Hits(rows, scope, set b | b in bs) == RequestHits(rows, scope, bs)
  {
    if |bs| == 0 {
      assert (set b | b in bs) == {};
      HitsNone(rows, scope);
    } else {
      var rest := bs[1..];
      HitsOfRequest(rows, scope, rest);
      assert (set b | b in bs) == (set b | b in rest) + {bs[0]};
      assert bs[0] !in rest by {
        forall j | 0 <= j < |rest| ensures rest[j] != bs[0] { assert rest[j] == bs[j + 1]; }
      }
      HitsAdd(rows, scope, (set b | b in rest), bs[0]);
    }
  }

  lemma {:induction false} HitsNone(rows: seq<Row>, scope: Option<int>)
    ensures Hits(rows, scope, {}) == 0
  {
    if |rows| > 0 { HitsNone(rows[1..], scope); }
  }

  function RequestHits(rows: seq<Row>, scope: Option<int>, bs: seq<string>): nat {
    if |bs| == 0 then 0 else RowsWith(rows, scope, bs[0]) + RequestHits(rows, scope, bs[1..])
  }

  /** With distinct stored barcodes a barcode hits at most one row. */
  lemma {:induction false} AtMostOneRow(rows: seq<Row>, scope: Option<int>, b: string)
    requires DistinctBarcodes(rows)
    ensures RowsWith(rows, scope, b) <= 1
  {
    if |rows| > 0 {
      AtMostOneRow(rows[1..], scope, b);
      if rows[0].barcode == Some(b) {
        NoRowWith(rows[1..], scope, b);
      }
    }
  }

  lemma {:induction false} NoRowWith(rows: seq<Row>, scope: Option<int>, b: string)
    requires forall j :: 0 <= j < |rows| ==> rows[j].barcode != Some(b)
    ensures RowsWith(rows, scope, b) == 0
  {
    if |rows| > 0 { NoRowWith(rows[1..], scope, b); }
  }

  /** When every barcode hits at most one row, the request hits as many rows
      as it has barcodes exactly when each barcode hits one. */
  lemma {:induction false} RequestHitsFull(rows: seq<Row>, scope: Option<int>, bs: seq<string>)
    requires DistinctBarcodes(rows)
    ensures RequestHits(rows, scope, bs) >= |bs| <==> AllAvailable(rows, scope, bs)
  {
    if |bs| > 0 {
      AtMostOneRow(rows, scope, bs[0]);
      RequestHitsFull(rows, scope, bs[1..]);
      assert AllAvailable(rows, scope, bs) <==> RowsWith(rows, scope, bs[0]) >= 1 && AllAvailable(rows, scope, bs[1..]) by {
        assert forall i :: 1 <= i < |bs| ==> bs[i] == bs[1..][i - 1];
      }
      RequestHitsBound(rows, scope, bs[1..]);
    }
  }

  lemma {:induction false} RequestHitsBound(rows: seq<Row>, scope: Option<int>, bs: seq<string>)
    requires DistinctBarcodes(rows)
    ensures RequestHits(rows, scope, bs) <= |bs|
  {
    if |bs| > 0 {
      AtMostOneRow(rows, scope, bs[0]);
      RequestHitsBound(rows, scope, bs[1..]);
    }
  }

  /** All or nothing, when neither the stored rows nor the request repeat a
      barcode: the sale commits exactly when every requested barcode hits an
      `Available` row, of any tenant. */
  lemma SaleAllOrNothing(rows: seq<Row>, tenant: int, bs: seq<string>, orderId: int, costPrices: seq<real>)
    requires DistinctBarcodes(rows) && DistinctRequest(bs)
    ensures SaleAtStorefront(rows, tenant, Some(bs), orderId, costPrices).Ok? <==> AllAvailable(rows, None, bs)
  {
    HitsOfRequest(rows, None, bs);
    RequestHitsFull(rows, None, bs);
  }

  /** Two rows sharing a barcode mask a missing one: the sale of "A" and "B"
      commits although no row carries "B". */
  lemma SaleMaskedByDuplicates()
    ensures var a := Row(1, 1, Some(1), Some(1), Some("A"), ItemCode(ItemAvailable), None);
      var rows := [a, a.(id := 2)];
      SaleAtStorefront(rows, 1, Some(["A", "B"]), 123, []).Ok? && !AllAvailable(rows, None, ["A", "B"])
  {
    var a := Row(1, 1, Some(1), Some(1), Some("A"), ItemCode(ItemAvailable), None);
    var rows := [a, a.(id := 2)];
    var req := set b | b in ["A", "B"];
    assert "A" in req by { assert ["A", "B"][0] == "A"; }
    assert rows[1..] == [a.(id := 2)] && rows[1..][1..] == [];
    assert Hits(rows[1..][1..], None, req) == 0;
    assert Hits(rows[1..], None, req) == 1;
    assert Hits(rows, None, req) == 2;
    assert RowsWith(rows[1..][1..], None, "B") == 0;
    assert RowsWith(rows[1..], None, "B") == 0;
    assert !AllAvailable(rows, None, ["A", "B"]) by {
      assert ["A", "B"][1] == "B";
    }
  }

  /** The update has no tenant filter: with a single connection, so that
      tenants 1 and 2 share shard 0, tenant 1's sale of "A" commits and
      sells the only row carrying "A", which belongs to tenant 2. */
  lemma SaleSellsForeignRow()
    ensures Shard(1, 1) == Shard(2, 1) == Done(0)
    ensures var row := Row(2, 1, Some(1), Some(1), Some("A"), ItemCode(ItemAvailable), None);
      var r := SaleAtStorefront([row], 1, Some(["A"]), 123, []);
      r.Ok? && r.value.0[0].tenant == 2 && r.value.0[0].orderId == Some(123)
  {
    var row := Row(2, 1, Some(1), Some(1), Some("A"), ItemCode(ItemAvailable), None);
    assert Hit(row, None, set b | b in ["A"]) by { assert ["A"][0] == "A"; }
    assert [row][1..] == [];
  }

  /** The rule the sale evidently intends: touch only the tenant's rows, and
      commit only when every requested barcode hits one of its `Available`
      rows and the update touched no fewer rows than were requested. */
  function SaleAtStorefrontChecked(rows: seq<Row>, tenant: int, barcodes: Option<seq<string>>, orderId: int, costPrices: seq<real>)
    : (r: Result<(seq<Row>, SaleRecord), SaleError>)
    ensures barcodes.None? ==> r == Err(MissingBarcodes)
    ensures r.Ok? ==> AllAvailable(rows, Some(tenant), barcodes.value)
    ensures r.Ok? ==> r.value.1 == SaleRecord(tenant, orderId, SaleCode(SaleDone), Sum(costPrices))
    ensures r.Ok? ==> |r.value.0| == |rows| && forall i :: 0 <= i < |rows| ==>
      (Hit(rows[i], Some(tenant), set b | b in barcodes.value) ==>
         ItemFromCodeFixed(r.value.0[i].status) == ItemSaled && r.value.0[i].orderId == Some(orderId)) &&
      (!Hit(rows[i], Some(tenant), set b | b in barcodes.value) ==> r.value.0[i] == rows[i])
    ensures barcodes.Some? && DistinctBarcodes(rows) && DistinctRequest(barcodes.value) ==>
      (r.Ok? <==> AllAvailable(rows, Some(tenant), barcodes.value))
  {
    match barcodes
    case None => Err(MissingBarcodes)
    case Some(bs) =>
      var requested := set b | b in bs;
      assert DistinctBarcodes(rows) && DistinctRequest(bs) && AllAvailable(rows, Some(tenant), bs) ==>
        Hits(rows, Some(tenant), requested) >= |bs| by {
        if DistinctBarcodes(rows) && DistinctRequest(bs) {
          HitsOfRequest(rows, Some(tenant), bs);
          RequestHitsFull(rows, Some(tenant), bs);
        }
      }
      if !AllAvailable(rows, Some(tenant), bs) || Hits(rows, Some(tenant), requested) < |bs| then Err(NotAllAvailable)
      else Ok((MarkSold(rows, Some(tenant), requested, orderId), SaleRecord(tenant, orderId, SaleCode(SaleDone), Sum(costPrices))))
  }

  /** The corrected sale never touches another tenant's row. */
  lemma CheckedKeepsOtherTenants(rows: seq<Row>, tenant: int, bs: seq<string>, orderId: int, costPrices: seq<real>, i: nat)
    requires SaleAtStorefrontChecked(rows, tenant, Some(bs), orderId, costPrices).Ok?
    requires i < |rows| && rows[i].tenant != tenant
    ensures SaleAtStorefrontChecked(rows, tenant, Some(bs), orderId, costPrices).value.0[i] == rows[i]
  {
  }

  /** On rows that all belong to the tenant and repeat no barcode, with a
      request that repeats none, the corrected sale is the sale as
      written. */
  lemma CheckedAgrees(rows: seq<Row>, tenant: int, bs: seq<string>, orderId: int, costPrices: seq<real>)
    requires forall i :: 0 <= i < |rows| ==> rows[i].tenant == tenant
    requires DistinctBarcodes(rows) && DistinctRequest(bs)
    ensures SaleAtStorefrontChecked(rows, tenant, Some(bs), orderId, costPrices) == SaleAtStorefront(rows, tenant, Some(bs), orderId, costPrices)
  {
    var requested := set b | b in bs;
    ScopeAll(rows, tenant, requested);
    SaleAllOrNothing(rows, tenant, bs, orderId, costPrices);
    assert AllAvailable(rows, Some(tenant), bs) <==> AllAvailable(rows, None, bs) by {
      forall b | b in bs ensures RowsWith(rows, Some(tenant), b) == RowsWith(rows, None, b) {
        RowsWithAll(rows, tenant, b);
      }
    }
    assert MarkSold(rows, Some(tenant), requested, orderId) == MarkSold(rows, None, requested, orderId);
  }

  /** When every row is the tenant's, scoping the update changes no hit. */
  lemma {:induction false} ScopeAll(rows: seq<Row>, tenant: int, s: set<string>)
    requires forall i :: 0 <= i < |rows| ==> rows[i].tenant == tenant
    ensures Hits(rows, Some(tenant), s) == Hits(rows, None, s)
  {
    if |rows| > 0 {
      ScopeAll(rows[1..], tenant, s);
    }
  }

  lemma {:induction false} RowsWithAll(rows: seq<Row>, tenant: int, b: string)
    requires forall i :: 0 <= i < |rows| ==> rows[i].tenant == tenant
    ensures RowsWith(rows, Some(tenant), b) == RowsWith(rows, None, b)
  {
    if |rows| > 0 {
      RowsWithAll(rows[1..], tenant, b);
    }
  }

  /** A row the tenant sold reads back `Saled` through the tenant's barcode
      query. */
  lemma SoldReadsSaled(rows: seq<Row>, tenant: int, bs: seq<string>, orderId: int, costPrices: seq<real>, i: nat)
    requires SaleAtStorefront(rows, tenant, Some(bs), orderId, costPrices).Ok?
    requires i < |rows| && rows[i].tenant == tenant && Hit(rows[i], None, set b | b in bs)
    requires rows[i].lotId.Some? && rows[i].shelfId.Some?
    requires forall j :: 0 <= j < i ==> rows[j].barcode != rows[i].barcode
    ensures var after := SaleAtStorefront(rows, tenant, Some(bs), orderId, costPrices).value.0;
      GetItemByBarcode(after, tenant, rows[i].barcode.value).Ok? &&
      GetItemByBarcode(after, tenant, rows[i].barcode.value).value.1 == ItemSaled
  {
    var after := SaleAtStorefront(rows, tenant, Some(bs), orderId, costPrices).value.0;
    var b := rows[i].barcode.value;
    assert Found(after[i], tenant, b);
    forall j | 0 <= j < i ensures !Found(after[j], tenant, b) {
      assert after[j].barcode == rows[j].barcode;
    }
  }
}

=== FILE: wms_status.dfy ===
/** Status codecs of the warehouse entities
    (`pkgs/backend/src/entities/wms/mod.rs`).

    Every status enum is declared `#[repr(i32)]` and is written to the
    database as `status as i32`, its declaration-order discriminant. Reading
    it back goes through a hand-written `From<i32>` table, and the text form
    goes through `Display` and `From<String>`. The discriminants and the
    tables disagree for four of the enums; the as-written tables are kept
    here next to corrected ones that invert the discriminants, and the rest
    of the model reads stored codes with the corrected tables.
 */
module WmsStatus {
  import opened Wrappers

  // ---------------------------------------------------------------- lots

  datatype LotStatus = LotUnknown | LotUnavailable | LotPlaning | LotTransporting
                     | LotAvailable | LotOutdated | LotReturned

  /** `LotStatus as i32`: the declaration order. */
  function LotCode(s: LotStatus): int {
    match s
    case LotUnknown => 0
    case LotUnavailable => 1
    case LotPlaning => 2
    case LotTransporting => 3
    case LotAvailable => 4
    case LotOutdated => 5
    case LotReturned => 6
  }

  /** `From<i32> for LotStatus` as written: it numbers from `Unavailable = 0`,
      one below the discriminants. */
  function LotFromCode(i: int): (r: LotStatus)
    ensures r == LotUnknown <==> !(0 <= i <= 5)
    ensures r != LotUnknown ==> LotCode(r) == i + 1
  {
    match i
    case 0 => LotUnavailable
    case 1 => LotPlaning
    case 2 => LotTransporting
    case 3 => LotAvailable
    case 4 => LotOutdated
    case 5 => LotReturned
    case _ => LotUnknown
  }

  /** Storing a lot as `Available` and reading it back yields `Outdated`,
      and no known status survives the trip. */
  lemma LotCodeMismatch()
    ensures LotFromCode(LotCode(LotAvailable)) == LotOutdated
    ensures forall s :: s != LotUnknown ==> LotFromCode(LotCode(s)) != s
  {
  }

  /** The table the stored codes need: the inverse of the discriminants. */
  function LotFromCodeFixed(i: int): (r: LotStatus)
    ensures forall s :: LotCode(s) == i ==> r == s
    ensures r == LotUnknown || LotCode(r) == i
  {
    match i
    case 1 => LotUnavailable
    case 2 => LotPlaning
    case 3 => LotTransporting
    case 4 => LotAvailable
    case 5 => LotOutdated
    case 6 => LotReturned
    case _ => LotUnknown
  }

  /** `Display for LotStatus`. */
  function LotText(s: LotStatus): string {
    match s
    case LotUnknown => "Error"
    case LotUnavailable => "Unavailable"
    case LotPlaning => "On planing"
    case LotTransporting => "On transporting"
    case LotAvailable => "Available"
    case LotOutdated => "Outdated"
    case LotReturned => "Being returned"
  }

  /** `From<String> for LotStatus`: the inverse of `Display`; any other text
      is `Unknown`. */
  function LotFromText(t: string): (r: LotStatus)
    ensures forall s :: LotText(s) == t ==> r == s
    ensures r == LotUnknown || LotText(r) == t
  {
    match t
    case "Unavailable" => LotUnavailable
    case "On planing" => LotPlaning
    case "On transporting" => LotTransporting
    case "Available" => LotAvailable
    case "Outdated" => LotOutdated
    case "Being returned" => LotReturned
    case _ => LotUnknown
  }

  // --------------------------------------------------------------- items

  datatype ItemStatus = ItemUnknown | ItemUnavailable | ItemPlan | ItemAvailable
                      | ItemDamaged | ItemOutdated | ItemSaled | ItemReturned

  /** `ItemStatus as i32`: the declaration order. */
  function ItemCode(s: ItemStatus): int {
    match s
    case ItemUnknown => 0
    case ItemUnavailable => 1
    case ItemPlan => 2
    case ItemAvailable => 3
    case ItemDamaged => 4
    case ItemOutdated => 5
    case ItemSaled => 6
    case ItemReturned => 7
  }

  /** `From<i32> for ItemStatus` as written: one below the discriminants. */
  function ItemFromCode(i: int): (r: ItemStatus)
    ensures r == ItemUnknown <==> !(0 <= i <= 6)
    ensures r != ItemUnknown ==> ItemCode(r) == i + 1
  {
    match i
    case 0 => ItemUnavailable
    case 1 => ItemPlan
    case 2 => ItemAvailable
    case 3 => ItemDamaged
    case 4 => ItemOutdated
    case 5 => ItemSaled
    case 6 => ItemReturned
    case _ => ItemUnknown
  }

  /** An item stored as `Saled` (the storefront sale) reads back as
      `Returned`, one stored as `Available` as `Damaged`. */
  lemma ItemCodeMismatch()
    ensures ItemFromCode(ItemCode(ItemSaled)) == ItemReturned
    ensures ItemFromCode(ItemCode(ItemAvailable)) == ItemDamaged
    ensures forall s :: s != ItemUnknown ==> ItemFromCode(ItemCode(s)) != s
  {
  }

  /** The inverse of the item discriminants. */
  function ItemFromCodeFixed(i: int): (r: ItemStatus)
    ensures forall s :: ItemCode(s) == i ==> r == s
    ensures r == ItemUnknown || ItemCode(r) == i
  {
    match i
    case 1 => ItemUnavailable
    case 2 => ItemPlan
    case 3 => ItemAvailable
    case 4 => ItemDamaged
    case 5 => ItemOutdated
    case 6 => ItemSaled
    case 7 => ItemReturned
    case _ => ItemUnknown
  }

  /** `Display for ItemStatus`. */
  function ItemText(s: ItemStatus): string {
    match s
    case ItemUnknown => "Errored"
    case ItemPlan => "Being planed"
    case ItemUnavailable => "Unavailable"
    case ItemAvailable => "Available"
    case ItemDamaged => "Being damaged"
    case ItemSaled => "Being saled"
    case ItemReturned => "Being returned"
    case ItemOutdated => "Outdated"
  }

  /** `From<String> for ItemStatus`: the inverse of `Display`. */
  function ItemFromText(t: string): (r: ItemStatus)
    ensures forall s :: ItemText(s) == t ==> r == s
    ensures r == ItemUnknown || ItemText(r) == t
  {
    match t
    case "Unavailable" => ItemUnavailable
    case "Available" => ItemAvailable
    case "Being damaged" => ItemDamaged
    case "Being saled" => ItemSaled
    case "Being returned" => ItemReturned
    case "Outdated" => ItemOutdated
    case "Being planed" => ItemPlan
    case _ => ItemUnknown
  }

  // --------------------------------------------------------------- sales

  datatype SaleStatus = SaleUnknown | SaleFailed | SalePaid | SaleDelivered
                      | SaleReturned | SaleRefunded | SaleDone

  /** `SaleStatus as i32`: the declaration order. */
  function SaleCode(s: SaleStatus): int {
    match s
    case SaleUnknown => 0
    case SaleFailed => 1
    case SalePaid => 2
    case SaleDelivered => 3
    case SaleReturned => 4
    case SaleRefunded => 5
    case SaleDone => 6
  }

  /** `From<i32> for SaleStatus` as written: `Failed` and `Done` sit at 0 and
      1, the middle four agree with their discriminants. */
  function SaleFromCode(i: int): (r: SaleStatus)
    ensures r == SaleUnknown <==> !(0 <= i <= 5)
    ensures 2 <= i <= 5 ==> SaleCode(r) == i
    ensures i == 0 ==> r == SaleFailed
    ensures i == 1 ==> r == SaleDone
  {
    match i
    case 0 => SaleFailed
    case 1 => SaleDone
    case 2 => SalePaid
    case 3 => SaleDelivered
    case 4 => SaleReturned
    case 5 => SaleRefunded
    case _ => SaleUnknown
  }

  /** A sale stored as `Done` (every storefront sale) reads back as
      `Unknown`, one stored as `Failed` as `Done`. */
  lemma SaleCodeMismatch()
    ensures SaleFromCode(SaleCode(SaleDone)) == SaleUnknown
    ensures SaleFromCode(SaleCode(SaleFailed)) == SaleDone
  {
  }

  /** The inverse of the sale discriminants. */
  function SaleFromCodeFixed(i: int): (r: SaleStatus)
    ensures forall s :: SaleCode(s) == i ==> r == s
    ensures r == SaleUnknown || SaleCode(r) == i
  {
    match i
    case 1 => SaleFailed
    case 2 => SalePaid
    case 3 => SaleDelivered
    case 4 => SaleReturned
    case 5 => SaleRefunded
    case 6 => SaleDone
    case _ => SaleUnknown
  }

  /** `Display for SaleStatus`. */
  function SaleText(s: SaleStatus): string {
    match s
    case SaleUnknown => "Error"
    case SaleFailed => "Failed"
    case SaleDone => "Done"
    case SalePaid => "Paid"
    case SaleDelivered => "Delivered"
    case SaleReturned => "Returned"
    case SaleRefunded => "Refunded"
  }

  /** `From<String> for SaleStatus`: the inverse of `Display`. */
  function SaleFromText(t: string): (r: SaleStatus)
    ensures forall s :: SaleText(s) == t ==> r == s
    ensures r == SaleUnknown || SaleText(r) == t
  {
    match t
    case "Failed" => SaleFailed
    case "Done" => SaleDone
    case "Paid" => SalePaid
    case "Delivered" => SaleDelivered
    case "Returned" => SaleReturned
    case "Refunded" => SaleRefunded
    case _ => SaleUnknown
  }

  // -------------------------------------------------------------- orders

  datatype OrderStatus = OrderUnknown | OrderPicking | OrderPacking | OrderShiping
                       | OrderReturning | OrderDone

  /** `Display for OrderStatus`. */
  function OrderText(s: OrderStatus): string {
    match s
    case OrderUnknown => "unknown"
    case OrderPicking => "picking"
    case OrderPacking => "packing"
    case OrderShiping => "shipping"
    case OrderReturning => "returning"
    case OrderDone => "done"
  }

  /** `From<String> for OrderStatus` as written: it expects "shiping" and
      "returing", which `Display` never writes. */
  function OrderFromText(t: string): (r: OrderStatus)
    ensures r == OrderUnknown <==> t !in {"picking", "packing", "shiping", "returing", "done"}
    ensures r in {OrderPicking, OrderPacking, OrderDone} ==> OrderText(r) == t
  {
    match t
    case "picking" => OrderPicking
    case "packing" => OrderPacking
    case "shiping" => OrderShiping
    case "returing" => OrderReturning
    case "done" => OrderDone
    case _ => OrderUnknown
  }

  /** The text of a shipping or returning order parses back as `Unknown`;
      the other statuses survive. */
  lemma OrderTextMismatch()
    ensures OrderFromText(OrderText(OrderShiping)) == OrderUnknown
    ensures OrderFromText(OrderText(OrderReturning)) == OrderUnknown
    ensures forall s :: s !in {OrderShiping, OrderReturning} ==> OrderFromText(OrderText(s)) == s
  {
  }

  /** The parser `Display` needs: the inverse of the text form. */
  function OrderFromTextFixed(t: string): (r: OrderStatus)
    ensures forall s :: OrderText(s) == t ==> r == s
    ensures r == OrderUnknown || OrderText(r) == t
  {
    match t
    case "picking" => OrderPicking
    case "packing" => OrderPacking
    case "shipping" => OrderShiping
    case "returning" => OrderReturning
    case "done" => OrderDone
    case _ => OrderUnknown
  }

  /** The order status `get_order_detail` means to report for a sale whose
      stored status is `code`: `Done` exactly when the code decodes to
      `Done`, otherwise `Unknown`. */
  function OrderOfSale(code: int, decode: int -> SaleStatus): (r: OrderStatus)
    ensures r == OrderDone <==> decode(code) == SaleDone
    ensures r == OrderDone || r == OrderUnknown
  {
    if decode(code) == SaleDone then OrderDone else OrderUnknown
  }

  /** Why `get_order_detail` fails: no sale row for the order, or a row the
      query cannot decode. */
  datatype DetailError = RecordNotFound | MissingColumn

  /** `get_order_detail` as written, on the status code of the tenant's
      sale row for the order (`None` when there is none). The query selects
      the status column alone but decodes each row as a status and a
      creation time, so a row that exists fails to decode before any status
      is looked at; no row is `RecordNotFound`. The item list and the
      creation time are left out. */
  function OrderDetail(row: Option<int>): (r: Result<OrderStatus, DetailError>)
    ensures r.Err?
    ensures r.error == RecordNotFound <==> row.None?
  {
    match row
    case None => Err(RecordNotFound)
    case Some(_) => Err(MissingColumn)
  }

  /** `get_order_detail` with the creation time selected too: an existing
      sale is reported through `OrderOfSale`. */
  function OrderDetailFixed(row: Option<int>, decode: int -> SaleStatus): (r: Result<OrderStatus, DetailError>)
    ensures r.Err? <==> row.None?
    ensures r.Err? ==> r.error == RecordNotFound
    ensures r.Ok? ==> r.value == OrderOfSale(row.value, decode)
  {
    match row
    case None => Err(RecordNotFound)
    case Some(code) => Ok(OrderOfSale(code, decode))
  }

  /** As written, no existing sale is ever reported; with the columns fixed,
      the as-written sale table still reports a completed storefront sale as
      `Unknown`, and the corrected table reports it as `Done`. */
  lemma CompletedSaleReported()
    ensures OrderDetail(Some(SaleCode(SaleDone))) == Err(MissingColumn)
    ensures OrderDetailFixed(Some(SaleCode(SaleDone)), SaleFromCode) == Ok(OrderUnknown)
    ensures OrderDetailFixed(Some(SaleCode(SaleDone)), SaleFromCodeFixed) == Ok(OrderDone)
  {
  }

  // ------------------------------------------------------- routing nodes

  datatype NodeStatus = NodeUnknown | NodeDamageLeft | NodeDamageRight | NodeBlock | NodeAvailable

  /** `NodeStatus as i32`: the declaration order. */
  function NodeCode(s: NodeStatus): int {
    match s
    case NodeUnknown => 0
    case NodeDamageLeft => 1
    case NodeDamageRight => 2
    case NodeBlock => 3
    case NodeAvailable => 4
  }

  /** `From<i32> for NodeStatus` as written: the table runs the statuses in
      reverse of their declaration. */
  function NodeFromCode(i: int): (r: NodeStatus)
    ensures r == NodeUnknown <==> !(1 <= i <= 4)
    ensures i == 1 ==> r == NodeAvailable
    ensures i == 2 ==> r == NodeBlock
    ensures i == 3 ==> r == NodeDamageLeft
    ensures i == 4 ==> r == NodeDamageRight
  {
    match i
    case 1 => NodeAvailable
    case 2 => NodeBlock
    case 3 => NodeDamageLeft
    case 4 => NodeDamageRight
    case _ => NodeUnknown
  }

  /** A node stored as `Available` reads back as `DamageRight`; no known
      status survives the trip. */
  lemma NodeCodeMismatch()
    ensures NodeFromCode(NodeCode(NodeAvailable)) == NodeDamageRight
    ensures forall s :: s != NodeUnknown ==> NodeFromCode(NodeCode(s)) != s
  {
  }

  /** The inverse of the node discriminants. */
  function NodeFromCodeFixed(i: int): (r: NodeStatus)
    ensures forall s :: NodeCode(s) == i ==> r == s
    ensures r == NodeUnknown || NodeCode(r) == i
  {
    match i
    case 1 => NodeDamageLeft
    case 2 => NodeDamageRight
    case 3 => NodeBlock
    case 4 => NodeAvailable
    case _ => NodeUnknown
  }

  /** `Display for NodeStatus`. */
  function NodeText(s: NodeStatus): string {
    match s
    case NodeUnknown => "unknown"
    case NodeDamageLeft => "damaging left block"
    case NodeDamageRight => "damaging right block"
    case NodeBlock => "routing is blocked"
    case NodeAvailable => "available"
  }

  /** `From<String> for NodeStatus`: the inverse of `Display`. */
  function NodeFromText(t: string): (r: NodeStatus)
    ensures forall s :: NodeText(s) == t ==> r == s
    ensures r == NodeUnknown || NodeText(r) == t
  {
    match t
    case "damaging left block" => NodeDamageLeft
    case "damaging right block" => NodeDamageRight
    case "routing is blocked" => NodeBlock
    case "available" => NodeAvailable
    case _ => NodeUnknown
  }

  // ---------------------------------------------------------- round trips

  /** With the corrected tables every status survives storing and reading
      back, and the text form survives printing and parsing. */
  lemma StoredStatusRoundTrips(l: LotStatus, it: ItemStatus, sa: SaleStatus, n: NodeStatus, o: OrderStatus)
    ensures LotFromCodeFixed(LotCode(l)) == l && LotFromText(LotText(l)) == l
    ensures ItemFromCodeFixed(ItemCode(it)) == it && ItemFromText(ItemText(it)) == it
    ensures SaleFromCodeFixed(SaleCode(sa)) == sa && SaleFromText(SaleText(sa)) == sa
    ensures NodeFromCodeFixed(NodeCode(n)) == n && NodeFromText(NodeText(n)) == n
    ensures OrderFromTextFixed(OrderText(o)) == o
  {
  }
}

=== FILE: wrappers.dfy ===
/** Failure-compatible result types shared by every module of the model.

    Rust's `Option<T>` and `Result<T, E>` map onto `Option` and `Result`
    below; a panic of the source program (an unwrap on nothing, a `usize`
    underflow, an index out of bounds) is modelled as an ordinary error value
    (`Outcome.Panic`, or an error case of the module that can raise it),
    never as a precondition its callers would have to meet.
 */
module Wrappers {

  /** Rust's `Option<T>`. */
  datatype Option<+T> = None | Some(value: T) {

    predicate IsFailure() {
      None?
    }

    function PropagateFailure<U>(): Option<U>
      requires None?
    {
      None
    }

    function Extract(): T
      requires Some?
    {
      value
    }
  }

  /** Rust's `Result<T, E>`. */
  datatype Result<+T, +E> = Ok(value: T) | Err(error: E) {

    predicate IsFailure() {
      Err?
    }

    function PropagateFailure<U>(): Result<U, E>
      requires Err?
    {
      Err(error)
    }

    function Extract(): T
      requires Ok?
    {
      value
    }
  }

  /** The result of code that returns normally or panics. */
  datatype Outcome<+T> = Done(value: T) | Panic
}
